=== FILE: README.md ===
# oa-server ledger core in Dafny

Open Accounting's server keeps a double-entry ledger for organisations. An org has a chart of
accounts: a tree under a Root account. Users are granted accounts, and a grant covers the
account and everything below it; the ancestors and the top of the chart are shown read-only.
A transaction is a set of splits. The splits must balance in the org's currency and may only
touch writable leaf accounts. Balances are sums over the live splits dated before a cut-off.
Around the ledger sit:

- orgs with members, admins and invites that expire after seven days;
- budgets that are replaced as a whole;
- prices per currency with a nearest-in-time lookup;
- users with sign-up checks and password reset;
- an authenticator that tries a session, then an API key, then an address and password;
- the HTTP Basic header decoder;
- the websocket hub's subscription tables.

The model keeps the MySQL database as a class `Store.Db`. It has one field `t: Tables`, which
holds every table as a sequence of rows in insertion order. Each SQL statement becomes its
relational meaning: a filter, a sum, a group, a delete or an insert. A constant set `failing`
names the statements the database refuses. A refused statement inside a unit rolls the unit
back. Times are integer nanoseconds, stored as int64 milliseconds. Amounts are int64. Go's wrap-around
is written out in the as-written checkSplits (`Transactions.CheckSplitsAsWritten`), while the
service operations use the corrected exact check (see "## Findings" and "## Left out"). Random bytes, the clock, bcrypt
and mail are parameters of the operations that use them. The user record carries `signupSource`,
which core/model/db/user.go writes and reads back (lines 32, 46, 234 and 269), although the
`User` struct in core/model/types/user.go does not declare it; the model follows the database code.

Module layout:

- one module per Go file of the core:
  - `DbAccount`, `Accounts` and `AccountTree` (the tree half of `core/model/account.go`);
  - `DbTransaction`, `Transactions`, `DbOrg`, `Orgs`, `DbBudget`, `Budgets`, `DbPrice`, `Prices`;
  - `DbUser` (the queries of `core/model/db/user.go`, `session.go` and `apikey.go` the core calls), `Users`;
  - `Auth`, `ApiAuth`, `UrlQuery`, `QueryBuilder`, `Util`, `Ws`;
- helper modules:
  - `Int64` (Go's int64 arithmetic) and `Decimal` (strconv's Atoi and Itoa);
  - `Base64` (the standard alphabet with padding, section 4 of RFC 4648);
  - `LexOrder`, `Sorting` and `Seqs`;
  - `Types` (the records) and `Store` (the tables).

## Model

| member | source | states |
|---|---|---|
| Int64.Wrap | core/model/transaction.go:205 | the int64 Go keeps is congruent to the exact result modulo 2^64 and equals it when in range |
| Int64.Quot | core/util/util.go:17 | Go's integer `/` truncates toward zero: for negative dividends it is minus the quotient of the magnitude |
| Int64.AddWrapping | core/model/transaction.go:205 | one `amount += x` step extends the wrapping running sum by one element |
| Int64.WrappingSumCongruent | core/model/transaction.go:188-210 | the wrapping sum differs from the exact sum by a multiple of 2^64 |
| Util.UnixNano | core/util/util.go:17 | UnixNano equals the nanosecond count whenever it fits in int64 |
| Util.TimeToMs | core/util/util.go:16-18 | the milliseconds bracket the time: floor for non-negative times, ceiling (truncation toward zero) for negative ones |
| Util.MsToTime | core/util/util.go:20-22 | the time is ms·10^6 nanoseconds whenever that fits in int64 |
| Util.TimeToMsOfMsToTime | core/util/util.go:16-22 | TimeToMs(MsToTime(ms)) == ms when ms·10^6 fits in int64 |
| Util.MsToTimeOfTimeToMs | core/util/util.go:17-21 | MsToTime(TimeToMs(t)) == t exactly when t is a whole number of milliseconds |
| Util.TimeToMsMonotone | core/util/util.go:16-18 | t1 <= t2 gives TimeToMs(t1) <= TimeToMs(t2) |
| Util.TimeToMsTruncatesTowardZero | core/util/util.go:17 | -1.5 ms gives -1, not -2 |
| Util.HexEncode | core/util/util.go:33 | two lower-case hex digits per byte, high nibble first |
| Util.HexDecodeEncode | core/util/util.go:33 | decoding the hex text gives the bytes back |
| Util.HexEncodeInjective | core/util/util.go:33 | different byte strings never give the same hex text |
| Util.NewGuid | core/util/util.go:24-34 | 32 lower-case hex digits |
| Util.NewInviteId | core/util/util.go:36-46 | 8 lower-case hex digits |
| Decimal.Itoa | core/model/db/transaction.go:508 | non-empty, with a leading '-' exactly for negative numbers |
| Decimal.Atoi | core/model/types/query_options.go:28 | success exactly for an optionally signed run of digits whose value fits int64, and then the value is that number; "" fails; the error is NumError's "strconv.Atoi: parsing <Quote(s)>: invalid syntax" or "…: value out of range" |
| Decimal.EscapeChar | core/model/types/query_options.go:28-31 | a character is copied as it is exactly when it is printable ASCII other than '"' and '\\' or lies outside ASCII; otherwise its escape starts with a backslash, and only the escape of '"' contains '"' |
| Decimal.EscapedHasNoBareQuote | core/model/types/query_options.go:28-31 | every '"' inside the quoted input follows a backslash, so the error text's quotes enclose the whole input |
| Decimal.QuotePlain | core/model/types/query_options.go:28-31 | text with nothing to escape is quoted as it is |
| Decimal.QuoteEscapesQuote | core/model/types/query_options.go:28-31 | `a"b` is quoted as `"a\"b"` |
| Decimal.AtoiItoa | core/model/types/query_options.go:28 | Atoi(Itoa(n)) == n for every int64 |
| Decimal.AtoiRejectsNonDigit | core/model/types/query_options.go:28 | any character other than a digit or a leading sign makes Atoi fail |
| Sorting.SortBy | core/model/account.go:254 | the result is sorted by the order and is a permutation of the input |
| Accounts.ByNameOrders | core/model/account.go:23-27 | ByName's Less is a total preorder, so sorting by it is well defined |
| DbAccount.ReadParent | core/model/db/account.go:78-80 | the stored all-zero parent reads back as "" and any other parent reads back unchanged |
| DbAccount.ParentRoundTrip | core/model/db/account.go:13-80 | a parent survives storing and reading back |
| DbAccount.ReadBackAccount | core/model/db/account.go:33-92 | an account read back after insert keeps every column, with times cut to whole milliseconds |
| DbAccount.FindAccountRow | core/model/db/account.go:70-92 | the row found has the id, and no row is found exactly when no row has the id |
| DbAccount.InsertAccount | core/model/db/account.go:33-51 | Inserted and Updated get one reading; success exactly when the statement runs and the id is new, and then one row is appended; failure changes nothing |
| DbAccount.UpdatedAccountRows | core/model/db/account.go:53-68 | only rows with the id change, and only updated, name, parent, currency, precision and debitBalance |
| DbAccount.UpdateAccount | core/model/db/account.go:53-68 | Updated is stamped and the row rewritten by UpdatedAccountRows; failure changes nothing |
| DbAccount.GetAccount | core/model/db/account.go:70-92 | success exactly when the query runs and a row has the id, and then the account is that row read back (parent normalised, no balance, not read-only); "Account not found" exactly when the query runs and no row has the id |
| DbAccount.InsertThenGetAccount | core/model/db/account.go:33-92 | an account inserted under a fresh id reads back by GetAccount with every column, times truncated to the millisecond |
| DbAccount.GetAccountsByOrgId | core/model/db/account.go:94-130 | fails exactly when the query is refused; otherwise element i is the org's i-th row in table order, read back, with orgId set and no balance or flags |
| DbAccount.InsertThenListed | core/model/db/account.go:33-130 | an inserted account is listed last for its own org, as its row reads back, and no other org's listing changes |
| DbAccount.AccountsByOrgDistinct | core/model/db/account.go:94-130 | no id is listed twice |
| DbAccount.GetPermissionedAccountIds | core/model/db/account.go:132-160 | an id is listed exactly when the user holds a permission on it in the org |
| DbAccount.GetSplitCountByAccountId | core/model/db/account.go:162-170 | the count is 0 exactly when every split on the account is deleted |
| DbAccount.GetChildCountByAccountId | core/model/db/account.go:172-179 | the count is 0 exactly when no account names the id as its parent |
| DbAccount.DeleteAccount | core/model/db/account.go:181-187 | exactly the row with the id is removed; failure changes nothing |
| DbAccount.GetRootAccount | core/model/db/account.go:368-391 | the org's account stored with the all-zero parent, reported with parent ""; "Account not found" exactly when there is none |
| DbAccount.GroupSumNone | core/model/db/account.go:199-201 | a group is empty exactly when no live split of the account is dated before the cut-off |
| DbAccount.GroupSumConcat | core/model/db/account.go:199-201 | the sum over two runs of splits is the sum over each, added |
| DbAccount.Narrow | core/model/db/account.go:214-221 | a SUM is scanned into int64 only when it fits, and then keeps its value |
| DbAccount.GroupedSums | core/model/db/account.go:199-225 | the map holds, for each listed id with live splits, exactly that group's sum; None when some sum does not fit int64 |
| DbAccount.AddColumnSums | core/model/db/account.go:189-279 | every account's column becomes its group sum or null; on failure no account changes |
| DbAccount.AddBalances | core/model/db/account.go:189-233 | Balance is the sum of amount over live splits before the date, or null when there are none; NativeBalance is untouched; on failure nothing changes |
| DbAccount.AddNativeBalancesCost | core/model/db/account.go:235-279 | the same over nativeAmount into NativeBalance |
| DbAccount.AddColumnSum | core/model/db/account.go:293-323 | the single-account form sets the column, and to 0 when no split matches |
| DbAccount.SingleAgreesWithBatch | core/model/db/account.go:189-323 | the single and batch forms agree where the account has splits; where it has none the batch gives null and the single form 0 |
| DbAccount.AddBalance | core/model/db/account.go:293-307 | Balance is set, 0 when no split matches, and NativeBalance is kept |
| DbAccount.AddNativeBalanceCost | core/model/db/account.go:309-323 | NativeBalance is set, 0 when no split matches, and Balance is kept |
| AccountTree.AccountMapOfAt | core/model/account.go:316-337 | the map's keys are the listed ids, each with the node of its account |
| AccountTree.MakeAccountMap | core/model/account.go:316-337 | the two passes build exactly AccountMapOf(all) |
| AccountTree.LinkAccount | core/model/account.go:325-334 | one account of the second pass is linked to its parent's node |
| AccountTree.AccountMapWellLinked | core/model/account.go:316-337 | every parent link and child entry points at a node of the map |
| AccountTree.AccountMapEdges | core/model/account.go:316-337 | the child lists and the parent links describe the same edges |
| AccountTree.AccountMapParents | core/model/account.go:316-337 | an account whose parent is not listed gets no parent node, and HasChildren is set exactly on accounts some listed account names as parent |
| AccountTree.DescendantsAreBelow | core/model/account.go:339-353 | getChildren lists exactly the accounts below the id, within the depth bound |
| AccountTree.DescendantsAreNodes | core/model/account.go:339-353 | getChildren lists accounts of the map's nodes |
| AccountTree.AncestorsChain | core/model/account.go:355-368 | getParents walks the parent links: the last is the node's parent, each is the parent of the next, and the first has no parent unless the depth ran out |
| AccountTree.GetTopLevelAccounts | core/model/account.go:388-403 | empty exactly when no node is parentless; otherwise some parentless node with its children |
| AccountTree.TopFamilyMembers | core/model/account.go:388-403 | a top family is the top node and its children |
| Accounts.AccountsContainWriteAccess | core/model/account.go:370-377 | true exactly when the list holds the id without the ReadOnly mark |
| Accounts.GetAccountFromList | core/model/account.go:379-386 | nil exactly when no listed account has the id; otherwise the first one with it |
| Accounts.WriteIdsBelow | core/model/account.go:213-235 | an id is writable exactly when it is permissioned or lies below a permissioned id |
| Accounts.GrantAccess | core/model/account.go:213-235 | one permission adds the account and its descendants to the write map and its ancestors and a top family to the read map |
| Accounts.ReadParents | core/model/account.go:216-221 | the read map gains exactly the ancestors |
| Accounts.ReadTopLevel | core/model/account.go:223-228 | the read map gains a top-level family and nothing else |
| Accounts.WriteChildren | core/model/account.go:230-235 | the write map gains exactly the descendants |
| Accounts.GrantAll | core/model/account.go:213-236 | the write keys are the writable ids, the read keys cover the ancestors and a top family, and an empty permission list leaves both maps empty |
| Accounts.Flatten | core/model/account.go:238-251 | every writable account once, then every read-only one whose id is not writable, marked ReadOnly; no id twice |
| Accounts.Collect | core/model/account.go:238-254 | the merged list, sorted by name, meets Resolution |
| Accounts.ResolveAccess | core/model/account.go:209-256 | a permissioned id that is not an account is a nil dereference; otherwise the result meets Resolution |
| Accounts.Resolved | core/model/account.go:238-254 | the merged and sorted maps meet Resolution: sorted by name, no id twice, writable ids unmarked, other visible ids marked ReadOnly |
| Accounts.LoadedAccounts | core/model/account.go:290-314 | the loaded accounts are the org's, each once, in table order, none ReadOnly or HasChildren |
| Accounts.LoadAccounts | core/model/account.go:290-314 | getAllAccounts, and with balances both batch sums over the same accounts; a failing lookup's error is returned |
| Accounts.GetAccounts | core/model/account.go:191-257 | success exactly when the lookups succeed and every permissioned id is an account; the result meets Resolution |
| Accounts.WriteAccessMatches | core/model/account.go:191-257 | on getAccounts' result, accountsContainWriteAccess is true exactly for the writable ids |
| Accounts.ResolvedLookup | core/model/account.go:259-272 | a writable id finds its account unmarked, a visible non-writable one finds it ReadOnly, and anything found is writable, an ancestor or of a top family |
| Accounts.GetAccount | core/model/account.go:259-288 | the account with the id among getAccounts' result, or nothing |
| Accounts.RequiredFieldError | core/model/account.go:29-45 | the first empty field of id, orgId, name and currency, in that order; None exactly when all are set |
| Accounts.CheckWriteAccess | core/model/account.go:47-54 | success exactly when getAccounts succeeds and lists the id as writable |
| Accounts.CreateAccount | core/model/account.go:29-71 | the field checks, then write access to the parent, then the insert; any failure changes nothing |
| Accounts.UpdateAccount | core/model/account.go:73-131 | the field checks, a parent equal to the id refused before any lookup, write access to the parent, then the update and both balances set |
| Accounts.DeleteAccount | core/model/account.go:133-189 | write access, then no live split, then no child, then the row is removed; any failure changes nothing |
| DbTransaction.SplitRowsCarryStamps | core/model/db/transaction.go:62-79 | every split row names the transaction and carries its date, inserted and updated values |
| DbTransaction.SelectionInIdOrder | core/model/db/transaction.go:93 | split rows selected in table order come in increasing id order |
| DbTransaction.WithTransactionValid | core/model/db/transaction.go:24-82 | an insert under a fresh id keeps the keys unique |
| DbTransaction.AppendTransaction | core/model/db/transaction.go:43-79 | the transaction row, then the split rows in order, each with the next split id |
| DbTransaction.InsertTransaction | core/model/db/transaction.go:24-82 | all rows or none: success exactly when the statement runs and the id is new |
| DbTransaction.MarkDeletedMarks | core/model/db/transaction.go:300-328 | the transaction and all its splits are marked deleted with one updated time; no row is removed and other rows stay |
| DbTransaction.MarkDeletedTogether | core/model/db/transaction.go:300-328 | afterwards no row of the transaction is live, and its rows share one updated time |
| DbTransaction.DeleteTransaction | core/model/db/transaction.go:282-331 | one clock reading stamps both updates; failure changes nothing |
| DbTransaction.DeleteAndInsertTransaction | core/model/db/transaction.go:333-421 | the old rows marked deleted with the new Updated and the new rows inserted, all or nothing |
| DbTransaction.ReplaceUnderSameIdFails | core/model/db/transaction.go:356-395 | the old row is kept, so a replacement under the same id meets the primary key |
| DbTransaction.GetTransactionById | core/model/db/transaction.go:84-106 | the row under the id with every split naming it; no-rows exactly when the id is absent |
| DbTransaction.InsertThenGet | core/model/db/transaction.go:24-106 | a transaction inserted under a fresh id reads back with every field, its times in whole milliseconds, and its splits in order |
| DbTransaction.DistinctStamps | core/model/db/transaction.go:198-230 | SELECT DISTINCT keeps one row per stamp, and every stamp is kept |
| DbTransaction.IndexById | core/model/db/transaction.go:163-167 | the index maps each id to the position of its row |
| DbTransaction.GroupSplits | core/model/db/transaction.go:163-184 | the grouping loop gives each transaction the fetched splits that name it, in id order |
| DbTransaction.List | core/model/db/transaction.go:108-187 | the statements of one listing, in the source's order |
| DbTransaction.GetTransactionsByAccount | core/model/db/transaction.go:108-187 | the listing over the account's splits |
| DbTransaction.GetTransactionsByOrg | core/model/db/transaction.go:189-280 | an empty id list gives [] at once; otherwise the listing over the accounts, and each caller id is overwritten with its UNHEX literal |
| DbTransaction.ListingWithoutMatches | core/model/db/transaction.go:143-145 | with no matching split the listing is empty and no later statement matters |
| DbTransaction.ListingMembers | core/model/db/transaction.go:108-280 | the listed transactions are exactly the stored ones whose ids the first SELECT gives |
| DbTransaction.ListingOrdered | core/model/db/transaction.go:108-280 | a listing comes in the order the options ask for |
| DbTransaction.ListingAgreesWithGetById | core/model/db/transaction.go:108-280 | every listed transaction is what GetTransactionById returns for its id |
| QueryBuilder.ClausesWanted | core/model/db/transaction.go:502-548 | exactly the clauses the options ask for, each kind at most once, in a fixed order |
| QueryBuilder.AddOptionsToQuery | core/model/db/transaction.go:502-548 | the output is the input query followed by the rendered clauses |
| QueryBuilder.SkipAloneAddsNothing | core/model/db/transaction.go:541-545 | Skip without Limit adds nothing |
| QueryBuilder.SelectedMatches | core/model/db/transaction.go:503-533 | the WHERE conditions keep exactly the rows the options describe, with strict and non-strict bounds as written |
| QueryBuilder.Window | core/model/db/transaction.go:541-545 | LIMIT keeps rows skip to skip+limit, and no LIMIT keeps all |
| QueryBuilder.OrdersAgree | core/model/db/transaction.go:535-558 | both builders order splits and transactions alike |
| QueryBuilder.SortAgrees | core/model/db/transaction.go:550-558 | addSortToQuery only appends, and picks updated-ascending exactly when addOptionsToQuery does |
| UrlQuery.Get | core/model/types/query_options.go:28 | the first value of the key, or "" |
| UrlQuery.FirstError | core/model/types/query_options.go:27-89 | None exactly when every numeric key parses |
| UrlQuery.QueryOptionsFromURLQuery | core/model/types/query_options.go:22-104 | an error is the first failing key's; a result reflects every key: numbers parsed, strings copied, includeDeleted only for "true" |
| UrlQuery.ParseNumber | core/model/types/query_options.go:27-33 | one guarded Atoi: an empty value leaves 0 |
| UrlQuery.NoKeysGiveZeroOptions | core/model/types/query_options.go:22-104 | a query without the keys gives the zero record |
| UrlQuery.LimitRoundTrip | core/model/types/query_options.go:27-33 | the decimal rendering of any int64 under "limit" parses back to it |
| UrlQuery.RepeatedKeyFirstValueWins | core/model/types/query_options.go:28 | only the first value of a repeated key counts |
| Transactions.SplitError | core/model/transaction.go:191-203 | no write access, a parent account, or a native-currency split with unequal amounts, in that order |
| Transactions.FirstSplitError | core/model/transaction.go:190-206 | the error of the first split that has one; None exactly when none has one |
| Transactions.Verdict | core/model/transaction.go:188-210 | no error exactly when no split errs and the total is 0 |
| Transactions.CheckSplit | core/model/transaction.go:191-203 | the loop body computes SplitError |
| Transactions.FirstSplitErrorAt | core/model/transaction.go:190-206 | the first failing split decides, whatever follows |
| Transactions.ScanSplitsAsWritten | core/model/transaction.go:188-210 | the loop with a wrapping int64 total |
| Transactions.ScanSplits | core/model/transaction.go:188-210 | the loop with the exact total |
| Transactions.WrappingCheckIsWeaker | core/model/transaction.go:188-210 | what the exact check accepts, the wrapping check accepts too |
| Transactions.WrappingAcceptsUnbalanced | core/model/transaction.go:188-210 | two splits of -2^63 pass the wrapping check and fail the exact one |
| Transactions.SplitCheckByTree | core/model/transaction.go:190-203 | over getAccounts' result a split passes exactly when its account is writable, has no children, and the amounts agree in the org currency |
| Transactions.AcceptedSplitsOnLeaves | core/model/transaction.go:190-203 | accepted splits are on writable accounts without children |
| Transactions.LoadSplitContext | core/model/transaction.go:176-186 | the org, then the accounts; each lookup's error is returned |
| Transactions.CheckSplitsAsWritten | core/model/transaction.go:171-213 | fewer than two splits fail first, then the lookups, the per-split checks and the wrapping total |
| Transactions.CheckSplits | core/model/transaction.go:171-213 | the same with the exact total |
| Transactions.AcceptedSplitsBalance | core/model/transaction.go:171-213 | an accepted transaction's nativeAmounts sum to exactly 0 |
| Transactions.CreateTransaction | core/model/transaction.go:19-52 | split checks (with the corrected exact total) before the id check; a zero Date becomes Inserted; success inserts the rows and failure changes nothing |
| Transactions.UpdateTransaction | core/model/transaction.go:54-98 | split checks (with the corrected exact total), both ids, the original must exist; the new rows carry Inserted == Updated |
| Transactions.FirstDenied | core/model/transaction.go:143-147 | the first split whose account is not writable; None exactly when all are |
| Transactions.DeniedSplit | core/model/transaction.go:143-147 | the loop finds FirstDenied |
| Transactions.DeleteTransaction | core/model/transaction.go:130-164 | the transaction must exist and every split's account be writable; then its rows are soft deleted |
| Transactions.GetTransactionsByAccount | core/model/transaction.go:100-113 | write access to the account is required; a read-only ancestor is not enough |
| Transactions.GetTransactionsByOrg | core/model/transaction.go:115-128 | the listing over every visible account, read-only ones included |
| DbOrg.SeedIds | core/model/db/org.go:78-100 | an id is taken after i seed rows exactly when it was taken or is one of the first i seed ids |
| DbOrg.CreateOrg | core/model/db/org.go:27-124 | Inserted == Updated; the org, the creator as admin, every seed account and a permission on the first, all or nothing |
| DbOrg.UpdatedOrgRows | core/model/db/org.go:126-138 | only the org's row changes, and only updated and name |
| DbOrg.UpdateOrg | core/model/db/org.go:126-138 | Updated is stamped and the name rewritten; failure changes nothing |
| DbOrg.GetOrg | core/model/db/org.go:140-158 | the org only to a member; "Org not found" otherwise |
| DbOrg.GetOrgs | core/model/db/org.go:160-192 | the orgs the user is a member of |
| DbOrg.ListedOrgs | core/model/db/org.go:160-192 | an org is listed exactly when it exists and the user is a member |
| DbOrg.GetOrgAdmins | core/model/db/user.go:199-214 | an id is listed exactly when that user is joined to the org as admin |
| DbOrg.InsertInvite | core/model/db/org.go:223-239 | Inserted == Updated, and the row is stored unaccepted |
| DbOrg.MarkAccepted | core/model/db/org.go:277-279 | only the invite's rows change, to accepted with the new updated time |
| DbOrg.AcceptInvite | core/model/db/org.go:241-303 | as written: no root account writes nothing; a refused UPDATE still commits the other rows, and a failed commit is reported as success |
| DbOrg.AcceptInviteChecked | core/model/db/org.go:241-303 | success exactly when every statement and the commit succeed; then the user is a member |
| DbOrg.InviteCutoff | core/model/db/org.go:307 | the clock in milliseconds less seven days |
| DbOrg.GetInvites | core/model/db/org.go:305-340 | the org's invites inserted strictly after the cutoff, accepted or not |
| DbOrg.GetInvite | core/model/db/org.go:342-360 | the invite with the id, or "Invite not found" |
| DbOrg.DeleteInvite | core/model/db/org.go:362-370 | exactly the rows with the id are removed |
| DbOrg.ListedInviteNotExpired | core/model/db/org.go:305-309 | a listed invite is less than seven days old |
| Orgs.Seeds | core/model/org.go:30-120 | six accounts Root, Assets, Liabilities, Equity, Income, Expenses; Root has no parent and the rest have Root; debit-normal are Root, Assets and Expenses |
| Orgs.CreateOrg | core/model/org.go:21-123 | an empty name, then an empty currency, refused before any id is drawn; then the seeded org |
| Orgs.FillSeeds | core/model/org.go:30-120 | the six slots hold Seeds |
| Orgs.UpdateOrg | core/model/org.go:125-138 | "access denied" before the name check; then the update |
| Orgs.UserBelongsToOrg | core/model/org.go:148-165 | true exactly when the org exists and the user is a member |
| Orgs.ListsUser | core/model/org.go:176-185 | true exactly when the user is among the admins |
| Orgs.CreateInvite | core/model/org.go:167-206 | only an admin may invite; the invite is stored unaccepted with a fresh 8-digit id |
| Orgs.AcceptInvite | core/model/org.go:208-239 | succeeds exactly when the request is accepted and names an invite, the stored invite is not yet accepted and not expired (seven days exactly still passes), the org has a root account and no statement of the unit is refused; org, email and inserted from the stored invite; on success the new tables hold the member row, the invite marked accepted with the new updated time and the root permission, and nothing else; every refusal changes nothing (composes the corrected store) |
| Orgs.GetInvites | core/model/org.go:241-262 | admins only |
| Orgs.DeleteInvite | core/model/org.go:264-294 | admins of the invite's org only; an unreadable admin list deletes nothing and reports nothing |
| DbBudget.BudgetRowsOrdered | core/model/db/budget.go:22 | the org's rows sorted by account id, a permutation of them |
| DbBudget.StoredBudget | core/model/db/budget.go:18-57 | "Budget not found" exactly when the org has no rows |
| DbBudget.StoredBudgetOrdered | core/model/db/budget.go:18-57 | the items in account-id order, with the inserted time of one of the org's rows |
| DbBudget.StoredBudgetItems | core/model/db/budget.go:18-57 | the items are exactly the org's rows |
| DbBudget.ScanItems | core/model/db/budget.go:30-54 | one item per row, and the last row's inserted time |
| DbBudget.GetBudget | core/model/db/budget.go:18-57 | the loop computes StoredBudget |
| DbBudget.InsertAndReplaceBudget | core/model/db/budget.go:59-109 | Inserted is set first; the delete and every insert commit together or not at all |
| DbBudget.ReplacedRows | core/model/db/budget.go:81-106 | the org's rows are exactly the new items with one inserted time, and other orgs' rows stay |
| DbBudget.ReplaceThenGet | core/model/db/budget.go:18-109 | reading back gives the new items sorted, and an empty replace gives "Budget not found" |
| DbBudget.MapMultiset | core/model/db/budget.go:32-54 | scanning permuted rows gives permuted items |
| DbBudget.DeleteBudget | core/model/db/budget.go:111-117 | the org's rows are removed; failure changes nothing |
| DbBudget.DeleteRemovesOnlyOrg | core/model/db/budget.go:111-117 | exactly the org's rows go, and nothing of it is left to read |
| Budgets.GetBudget | core/model/budget.go:14-26 | members only, then the store's read; the lookup's error is returned |
| Budgets.CreateBudget | core/model/budget.go:28-44 | membership, then a non-empty org id, then the replace |
| Budgets.DeleteBudget | core/model/budget.go:46-58 | members only, then the delete |
| DbPrice.InsertPrice | core/model/db/price.go:21-42 | Inserted == Updated, a zero Date becomes Inserted, and one row is appended |
| DbPrice.GetPriceById | core/model/db/price.go:44-64 | the row under the id, or "Price not found" |
| DbPrice.DeletePrice | core/model/db/price.go:66-72 | the rows under the id are removed; failure changes nothing |
| DbPrice.DeleteRemovesOnlyId | core/model/db/price.go:66-72 | only rows under the id go, and the id is not found afterwards |
| DbPrice.InsertThenGet | core/model/db/price.go:21-64 | a price inserted under a new id is found under it |
| DbPrice.GetPricesNearestInTime | core/model/db/price.go:74-114 | a price is returned exactly when it is the org's and none of its currency lies strictly nearer |
| DbPrice.NearestCoversCurrencies | core/model/db/price.go:74-114 | every currency the org has a price in gets one back |
| DbPrice.NearestTies | core/model/db/price.go:74-114 | all prices at the nearest distance are returned |
| DbPrice.CurrencyRows | core/model/db/price.go:116-124 | the org's rows in the currency, by date ascending |
| DbPrice.ByCurrencyMembers | core/model/db/price.go:116-156 | exactly the org's prices in the currency |
| DbPrice.ByCurrencyAscending | core/model/db/price.go:116-156 | dates ascend |
| Prices.PriceFieldError | core/model/price.go:28-38 | id, then org id, then currency required |
| Prices.CreatePrice | core/model/price.go:17-54 | membership, then the field checks, then the insert |
| Prices.DeletePrice | core/model/price.go:56-89 | the price is looked up first, then membership in its own org, then the delete |
| Prices.GetPricesNearestInTime | core/model/price.go:91-103 | members only |
| Prices.GetPricesByCurrency | core/model/price.go:105-117 | members only |
| DbUser.ReadBackUser | core/model/db/user.go:27-62 | a stored user reads back with every column, signupSource included, the password emptied and the times truncated to the millisecond |
| DbUser.InsertUser | core/model/db/user.go:27-62 | Inserted == Updated and one row appended |
| DbUser.UpdateUser | core/model/db/user.go:85-98 | the hash stored and the reset code cleared |
| DbUser.UpdateUserResetPassword | core/model/db/user.go:100-112 | the reset code stored |
| DbUser.UpdateSessionActivity | core/model/db/session.go:56-65 | the session's updated time is stamped |
| DbUser.UpdateApiKeyActivity | core/model/db/apikey.go:123-132 | the key's updated time is stamped |
| DbUser.GetVerifiedUserByEmail | core/model/db/user.go:114-125 | a verified user with the address, or an error exactly when there is none |
| DbUser.GetUserByResetCode | core/model/db/user.go:163-178 | the user holding the code, or an error exactly when none does |
| DbUser.GetUserByActiveSession | core/model/db/user.go:127-143 | the user of a live session, or an error exactly when there is none |
| DbUser.GetUserByApiKey | core/model/db/user.go:145-161 | the user of a live key, or an error exactly when there is none |
| DbUser.UnverifiedInsertInvisible | core/model/db/user.go:114-125 | an unverified new user changes no login by address |
| DbUser.ResetCodeSingleUse | core/model/db/user.go:85-98 | after a password is stored the user holds no reset code |
| DbUser.ResetCodeFindsUser | core/model/db/user.go:100-178 | a stored code held by no one else leads back to its user |
| Users.ValidEmail | core/model/user.go:40-44 | true exactly when some '@' and later '.' have a character before, between and after, on one line |
| Users.TestAddressValid | core/model/user.go:40-44 | the test address passes |
| Users.ShortAddresses | core/model/user.go:40-44 | "a@b.c" passes and each part missing fails |
| Users.NewlineBreaksAddress | core/model/user.go:40-44 | a newline between the parts breaks the match |
| Users.UserFieldError | core/model/user.go:23-52 | id, first name, last name, email, a valid email, password, terms, in that order |
| Users.CreateUser | core/model/user.go:23-84 | the checks, then the hash, a fresh verify code, unverified, the insert; mail does not matter |
| Users.UpdateUser | core/model/user.go:94-115 | an id, then a password; the hash is replaced |
| Users.ResetPassword | core/model/user.go:117-143 | an unknown address stores nothing and reports nothing; otherwise a fresh code is stored |
| Users.ConfirmResetPassword | core/model/user.go:145-175 | a password, then a code; an unknown code is "Invalid code"; then the hash is stored and the code cleared |
| Users.ResetRoundTrip | core/model/user.go:117-175 | a stored code finds its user once, and no longer after the new password is stored |
| Auth.AuthenticateUser | core/auth/auth.go:53-67 | success exactly for a verified user with the address whose hash matches; one message for both failures |
| Auth.SessionUser | core/auth/auth.go:69-79 | the session lookup, with "Invalid session" |
| Auth.ApiKeyUser | core/auth/auth.go:81-91 | the key lookup, with "Access denied" |
| Auth.AuthenticateSession | core/auth/auth.go:69-79 | the activity is stamped only after a successful lookup, and its failure is ignored |
| Auth.AuthenticateApiKey | core/auth/auth.go:81-91 | the same for keys |
| Auth.Authenticate | core/auth/auth.go:30-51 | the chain's answer; a live session stamps that session's activity, else a live key stamps that key's, unless that UPDATE is refused; the password path and a failure change nothing |
| Auth.AnswerOrder | core/auth/auth.go:30-51 | a live session wins, then a key, then the password; "Unauthorized" exactly when all three fail |
| Auth.PasswordIgnoredForTokens | core/auth/auth.go:32-44 | the session and key paths ignore the password |
| Base64.ClassifyDigit | core/api/auth.go:71 | each alphabet digit decodes to its value |
| Base64.Encode | core/api/auth.go:71 | the padded encoding has a length divisible by 4 and is empty only for no bytes |
| Base64.Decode | core/api/auth.go:71 | line breaks are skipped; at most three bytes per four characters |
| Base64.DecodeEncode | core/api/auth.go:71 | decoding the standard encoding gives the bytes back |
| Base64.RejectsShortQuantum | core/api/auth.go:71-73 | a truncated quantum is refused |
| Base64.RejectsEarlyPadding | core/api/auth.go:71-73 | padding after one character is refused |
| Base64.NothingAfterPadding | core/api/auth.go:71-73 | nothing may follow a padded quantum |
| Base64.RejectsForeignCharacter | core/api/auth.go:71-73 | a character outside the alphabet is refused |
| Base64.SkipsLineBreaks | core/api/auth.go:71 | "\r\n" inside the text is ignored |
| Base64.LowBitsUnchecked | core/api/auth.go:71 | the unused low bits of the last digit before padding are ignored |
| ApiAuth.SplitOnce | core/api/auth.go:65 | None exactly when the separator is absent; otherwise the text around its first occurrence |
| ApiAuth.SplitOnceUnique | core/api/auth.go:65 | the split is at the first separator |
| ApiAuth.Bytes | core/api/auth.go:75 | string(decoded) reverses the byte view |
| ApiAuth.DecodeBasicAuthHeader | core/api/auth.go:63-81 | success exactly for "Basic", a space, valid base64, and a colon; the user holds no colon; errors are "Invalid authentication" or "Invalid base64" |
| ApiAuth.BasicRoundTrip | core/api/auth.go:63-81 | "Basic " + base64(user:password) decodes to the pair for any colon-free user |
| ApiAuth.OtherSchemesRefused | core/api/auth.go:65-68 | another scheme or no space is "Invalid authentication" |
| ApiAuth.Challenge | core/api/auth.go:58-61 | the WWW-Authenticate value ends with the realm |
| ApiAuth.Admission | core/api/auth.go:20-56 | no header passes a nil user; a refusal is 400 with "Invalid authentication" or 401 with the challenge |
| ApiAuth.MalformedIsBadRequest | core/api/auth.go:36-41 | a header that does not decode is a 400 |
| ApiAuth.AdmittedUsers | core/api/auth.go:43-53 | a user is passed on exactly when the header decodes and the authenticator accepts it, and it is that user |
| ApiAuth.Middleware | core/api/auth.go:20-56 | the handler's answer is Admission's; a missing or undecodable header changes nothing, and a decoded one changes exactly what Authenticate changes (a session's or key's activity stamp) |
| ApiAuth.RequireAuth | core/api/auth.go:83-93 | a request goes on exactly when it has a user |
| ApiAuth.GuardedRoutes | core/api/auth.go:20-93 | behind RequireAuth a request without a header is unauthorized |
| Ws.Key | core/ws/ws.go:101-103 | user id, '-', org id |
| Ws.KeyInjective | core/ws/ws.go:101-103 | for dash-free user ids the key determines the pair |
| Ws.WithoutMembers | core/ws/ws.go:186-214 | the filtered list drops the connection, keeps every other member, and stays duplicate-free |
| Ws.BumpedCount | core/ws/ws.go:221-295 | each push raises a connection's counter by the number of times it is a recipient |
| Ws.SubscribeIdempotent | core/ws/ws.go:160-173 | subscribing twice is subscribing once |
| Ws.NumberingFromConnect | core/ws/ws.go:42 | from -1, the counter after n messages is n-1 |
| Ws.Hub.constructor | core/ws/ws.go:20-25 | all tables empty |
| Ws.Hub.Connect | core/ws/ws.go:42-43 | the counter starts at -1 and a lock is made |
| Ws.Hub.SetUser | core/ws/ws.go:314 | the connection's user is recorded |
| Ws.Hub.Subscribe | core/ws/ws.go:160-173 | appends the connection only when absent, and changes no other key or table |
| Ws.Hub.UnsubscribeAsWritten | core/ws/ws.go:175-183 | the list keeps its length; the kept members are shifted to the front over the old backing array |
| Ws.Hub.Unsubscribe | core/ws/ws.go:175-183 | the key's list without the connection |
| Ws.Hub.UnsubscribeAll | core/ws/ws.go:185-219 | the connection leaves every list of the three tables and the user, counter and lock maps |
| Ws.Hub.Ping | core/ws/ws.go:140-155 | the counter rises by one; a failed write unsubscribes the connection |
| Ws.Hub.Push | core/ws/ws.go:221-295 | each recipient's counter rises once per list it appears in |
| Ws.Notify | core/ws/ws.go:226-245 | the loops bump the recipients' counters |
| Ws.Compact | core/ws/ws.go:176-182 | the in-place filter over the backing array |
| Ws.Purge | core/ws/ws.go:186-214 | every list of a table without the connection, duplicate-freedom kept |
| Ws.PurgedMembers | core/ws/ws.go:186-214 | the connection is gone and every other member stays |
| Ws.UnsubscribeLastKeeps | core/ws/ws.go:175-183 | removing the last of [1,2] leaves [1,2] |
| Ws.UnsubscribeDuplicates | core/ws/ws.go:175-183 | removing 2 from [1,2,3] leaves [1,3,3] |

## Left out

- Database mechanics: the driver, Begin failing, connections and collations are not modelled. A refused statement is chosen by the `failing` set.
- db.Escape is an opaque function parameter, and LIKE prefix matching is modelled as a case-sensitive prefix test: the `%` and `_` wildcards inside the given prefix are matched as ordinary characters.
- Ids are compared as exact strings. The source passes them through `UNHEX(?)` and reads them back as `LOWER(HEX(id))`. So in the source an upper-case hex id finds the row stored under its lower-case form, and a non-hex id matches nothing. The model matches neither case that way: the upper-case id finds nothing, and the non-hex id finds a row stored under the same text.
- Listing order: `ORDER BY` ties in the transaction listings (DbTransaction.List and the first SELECT), in the budget read and in the prices by currency are broken in table order, because `Sorting.SortBy` is stable. MySQL leaves that order unspecified, and with it which tied rows a `LIMIT` keeps.
- DbTransaction.GroupSplits: a fetched split whose transaction was not fetched makes the source dereference a nil pointer and panic (core/model/db/transaction.go:180-183). The model returns an error result carrying the runtime's message instead.
- Concurrency: concurrent requests, the websocket locks' mutual exclusion and database isolation are not modelled.
- Floating point: AddNativeBalancesNearestInTime, AddNativeBalanceNearestInTime and Round64 compute with float64 and are not modelled. Prices are carried as opaque bit patterns.
- AccountTree.DescendantsAreBelow and AccountTree.AncestorsChain: the walks carry a depth bound (the number of accounts). A cycle in the parent links, where the source would recurse forever, is cut off at that bound.
- Accounts.GetAccounts: the tokenId argument is ignored, as it is in the source. Map iteration order is a free choice. Accounts with equal names keep their input order, because `Sorting.SortBy` is stable; sort.Sort leaves that order unspecified.
- Accounts.ResolveAccess: a permissioned id that is not an account panics in the source. It is modelled as an error result, checked before the loop (the loop writes only local maps).
- The ReadOnly flag is written through pointers that the two access maps share. It is set only on ids that are not writable, so the model sets it on copies.
- Util.NewGuid and Util.NewInviteId take their random bytes as a parameter. The crypto/rand failure path is not modelled.
- Mail sending (SendVerificationEmail, SendPasswordResetEmail) and bcrypt are parameters or outcomes given to the operation.
- VerifyUser and GetUserByEmailVerifyCode (core/model/user.go:86-92, core/model/db/user.go:64-83, 180-197) are not modelled.
- Decimal.Atoi: the quoting of the refused input follows strconv.Quote for ASCII. Non-ASCII characters are copied as they are, whereas Quote writes those that unicode.IsPrint rejects as \u or \U escapes. Invalid UTF-8 cannot occur in a Dafny string.
- DbUser.GetVerifiedUserByEmail: compares the address as given; the source lower-cases and trims it before the lookup (core/model/db/user.go:117), and Unicode case folding is not modelled.
- User-id and address uniqueness are not modelled: the user table is not keyed. InsertUser's RowsAffected check is folded into the refused statement.
- GetOrgUserIds (core/model/db/org.go:194-221) and the websocket pushes after a write are not modelled; Ws.Hub.Push takes the user ids as input.
- GetOrgAdmins returns user ids only; the join's row order and the other user fields are not modelled.
- The Org timezone is carried in the record but not stored, as the org table here has no such column.
- Transactions.CreateTransaction: uses the corrected split check `Transactions.CheckSplits` with an exact total, where the source's checkSplits keeps a wrapping int64 total (core/model/transaction.go:188-210). The model therefore refuses the transactions whose native amounts balance only by wrap-around, which the source accepts (`Transactions.WrappingAcceptsUnbalanced`).
- Transactions.UpdateTransaction: uses the corrected split check `Transactions.CheckSplits` in the same way, refusing the wrap-around-balanced transactions the source accepts.
- Orgs.AcceptInvite: composes the corrected store `DbOrg.AcceptInviteChecked`, where core/model/org.go:238 calls the as-written store `DbOrg.AcceptInvite`. The model reports an error, and changes nothing, in two cases where the source reports success: a refused UPDATE of the invite (the source commits the member row and the permission) and a failed commit (the source writes nothing).
- Transactions.UpdateTransaction: follows the code, so the new rows carry Inserted == Updated, rather than keeping the original Inserted.
- A budget item's unsigned columns and the price table's key are modelled as plain values.
- DbPrice.GetPricesNearestInTime: the row order inside one currency follows table order, and ABS over the stored int64 difference is exact.
- Ws: the connection loop of Handler, processMessage's dispatch, authenticate's call into the authenticator, checkVersion's semver comparison, JSON encoding and writeMessage's locking are socket I/O and are not modelled.
- Ws.Hub.Push: a write error during a push unsubscribes the connection while the source ranges over the same slice, and that aliasing is not modelled. A JSON encoding error is not modelled either.
- ApiAuth: header values are byte strings (each char below 256 is a byte). The server stops at start-up when no realm is set; this is modelled as `requires realm != ""`.
- Base64.Encode: the length of the encoding is stated only modulo 4, not as 4·⌈n/3⌉.
- The HTTP handlers of core/api other than the authentication middleware, the migrations and core/server.go are not part of this model.

## Findings

| source | as written | input that shows it | evidently intended | confidence | as-written member | corrected member |
|---|---|---|---|---|---|---|
| core/model/transaction.go:188-210 | the nativeAmounts are summed in an int64 that wraps around | two native-currency splits with nativeAmount -2^63 each: the sum wraps to 0 and the transaction is accepted | the nativeAmounts add up to 0 as numbers | not executed | Transactions.CheckSplitsAsWritten | Transactions.CheckSplits |
| core/model/db/org.go:241-303 | the UPDATE's error is overwritten at line 283, and the commit's error is assigned after the unnamed result is fixed | a refused UPDATE of the invite, or a failed commit: the call reports success | every failure is reported and success means all rows were written | not executed | DbOrg.AcceptInvite | DbOrg.AcceptInviteChecked |
| core/ws/ws.go:175-183 | unsubscribe filters into the list's backing array but never stores the shorter slice back | list [1,2,3] without 2 becomes [1,3,3], and [1,2] without 2 stays [1,2] | the key's list without the connection | not executed | Ws.Hub.UnsubscribeAsWritten | Ws.Hub.Unsubscribe |

=== FILE: account_tree.dfy ===
/** The chart of accounts as core/model/account.go walks it: makeAccountMap links every account
    to its parent and children by id, getChildren and getParents walk those links, and
    getTopLevelAccounts picks a parentless node. Go's recursion is unbounded; here each walk
    takes a `depth` bound, and callers pass the number of accounts, which no chain of distinct
    accounts can exceed. */
module AccountTree {
  import opened Wrappers
  import opened Types
  import opened Seqs

  /** types.AccountNode: the account, the id of its parent node (when the parent is listed) and
      the ids of its child nodes in list order. */
  datatype AccountNode = AccountNode(account: Account, parent: Option<string>, children: seq<string>)

  type AccountMap = map<string, AccountNode>

  function AccountId(a: Account): string { a.id }

  /** One of the first n accounts has the id. */
  predicate IdAmong(all: seq<Account>, n: nat, id: string)
    requires n <= |all|
  {
    exists j :: 0 <= j < n && all[j].id == id
  }

  predicate IsId(all: seq<Account>, id: string)
  {
    IdAmong(all, |all|, id)
  }

  function IdSet(s: seq<Account>): set<string>
  {
    set a | a in s :: a.id
  }

  /** One of the first n accounts names the id as its parent. */
  predicate ChildAmong(all: seq<Account>, n: nat, id: string)
    requires n <= |all|
  {
    exists j :: 0 <= j < n && all[j].parent == id
  }

  /** The ids of those of the first n accounts that name `id` as their parent, in list order. */
  function ChildrenAmong(all: seq<Account>, n: nat, id: string): seq<string>
    requires n <= |all|
  {
    if n == 0 then []
    else ChildrenAmong(all, n - 1, id) + (if all[n - 1].parent == id then [all[n - 1].id] else [])
  }

  lemma {:induction false} ChildrenAmongMembers(all: seq<Account>, n: nat, id: string)
    requires n <= |all|
    ensures forall c :: c in ChildrenAmong(all, n, id) <==> exists j :: 0 <= j < n && all[j].parent == id && all[j].id == c
    ensures |ChildrenAmong(all, n, id)| > 0 <==> ChildAmong(all, n, id)
  {
    if n > 0 {
      ChildrenAmongMembers(all, n - 1, id);
    }
  }

  /** The node makeAccountMap leaves for a listed account. */
  function NodeFor(all: seq<Account>, a: Account): AccountNode
  {
    AccountNode(a.(hasChildren := a.hasChildren || ChildAmong(all, |all|, a.id)),
                if IsId(all, a.parent) then Some(a.parent) else None,
                ChildrenAmong(all, |all|, a.id))
  }

  /** The map makeAccountMap returns for the list. */
  function AccountMapOf(all: seq<Account>): AccountMap
  {
    KeyedBy(all, AccountId, (a: Account) => NodeFor(all, a))
  }

  /** The map holds the ids of the list, each under the node of its account. */
  lemma AccountMapOfAt(all: seq<Account>)
    requires DistinctBy(all, AccountId)
    ensures forall k :: k in AccountMapOf(all) <==> IsId(all, k)
    ensures forall j :: 0 <= j < |all| ==>
      all[j].id in AccountMapOf(all) && AccountMapOf(all)[all[j].id] == NodeFor(all, all[j])
  {
    KeyedByAt(all, AccountId, (a: Account) => NodeFor(all, a));
    forall k
      ensures k in AccountMapOf(all) <==> IsId(all, k)
    {
      if k in AccountMapOf(all) {
        var j :| 0 <= j < |all| && AccountId(all[j]) == k;
      }
    }
  }

  /** The map's keys are the listed ids. */
  lemma AccountMapKeys(all: seq<Account>)
    requires DistinctBy(all, AccountId)
    ensures forall k :: k in AccountMapOf(all) <==> IsId(all, k)
  {
    AccountMapOfAt(all);
  }

  /** The node of the j-th account once the second pass of makeAccountMap has seen i accounts. */
  function LinkedUpTo(all: seq<Account>, i: nat, j: nat): AccountNode
    requires i <= |all| && j < |all|
  {
    var a := all[j];
    AccountNode(a.(hasChildren := a.hasChildren || ChildAmong(all, i, a.id)),
                if j < i && IsId(all, a.parent) then Some(a.parent) else None,
                ChildrenAmong(all, i, a.id))
  }

  /** One step of the second pass: the account's node is linked to its parent node, which gains
      the account as its last child and is marked as having children. */
  function Link(m: AccountMap, a: Account): AccountMap
    requires a.id in m
  {
    var m1 := m[a.id := m[a.id].(parent := if a.parent in m then Some(a.parent) else None)];
    if a.parent in m1 then
      m1[a.parent := m1[a.parent].(account := m1[a.parent].account.(hasChildren := true),
                                   children := m1[a.parent].children + [a.id])]
    else m1
  }

  lemma ChildAmongStep(all: seq<Account>, i: nat)
    requires i < |all|
    ensures forall id :: ChildAmong(all, i + 1, id) <==> ChildAmong(all, i, id) || all[i].parent == id
  {
    forall id | ChildAmong(all, i + 1, id) && all[i].parent != id
      ensures ChildAmong(all, i, id)
    {
      var j :| 0 <= j < i + 1 && all[j].parent == id;
    }
  }

  lemma LinkStep(all: seq<Account>, i: nat, m: AccountMap)
    requires i < |all| && DistinctBy(all, AccountId)
    requires forall k :: k in m <==> IsId(all, k)
    requires forall j :: 0 <= j < |all| ==> all[j].id in m && m[all[j].id] == LinkedUpTo(all, i, j)
    ensures forall k :: k in Link(m, all[i]) <==> IsId(all, k)
    ensures forall j :: 0 <= j < |all| ==>
      all[j].id in Link(m, all[i]) && Link(m, all[i])[all[j].id] == LinkedUpTo(all, i + 1, j)
  {
    var a := all[i];
    var m2 := Link(m, a);
    ChildAmongStep(all, i);
    forall j | 0 <= j < |all|
      ensures all[j].id in m2 && m2[all[j].id] == LinkedUpTo(all, i + 1, j)
    {
      var b := all[j];
      var had, want := LinkedUpTo(all, i, j), LinkedUpTo(all, i + 1, j);
      assert j != i ==> b.id != a.id;
      assert want.children == had.children + (if a.parent == b.id then [a.id] else []);
      assert want.account == had.account.(hasChildren := had.account.hasChildren || a.parent == b.id);
      assert want.parent == if j == i then (if a.parent in m then Some(a.parent) else None) else had.parent;
    }
  }

  /** One step of makeAccountMap's first pass: the account gets a bare node. */
  lemma NodeStep(all: seq<Account>, i: nat, m: AccountMap, m2: AccountMap)
    requires i < |all| && DistinctBy(all, AccountId)
    requires forall k :: k in m <==> IdAmong(all, i, k)
    requires forall j :: 0 <= j < i ==> all[j].id in m && m[all[j].id] == LinkedUpTo(all, 0, j)
    requires m2 == m[all[i].id := AccountNode(all[i], None, [])]
    ensures forall k :: k in m2 <==> IdAmong(all, i + 1, k)
    ensures forall j :: 0 <= j < i + 1 ==> all[j].id in m2 && m2[all[j].id] == LinkedUpTo(all, 0, j)
  {
    forall k
      ensures k in m2 <==> IdAmong(all, i + 1, k)
    {
      if k in m2 && k != all[i].id {
        var j :| 0 <= j < i && all[j].id == k;
      }
    }
    forall j | 0 <= j < i + 1
      ensures all[j].id in m2 && m2[all[j].id] == LinkedUpTo(all, 0, j)
    {
      if j < i {
        assert AccountId(all[j]) != AccountId(all[i]);
      }
    }
  }

  /** The body of makeAccountMap's second pass for one account. */
  method LinkAccount(m: AccountMap, a: Account) returns (linked: AccountMap)
    requires a.id in m
    ensures linked == Link(m, a)
  {
    linked := m[a.id := m[a.id].(parent := if a.parent in m then Some(a.parent) else None)];
    if a.parent in linked {
      var up := linked[a.parent];
      linked := linked[a.parent := up.(account := up.account.(hasChildren := true), children := up.children + [a.id])];
    }
  }

  /** makeAccountMap: one node per account, then a second pass that links every account to the
      node of its parent, when that parent is listed, appends it to the parent's children and
      marks the parent's account as having children. */
  method MakeAccountMap(all: seq<Account>) returns (m: AccountMap)
    requires DistinctBy(all, AccountId)
    ensures m == AccountMapOf(all)
  {
    m := map[];
    var i := 0;
    while i < |all|
      invariant 0 <= i <= |all|
      invariant forall k :: k in m <==> IdAmong(all, i, k)
      invariant forall j :: 0 <= j < i ==> all[j].id in m && m[all[j].id] == LinkedUpTo(all, 0, j)
    {
      NodeStep(all, i, m, m[all[i].id := AccountNode(all[i], None, [])]);
      m := m[all[i].id := AccountNode(all[i], None, [])];
      i := i + 1;
    }
    i := 0;
    while i < |all|
      invariant 0 <= i <= |all|
      invariant forall k :: k in m <==> IsId(all, k)
      invariant forall j :: 0 <= j < |all| ==> all[j].id in m && m[all[j].id] == LinkedUpTo(all, i, j)
    {
      LinkStep(all, i, m);
      m := LinkAccount(m, all[i]);
      i := i + 1;
    }
    LinkedAll(all, m);
  }

  /** Once the second pass has seen every account, the map is the one makeAccountMap promises. */
  lemma LinkedAll(all: seq<Account>, m: AccountMap)
    requires DistinctBy(all, AccountId)
    requires forall k :: k in m <==> IsId(all, k)
    requires forall j :: 0 <= j < |all| ==> all[j].id in m && m[all[j].id] == LinkedUpTo(all, |all|, j)
    ensures m == AccountMapOf(all)
  {
    AccountMapOfAt(all);
    assert forall j :: 0 <= j < |all| ==> LinkedUpTo(all, |all|, j) == NodeFor(all, all[j]);
    forall k | k in m
      ensures m[k] == AccountMapOf(all)[k]
    {
      var j :| 0 <= j < |all| && all[j].id == k;
    }
  }

  /** Every node is filed under its own account's id, and its parent and children are nodes. */
  predicate WellLinked(m: AccountMap)
  {
    (forall k :: k in m ==> m[k].account.id == k) &&
    (forall k :: k in m && m[k].parent.Some? ==> m[k].parent.value in m) &&
    (forall k, c :: k in m && c in m[k].children ==> c in m)
  }

  lemma AccountMapWellLinked(all: seq<Account>)
    requires DistinctBy(all, AccountId)
    ensures WellLinked(AccountMapOf(all))
  {
    var m := AccountMapOf(all);
    AccountMapOfAt(all);
    forall k | k in m
      ensures m[k].account.id == k
      ensures m[k].parent.Some? ==> m[k].parent.value in m
      ensures forall c :: c in m[k].children ==> c in m
    {
      var j :| 0 <= j < |all| && all[j].id == k;
      ChildrenAmongMembers(all, |all|, k);
    }
  }

  /** A listed account is among the children of k exactly when it names k as its parent. */
  lemma ChildEdge(all: seq<Account>, i: int, k: string)
    requires DistinctBy(all, AccountId) && 0 <= i < |all|
    ensures all[i].id in ChildrenAmong(all, |all|, k) <==> all[i].parent == k
  {
    ChildrenAmongMembers(all, |all|, k);
    if all[i].id in ChildrenAmong(all, |all|, k) {
      var i' :| 0 <= i' < |all| && all[i'].parent == k && all[i'].id == all[i].id;
      assert AccountId(all[i']) == AccountId(all[i]);
    }
  }

  /** The child lists and the parent links describe the same edges. */
  lemma AccountMapEdges(all: seq<Account>)
    requires DistinctBy(all, AccountId)
    ensures forall k, c :: k in AccountMapOf(all) && c in AccountMapOf(all) ==>
      (c in AccountMapOf(all)[k].children <==> AccountMapOf(all)[c].parent == Some(k))
  {
    var m := AccountMapOf(all);
    AccountMapOfAt(all);
    forall k, c | k in m && c in m
      ensures c in m[k].children <==> m[c].parent == Some(k)
    {
      var i :| 0 <= i < |all| && all[i].id == c;
      var j :| 0 <= j < |all| && all[j].id == k;
      assert m[k].children == ChildrenAmong(all, |all|, k);
      assert m[c].parent == (if IsId(all, all[i].parent) then Some(all[i].parent) else None);
      ChildEdge(all, i, k);
    }
  }

  /** An account whose parent is not listed gets no parent node, and HasChildren is set exactly
      on nodes with children (for accounts read from the store, which arrive with it false). */
  lemma AccountMapParents(all: seq<Account>)
    requires DistinctBy(all, AccountId)
    ensures forall j :: 0 <= j < |all| ==> (all[j].id in AccountMapOf(all) &&
      (AccountMapOf(all)[all[j].id].parent.None? <==> !IsId(all, all[j].parent)))
    ensures forall j :: 0 <= j < |all| && !all[j].hasChildren ==> (all[j].id in AccountMapOf(all) &&
      (AccountMapOf(all)[all[j].id].account.hasChildren <==> |AccountMapOf(all)[all[j].id].children| > 0))
    ensures forall j :: 0 <= j < |all| && !all[j].hasChildren ==> (all[j].id in AccountMapOf(all) &&
      (AccountMapOf(all)[all[j].id].account.hasChildren <==> exists i :: 0 <= i < |all| && all[i].parent == all[j].id))
  {
    AccountMapOfAt(all);
    forall j | 0 <= j < |all|
      ensures |ChildrenAmong(all, |all|, all[j].id)| > 0 <==> ChildAmong(all, |all|, all[j].id)
    {
      ChildrenAmongMembers(all, |all|, all[j].id);
    }
  }

  /** getChildren: each child of the node, followed by all of that child's own descendants,
      depth first; nothing for an id without a node. */
  function Descendants(m: AccountMap, id: string, depth: nat): seq<Account>
    requires WellLinked(m)
    decreases depth, 0, 0
  {
    if id !in m || depth == 0 then [] else DescendantsOfAll(m, m[id].children, depth - 1)
  }

  function DescendantsOfAll(m: AccountMap, kids: seq<string>, depth: nat): seq<Account>
    requires WellLinked(m)
    requires forall c :: c in kids ==> c in m
    decreases depth, 1, |kids|
  {
    if kids == [] then []
    else [m[kids[0]].account] + Descendants(m, kids[0], depth) + DescendantsOfAll(m, kids[1..], depth)
  }

  /** x hangs below id: it is reached from id by following at most `depth` child links. */
  predicate Below(m: AccountMap, x: string, id: string, depth: nat)
    decreases depth
  {
    depth > 0 && id in m && exists c :: c in m[id].children && (c == x || Below(m, x, c, depth - 1))
  }

  /** The accounts are those of their nodes. */
  predicate NodesOf(s: seq<Account>, m: AccountMap)
  {
    forall a :: a in s ==> a.id in m && m[a.id].account == a
  }

  /** getChildren lists accounts of the map's nodes. */
  lemma {:induction false} DescendantsAreNodes(m: AccountMap, id: string, depth: nat)
    requires WellLinked(m)
    ensures NodesOf(Descendants(m, id, depth), m)
    decreases depth, 0, 0
  {
    if id in m && depth > 0 {
      DescendantsOfAllAreNodes(m, m[id].children, depth - 1);
    }
  }

  lemma {:induction false} DescendantsOfAllAreNodes(m: AccountMap, kids: seq<string>, depth: nat)
    requires WellLinked(m)
    requires forall c :: c in kids ==> c in m
    ensures NodesOf(DescendantsOfAll(m, kids, depth), m)
    decreases depth, 1, |kids|
  {
    if kids != [] {
      DescendantsAreNodes(m, kids[0], depth);
      DescendantsOfAllAreNodes(m, kids[1..], depth);
    }
  }

  /** getChildren lists exactly the accounts below the id. */
  lemma {:induction false} DescendantsAreBelow(m: AccountMap, id: string, depth: nat)
    requires WellLinked(m)
    ensures forall x :: x in IdSet(Descendants(m, id, depth)) <==> Below(m, x, id, depth)
    decreases depth, 0, 0
  {
    if id in m && depth > 0 {
      DescendantsOfAllBelow(m, m[id].children, depth - 1);
    }
  }

  lemma {:induction false} DescendantsOfAllBelow(m: AccountMap, kids: seq<string>, depth: nat)
    requires WellLinked(m)
    requires forall c :: c in kids ==> c in m
    ensures forall x :: x in IdSet(DescendantsOfAll(m, kids, depth)) <==>
      exists c :: c in kids && (c == x || Below(m, x, c, depth))
    decreases depth, 1, |kids|
  {
    if kids != [] {
      var head, rest := m[kids[0]].account, kids[1..];
      var below, others := Descendants(m, kids[0], depth), DescendantsOfAll(m, rest, depth);
      DescendantsAreBelow(m, kids[0], depth);
      DescendantsOfAllBelow(m, rest, depth);
      var all := [head] + below + others;
      assert forall a :: a in all <==> a == head || a in below || a in others;
      forall x
        ensures x in IdSet(all) <==> exists c :: c in kids && (c == x || Below(m, x, c, depth))
      {
        if x in IdSet(all) {
          var a :| a in all && a.id == x;
          if a in others {
            assert x in IdSet(others);
            var c :| c in rest && (c == x || Below(m, x, c, depth));
            assert c in kids;
          } else if a in below {
            assert x in IdSet(below);
          }
        }
        if exists c :: c in kids && (c == x || Below(m, x, c, depth)) {
          var c :| c in kids && (c == x || Below(m, x, c, depth));
          if c == kids[0] {
            if c == x {
              assert head in all;
            } else {
              assert x in IdSet(below);
              var a :| a in below && a.id == x;
              assert a in all;
            }
          } else {
            assert c in rest;
            assert x in IdSet(others);
            var a :| a in others && a.id == x;
            assert a in all;
          }
        }
      }
    }
  }

  /** getParents: the ancestors of the node, the top-most first and its own parent last;
      nothing for an id without a node. */
  function Ancestors(m: AccountMap, id: string, depth: nat): seq<Account>
    requires WellLinked(m)
    decreases depth
  {
    if id !in m || depth == 0 then []
    else match m[id].parent
      case None => []
      case Some(p) => Ancestors(m, p, depth - 1) + [m[p].account]
  }

  /** getParents lists accounts of the map's nodes. */
  lemma {:induction false} AncestorsAreNodes(m: AccountMap, id: string, depth: nat)
    requires WellLinked(m)
    ensures NodesOf(Ancestors(m, id, depth), m)
    decreases depth
  {
    if id in m && depth > 0 && m[id].parent.Some? {
      AncestorsAreNodes(m, m[id].parent.value, depth - 1);
    }
  }

  /** getParents walks the parent links: its last account is the node's parent, each account is
      the parent of the next, and unless the depth ran out the first one has no parent. */
  lemma {:induction false} AncestorsChain(m: AccountMap, id: string, depth: nat)
    requires WellLinked(m)
    ensures NodesOf(Ancestors(m, id, depth), m)
    ensures var s := Ancestors(m, id, depth);
      (s != [] ==> id in m && m[id].parent == Some(s[|s| - 1].id)) &&
      (s == [] && depth > 0 && id in m ==> m[id].parent.None?) &&
      (forall k :: 0 <= k < |s| - 1 ==> m[s[k + 1].id].parent == Some(s[k].id)) &&
      (s != [] && |s| < depth ==> m[s[0].id].parent.None?)
    decreases depth
  {
    AncestorsAreNodes(m, id, depth);
    if id in m && depth > 0 && m[id].parent.Some? {
      var p := m[id].parent.value;
      AncestorsChain(m, p, depth - 1);
      AncestorsAreNodes(m, p, depth - 1);
      var up := Ancestors(m, p, depth - 1);
      var s := up + [m[p].account];
      forall k | 0 <= k < |s| - 1
        ensures m[s[k + 1].id].parent == Some(s[k].id)
      {
        if k + 1 < |up| {
          assert s[k] == up[k] && s[k + 1] == up[k + 1];
        } else {
          assert s[k + 1] == m[p].account && s[k] == up[|up| - 1];
        }
      }
      if up == [] {
        assert s[0] == m[p].account;
      } else {
        assert s[0] == up[0];
      }
    }
  }

  /** A node without a parent node: an account of the top level. */
  predicate IsTop(m: AccountMap, k: string)
  {
    k in m && m[k].parent.None?
  }

  /** A node at the top level, or a child of one. */
  predicate InTopFamily(m: AccountMap, k: string)
  {
    k in m && (m[k].parent.None? || IsTop(m, m[k].parent.value))
  }

  /** The accounts getTopLevelAccounts returns once it has settled on the node `top`. */
  function TopFamily(m: AccountMap, top: string): (s: seq<Account>)
    requires WellLinked(m) && top in m
  {
    [m[top].account] + seq(|m[top].children|, i requires 0 <= i < |m[top].children| => m[m[top].children[i]].account)
  }

  /** getTopLevelAccounts: the first parentless node the map's iteration meets, with its
      children. Go visits a map in no fixed order, so any parentless node may be the one. */
  method GetTopLevelAccounts(m: AccountMap) returns (accounts: seq<Account>)
    requires WellLinked(m)
    ensures accounts == [] <==> forall k :: k in m ==> !IsTop(m, k)
    ensures accounts != [] ==> exists top :: IsTop(m, top) && accounts == TopFamily(m, top)
  {
    if top :| top in m && IsTop(m, top) {
      accounts := TopFamily(m, top);
    } else {
      accounts := [];
    }
  }

  /** The accounts of a top family are nodes of the map. */
  lemma TopFamilyAreNodes(m: AccountMap, top: string)
    requires WellLinked(m) && top in m
    ensures NodesOf(TopFamily(m, top), m)
  {
    var s := TopFamily(m, top);
    var kids := m[top].children;
    forall a | a in s
      ensures a.id in m && m[a.id].account == a
    {
      var i :| 0 <= i < |s| && s[i] == a;
      if i > 0 {
        assert a == m[kids[i - 1]].account;
        assert kids[i - 1] in kids;
      }
    }
  }

  /** Each account of a top family is the top node's or one of its children's. */
  lemma TopFamilyShape(m: AccountMap, top: string)
    requires WellLinked(m) && top in m
    ensures forall a :: a in TopFamily(m, top) ==>
      a == m[top].account || exists c :: c in m[top].children && a == m[c].account
    ensures forall c :: c in m[top].children ==> m[c].account in TopFamily(m, top)
  {
    var s := TopFamily(m, top);
    var kids := m[top].children;
    forall a | a in s
      ensures a == m[top].account || exists c :: c in kids && a == m[c].account
    {
      var i :| 0 <= i < |s| && s[i] == a;
      if i > 0 {
        assert kids[i - 1] in kids && a == m[kids[i - 1]].account;
      }
    }
    forall c | c in kids
      ensures m[c].account in s
    {
      var i :| 0 <= i < |kids| && kids[i] == c;
      assert s[i + 1] == m[c].account;
    }
  }

  /** A top family is the top node and its children, all of the top level or just below. */
  lemma TopFamilyMembers(m: AccountMap, top: string)
    requires WellLinked(m) && IsTop(m, top)
    requires forall k, c :: k in m && c in m ==> (c in m[k].children <==> m[c].parent == Some(k))
    ensures forall k :: k in IdSet(TopFamily(m, top)) ==> InTopFamily(m, k)
    ensures forall c :: c in m[top].children ==> c in IdSet(TopFamily(m, top))
    ensures top in IdSet(TopFamily(m, top))
  {
    var s := TopFamily(m, top);
    TopFamilyShape(m, top);
    forall k | k in IdSet(s)
      ensures InTopFamily(m, k)
    {
      var a :| a in s && a.id == k;
      if a != m[top].account {
        var c :| c in m[top].children && a == m[c].account;
        assert m[c].parent == Some(top);
      }
    }
    forall c | c in m[top].children
      ensures c in IdSet(s)
    {
      assert m[c].account in s;
    }
    assert s[0] in s;
  }
}

=== FILE: accounts.dfy ===
/** core/model/account.go: which accounts a user sees and may write, and the checks in front of
    creating, updating and deleting an account.

    A permission on an account grants write access to it and to everything below it; its
    ancestors, and one top-level account with its children, are shown read-only unless they are
    writable too. */
module Accounts {
  import opened Wrappers
  import opened Util
  import opened Types
  import opened Store
  import opened Seqs
  import opened Sorting
  import opened LexOrder
  import opened AccountTree
  import DbAccount

  /** ByName.Less as the "less or equal" the sort needs. Accounts with equal names keep their
      input order, since SortBy is stable; sort.Sort leaves that order unspecified. */
  predicate ByName(a: Account, b: Account)
  {
    StrLessEq(a.name, b.name)
  }

  lemma ByNameOrders()
    ensures Total(ByName) && Transitive(ByName)
  {
    forall a: Account, b: Account
      ensures ByName(a, b) || ByName(b, a)
    {
      StrLessEqTotal(a.name, b.name);
    }
    forall a: Account, b: Account, c: Account | ByName(a, b) && ByName(b, c)
      ensures ByName(a, c)
    {
      StrLessEqTransitive(a.name, b.name, c.name);
    }
  }

  /** accountsContainWriteAccess: the list holds the id without the ReadOnly mark. */
  function AccountsContainWriteAccess(accounts: seq<Account>, id: string): (b: bool)
    ensures b <==> exists x :: x in accounts && x.id == id && !x.readOnly
  {
    if accounts == [] then false
    else if accounts[0].id == id && !accounts[0].readOnly then true
    else
      var rest := AccountsContainWriteAccess(accounts[1..], id);
      assert forall x :: x in accounts <==> x == accounts[0] || x in accounts[1..];
      rest
  }

  /** getAccountFromList: the first listed account with the id, or nil. */
  function GetAccountFromList(accounts: seq<Account>, id: string): (r: Option<Account>)
    ensures r.None? <==> forall x :: x in accounts ==> x.id != id
    ensures r.Some? ==> exists i :: 0 <= i < |accounts| && accounts[i] == r.value && r.value.id == id &&
                                    forall j :: 0 <= j < i ==> accounts[j].id != id
  {
    if accounts == [] then None
    else if accounts[0].id == id then Some(accounts[0])
    else
      var rest := GetAccountFromList(accounts[1..], id);
      assert forall x :: x in accounts <==> x == accounts[0] || x in accounts[1..];
      if rest.Some? then
        var i :| 0 <= i < |accounts[1..]| && accounts[1..][i] == rest.value && rest.value.id == id &&
                 forall j :: 0 <= j < i ==> accounts[1..][j].id != id;
        assert accounts[i + 1] == rest.value;
        assert forall j :: 0 <= j < i + 1 ==> accounts[j].id != id by {
          forall j | 0 <= j < i + 1
            ensures accounts[j].id != id
          {
            if j > 0 { assert accounts[j] == accounts[1..][j - 1]; }
          }
        }
        rest
      else rest
  }

  /** The ids the permissions make writable: each permissioned account and, through getChildren,
      everything below it. */
  function WriteIds(m: AccountMap, perms: seq<string>, depth: nat): set<string>
    requires WellLinked(m)
  {
    if perms == [] then {}
    else
      var p := perms[|perms| - 1];
      WriteIds(m, perms[..|perms| - 1], depth) + {p} + IdSet(Descendants(m, p, depth))
  }

  /** The ids getParents finds above the permissioned accounts. */
  function AncestorIds(m: AccountMap, perms: seq<string>, depth: nat): set<string>
    requires WellLinked(m)
  {
    if perms == [] then {}
    else AncestorIds(m, perms[..|perms| - 1], depth) + IdSet(Ancestors(m, perms[|perms| - 1], depth))
  }

  /** WriteIds and AncestorIds grow by one permission at a time. */
  lemma IdsStep(m: AccountMap, perms: seq<string>, i: nat, depth: nat)
    requires WellLinked(m) && i < |perms|
    ensures WriteIds(m, perms[..i + 1], depth) ==
      WriteIds(m, perms[..i], depth) + {perms[i]} + IdSet(Descendants(m, perms[i], depth))
    ensures AncestorIds(m, perms[..i + 1], depth) ==
      AncestorIds(m, perms[..i], depth) + IdSet(Ancestors(m, perms[i], depth))
  {
    PrefixStep(perms, i);
  }

  /** An id is writable exactly when it is permissioned or hangs below a permissioned id. */
  lemma {:induction false} WriteIdsBelow(m: AccountMap, perms: seq<string>, depth: nat)
    requires WellLinked(m)
    ensures forall k :: k in WriteIds(m, perms, depth) <==>
      k in perms || exists p :: p in perms && Below(m, k, p, depth)
  {
    if perms != [] {
      var init, p := perms[..|perms| - 1], perms[|perms| - 1];
      WriteIdsBelow(m, init, depth);
      DescendantsAreBelow(m, p, depth);
      assert perms == init + [p];
      assert forall q :: q in perms <==> q in init || q == p;
    }
  }

  /** Every account in the map describes the node filed under its id. */
  predicate FromMap(w: map<string, Account>, m: AccountMap)
  {
    forall k :: k in w ==> k in m && w[k] == m[k].account
  }

  /** Filing one node's account keeps the map FromMap and adds its id. */
  lemma FileNode(w: map<string, Account>, m: AccountMap, k: string)
    requires FromMap(w, m) && k in m
    ensures FromMap(w[k := m[k].account], m)
    ensures w[k := m[k].account].Keys == w.Keys + {k}
  {
  }

  /** The loops of getAccounts that file accounts under their ids in writeAccessMap or
      readAccessMap. */
  method Record(into: map<string, Account>, accounts: seq<Account>, ghost m: AccountMap)
    returns (out: map<string, Account>)
    requires FromMap(into, m) && NodesOf(accounts, m)
    ensures FromMap(out, m)
    ensures out.Keys == into.Keys + IdSet(accounts)
  {
    out := into;
    var i := 0;
    while i < |accounts|
      invariant 0 <= i <= |accounts|
      invariant FromMap(out, m)
      invariant forall k :: k in out <==> k in into || exists j :: 0 <= j < i && accounts[j].id == k
    {
      assert accounts[i] in accounts;
      out := out[accounts[i].id := accounts[i]];
      i := i + 1;
    }
    forall k | k in IdSet(accounts)
      ensures k in out
    {
      var a :| a in accounts && a.id == k;
      var j :| 0 <= j < |accounts| && accounts[j] == a;
    }
  }

  /** The result list before sorting: every writable account, then every read-only one whose
      id is not writable, marked ReadOnly. Go visits both maps in no fixed order. */
  method Flatten(write: map<string, Account>, read: map<string, Account>) returns (filtered: seq<Account>)
    requires forall k :: k in write ==> write[k].id == k
    requires forall k :: k in read ==> read[k].id == k
    ensures DistinctBy(filtered, AccountId)
    ensures forall k :: k in write ==> write[k] in filtered
    ensures forall k :: k in read && k !in write ==> read[k].(readOnly := true) in filtered
    ensures forall x :: x in filtered ==>
      (x.id in write && x == write[x.id]) || (x.id in read && x.id !in write && x == read[x.id].(readOnly := true))
  {
    filtered := [];
    var rest := write.Keys;
    while rest != {}
      invariant rest <= write.Keys
      invariant DistinctBy(filtered, AccountId)
      invariant forall x :: x in filtered ==> x.id in write && x.id !in rest && x == write[x.id]
      invariant forall k :: k in write && k !in rest ==> write[k] in filtered
      decreases |rest|
    {
      var id :| id in rest;
      DistinctByAppend(filtered, write[id], AccountId);
      filtered := filtered + [write[id]];
      rest := rest - {id};
    }
    rest := read.Keys;
    while rest != {}
      invariant rest <= read.Keys
      invariant DistinctBy(filtered, AccountId)
      invariant forall x :: x in filtered ==>
        (x.id in write && x == write[x.id]) || (x.id in read && x.id !in write && x.id !in rest && x == read[x.id].(readOnly := true))
      invariant forall k :: k in write ==> write[k] in filtered
      invariant forall k :: k in read && k !in write && k !in rest ==> read[k].(readOnly := true) in filtered
      decreases |rest|
    {
      var id :| id in rest;
      if id !in write {
        DistinctByAppend(filtered, read[id].(readOnly := true), AccountId);
        filtered := filtered + [read[id].(readOnly := true)];
      }
      rest := rest - {id};
    }
  }

  /** Whenever the map has a top-level node, some top-level node and all of its children are
      among the keys. */
  ghost predicate TopShown(m: AccountMap, keys: set<string>)
  {
    (exists k :: IsTop(m, k)) ==>
      exists top :: IsTop(m, top) && top in keys && forall c :: c in m[top].children ==> c in keys
  }

  /** The ids the permissions make writable among the org's accounts. */
  ghost function Writable(perms: seq<string>, all: seq<Account>): set<string>
    requires DistinctBy(all, AccountId)
  {
    AccountMapWellLinked(all);
    WriteIds(AccountMapOf(all), perms, |all|)
  }

  /** The ids getParents finds above the permissioned accounts among the org's accounts. */
  ghost function Above(perms: seq<string>, all: seq<Account>): set<string>
    requires DistinctBy(all, AccountId)
  {
    AccountMapWellLinked(all);
    AncestorIds(AccountMapOf(all), perms, |all|)
  }

  /** What getAccounts promises for the permissions `perms` over the org's accounts `all`:
      no id twice, ordered by name, every writable account present as it is, every ancestor of
      a permissioned account present (read-only unless writable), nothing else but top-level
      accounts and their children, one such family at least, and nothing at all without
      permissions. */
  ghost predicate Resolution(perms: seq<string>, all: seq<Account>, out: seq<Account>)
  {
    if !DistinctBy(all, AccountId) then false
    else
      AccountMapWellLinked(all);
      var m := AccountMapOf(all);
      var w := Writable(perms, all);
      var up := Above(perms, all);
      DistinctBy(out, AccountId) &&
      Sorted(out, ByName) &&
      (forall k :: k in w ==> k in m && m[k].account in out) &&
      (forall k :: k in up && k !in w ==> k in m && m[k].account.(readOnly := true) in out) &&
      (forall x :: x in out ==>
         (x.id in m &&
          if x.id in w then x == m[x.id].account
          else x == m[x.id].account.(readOnly := true) && (x.id in up || InTopFamily(m, x.id)))) &&
      (perms != [] ==> TopShown(m, IdSet(out))) &&
      (perms == [] ==> out == [])
  }

  /** The lines of getAccounts after the store has been read: the account map, the write and
      read maps filled per permission, the merge and the sort by name. A permissioned id that
      is not among the org's accounts dereferences a nil node. */
  method ResolveAccess(perms: seq<string>, all: seq<Account>) returns (r: Result<seq<Account>>)
    requires DistinctBy(all, AccountId)
    ensures r.Err? <==> exists p :: p in perms && !IsId(all, p)
    ensures r.Err? ==> r.msg == NIL_DEREFERENCE
    ensures r.Ok? ==> Resolution(perms, all, r.value)
  {
    var accountMap := MakeAccountMap(all);
    AccountMapWellLinked(all);
    AccountMapEdges(all);
    AccountMapKeys(all);
    if exists p :: p in perms && p !in accountMap {
      return Err(NIL_DEREFERENCE);
    }
    var write, read := GrantAll(accountMap, perms, |all|);
    var sorted := Collect(perms, all, write, read);
    r := Ok(sorted);
  }

  /** getAccounts' loop over the permissioned ids. */
  method GrantAll(accountMap: AccountMap, perms: seq<string>, depth: nat)
    returns (write: map<string, Account>, read: map<string, Account>)
    requires WellLinked(accountMap)
    requires forall k, c :: k in accountMap && c in accountMap ==>
      (c in accountMap[k].children <==> accountMap[c].parent == Some(k))
    requires forall p :: p in perms ==> p in accountMap
    ensures FromMap(write, accountMap) && FromMap(read, accountMap)
    ensures write.Keys == WriteIds(accountMap, perms, depth)
    ensures AncestorIds(accountMap, perms, depth) <= read.Keys
    ensures forall k :: k in read ==> k in AncestorIds(accountMap, perms, depth) || InTopFamily(accountMap, k)
    ensures perms != [] ==> TopShown(accountMap, read.Keys)
    ensures perms == [] ==> read == map[] && write == map[]
  {
    write := map[];
    read := map[];
    var i := 0;
    while i < |perms|
      invariant 0 <= i <= |perms|
      invariant FromMap(write, accountMap) && FromMap(read, accountMap)
      invariant write.Keys == WriteIds(accountMap, perms[..i], depth)
      invariant AncestorIds(accountMap, perms[..i], depth) <= read.Keys
      invariant forall k :: k in read ==> k in AncestorIds(accountMap, perms[..i], depth) || InTopFamily(accountMap, k)
      invariant i > 0 ==> TopShown(accountMap, read.Keys)
      invariant i == 0 ==> read == map[] && write == map[]
    {
      var accountId := perms[i];
      assert accountId in perms;
      IdsStep(accountMap, perms, i, depth);
      write, read := GrantAccess(accountMap, accountId, depth, write, read);
      i := i + 1;
    }
    assert perms[..i] == perms;
  }

  /** The lines of getAccounts after its loop: the two maps merged into one list, sorted by
      name. */
  method Collect(perms: seq<string>, all: seq<Account>, write: map<string, Account>, read: map<string, Account>)
    returns (sorted: seq<Account>)
    requires DistinctBy(all, AccountId)
    requires WellLinked(AccountMapOf(all))
    requires FromMap(write, AccountMapOf(all)) && FromMap(read, AccountMapOf(all))
    requires write.Keys == WriteIds(AccountMapOf(all), perms, |all|)
    requires AncestorIds(AccountMapOf(all), perms, |all|) <= read.Keys
    requires forall k :: k in read ==> k in AncestorIds(AccountMapOf(all), perms, |all|) || InTopFamily(AccountMapOf(all), k)
    requires perms != [] ==> TopShown(AccountMapOf(all), read.Keys)
    requires perms == [] ==> read == map[] && write == map[]
    ensures Resolution(perms, all, sorted)
  {
    var filtered := Flatten(write, read);
    ByNameOrders();
    sorted := SortBy(filtered, ByName);
    SortByMembership(filtered, ByName);
    SortByDistinctBy(filtered, ByName, AccountId);
    Resolved(perms, all, write, read, filtered, sorted);
  }

  /** The body of getAccounts' loop for one permissioned id: write access to the account and
      everything below it, read access to its ancestors and to a top-level family. */
  method GrantAccess(accountMap: AccountMap, accountId: string, depth: nat,
                     write: map<string, Account>, read: map<string, Account>)
    returns (write': map<string, Account>, read': map<string, Account>)
    requires WellLinked(accountMap) && accountId in accountMap
    requires forall k, c :: k in accountMap && c in accountMap ==>
      (c in accountMap[k].children <==> accountMap[c].parent == Some(k))
    requires FromMap(write, accountMap) && FromMap(read, accountMap)
    ensures FromMap(write', accountMap) && FromMap(read', accountMap)
    ensures write'.Keys == write.Keys + {accountId} + IdSet(Descendants(accountMap, accountId, depth))
    ensures read.Keys + IdSet(Ancestors(accountMap, accountId, depth)) <= read'.Keys
    ensures forall k :: k in read' ==>
      k in read || k in IdSet(Ancestors(accountMap, accountId, depth)) || InTopFamily(accountMap, k)
    ensures TopShown(accountMap, read'.Keys)
  {
    write' := write[accountId := accountMap[accountId].account];
    FileNode(write, accountMap, accountId);
    read' := ReadParents(accountMap, accountId, depth, read);
    read' := ReadTopLevel(accountMap, read');
    write' := WriteChildren(accountMap, accountId, depth, write');
  }

  /** The lines of that loop that fetch the ancestors and file them as read-only. */
  method ReadParents(accountMap: AccountMap, accountId: string, depth: nat, read: map<string, Account>)
    returns (read': map<string, Account>)
    requires WellLinked(accountMap) && FromMap(read, accountMap)
    ensures FromMap(read', accountMap)
    ensures read'.Keys == read.Keys + IdSet(Ancestors(accountMap, accountId, depth))
  {
    var parents := Ancestors(accountMap, accountId, depth);
    AncestorsAreNodes(accountMap, accountId, depth);
    read' := Record(read, parents, accountMap);
  }

  /** The lines of that loop that fetch the descendants and file them as writable. */
  method WriteChildren(accountMap: AccountMap, accountId: string, depth: nat, write: map<string, Account>)
    returns (write': map<string, Account>)
    requires WellLinked(accountMap) && FromMap(write, accountMap)
    ensures FromMap(write', accountMap)
    ensures write'.Keys == write.Keys + IdSet(Descendants(accountMap, accountId, depth))
  {
    var children := Descendants(accountMap, accountId, depth);
    DescendantsAreNodes(accountMap, accountId, depth);
    write' := Record(write, children, accountMap);
  }

  /** The lines of that loop that fetch the top-level accounts and file them as read-only. */
  method ReadTopLevel(accountMap: AccountMap, read: map<string, Account>) returns (read': map<string, Account>)
    requires WellLinked(accountMap)
    requires forall k, c :: k in accountMap && c in accountMap ==>
      (c in accountMap[k].children <==> accountMap[c].parent == Some(k))
    requires FromMap(read, accountMap)
    ensures FromMap(read', accountMap)
    ensures read.Keys <= read'.Keys
    ensures forall k :: k in read' ==> k in read || InTopFamily(accountMap, k)
    ensures TopShown(accountMap, read'.Keys)
  {
    var topLevel := GetTopLevelAccounts(accountMap);
    if topLevel != [] {
      var top :| IsTop(accountMap, top) && topLevel == TopFamily(accountMap, top);
      TopFamilyAreNodes(accountMap, top);
      TopFamilyMembers(accountMap, top);
      read' := Record(read, topLevel, accountMap);
    } else {
      read' := Record(read, topLevel, accountMap);
    }
  }

  /** The merged and sorted maps meet Resolution. */
  lemma Resolved(perms: seq<string>, all: seq<Account>, write: map<string, Account>, read: map<string, Account>,
                 filtered: seq<Account>, sorted: seq<Account>)
    requires DistinctBy(all, AccountId)
    requires WellLinked(AccountMapOf(all))
    requires FromMap(write, AccountMapOf(all)) && FromMap(read, AccountMapOf(all))
    requires write.Keys == WriteIds(AccountMapOf(all), perms, |all|)
    requires AncestorIds(AccountMapOf(all), perms, |all|) <= read.Keys
    requires forall k :: k in read ==> k in AncestorIds(AccountMapOf(all), perms, |all|) || InTopFamily(AccountMapOf(all), k)
    requires perms != [] ==> TopShown(AccountMapOf(all), read.Keys)
    requires perms == [] ==> read == map[] && write == map[]
    requires forall k :: k in write ==> write[k] in filtered
    requires forall k :: k in read && k !in write ==> read[k].(readOnly := true) in filtered
    requires forall x :: x in filtered ==>
      (x.id in write && x == write[x.id]) || (x.id in read && x.id !in write && x == read[x.id].(readOnly := true))
    requires DistinctBy(sorted, AccountId) && Sorted(sorted, ByName)
    requires forall x :: x in sorted <==> x in filtered
    ensures Resolution(perms, all, sorted)
  {
    var m := AccountMapOf(all);
    assert forall k :: k in read && k in m ==> read[k].id == k;
    forall k | k in read
      ensures k in IdSet(sorted)
    {
      if k in write {
        assert write[k] in sorted;
      } else {
        assert read[k].(readOnly := true) in sorted;
      }
    }
    if perms == [] {
      assert forall x :: x !in sorted;
      NoMembers(sorted);
    }
  }

  /** The account with both balance columns filled from the splits dated before `ms`. */
  function WithSums(splits: seq<SplitRow>, a: Account, ms: int): Account
    requires DbAccount.Fits(DbAccount.GroupSum(splits, a.id, ms, DbAccount.AmountColumn))
    requires DbAccount.Fits(DbAccount.GroupSum(splits, a.id, ms, DbAccount.NativeAmountColumn))
  {
    a.(balance := DbAccount.Narrow(DbAccount.GroupSum(splits, a.id, ms, DbAccount.AmountColumn)),
       nativeBalance := DbAccount.Narrow(DbAccount.GroupSum(splits, a.id, ms, DbAccount.NativeAmountColumn)))
  }

  /** Both batch balance queries can run over the accounts: the list is not empty (MySQL refuses
      an empty IN list), neither statement fails and every sum fits an int64. */
  ghost predicate BalancesLoad(db: Db, all: seq<Account>, date: Time)
    reads db
  {
    |all| > 0 && BalancesStmt !in db.failing && NativeBalancesStmt !in db.failing &&
    DbAccount.AllFit(db.t.splits, DbAccount.Ids(all), TimeToMs(date), DbAccount.AmountColumn) &&
    DbAccount.AllFit(db.t.splits, DbAccount.Ids(all), TimeToMs(date), DbAccount.NativeAmountColumn)
  }

  /** The accounts with their balances filled in. */
  function Balanced(splits: seq<SplitRow>, all: seq<Account>, ms: int): (r: seq<Account>)
    requires DbAccount.AllFit(splits, DbAccount.Ids(all), ms, DbAccount.AmountColumn)
    requires DbAccount.AllFit(splits, DbAccount.Ids(all), ms, DbAccount.NativeAmountColumn)
  {
    seq(|all|, i requires 0 <= i < |all| =>
      assert DbAccount.Ids(all)[i] == all[i].id;
      WithSums(splits, all[i], ms))
  }

  /** The org's accounts as getAllAccounts or getAllAccountsWithBalances leaves them, or None
      when a query fails. */
  ghost function Loaded(db: Db, orgId: string, date: Time, withBalances: bool): Option<seq<Account>>
    reads db
  {
    var got := DbAccount.GetAccountsByOrgId(db, orgId);
    if got.Err? then None
    else if !withBalances then Some(got.value)
    else if !BalancesLoad(db, got.value, date) then None
    else Some(Balanced(db.t.splits, got.value, TimeToMs(date)))
  }

  /** The loaded accounts are the org's, each once, in table order, none marked ReadOnly or
      HasChildren. */
  lemma LoadedAccounts(db: Db, orgId: string, date: Time, withBalances: bool)
    requires db.Valid() && Loaded(db, orgId, date, withBalances).Some?
    ensures var all := Loaded(db, orgId, date, withBalances).value;
      DistinctBy(all, AccountId) &&
      |all| == |DbAccount.GetAccountsByOrgId(db, orgId).value| &&
      (forall i :: 0 <= i < |all| ==> all[i].id == DbAccount.GetAccountsByOrgId(db, orgId).value[i].id) &&
      (forall a :: a in all ==> a.orgId == orgId && !a.readOnly && !a.hasChildren)
  {
    var got := DbAccount.GetAccountsByOrgId(db, orgId).value;
    var all := Loaded(db, orgId, date, withBalances).value;
    DbAccount.AccountsByOrgDistinct(db, orgId);
    assert forall i :: 0 <= i < |all| ==>
      (all[i].id == got[i].id && all[i].orgId == orgId && !all[i].readOnly && !all[i].hasChildren);
  }

  /** getAllAccounts and getAllAccountsWithBalances: the org's accounts, and with balances both
      batch queries run over them in place. */
  method LoadAccounts(db: Db, orgId: string, date: Time, withBalances: bool) returns (r: Result<seq<Account>>)
    requires db.Valid()
    ensures r.Ok? <==> Loaded(db, orgId, date, withBalances).Some?
    ensures r.Ok? ==> r.value == Loaded(db, orgId, date, withBalances).value
    ensures DbAccount.GetAccountsByOrgId(db, orgId).Err? ==> r == DbAccount.GetAccountsByOrgId(db, orgId)
  {
    var got := DbAccount.GetAccountsByOrgId(db, orgId);
    if got.Err? || !withBalances {
      return got;
    }
    var all := got.value;
    var accounts := new Account[|all|](i requires 0 <= i < |all| => all[i]);
    var err := DbAccount.AddBalances(db, accounts, date);
    if err.Some? {
      return Err(err.value);
    }
    ghost var between := accounts[..];
    assert forall i :: 0 <= i < |all| ==> between[i].id == all[i].id;
    assert DbAccount.Ids(between) == DbAccount.Ids(all);
    err := DbAccount.AddNativeBalancesCost(db, accounts, date);
    if err.Some? {
      return Err(err.value);
    }
    assert BalancesLoad(db, all, date);
    assert accounts[..] == Balanced(db.t.splits, all, TimeToMs(date));
    r := Ok(accounts[..]);
  }

  /** getAccounts can succeed: both queries succeed and every permissioned id is one of the
      org's accounts. */
  ghost predicate AccountsOk(db: Db, orgId: string, userId: string, date: Time, withBalances: bool)
    reads db
  {
    var perms := DbAccount.GetPermissionedAccountIds(db, orgId, userId);
    var loaded := Loaded(db, orgId, date, withBalances);
    perms.Ok? && loaded.Some? && forall p :: p in perms.value ==> IsId(loaded.value, p)
  }

  /** getAccounts: the accounts the user may see, each marked ReadOnly unless writable, sorted
      by name. Whether it succeeds does not depend on the order Go visits maps in. */
  method GetAccounts(db: Db, orgId: string, userId: string, date: Time, withBalances: bool)
    returns (r: Result<seq<Account>>)
    requires db.Valid()
    ensures r.Ok? <==> AccountsOk(db, orgId, userId, date, withBalances)
    ensures r.Ok? ==> Resolution(DbAccount.GetPermissionedAccountIds(db, orgId, userId).value,
                                 Loaded(db, orgId, date, withBalances).value, r.value)
    ensures DbAccount.GetPermissionedAccountIds(db, orgId, userId).Err? ==>
      r == Err(DbAccount.GetPermissionedAccountIds(db, orgId, userId).msg)
  {
    var perms := DbAccount.GetPermissionedAccountIds(db, orgId, userId);
    if perms.Err? {
      return Err(perms.msg);
    }
    var loaded := LoadAccounts(db, orgId, date, withBalances);
    if loaded.Err? {
      return Err(loaded.msg);
    }
    LoadedAccounts(db, orgId, date, withBalances);
    r := ResolveAccess(perms.value, loaded.value);
  }

  /** accountsContainWriteAccess on getAccounts' result answers exactly whether the id is
      writable, since the store marks no account ReadOnly. */
  lemma WriteAccessMatches(perms: seq<string>, all: seq<Account>, out: seq<Account>)
    requires Resolution(perms, all, out)
    requires forall a :: a in all ==> !a.readOnly
    ensures DistinctBy(all, AccountId)
    ensures forall k :: AccountsContainWriteAccess(out, k) <==> k in Writable(perms, all)
  {
    AccountMapWellLinked(all);
    AccountMapOfAt(all);
    var m := AccountMapOf(all);
    var w := Writable(perms, all);
    forall k | k in m
      ensures !m[k].account.readOnly
    {
      var j :| 0 <= j < |all| && all[j].id == k;
      assert all[j] in all;
    }
    forall k
      ensures AccountsContainWriteAccess(out, k) <==> k in w
    {
      if k in w {
        assert m[k].account in out && m[k].account.id == k;
      }
      if AccountsContainWriteAccess(out, k) {
        var x :| x in out && x.id == k && !x.readOnly;
        assert x.id in m;
      }
    }
  }

  /** getAccount's search, which is getAccountFromList over getAccounts' result: a writable id
      finds its account as it is, an ancestor that is not writable finds it read-only, and
      whatever is found is writable, an ancestor or of a top-level family. */
  lemma ResolvedLookup(perms: seq<string>, all: seq<Account>, out: seq<Account>, id: string)
    requires Resolution(perms, all, out)
    ensures DistinctBy(all, AccountId)
    ensures var m := AccountMapOf(all); var found := GetAccountFromList(out, id);
      (id in Writable(perms, all) ==> id in m && found == Some(m[id].account)) &&
      (id in Above(perms, all) && id !in Writable(perms, all) ==>
         id in m && found == Some(m[id].account.(readOnly := true))) &&
      (found.Some? ==> id in m && (id in Writable(perms, all) || id in Above(perms, all) || InTopFamily(m, id)))
  {
    AccountMapWellLinked(all);
    var m := AccountMapOf(all);
    var found := GetAccountFromList(out, id);
    if found.Some? {
      var i :| 0 <= i < |out| && out[i] == found.value && found.value.id == id;
      assert out[i] in out;
      if id in m {
        assert m[id].account.id == id;
        assert (m[id].account in out ==> found == Some(m[id].account)) by {
          if m[id].account in out {
            var j :| 0 <= j < |out| && out[j] == m[id].account;
            assert i == j;
          }
        }
        assert (m[id].account.(readOnly := true) in out ==> found == Some(m[id].account.(readOnly := true))) by {
          if m[id].account.(readOnly := true) in out {
            var j :| 0 <= j < |out| && out[j] == m[id].account.(readOnly := true);
            assert i == j;
          }
        }
      }
    } else {
      if id in m {
        assert m[id].account.id == id && m[id].account !in out;
        assert m[id].account.(readOnly := true) !in out;
      }
    }
  }

  /** getAccount: the account with the id among those getAccounts returns, or nothing. The
      accounts getAccounts settled on come back as a ghost result. */
  method GetAccount(db: Db, orgId: string, accId: string, userId: string, date: Time, withBalances: bool)
    returns (r: Result<Option<Account>>, ghost accounts: seq<Account>)
    requires db.Valid()
    ensures r.Ok? <==> AccountsOk(db, orgId, userId, date, withBalances)
    ensures r.Ok? ==> Resolution(DbAccount.GetPermissionedAccountIds(db, orgId, userId).value,
                                 Loaded(db, orgId, date, withBalances).value, accounts)
    ensures r.Ok? ==> r.value == GetAccountFromList(accounts, accId)
  {
    var listed := GetAccounts(db, orgId, userId, date, withBalances);
    if listed.Err? {
      return Err(listed.msg), [];
    }
    var list := listed.value;
    accounts := list;
    var i := 0;
    while i < |list|
      invariant 0 <= i <= |list|
      invariant forall j :: 0 <= j < i ==> list[j].id != accId
    {
      if list[i].id == accId {
        return Ok(Some(list[i])), accounts;
      }
      i := i + 1;
    }
    r := Ok(None);
  }

  const ID_REQUIRED: string := "id required"
  const ORG_ID_REQUIRED: string := "orgId required"
  const NAME_REQUIRED: string := "name required"
  const CURRENCY_REQUIRED: string := "currency required"
  const OWN_PARENT: string := "account cannot be its own parent"
  const NO_PERMISSION: string := "user does not have permission to access account"
  const HAS_TRANSACTIONS: string := "Cannot delete an account that has transactions"
  const HAS_CHILDREN: string := "Cannot delete an account that has children"

  /** The refusal when the user may not write the account. */
  function NoPermission(id: string): string
  {
    NO_PERMISSION + " " + id
  }

  /** The field checks CreateAccount and UpdateAccount start with, in their order: the first
      empty one of id, orgId, name and currency. */
  function RequiredFieldError(account: Account): (r: Option<string>)
    ensures r.None? <==> account.id != "" && account.orgId != "" && account.name != "" && account.currency != ""
    ensures r.Some? ==> r.value in {ID_REQUIRED, ORG_ID_REQUIRED, NAME_REQUIRED, CURRENCY_REQUIRED}
    ensures account.id == "" ==> r == Some(ID_REQUIRED)
  {
    if account.id == "" then Some(ID_REQUIRED)
    else if account.orgId == "" then Some(ORG_ID_REQUIRED)
    else if account.name == "" then Some(NAME_REQUIRED)
    else if account.currency == "" then Some(CURRENCY_REQUIRED)
    else None
  }

  /** The user may write the account `id` of the org: getAccounts (without balances) succeeds
      and the id is writable, that is permissioned or below a permissioned account. */
  ghost predicate MayWrite(db: Db, orgId: string, userId: string, id: string)
    reads db
    requires db.Valid()
  {
    AccountsOk(db, orgId, userId, ZERO_TIME, false) &&
    (LoadedAccounts(db, orgId, ZERO_TIME, false);
     id in Writable(DbAccount.GetPermissionedAccountIds(db, orgId, userId).value, Loaded(db, orgId, ZERO_TIME, false).value))
  }

  /** The permission check CreateAccount, UpdateAccount and DeleteAccount share: getAccounts,
      then accountsContainWriteAccess on its result. */
  method CheckWriteAccess(db: Db, orgId: string, userId: string, id: string) returns (err: Option<string>)
    requires db.Valid()
    ensures err.None? <==> MayWrite(db, orgId, userId, id)
    ensures AccountsOk(db, orgId, userId, ZERO_TIME, false) && !MayWrite(db, orgId, userId, id) ==>
      err == Some(NoPermission(id))
  {
    var userAccounts := GetAccounts(db, orgId, userId, ZERO_TIME, false);
    if userAccounts.Err? {
      return Some(userAccounts.msg);
    }
    LoadedAccounts(db, orgId, ZERO_TIME, false);
    WriteAccessMatches(DbAccount.GetPermissionedAccountIds(db, orgId, userId).value,
                       Loaded(db, orgId, ZERO_TIME, false).value, userAccounts.value);
    if !AccountsContainWriteAccess(userAccounts.value, id) {
      return Some(NoPermission(id));
    }
    err := None;
  }

  /** CreateAccount: the field checks, write access to the parent, then the insert. */
  method CreateAccount(db: Db, account: Account, userId: string, now: Time) returns (a: Account, err: Option<string>)
    requires db.Valid()
    modifies db
    ensures db.Valid()
    ensures RequiredFieldError(account).Some? ==> err == RequiredFieldError(account)
    ensures (RequiredFieldError(account).None? && old(AccountsOk(db, account.orgId, userId, ZERO_TIME, false)) &&
             !old(MayWrite(db, account.orgId, userId, account.parent))) ==> err == Some(NoPermission(account.parent))
    ensures err.None? <==>
      (RequiredFieldError(account).None? && old(MayWrite(db, account.orgId, userId, account.parent)) &&
       InsertAccountStmt !in db.failing && !DbAccount.HasAccountId(old(db.t.accounts), account.id))
    ensures err.None? ==>
      (a == account.(inserted := now, updated := now) &&
       db.t == old(db.t).(accounts := old(db.t.accounts) + [DbAccount.AccountRowOf(a)]))
    ensures err.Some? ==> db.t == old(db.t)
  {
    a := account;
    err := RequiredFieldError(account);
    if err.Some? {
      return;
    }
    err := CheckWriteAccess(db, account.orgId, userId, account.parent);
    if err.Some? {
      return;
    }
    a, err := DbAccount.InsertAccount(db, account, now);
  }

  /** UpdateAccount: the field checks, the parent check, write access to the parent, then the
      update and the two balance queries. Go reads the clock once per call; each reading is a
      parameter. A balance query that fails leaves the row updated. */
  method UpdateAccount(db: Db, account: Account, userId: string, now: Time, balanceAt: Time, nativeAt: Time)
    returns (a: Account, err: Option<string>)
    requires db.Valid()
    modifies db
    ensures db.Valid()
    ensures RequiredFieldError(account).Some? ==> err == RequiredFieldError(account)
    ensures RequiredFieldError(account).None? && account.parent == account.id ==> err == Some(OWN_PARENT)
    ensures (RequiredFieldError(account).None? && account.parent != account.id &&
             old(AccountsOk(db, account.orgId, userId, ZERO_TIME, false)) &&
             !old(MayWrite(db, account.orgId, userId, account.parent))) ==> err == Some(NoPermission(account.parent))
    ensures
      var updated := account.(updated := now);
      var writes := RequiredFieldError(account).None? && account.parent != account.id &&
        old(MayWrite(db, account.orgId, userId, account.parent)) && UpdateAccountStmt !in db.failing;
      (writes ==> db.t == old(db.t).(accounts := DbAccount.UpdatedAccountRows(old(db.t.accounts), updated, TimeToMs(now)))) &&
      (!writes ==> db.t == old(db.t) && err.Some?) &&
      (err.None? <==>
         (writes && DbAccount.AddBalance(db, updated, balanceAt).Ok? &&
          DbAccount.AddNativeBalanceCost(db, DbAccount.AddBalance(db, updated, balanceAt).value, nativeAt).Ok?)) &&
      (err.None? ==>
         a == DbAccount.AddNativeBalanceCost(db, DbAccount.AddBalance(db, updated, balanceAt).value, nativeAt).value)
    ensures err.None? ==> a.balance.Some? && a.nativeBalance.Some?
  {
    a := account;
    err := RequiredFieldError(account);
    if err.Some? {
      return;
    }
    if account.parent == account.id {
      return a, Some(OWN_PARENT);
    }
    err := CheckWriteAccess(db, account.orgId, userId, account.parent);
    if err.Some? {
      return;
    }
    a, err := DbAccount.UpdateAccount(db, account, now);
    if err.Some? {
      return;
    }
    var withBalance := DbAccount.AddBalance(db, a, balanceAt);
    if withBalance.Err? {
      return a, Some(withBalance.msg);
    }
    a := withBalance.value;
    var withNative := DbAccount.AddNativeBalanceCost(db, a, nativeAt);
    if withNative.Err? {
      return a, Some(withNative.msg);
    }
    a := withNative.value;
  }

  /** DeleteAccount: write access to the account, no live split on it, no child account, the
      account readable, then the delete. A deleted account never leaves a split or a child
      behind. */
  method DeleteAccount(db: Db, id: string, userId: string, orgId: string) returns (err: Option<string>)
    requires db.Valid()
    modifies db
    ensures db.Valid()
    ensures old(AccountsOk(db, orgId, userId, ZERO_TIME, false)) && !old(MayWrite(db, orgId, userId, id)) ==>
      err == Some(NoPermission(id))
    ensures (old(MayWrite(db, orgId, userId, id)) && old(DbAccount.GetSplitCountByAccountId(db, id)).Ok? &&
             old(DbAccount.GetSplitCountByAccountId(db, id)).value != 0) ==> err == Some(HAS_TRANSACTIONS)
    ensures (old(MayWrite(db, orgId, userId, id)) && old(DbAccount.GetSplitCountByAccountId(db, id)) == Ok(0) &&
             old(DbAccount.GetChildCountByAccountId(db, id)).Ok? &&
             old(DbAccount.GetChildCountByAccountId(db, id)).value != 0) ==> err == Some(HAS_CHILDREN)
    ensures err.None? <==>
      (old(MayWrite(db, orgId, userId, id)) && old(DbAccount.GetSplitCountByAccountId(db, id)) == Ok(0) &&
       old(DbAccount.GetChildCountByAccountId(db, id)) == Ok(0) && old(DbAccount.GetAccount(db, id)).Ok? &&
       DeleteAccountStmt !in db.failing)
    ensures err.None? ==> db.t == old(db.t).(accounts := Filter(old(db.t.accounts), DbAccount.NotId(id)))
    ensures err.None? ==>
      (forall s :: s in db.t.splits && s.accountId == id ==> s.deleted) &&
      (forall r :: r in db.t.accounts ==> r.parent != id && r.id != id)
    ensures err.Some? ==> db.t == old(db.t)
  {
    err := CheckWriteAccess(db, orgId, userId, id);
    if err.Some? {
      return;
    }
    var splits := DbAccount.GetSplitCountByAccountId(db, id);
    if splits.Err? {
      return Some(splits.msg);
    }
    if splits.value != 0 {
      return Some(HAS_TRANSACTIONS);
    }
    var children := DbAccount.GetChildCountByAccountId(db, id);
    if children.Err? {
      return Some(children.msg);
    }
    if children.value != 0 {
      return Some(HAS_CHILDREN);
    }
    var account := DbAccount.GetAccount(db, id);
    if account.Err? {
      return Some(account.msg);
    }
    ghost var before := db.t.accounts;
    err := DbAccount.DeleteAccount(db, id);
    if err.None? {
      FilterMembership(before, DbAccount.NotId(id));
    }
  }
}

=== FILE: api_auth.dfy ===
/** core/api/auth.go: the HTTP middleware that reads the Authorization header, decodes HTTP
    Basic credentials and hands them to the authenticator. Header values are byte strings: a
    char below 256 stands for one byte. */
module ApiAuth {
  import opened Wrappers
  import opened Util
  import opened Types
  import opened Store
  import Auth
  import DbUser
  import Base64

  const INVALID_AUTHENTICATION: string := "Invalid authentication"
  const INVALID_BASE64: string := "Invalid base64"
  const NOT_AUTHORIZED: string := "Not Authorized"
  const STATUS_BAD_REQUEST: int := 400
  const STATUS_UNAUTHORIZED: int := 401
  const SCHEME: string := "Basic"

  /** What the middleware does with a request: pass it on with the user it found (None is Go's
      nil USER), or answer it with a status, a message and possibly a WWW-Authenticate value. */
  datatype Response = Next(user: Option<User>) | Refuse(status: int, message: string, challenge: Option<string>)

  /** The credentials of a Basic header. */
  datatype Credentials = Credentials(user: string, password: string)

  /** strings.SplitN(s, sep, 2) with a one-character separator: the text before the first
      separator and the text after it, or None when there is no separator. */
  function SplitOnce(s: string, sep: char): (r: Option<(string, string)>)
    ensures r.None? <==> sep !in s
    ensures r.Some? ==> s == r.value.0 + [sep] + r.value.1 && sep !in r.value.0
  {
    if s == [] then None
    else if s[0] == sep then Some(([], s[1..]))
    else
      match SplitOnce(s[1..], sep)
      case None => None
      case Some(parts) => Some(([s[0]] + parts.0, parts.1))
  }

  /** The split is at the first separator: any decomposition whose prefix is free of the
      separator is the one found. */
  lemma {:induction false} SplitOnceUnique(a: string, sep: char, b: string)
    requires sep !in a
    ensures SplitOnce(a + [sep] + b, sep) == Some((a, b))
  {
    if a == [] {
      assert a + [sep] + b == [sep] + b;
    } else {
      assert (a + [sep] + b)[1..] == a[1..] + [sep] + b;
      SplitOnceUnique(a[1..], sep, b);
      assert [a[0]] + a[1..] == a;
    }
  }

  /** string(decoded): each byte as one char. */
  function Text(bs: seq<byte>): (s: string)
    ensures |s| == |bs| && forall i :: 0 <= i < |bs| ==> s[i] as int == bs[i]
  {
    seq(|bs|, i requires 0 <= i < |bs| => bs[i] as char)
  }

  predicate IsByteString(s: string)
  {
    forall i :: 0 <= i < |s| ==> s[i] as int < 256
  }

  /** []byte(s) for a byte string. */
  function Bytes(s: string): (bs: seq<byte>)
    requires IsByteString(s)
    ensures Text(bs) == s
  {
    seq(|s|, i requires 0 <= i < |s| => s[i] as int)
  }

  /** decodeBasicAuthHeader: "Basic", one space, base64 of "user:password"; the password is
      everything after the first colon. */
  function DecodeBasicAuthHeader(header: string): (r: Result<Credentials>)
    ensures r.Err? ==> r.msg == INVALID_AUTHENTICATION || r.msg == INVALID_BASE64
    ensures r.Ok? ==> ':' !in r.value.user
    ensures r.Ok? <==> (
      SplitOnce(header, ' ').Some? && SplitOnce(header, ' ').value.0 == SCHEME &&
      Base64.Decode(SplitOnce(header, ' ').value.1).Some? &&
      ':' in Text(Base64.Decode(SplitOnce(header, ' ').value.1).value))
  {
    match SplitOnce(header, ' ')
    case None => Err(INVALID_AUTHENTICATION)
    case Some(parts) =>
      if parts.0 != SCHEME then Err(INVALID_AUTHENTICATION)
      else
        match Base64.Decode(parts.1)
        case None => Err(INVALID_BASE64)
        case Some(decoded) =>
          match SplitOnce(Text(decoded), ':')
          case None => Err(INVALID_AUTHENTICATION)
          case Some(creds) => Ok(Credentials(creds.0, creds.1))
  }

  /** A client that sends "Basic " and the base64 of "user:password" is understood, whatever the
      password holds, colons included. */
  lemma BasicRoundTrip(user: string, password: string)
    requires ':' !in user && IsByteString(user + ":" + password)
    ensures DecodeBasicAuthHeader(SCHEME + " " + Base64.Encode(Bytes(user + ":" + password))) ==
      Ok(Credentials(user, password))
  {
    var plain := user + ":" + password;
    var encoded := Base64.Encode(Bytes(plain));
    assert ' ' !in SCHEME;
    assert SCHEME + " " + encoded == SCHEME + [' '] + encoded;
    SplitOnceUnique(SCHEME, ' ', encoded);
    Base64.DecodeEncode(Bytes(plain));
    assert plain == user + [':'] + password;
    SplitOnceUnique(user, ':', password);
  }

  /** A header with another scheme, or with no space at all, is refused before any decoding. */
  lemma OtherSchemesRefused(header: string)
    requires SplitOnce(header, ' ').None? || SplitOnce(header, ' ').value.0 != SCHEME
    ensures DecodeBasicAuthHeader(header) == Err(INVALID_AUTHENTICATION)
  {
  }

  /** The WWW-Authenticate value of an unauthorized answer. */
  function Challenge(realm: string): (c: string)
    ensures |c| > |realm| && c[|c| - |realm|..] == realm
  {
    SCHEME + " realm=" + realm
  }

  /** What MiddlewareFunc's handler does, given the tables the authenticator reads: no header
      passes a nil user on, a header that does not decode is a bad request, an accepted
      credential passes its user on, anything else is unauthorized. */
  function Admission(t: Tables, failing: set<Statement>, realm: string, header: string,
                     matches: (string, string) -> bool): (r: Response)
    ensures header == "" <==> r == Next(None)
    ensures r.Refuse? ==> (
      (r.status == STATUS_BAD_REQUEST && r.message == INVALID_AUTHENTICATION && r.challenge.None?) ||
      (r.status == STATUS_UNAUTHORIZED && r.message == NOT_AUTHORIZED && r.challenge == Some(Challenge(realm))))
  {
    if header == "" then Next(None)
    else
      match DecodeBasicAuthHeader(header)
      case Err(_) => Refuse(STATUS_BAD_REQUEST, INVALID_AUTHENTICATION, None)
      case Ok(c) =>
        match Auth.Answer(t, failing, c.user, c.password, matches)
        case Ok(user) => Next(Some(user))
        case Err(_) => Refuse(STATUS_UNAUTHORIZED, NOT_AUTHORIZED, Some(Challenge(realm)))
  }

  /** A header that does not decode, whatever the reason, is a bad request with one message. */
  lemma MalformedIsBadRequest(t: Tables, failing: set<Statement>, realm: string, header: string,
                              matches: (string, string) -> bool)
    requires header != "" && DecodeBasicAuthHeader(header).Err?
    ensures Admission(t, failing, realm, header, matches) == Refuse(STATUS_BAD_REQUEST, INVALID_AUTHENTICATION, None)
  {
  }

  /** A request goes on with a user exactly when its header decodes to credentials the
      authenticator accepts, and the user is the one it answered with. */
  lemma AdmittedUsers(t: Tables, failing: set<Statement>, realm: string, header: string,
                      matches: (string, string) -> bool)
    ensures var r := Admission(t, failing, realm, header, matches);
      r.Next? && r.user.Some? ==> (header != "" && DecodeBasicAuthHeader(header).Ok? &&
        Auth.Answer(t, failing, DecodeBasicAuthHeader(header).value.user,
          DecodeBasicAuthHeader(header).value.password, matches) == Ok(r.user.value))
    ensures header != "" && DecodeBasicAuthHeader(header).Ok? ==>
      var c := DecodeBasicAuthHeader(header).value;
      var a := Auth.Answer(t, failing, c.user, c.password, matches);
      a.Ok? ==> Admission(t, failing, realm, header, matches) == Next(Some(a.value))
  {
  }

  /** MiddlewareFunc: the realm must be set (the server stops otherwise). Only an accepted
      session or key can change the tables, by stamping that session's or key's activity. */
  method Middleware(db: Db, realm: string, header: string, matches: (string, string) -> bool, now: Time)
    returns (r: Response)
    requires realm != ""
    requires db.Valid()
    modifies db
    ensures db.Valid()
    ensures r == Admission(old(db.t), db.failing, realm, header, matches)
    ensures !(r.Next? && r.user.Some?) ==> db.t == old(db.t)
    ensures header == "" || DecodeBasicAuthHeader(header).Err? ==> db.t == old(db.t)
    ensures header != "" && DecodeBasicAuthHeader(header).Ok? ==>
      var key := DecodeBasicAuthHeader(header).value.user;
      (Auth.SessionUser(old(db.t), db.failing, key).Ok? ==>
         db.t == if SessionActivityStmt in db.failing then old(db.t)
                 else DbUser.WithSessionActivity(old(db.t), key, TimeToMs(now))) &&
      (Auth.SessionUser(old(db.t), db.failing, key).Err? && Auth.ApiKeyUser(old(db.t), db.failing, key).Ok? ==>
         db.t == if ApiKeyActivityStmt in db.failing then old(db.t)
                 else DbUser.WithApiKeyActivity(old(db.t), key, TimeToMs(now))) &&
      (Auth.SessionUser(old(db.t), db.failing, key).Err? && Auth.ApiKeyUser(old(db.t), db.failing, key).Err? ==>
         db.t == old(db.t))
  {
    if header == "" {
      return Next(None);
    }
    var creds := DecodeBasicAuthHeader(header);
    if creds.Err? {
      return Refuse(STATUS_BAD_REQUEST, INVALID_AUTHENTICATION, None);
    }
    var user := Auth.Authenticate(db, creds.value.user, creds.value.password, matches, now);
    if user.Ok? {
      return Next(Some(user.value));
    }
    r := Refuse(STATUS_UNAUTHORIZED, NOT_AUTHORIZED, Some(Challenge(realm)));
  }

  /** RequireAuth: a request without a user is unauthorized; one with a user goes on. */
  function RequireAuth(user: Option<User>, realm: string): (r: Response)
    ensures r.Next? <==> user.Some?
    ensures r.Next? ==> r.user == user
    ensures r.Refuse? ==> r == Refuse(STATUS_UNAUTHORIZED, NOT_AUTHORIZED, Some(Challenge(realm)))
  {
    if user.None? then Refuse(STATUS_UNAUTHORIZED, NOT_AUTHORIZED, Some(Challenge(realm)))
    else Next(user)
  }

  /** The two layers together: a route behind RequireAuth is reached only with a user the
      authenticator accepted, and a request with no header is unauthorized there. */
  lemma GuardedRoutes(t: Tables, failing: set<Statement>, realm: string, header: string,
                      matches: (string, string) -> bool)
    ensures var a := Admission(t, failing, realm, header, matches);
      a.Next? ==> (RequireAuth(a.user, realm).Next? <==> header != "")
    ensures header == "" ==>
      RequireAuth(Admission(t, failing, realm, header, matches).user, realm).Refuse?
  {
  }
}

=== FILE: auth.dfy ===
/** core/auth/auth.go: who a credential belongs to. The bcrypt comparison is an input
    (`matches(hash, password)`). */
module Auth {
  import opened Wrappers
  import opened Util
  import opened Types
  import opened Store
  import DbUser

  const UNAUTHORIZED: string := "Unauthorized"
  const INVALID_LOGIN: string := "Invalid email or password"
  const INVALID_SESSION: string := "Invalid session"
  const ACCESS_DENIED: string := "Access denied"

  /** AuthenticateUser: a verified user with that address whose hash matches the password. An
      unknown address and a wrong password are told apart by nothing. */
  function AuthenticateUser(t: Tables, failing: set<Statement>, email: string, password: string,
                            matches: (string, string) -> bool): (r: Result<User>)
    ensures r.Err? ==> r.msg == INVALID_LOGIN
    ensures r.Ok? <==> (DbUser.GetVerifiedUserByEmail(t, failing, email).Ok? &&
      matches(DbUser.GetVerifiedUserByEmail(t, failing, email).value.passwordHash, password))
    ensures r.Ok? ==> r.value.email == email && r.value.emailVerified
  {
    var u := DbUser.GetVerifiedUserByEmail(t, failing, email);
    if u.Err? then Err(INVALID_LOGIN)
    else if !matches(u.value.passwordHash, password) then Err(INVALID_LOGIN)
    else Ok(u.value)
  }

  /** The lookups of AuthenticateSession and AuthenticateApiKey, with their own messages. */
  function SessionUser(t: Tables, failing: set<Statement>, id: string): (r: Result<User>)
    ensures r.Err? ==> r.msg == INVALID_SESSION
    ensures r.Ok? <==> DbUser.GetUserByActiveSession(t, failing, id).Ok?
  {
    var u := DbUser.GetUserByActiveSession(t, failing, id);
    if u.Err? then Err(INVALID_SESSION) else u
  }

  function ApiKeyUser(t: Tables, failing: set<Statement>, id: string): (r: Result<User>)
    ensures r.Err? ==> r.msg == ACCESS_DENIED
    ensures r.Ok? <==> DbUser.GetUserByApiKey(t, failing, id).Ok?
  {
    var u := DbUser.GetUserByApiKey(t, failing, id);
    if u.Err? then Err(ACCESS_DENIED) else u
  }

  /** What Authenticate answers for a credential: session, then API key, then address and
      password; the first that succeeds. */
  function Answer(t: Tables, failing: set<Statement>, emailOrKey: string, password: string,
                  matches: (string, string) -> bool): Result<User>
  {
    if SessionUser(t, failing, emailOrKey).Ok? then SessionUser(t, failing, emailOrKey)
    else if ApiKeyUser(t, failing, emailOrKey).Ok? then ApiKeyUser(t, failing, emailOrKey)
    else if AuthenticateUser(t, failing, emailOrKey, password, matches).Ok? then
      AuthenticateUser(t, failing, emailOrKey, password, matches)
    else Err(UNAUTHORIZED)
  }

  /** AuthenticateSession: a live session's user; the activity stamp follows a successful lookup
      and its failure is not reported. */
  method AuthenticateSession(db: Db, id: string, now: Time) returns (r: Result<User>)
    requires db.Valid()
    modifies db
    ensures db.Valid()
    ensures r == SessionUser(old(db.t), db.failing, id)
    ensures r.Err? || SessionActivityStmt in db.failing ==> db.t == old(db.t)
    ensures r.Ok? && SessionActivityStmt !in db.failing ==> db.t == DbUser.WithSessionActivity(old(db.t), id, TimeToMs(now))
  {
    r := SessionUser(db.t, db.failing, id);
    if r.Err? {
      return;
    }
    var _ := DbUser.UpdateSessionActivity(db, id, now);
  }

  /** AuthenticateApiKey: a live key's user; the activity stamp as for sessions. */
  method AuthenticateApiKey(db: Db, id: string, now: Time) returns (r: Result<User>)
    requires db.Valid()
    modifies db
    ensures db.Valid()
    ensures r == ApiKeyUser(old(db.t), db.failing, id)
    ensures r.Err? || ApiKeyActivityStmt in db.failing ==> db.t == old(db.t)
    ensures r.Ok? && ApiKeyActivityStmt !in db.failing ==> db.t == DbUser.WithApiKeyActivity(old(db.t), id, TimeToMs(now))
  {
    r := ApiKeyUser(db.t, db.failing, id);
    if r.Err? {
      return;
    }
    var _ := DbUser.UpdateApiKeyActivity(db, id, now);
  }

  /** Authenticate: the fallback chain. A failed attempt changes nothing, so each later attempt
      reads the tables the call started with. A live session stamps that session's activity, a
      live key that key's; the password path and a failure write nothing. */
  method Authenticate(db: Db, emailOrKey: string, password: string, matches: (string, string) -> bool, now: Time)
    returns (r: Result<User>)
    requires db.Valid()
    modifies db
    ensures db.Valid()
    ensures r == Answer(old(db.t), db.failing, emailOrKey, password, matches)
    ensures SessionUser(old(db.t), db.failing, emailOrKey).Ok? ==>
      db.t == if SessionActivityStmt in db.failing then old(db.t)
              else DbUser.WithSessionActivity(old(db.t), emailOrKey, TimeToMs(now))
    ensures SessionUser(old(db.t), db.failing, emailOrKey).Err? && ApiKeyUser(old(db.t), db.failing, emailOrKey).Ok? ==>
      db.t == if ApiKeyActivityStmt in db.failing then old(db.t)
              else DbUser.WithApiKeyActivity(old(db.t), emailOrKey, TimeToMs(now))
    ensures SessionUser(old(db.t), db.failing, emailOrKey).Err? && ApiKeyUser(old(db.t), db.failing, emailOrKey).Err? ==>
      db.t == old(db.t)
    ensures r.Err? ==> db.t == old(db.t)
  {
    r := AuthenticateSession(db, emailOrKey, now);
    if r.Ok? {
      return;
    }
    r := AuthenticateApiKey(db, emailOrKey, now);
    if r.Ok? {
      return;
    }
    r := AuthenticateUser(db.t, db.failing, emailOrKey, password, matches);
    if r.Ok? {
      return;
    }
    r := Err(UNAUTHORIZED);
  }

  /** The order of the chain: a live session wins over everything, a live key over a password,
      and the answer is "Unauthorized" exactly when all three fail. */
  lemma AnswerOrder(t: Tables, failing: set<Statement>, emailOrKey: string, password: string, matches: (string, string) -> bool)
    ensures var a := Answer(t, failing, emailOrKey, password, matches);
      (DbUser.GetUserByActiveSession(t, failing, emailOrKey).Ok? ==> a == DbUser.GetUserByActiveSession(t, failing, emailOrKey)) &&
      (DbUser.GetUserByActiveSession(t, failing, emailOrKey).Err? && DbUser.GetUserByApiKey(t, failing, emailOrKey).Ok? ==>
        a == DbUser.GetUserByApiKey(t, failing, emailOrKey)) &&
      (a.Err? <==> (DbUser.GetUserByActiveSession(t, failing, emailOrKey).Err? &&
        DbUser.GetUserByApiKey(t, failing, emailOrKey).Err? && AuthenticateUser(t, failing, emailOrKey, password, matches).Err?)) &&
      (a.Err? ==> a.msg == UNAUTHORIZED)
  {
  }

  /** The session and key paths never look at the password. */
  lemma PasswordIgnoredForTokens(t: Tables, failing: set<Statement>, key: string, p1: string, p2: string,
                                 matches: (string, string) -> bool)
    requires DbUser.GetUserByActiveSession(t, failing, key).Ok? || DbUser.GetUserByApiKey(t, failing, key).Ok?
    ensures Answer(t, failing, key, p1, matches) == Answer(t, failing, key, p2, matches)
    ensures Answer(t, failing, key, p1, matches).Ok?
  {
  }
}

=== FILE: base64.dfy ===
/** Base64 with the standard alphabet and '=' padding (section 4 of RFC 4648), decoded the way
    Go's base64.StdEncoding.DecodeString does it: carriage returns and line feeds are skipped,
    padding is required, nothing may follow it, and the unused low bits of a padded final
    quantum are not checked. */
module Base64 {
  import opened Wrappers
  import opened Util

  /** What the decoder's table says about one input character. */
  datatype Sym = Six(v: sextet) | Pad | Invalid

  type sextet = v: int | 0 <= v < 64

  predicate ValidSym(y: Sym)
  {
    !y.Invalid?
  }

  /** The digit for a 6-bit value. */
  function Digit(v: sextet): (c: char)
  {
    if v < 26 then ('A' as int + v) as char
    else if v < 52 then ('a' as int + (v - 26)) as char
    else if v < 62 then ('0' as int + (v - 52)) as char
    else if v == 62 then '+'
    else '/'
  }

  /** The decoding table: a digit's 6-bit value, the padding character, or neither. */
  function Classify(c: char): (y: Sym)
  {
    if 'A' <= c <= 'Z' then Six(c as int - 'A' as int)
    else if 'a' <= c <= 'z' then Six(c as int - 'a' as int + 26)
    else if '0' <= c <= '9' then Six(c as int - '0' as int + 52)
    else if c == '+' then Six(62)
    else if c == '/' then Six(63)
    else if c == '=' then Pad
    else Invalid
  }

  /** Each value has its own digit, the table reads the digit back as the value, and no digit
      is a line break. */
  lemma ClassifyDigit(v: sextet)
    ensures Classify(Digit(v)) == Six(v) && Digit(v) != '\r' && Digit(v) != '\n'
  {
  }

  // ---- encoding (the definition the decoder is checked against) -------------------------------

  /** Three bytes become four 6-bit values; a final one or two bytes are padded. */
  function EncodeSyms(bs: seq<byte>): (y: seq<Sym>)
    ensures |y| % 4 == 0
    ensures forall i :: 0 <= i < |y| ==> ValidSym(y[i])
  {
    if bs == [] then []
    else if |bs| == 1 then
      [Six(bs[0] / 4), Six(bs[0] % 4 * 16), Pad, Pad]
    else if |bs| == 2 then
      [Six(bs[0] / 4), Six(bs[0] % 4 * 16 + bs[1] / 16), Six(bs[1] % 16 * 4), Pad]
    else
      [Six(bs[0] / 4), Six(bs[0] % 4 * 16 + bs[1] / 16), Six(bs[1] % 16 * 4 + bs[2] / 64), Six(bs[2] % 64)]
        + EncodeSyms(bs[3..])
  }

  /** The characters for a sequence of values and pads. */
  function Render(y: seq<Sym>): (s: string)
    requires forall i :: 0 <= i < |y| ==> ValidSym(y[i])
    ensures |s| == |y|
    ensures forall i :: 0 <= i < |y| ==> s[i] == Char(y[i])
  {
    seq(|y|, i requires 0 <= i < |y| => Char(y[i]))
  }

  function Char(y: Sym): (c: char)
    requires ValidSym(y)
  {
    if y.Six? then Digit(y.v) else '='
  }

  /** EncodeToString. */
  function Encode(bs: seq<byte>): (s: string)
    ensures |s| % 4 == 0 && (bs == [] <==> s == "")
  {
    Render(EncodeSyms(bs))
  }

  // ---- decoding -----------------------------------------------------------------------------

  /** The input with every '\r' and '\n' removed. */
  function StripNewlines(s: string): (r: string)
    ensures forall i :: 0 <= i < |r| ==> r[i] != '\r' && r[i] != '\n'
    ensures (forall i :: 0 <= i < |s| ==> s[i] != '\r' && s[i] != '\n') ==> r == s
  {
    if s == [] then []
    else if s[0] == '\r' || s[0] == '\n' then StripNewlines(s[1..])
    else [s[0]] + StripNewlines(s[1..])
  }

  /** The table applied to every character. */
  function Symbols(s: string): (y: seq<Sym>)
    ensures |y| == |s| && forall i :: 0 <= i < |s| ==> y[i] == Classify(s[i])
  {
    seq(|s|, i requires 0 <= i < |s| => Classify(s[i]))
  }

  /** One quantum: four values give three bytes, two values and two pads one byte, three
      values and a pad two bytes; anything else is corrupt. */
  function Quantum(y0: Sym, y1: Sym, y2: Sym, y3: Sym): (r: Option<seq<byte>>)
    ensures r.Some? ==> 1 <= |r.value| <= 3 && (|r.value| == 3 <==> y3.Six?)
  {
    if !y0.Six? || !y1.Six? then None
    else if y2.Pad? then
      if y3.Pad? then Some([y0.v * 4 + y1.v / 16]) else None
    else if !y2.Six? then None
    else if y3.Pad? then Some([y0.v * 4 + y1.v / 16, y1.v % 16 * 16 + y2.v / 4])
    else if !y3.Six? then None
    else Some([y0.v * 4 + y1.v / 16, y1.v % 16 * 16 + y2.v / 4, y2.v % 4 * 64 + y3.v])
  }

  /** Quanta one after another; a padded quantum must be the last. */
  function DecodeSyms(y: seq<Sym>): (r: Option<seq<byte>>)
    ensures r.Some? ==> |y| % 4 == 0 && 4 * |r.value| <= 3 * |y|
    decreases |y|
  {
    if y == [] then Some([])
    else if |y| < 4 then None
    else
      match Quantum(y[0], y[1], y[2], y[3])
      case None => None
      case Some(q) =>
        if |q| < 3 then (if |y| == 4 then Some(q) else None)
        else
          match DecodeSyms(y[4..])
          case None => None
          case Some(rest) => Some(q + rest)
  }

  /** DecodeString: None stands for the CorruptInputError. */
  function Decode(s: string): (r: Option<seq<byte>>)
    ensures r.Some? ==> 4 * |r.value| <= 3 * |StripNewlines(s)|
  {
    DecodeSyms(Symbols(StripNewlines(s)))
  }

  /** Decoding undoes encoding. */
  lemma DecodeEncode(bs: seq<byte>)
    ensures Decode(Encode(bs)) == Some(bs)
  {
    var y := EncodeSyms(bs);
    var s := Render(y);
    forall i | 0 <= i < |s|
      ensures s[i] != '\r' && s[i] != '\n' && Classify(s[i]) == y[i]
    {
      if y[i].Six? {
        ClassifyDigit(y[i].v);
      }
    }
    assert StripNewlines(s) == s;
    assert Symbols(s) == y;
    SymsRoundTrip(bs);
  }

  lemma {:induction false} SymsRoundTrip(bs: seq<byte>)
    ensures DecodeSyms(EncodeSyms(bs)) == Some(bs)
    decreases |bs|
  {
    if bs == [] {
    } else if |bs| == 1 {
      FinalOne(bs[0]);
      assert bs == [bs[0]];
    } else if |bs| == 2 {
      FinalTwo(bs[0], bs[1]);
      assert bs == [bs[0], bs[1]];
    } else {
      GroupStep(bs);
      SymsRoundTrip(bs[3..]);
      assert bs == [bs[0], bs[1], bs[2]] + bs[3..];
    }
  }

  lemma FinalOne(b0: byte)
    ensures DecodeSyms(EncodeSyms([b0])) == Some([b0])
  {
    var a, b := b0 / 4, b0 % 4 * 16;
    assert EncodeSyms([b0]) == [Six(a), Six(b), Pad, Pad];
    DecodeOne(a, b);
    Regroup(b0, 0, 0);
    var one: seq<byte> := [b0];
    assert [a * 4 + b / 16] == one;
  }

  lemma FinalTwo(b0: byte, b1: byte)
    ensures DecodeSyms(EncodeSyms([b0, b1])) == Some([b0, b1])
  {
    var a, b, c := b0 / 4, b0 % 4 * 16 + b1 / 16, b1 % 16 * 4;
    assert EncodeSyms([b0, b1]) == [Six(a), Six(b), Six(c), Pad];
    DecodeTwo(a, b, c);
    Regroup(b0, b1, 0);
    var two: seq<byte> := [b0, b1];
    assert [a * 4 + b / 16, b % 16 * 16 + c / 4] == two;
  }

  /** One full group: its three bytes come back, followed by what the rest gives. */
  lemma GroupStep(bs: seq<byte>)
    requires |bs| >= 3
    ensures DecodeSyms(EncodeSyms(bs)) ==
      if DecodeSyms(EncodeSyms(bs[3..])).None? then None
      else Some([bs[0], bs[1], bs[2]] + DecodeSyms(EncodeSyms(bs[3..])).value)
  {
    EncodeHead(bs);
    GroupDecodes(bs[0], bs[1], bs[2], EncodeSyms(bs[3..]));
  }

  /** The values of three bytes. */
  function Group(b0: byte, b1: byte, b2: byte): (y: seq<Sym>)
  {
    [Six(b0 / 4), Six(b0 % 4 * 16 + b1 / 16), Six(b1 % 16 * 4 + b2 / 64), Six(b2 % 64)]
  }

  lemma EncodeHead(bs: seq<byte>)
    requires |bs| >= 3
    ensures EncodeSyms(bs) == Group(bs[0], bs[1], bs[2]) + EncodeSyms(bs[3..])
  {
  }

  lemma GroupDecodes(b0: byte, b1: byte, b2: byte, rest: seq<Sym>)
    ensures DecodeSyms(Group(b0, b1, b2) + rest) ==
      if DecodeSyms(rest).None? then None else Some([b0, b1, b2] + DecodeSyms(rest).value)
  {
    var a, b, c, d := b0 / 4, b0 % 4 * 16 + b1 / 16, b1 % 16 * 4 + b2 / 64, b2 % 64;
    Regroup(b0, b1, b2);
    DecodeThree(a, b, c, d, rest);
    var group: seq<byte> := [b0, b1, b2];
    assert [a * 4 + b / 16, b % 16 * 16 + c / 4, c % 4 * 64 + d] == group;
  }

  /** A final quantum of two values and two pads. */
  lemma DecodeOne(a: sextet, b: sextet)
    ensures DecodeSyms([Six(a), Six(b), Pad, Pad]) == Some([a * 4 + b / 16])
  {
    assert Quantum(Six(a), Six(b), Pad, Pad) == Some([a * 4 + b / 16]);
  }

  /** A final quantum of three values and one pad. */
  lemma DecodeTwo(a: sextet, b: sextet, c: sextet)
    ensures DecodeSyms([Six(a), Six(b), Six(c), Pad]) == Some([a * 4 + b / 16, b % 16 * 16 + c / 4])
  {
    assert Quantum(Six(a), Six(b), Six(c), Pad) == Some([a * 4 + b / 16, b % 16 * 16 + c / 4]);
  }

  /** A quantum of four values, followed by whatever the rest decodes to. */
  lemma DecodeThree(a: sextet, b: sextet, c: sextet, d: sextet, rest: seq<Sym>)
    ensures DecodeSyms([Six(a), Six(b), Six(c), Six(d)] + rest) ==
      if DecodeSyms(rest).None? then None
      else Some([a * 4 + b / 16, b % 16 * 16 + c / 4, c % 4 * 64 + d] + DecodeSyms(rest).value)
  {
    var y := [Six(a), Six(b), Six(c), Six(d)] + rest;
    assert y[..4] == [Six(a), Six(b), Six(c), Six(d)] && y[4..] == rest;
    assert Quantum(y[0], y[1], y[2], y[3]) == Some([a * 4 + b / 16, b % 16 * 16 + c / 4, c % 4 * 64 + d]);
  }

  /** The arithmetic of one group: the 6-bit values put back together give the bytes. */
  lemma Regroup(b0: int, b1: int, b2: int)
    requires 0 <= b0 < 256 && 0 <= b1 < 256 && 0 <= b2 < 256
    ensures var v1, v2 := b0 % 4 * 16 + b1 / 16, b1 % 16 * 4 + b2 / 64;
      0 <= v1 < 64 && 0 <= v2 < 64 &&
      b0 / 4 * 4 + v1 / 16 == b0 && v1 % 16 * 16 + v2 / 4 == b1 && v2 % 4 * 64 + b2 % 64 == b2
  {
    var v1, v2 := b0 % 4 * 16 + b1 / 16, b1 % 16 * 4 + b2 / 64;
    assert v1 / 16 == b0 % 4 && v1 % 16 == b1 / 16;
    assert v2 / 4 == b1 % 16 && v2 % 4 == b2 / 64;
  }

  /** A cut-off quantum is refused. */
  lemma RejectsShortQuantum()
    ensures Decode("QQ=") == None
  {
    assert StripNewlines("QQ=") == "QQ=";
  }

  /** Padding in the second place is refused. */
  lemma RejectsEarlyPadding()
    ensures Decode("Q===") == None
  {
    assert StripNewlines("Q===") == "Q===";
  }

  /** Nothing may follow a padded quantum. */
  lemma NothingAfterPadding(y: seq<Sym>)
    requires |y| > 4 && y[3] == Pad
    ensures DecodeSyms(y) == None
  {
  }

  lemma RejectsDataAfterPadding()
    ensures Decode("QQ==QQ") == None
  {
    assert StripNewlines("QQ==QQ") == "QQ==QQ";
    NothingAfterPadding(Symbols("QQ==QQ"));
  }

  /** A character outside the alphabet is refused. */
  lemma RejectsForeignCharacter()
    ensures Decode("QQ-=") == None
  {
    assert StripNewlines("QQ-=") == "QQ-=";
    assert Symbols("QQ-=")[2] == Invalid;
  }

  /** A line break inside the input is skipped. */
  lemma SkipsLineBreaks()
    ensures Decode("QU\r\nJD") == Some([65, 66, 67])
  {
    var s := "QU\r\nJD";
    assert StripNewlines(s[4..]) == "JD";
    assert StripNewlines(s[2..]) == "JD";
    assert StripNewlines(s) == "QUJD";
    assert Symbols("QUJD") == [Six(16), Six(20), Six(9), Six(3)];
    var y := [Six(16), Six(20), Six(9), Six(3)];
    assert Quantum(y[0], y[1], y[2], y[3]) == Some([65, 66, 67]);
    assert y[4..] == [];
    var abc: seq<byte> := [65, 66, 67];
    assert abc + [] == abc;
    assert DecodeSyms(y) == Some(abc);
  }

  /** The low bits of a padded final quantum are not checked: values that differ only there
      decode alike. */
  lemma LowBitsUnchecked(a: sextet, b: sextet, b': sextet, c: sextet, c': sextet)
    ensures b / 16 == b' / 16 ==> DecodeSyms([Six(a), Six(b), Pad, Pad]) == DecodeSyms([Six(a), Six(b'), Pad, Pad])
    ensures c / 4 == c' / 4 ==> DecodeSyms([Six(a), Six(b), Six(c), Pad]) == DecodeSyms([Six(a), Six(b), Six(c'), Pad])
  {
    DecodeOne(a, b);
    DecodeOne(a, b');
    DecodeTwo(a, b, c);
    DecodeTwo(a, b, c');
  }

  /** "QR==" carries a stray low bit and still gives "A". */
  lemma StrayLowBit()
    ensures Decode("QR==") == Some([65])
  {
    assert StripNewlines("QR==") == "QR==";
    assert Symbols("QR==") == [Six(16), Six(17), Pad, Pad];
    DecodeOne(16, 17);
  }
}

=== FILE: budgets.dfy ===
/** core/model/budget.go: the membership gate in front of each budget operation. */
module Budgets {
  import opened Wrappers
  import opened Util
  import opened Types
  import opened Store
  import Orgs
  import DbBudget
  import Accounts

  /** GetBudget: members only; then the store's read. */
  method GetBudget(db: Db, orgId: string, userId: string) returns (r: Result<Budget>)
    requires db.Valid()
    ensures GetOrgsStmt in db.failing ==> r == Err(DB_ERROR)
    ensures GetOrgsStmt !in db.failing && !Orgs.BelongsTo(db.t, userId, orgId) ==> r == Err(Orgs.NOT_MEMBER)
    ensures GetOrgsStmt !in db.failing && Orgs.BelongsTo(db.t, userId, orgId) ==>
      r == DbBudget.StoredBudget(db.t, db.failing, orgId)
  {
    var belongs, err := Orgs.UserBelongsToOrg(db, userId, orgId);
    if err.Some? {
      return Err(err.value);
    }
    if !belongs {
      return Err(Orgs.NOT_MEMBER);
    }
    r := DbBudget.GetBudget(db, orgId);
  }

  /** CreateBudget: membership first, then a non-empty org id, then the replace. */
  method CreateBudget(db: Db, budget: Budget, userId: string, now: Time) returns (b: Budget, err: Option<string>)
    requires db.Valid()
    modifies db
    ensures db.Valid()
    ensures GetOrgsStmt in db.failing ==> err == Some(DB_ERROR)
    ensures GetOrgsStmt !in db.failing && old(!Orgs.BelongsTo(db.t, userId, budget.orgId)) ==> err == Some(Orgs.NOT_MEMBER)
    ensures GetOrgsStmt !in db.failing && old(Orgs.BelongsTo(db.t, userId, budget.orgId)) && budget.orgId == "" ==>
      err == Some(Accounts.ORG_ID_REQUIRED)
    ensures err.None? <==>
      GetOrgsStmt !in db.failing && old(Orgs.BelongsTo(db.t, userId, budget.orgId)) && budget.orgId != "" &&
      ReplaceBudgetStmt !in db.failing
    ensures err.None? ==> b == budget.(inserted := now) && db.t == DbBudget.Replaced(old(db.t), b)
    ensures err.Some? ==> db.t == old(db.t)
  {
    b := budget;
    var belongs;
    belongs, err := Orgs.UserBelongsToOrg(db, userId, budget.orgId);
    if err.Some? {
      return;
    }
    if !belongs {
      return b, Some(Orgs.NOT_MEMBER);
    }
    if budget.orgId == "" {
      return b, Some(Accounts.ORG_ID_REQUIRED);
    }
    b, err := DbBudget.InsertAndReplaceBudget(db, budget, now);
  }

  /** DeleteBudget: members only; then every item of the org is removed. */
  method DeleteBudget(db: Db, orgId: string, userId: string) returns (err: Option<string>)
    requires db.Valid()
    modifies db
    ensures db.Valid()
    ensures GetOrgsStmt in db.failing ==> err == Some(DB_ERROR)
    ensures GetOrgsStmt !in db.failing && old(!Orgs.BelongsTo(db.t, userId, orgId)) ==> err == Some(Orgs.NOT_MEMBER)
    ensures err.None? <==>
      GetOrgsStmt !in db.failing && old(Orgs.BelongsTo(db.t, userId, orgId)) && DeleteBudgetStmt !in db.failing
    ensures err.None? ==> db.t == DbBudget.WithoutBudget(old(db.t), orgId)
    ensures err.Some? ==> db.t == old(db.t)
  {
    var belongs;
    belongs, err := Orgs.UserBelongsToOrg(db, userId, orgId);
    if err.Some? {
      return;
    }
    if !belongs {
      return Some(Orgs.NOT_MEMBER);
    }
    err := DbBudget.DeleteBudget(db, orgId);
  }
}

=== FILE: db_account.dfy ===
/** core/model/db/account.go: the account table, permission lookups and balance sums. */
module DbAccount {
  import opened Wrappers
  import opened Int64
  import opened Util
  import opened Types
  import opened Store
  import opened Seqs

  /** UNHEX(parent) for the column: "" is stored as sixteen zero bytes. */
  function StoredParent(parent: string): string
  {
    if parent == "" then EMPTY_ACCOUNT_ID else parent
  }

  /** LOWER(HEX(parent)) read back, with the sixteen zero bytes mapped to "" again. */
  function ReadParent(stored: string): (parent: string)
    ensures stored == EMPTY_ACCOUNT_ID ==> parent == ""
    ensures stored != EMPTY_ACCOUNT_ID ==> parent == stored
  {
    if stored == EMPTY_ACCOUNT_ID then "" else stored
  }

  /** A parent survives the trip through the column unless it is itself the all-zero id. */
  lemma ParentRoundTrip(parent: string)
    requires parent != EMPTY_ACCOUNT_ID
    ensures ReadParent(StoredParent(parent)) == parent
  {
  }

  /** The row InsertAccount writes. */
  function AccountRowOf(a: Account): AccountRow
  {
    AccountRow(a.id, a.orgId, TimeToMs(a.inserted), TimeToMs(a.updated), a.name,
               StoredParent(a.parent), a.currency, a.precision, a.debitBalance)
  }

  /** A scanned row: no balances, not read-only, no children known. */
  function ToAccount(r: AccountRow): Account
  {
    Account(r.id, r.orgId, MsToTime(r.inserted), MsToTime(r.updated), r.name, ReadParent(r.parent),
            r.currency, r.precision, r.debitBalance, None, None, false, false)
  }

  /** An account read back after insertion keeps every column; times lose their sub-millisecond part. */
  lemma ReadBackAccount(a: Account)
    requires a.parent != EMPTY_ACCOUNT_ID
    ensures ToAccount(AccountRowOf(a)) ==
      a.(inserted := MsToTime(TimeToMs(a.inserted)), updated := MsToTime(TimeToMs(a.updated)),
         balance := None, nativeBalance := None, readOnly := false, hasChildren := false)
  {
  }

  predicate HasAccountId(rows: seq<AccountRow>, id: string)
  {
    exists i :: 0 <= i < |rows| && rows[i].id == id
  }

  /** The first row with the id: `WHERE id = UNHEX(?)` read with QueryRow. */
  function FindAccountRow(rows: seq<AccountRow>, id: string): (r: Option<AccountRow>)
    ensures r.Some? ==> r.value in rows && r.value.id == id
    ensures r.None? <==> !HasAccountId(rows, id)
  {
    if rows == [] then None
    else if rows[0].id == id then Some(rows[0])
    else
      var rest := FindAccountRow(rows[1..], id);
      assert HasAccountId(rows[1..], id) ==> HasAccountId(rows, id) by {
        if HasAccountId(rows[1..], id) {
          var i :| 0 <= i < |rows[1..]| && rows[1..][i].id == id;
          assert rows[i + 1].id == id;
        }
      }
      assert HasAccountId(rows, id) ==> HasAccountId(rows[1..], id) by {
        if HasAccountId(rows, id) {
          var i :| 0 <= i < |rows| && rows[i].id == id;
          assert i > 0 && rows[1..][i - 1].id == id;
        }
      }
      rest
  }

  /** An account just appended under a fresh id is the one found under that id. */
  lemma {:induction false} FindAppended(rows: seq<AccountRow>, row: AccountRow)
    requires !HasAccountId(rows, row.id)
    ensures FindAccountRow(rows + [row], row.id) == Some(row)
  {
    if rows != [] {
      assert (rows + [row])[1..] == rows[1..] + [row];
      FindAppended(rows[1..], row);
    }
  }

  /** InsertAccount: stamps Inserted and Updated with one clock reading and adds the row.
      The id is the primary key, so a second account under the same id is refused. */
  method InsertAccount(db: Db, account: Account, now: Time) returns (a: Account, err: Option<string>)
    requires db.Valid()
    modifies db
    ensures db.Valid()
    ensures a == account.(inserted := now, updated := now)
    ensures err.None? <==> InsertAccountStmt !in db.failing && !HasAccountId(old(db.t.accounts), account.id)
    ensures err.None? ==> db.t == old(db.t).(accounts := old(db.t.accounts) + [AccountRowOf(a)])
    ensures err.Some? ==> db.t == old(db.t)
  {
    a := account.(inserted := now, updated := now);
    if InsertAccountStmt in db.failing {
      return a, Some(DB_ERROR);
    }
    if HasAccountId(db.t.accounts, a.id) {
      return a, Some(DUPLICATE_KEY);
    }
    db.t := db.t.(accounts := db.t.accounts + [AccountRowOf(a)]);
    err := None;
  }

  /** The rows after `UPDATE account SET updated, name, parent, currency, precision, debitBalance
      WHERE id = ?`. */
  function UpdatedAccountRows(rows: seq<AccountRow>, a: Account, updatedMs: int64): (r: seq<AccountRow>)
    ensures |r| == |rows|
    ensures forall i :: 0 <= i < |rows| && rows[i].id != a.id ==> r[i] == rows[i]
    ensures forall i :: 0 <= i < |rows| && rows[i].id == a.id ==>
      r[i] == rows[i].(updated := updatedMs, name := a.name, parent := StoredParent(a.parent),
                       currency := a.currency, precision := a.precision, debitBalance := a.debitBalance)
  {
    seq(|rows|, i requires 0 <= i < |rows| =>
      if rows[i].id == a.id then
        rows[i].(updated := updatedMs, name := a.name, parent := StoredParent(a.parent),
                 currency := a.currency, precision := a.precision, debitBalance := a.debitBalance)
      else rows[i])
  }

  /** UpdateAccount: stamps Updated and rewrites the mutable columns of the row with the id;
      id, orgId and inserted stay as they were. */
  method UpdateAccount(db: Db, account: Account, now: Time) returns (a: Account, err: Option<string>)
    requires db.Valid()
    modifies db
    ensures db.Valid()
    ensures a == account.(updated := now)
    ensures err.None? <==> UpdateAccountStmt !in db.failing
    ensures err.None? ==> db.t == old(db.t).(accounts := UpdatedAccountRows(old(db.t.accounts), a, TimeToMs(now)))
    ensures err.Some? ==> db.t == old(db.t)
  {
    a := account.(updated := now);
    if UpdateAccountStmt in db.failing {
      return a, Some(DB_ERROR);
    }
    db.t := db.t.(accounts := UpdatedAccountRows(db.t.accounts, a, TimeToMs(now)));
    err := None;
  }

  /** GetAccount: the account with the id, read back from its row, or "Account not found". */
  function GetAccount(db: Db, id: string): (r: Result<Account>)
    reads db
    ensures r.Ok? <==> GetAccountStmt !in db.failing && HasAccountId(db.t.accounts, id)
    ensures r.Ok? ==> exists row :: row in db.t.accounts && row.id == id && r.value == ToAccount(row)
    ensures r.Ok? ==> r.value.id == id && r.value.balance.None? && !r.value.readOnly
    ensures r == Err("Account not found") <==> GetAccountStmt !in db.failing && !HasAccountId(db.t.accounts, id)
  {
    if GetAccountStmt in db.failing then Err(DB_ERROR)
    else match FindAccountRow(db.t.accounts, id)
      case None => Err("Account not found")
      case Some(row) => Ok(ToAccount(row))
  }

  /** An account InsertAccount added under a fresh id is what GetAccount returns for that id. */
  lemma InsertThenGetAccount(db: Db, before: seq<AccountRow>, a: Account)
    requires GetAccountStmt !in db.failing
    requires !HasAccountId(before, a.id) && a.parent != EMPTY_ACCOUNT_ID
    requires db.t.accounts == before + [AccountRowOf(a)]
    ensures GetAccount(db, a.id) ==
      Ok(a.(inserted := MsToTime(TimeToMs(a.inserted)), updated := MsToTime(TimeToMs(a.updated)),
            balance := None, nativeBalance := None, readOnly := false, hasChildren := false))
  {
    FindAppended(before, AccountRowOf(a));
    ReadBackAccount(a);
  }

  function InOrg(orgId: string): AccountRow -> bool
  {
    (r: AccountRow) => r.orgId == orgId
  }

  /** GetAccountsByOrgId: every account of the org, in table order, without balances. */
  function GetAccountsByOrgId(db: Db, orgId: string): (r: Result<seq<Account>>)
    reads db
    ensures r.Err? <==> AccountsByOrgStmt in db.failing
    ensures r.Ok? ==> |r.value| == |Filter(db.t.accounts, InOrg(orgId))|
    ensures r.Ok? ==> forall i :: 0 <= i < |r.value| ==> r.value[i] == ToAccount(Filter(db.t.accounts, InOrg(orgId))[i])
    ensures r.Ok? ==> forall i :: 0 <= i < |r.value| ==>
      r.value[i].orgId == orgId && r.value[i].balance.None? && !r.value[i].readOnly && !r.value[i].hasChildren
  {
    if AccountsByOrgStmt in db.failing then Err(DB_ERROR)
    else
      var rows := Filter(db.t.accounts, InOrg(orgId));
      Ok(seq(|rows|, i requires 0 <= i < |rows| => ToAccount(rows[i])))
  }

  /** An account InsertAccount added is listed last for its own org, as its row reads back, and
      leaves every other org's listing as it was. */
  lemma InsertThenListed(before: Db, after: Db, a: Account, orgId: string)
    requires AccountsByOrgStmt !in before.failing && AccountsByOrgStmt !in after.failing
    requires after.t.accounts == before.t.accounts + [AccountRowOf(a)]
    ensures a.orgId == orgId ==>
      GetAccountsByOrgId(after, orgId).value == GetAccountsByOrgId(before, orgId).value + [ToAccount(AccountRowOf(a))]
    ensures a.orgId != orgId ==> GetAccountsByOrgId(after, orgId) == GetAccountsByOrgId(before, orgId)
  {
    var row := AccountRowOf(a);
    FilterAppend(before.t.accounts, [row], InOrg(orgId));
    if a.orgId == orgId {
      FilterAll([row], InOrg(orgId));
      var rows := Filter(before.t.accounts, InOrg(orgId));
      var got := GetAccountsByOrgId(after, orgId).value;
      var was := GetAccountsByOrgId(before, orgId).value;
      assert |got| == |was| + 1;
      forall i | 0 <= i < |got|
        ensures got[i] == (was + [ToAccount(row)])[i]
      {
        if i < |was| {
          assert (rows + [row])[i] == rows[i];
        }
      }
    } else {
      FilterNone([row], InOrg(orgId));
      assert Filter(after.t.accounts, InOrg(orgId)) == Filter(before.t.accounts, InOrg(orgId));
    }
  }

  /** The org's accounts come from rows with distinct ids, so no id is listed twice. */
  lemma AccountsByOrgDistinct(db: Db, orgId: string)
    requires db.Valid() && GetAccountsByOrgId(db, orgId).Ok?
    ensures forall i, j :: 0 <= i < j < |GetAccountsByOrgId(db, orgId).value| ==>
      GetAccountsByOrgId(db, orgId).value[i].id != GetAccountsByOrgId(db, orgId).value[j].id
  {
    FilterDistinctBy(db.t.accounts, InOrg(orgId), AccountRowId);
  }

  function PermissionOf(orgId: string, userId: string): PermissionRow -> bool
  {
    (p: PermissionRow) => p.orgId == orgId && p.userId == userId
  }

  /** GetPermissionedAccountIds: the accounts the user was granted in the org. */
  function GetPermissionedAccountIds(db: Db, orgId: string, userId: string): (r: Result<seq<string>>)
    reads db
    ensures r.Err? <==> PermissionsStmt in db.failing
    ensures r.Ok? ==> forall id :: id in r.value <==>
      exists p :: p in db.t.permissions && p.orgId == orgId && p.userId == userId && p.accountId == id
  {
    if PermissionsStmt in db.failing then Err(DB_ERROR)
    else
      var rows := Filter(db.t.permissions, PermissionOf(orgId, userId));
      FilterMembership(db.t.permissions, PermissionOf(orgId, userId));
      var ids := seq(|rows|, i requires 0 <= i < |rows| => rows[i].accountId);
      assert forall id :: id in ids ==> exists p :: p in rows && p.accountId == id;
      assert forall p :: p in rows ==> p.accountId in ids by {
        forall p | p in rows ensures p.accountId in ids {
          var i :| 0 <= i < |rows| && rows[i] == p;
          assert ids[i] == p.accountId;
        }
      }
      Ok(ids)
  }

  function LiveSplitOf(accountId: string): SplitRow -> bool
  {
    (s: SplitRow) => !s.deleted && s.accountId == accountId
  }

  /** GetSplitCountByAccountId: the non-deleted splits on the account. */
  function GetSplitCountByAccountId(db: Db, id: string): (r: Result<nat>)
    reads db
    ensures r.Err? <==> SplitCountStmt in db.failing
    ensures r.Ok? ==> (r.value == 0 <==> forall s :: s in db.t.splits && s.accountId == id ==> s.deleted)
  {
    if SplitCountStmt in db.failing then Err(DB_ERROR)
    else
      var live := Filter(db.t.splits, LiveSplitOf(id));
      FilterMembership(db.t.splits, LiveSplitOf(id));
      assert |live| == 0 <==> forall s :: s in db.t.splits && s.accountId == id ==> s.deleted by {
        if |live| != 0 { assert live[0] in live; }
      }
      Ok(|live|)
  }

  function ChildOf(id: string): AccountRow -> bool
  {
    (r: AccountRow) => r.parent == id
  }

  /** GetChildCountByAccountId: the accounts whose parent column is the id. */
  function GetChildCountByAccountId(db: Db, id: string): (r: Result<nat>)
    reads db
    ensures r.Err? <==> ChildCountStmt in db.failing
    ensures r.Ok? ==> (r.value == 0 <==> forall a :: a in db.t.accounts ==> a.parent != id)
  {
    if ChildCountStmt in db.failing then Err(DB_ERROR)
    else
      var children := Filter(db.t.accounts, ChildOf(id));
      FilterMembership(db.t.accounts, ChildOf(id));
      assert |children| == 0 <==> forall a :: a in db.t.accounts ==> a.parent != id by {
        if |children| != 0 { assert children[0] in children; }
      }
      Ok(|children|)
  }

  function NotId(id: string): AccountRow -> bool
  {
    (r: AccountRow) => r.id != id
  }

  /** DeleteAccount: removes the row with the id and nothing else. */
  method DeleteAccount(db: Db, id: string) returns (err: Option<string>)
    requires db.Valid()
    modifies db
    ensures db.Valid()
    ensures err.None? <==> DeleteAccountStmt !in db.failing
    ensures err.None? ==> db.t == old(db.t).(accounts := Filter(old(db.t.accounts), NotId(id)))
    ensures err.None? ==> !HasAccountId(db.t.accounts, id)
    ensures err.Some? ==> db.t == old(db.t)
  {
    if DeleteAccountStmt in db.failing {
      return Some(DB_ERROR);
    }
    var kept := Filter(db.t.accounts, NotId(id));
    FilterDistinctBy(db.t.accounts, NotId(id), AccountRowId);
    db.t := db.t.(accounts := kept);
    err := None;
  }

  function AccountRowId(r: AccountRow): string { r.id }

  /** GetRootAccount: the org's account stored with the all-zero parent; its parent is reported as "". */
  function GetRootAccount(db: Db, orgId: string): (r: Result<Account>)
    reads db
    ensures r.Ok? ==> r.value.orgId == orgId && r.value.parent == ""
    ensures r.Ok? ==> exists row :: row in db.t.accounts && row.orgId == orgId && row.parent == EMPTY_ACCOUNT_ID &&
                                     row.id == r.value.id
    ensures r == Err("Account not found") <==>
      RootAccountStmt !in db.failing &&
      forall row :: row in db.t.accounts ==> !(row.orgId == orgId && row.parent == EMPTY_ACCOUNT_ID)
  {
    if RootAccountStmt in db.failing then Err(DB_ERROR)
    else
      var roots := Filter(db.t.accounts, RootOf(orgId));
      FilterMembership(db.t.accounts, RootOf(orgId));
      if roots == [] then Err("Account not found")
      else
        assert roots[0] in roots;
        Ok(ToAccount(roots[0]).(parent := ""))
  }

  function RootOf(orgId: string): AccountRow -> bool
  {
    (r: AccountRow) => r.orgId == orgId && r.parent == EMPTY_ACCOUNT_ID
  }

  // ---- Balances -------------------------------------------------------------------------

  /** The split column a balance query sums: `amount` or `nativeAmount`. */
  datatype Column = AmountColumn | NativeAmountColumn

  function ValueIn(s: SplitRow, col: Column): int64
  {
    if col == AmountColumn then s.amount else s.nativeAmount
  }

  /** MySQL's SUM over a column: an exact DECIMAL, not an int64. */
  function Total(rows: seq<SplitRow>, col: Column): int
  {
    if rows == [] then 0 else Total(rows[..|rows| - 1], col) + ValueIn(rows[|rows| - 1], col)
  }

  lemma {:induction false} TotalAppend(a: seq<SplitRow>, b: seq<SplitRow>, col: Column)
    ensures Total(a + b, col) == Total(a, col) + Total(b, col)
    decreases |b|
  {
    if b == [] {
      assert a + b == a;
    } else {
      assert (a + b)[..|a + b| - 1] == a + b[..|b| - 1];
      TotalAppend(a, b[..|b| - 1], col);
    }
  }

  /** `deleted = false AND accountId = ? AND date < ?` */
  function CountsToward(accountId: string, dateMs: int): SplitRow -> bool
  {
    (s: SplitRow) => !s.deleted && s.accountId == accountId && s.date < dateMs
  }

  /** The SUM of one account's group: None (SQL NULL) when no split belongs to it. */
  function GroupSum(splits: seq<SplitRow>, accountId: string, dateMs: int, col: Column): Option<int>
  {
    var rows := Filter(splits, CountsToward(accountId, dateMs));
    if rows == [] then None else Some(Total(rows, col))
  }

  /** The group is empty exactly when no live split of the account is dated before the cut-off. */
  lemma GroupSumNone(splits: seq<SplitRow>, accountId: string, dateMs: int, col: Column)
    ensures GroupSum(splits, accountId, dateMs, col).None? <==>
      forall s :: s in splits ==> s.deleted || s.accountId != accountId || s.date >= dateMs
  {
    var rows := Filter(splits, CountsToward(accountId, dateMs));
    FilterMembership(splits, CountsToward(accountId, dateMs));
    if rows != [] {
      assert rows[0] in rows;
    }
  }

  /** Two partial SUMs combined: NULL is the identity. */
  function CombineSums(x: Option<int>, y: Option<int>): Option<int>
  {
    if x.None? then y else if y.None? then x else Some(x.value + y.value)
  }

  /** The sum of two filtered runs of rows, each possibly empty. */
  lemma CombineTotals(fa: seq<SplitRow>, fb: seq<SplitRow>, col: Column)
    ensures (if fa + fb == [] then None else Some(Total(fa + fb, col))) ==
      CombineSums(if fa == [] then None else Some(Total(fa, col)), if fb == [] then None else Some(Total(fb, col)))
  {
    TotalAppend(fa, fb, col);
    if fa == [] {
      assert fa + fb == fb;
    } else if fb == [] {
      assert fa + fb == fa;
    } else {
      assert |fa + fb| > 0;
    }
  }

  /** The balance over two runs of splits is the balance over each, added. */
  lemma GroupSumConcat(a: seq<SplitRow>, b: seq<SplitRow>, accountId: string, dateMs: int, col: Column)
    ensures GroupSum(a + b, accountId, dateMs, col) ==
      CombineSums(GroupSum(a, accountId, dateMs, col), GroupSum(b, accountId, dateMs, col))
  {
    var p := CountsToward(accountId, dateMs);
    FilterAppend(a, b, p);
    CombineTotals(Filter(a, p), Filter(b, p), col);
  }

  /** A SUM can be scanned into an int64 only when it is in range. */
  predicate Fits(sum: Option<int>)
  {
    sum.None? || InRange(sum.value)
  }

  function Narrow(sum: Option<int>): (r: Option<int64>)
    requires Fits(sum)
    ensures r.None? <==> sum.None?
    ensures r.Some? ==> r.value as int == sum.value
  {
    if sum.None? then None else Some(sum.value)
  }

  function ColumnOf(a: Account, col: Column): Option<int64>
  {
    if col == AmountColumn then a.balance else a.nativeBalance
  }

  function WithColumn(a: Account, col: Column, v: Option<int64>): (r: Account)
    ensures ColumnOf(r, col) == v
    ensures col == AmountColumn ==> r.nativeBalance == a.nativeBalance
    ensures col == NativeAmountColumn ==> r.balance == a.balance
  {
    if col == AmountColumn then a.(balance := v) else a.(nativeBalance := v)
  }

  function BatchStatement(col: Column): Statement
  {
    if col == AmountColumn then BalancesStmt else NativeBalancesStmt
  }

  /** The driver refuses to scan a DECIMAL that does not fit an int64. */
  const SCAN_RANGE_ERROR: string := "sql: Scan error on column index 1: value out of range"

  predicate AllFit(splits: seq<SplitRow>, ids: seq<string>, dateMs: int, col: Column)
  {
    forall i :: 0 <= i < |ids| ==> Fits(GroupSum(splits, ids[i], dateMs, col))
  }

  function Ids(accounts: seq<Account>): (ids: seq<string>)
    ensures |ids| == |accounts|
    ensures forall i :: 0 <= i < |accounts| ==> ids[i] == accounts[i].id
  {
    seq(|accounts|, i requires 0 <= i < |accounts| => accounts[i].id)
  }

  /** The rows of `SELECT accountId, SUM(col) ... WHERE accountId IN (ids) ... GROUP BY accountId`
      read into a map: one entry per listed id that has splits. None when some group's sum does
      not fit the int64 it is scanned into. */
  method GroupedSums(splits: seq<SplitRow>, accounts: seq<Account>, dateMs: int, col: Column)
    returns (groups: Option<map<string, int64>>)
    ensures groups.Some? <==> AllFit(splits, Ids(accounts), dateMs, col)
    ensures groups.Some? ==> forall k :: k in groups.value ==> GroupSum(splits, k, dateMs, col) == Some(groups.value[k] as int)
    ensures groups.Some? ==> forall i :: 0 <= i < |accounts| && GroupSum(splits, accounts[i].id, dateMs, col).Some? ==>
      accounts[i].id in groups.value
  {
    ghost var ids := Ids(accounts);
    var balanceMap: map<string, int64> := map[];
    var i := 0;
    while i < |accounts|
      invariant 0 <= i <= |accounts|
      invariant AllFit(splits, ids[..i], dateMs, col)
      invariant forall k :: k in balanceMap ==> GroupSum(splits, k, dateMs, col) == Some(balanceMap[k] as int)
      invariant forall j :: 0 <= j < i && GroupSum(splits, accounts[j].id, dateMs, col).Some? ==> accounts[j].id in balanceMap
    {
      var id := accounts[i].id;
      var sum := GroupSum(splits, id, dateMs, col);
      if sum.Some? {
        if !InRange(sum.value) {
          assert !Fits(GroupSum(splits, ids[i], dateMs, col));
          return None;
        }
        balanceMap := balanceMap[id := sum.value];
      }
      assert ids[..i + 1] == ids[..i] + [id];
      i := i + 1;
    }
    assert ids[..i] == ids;
    groups := Some(balanceMap);
  }

  /** The batch balance query shared by AddBalances and AddNativeBalancesCost: one grouped SELECT
      over the listed accounts, its rows read into a map, and only then every account's column
      set from the map (null for an account without splits). Any failure returns before the
      second loop, so no account changes. */
  method AddColumnSums(db: Db, accounts: array<Account>, date: Time, col: Column) returns (err: Option<string>)
    modifies accounts
    ensures err.None? <==>
      accounts.Length > 0 && BatchStatement(col) !in db.failing &&
      AllFit(db.t.splits, Ids(old(accounts[..])), TimeToMs(date), col)
    ensures err.None? ==> forall i :: 0 <= i < accounts.Length ==>
      Fits(GroupSum(db.t.splits, old(accounts[i]).id, TimeToMs(date), col)) &&
      accounts[i] == WithColumn(old(accounts[i]), col, Narrow(GroupSum(db.t.splits, old(accounts[i]).id, TimeToMs(date), col)))
    ensures err.Some? ==> accounts[..] == old(accounts[..])
  {
    var dateMs := TimeToMs(date);
    if accounts.Length == 0 {
      return Some(SQL_SYNTAX_ERROR);
    }
    if BatchStatement(col) in db.failing {
      return Some(DB_ERROR);
    }
    var groups := GroupedSums(db.t.splits, accounts[..], dateMs, col);
    if groups.None? {
      return Some(SCAN_RANGE_ERROR);
    }
    var balanceMap := groups.value;
    var i := 0;
    while i < accounts.Length
      invariant 0 <= i <= accounts.Length
      invariant forall j :: i <= j < accounts.Length ==> accounts[j] == old(accounts[j])
      invariant forall j :: 0 <= j < i ==>
        accounts[j] == WithColumn(old(accounts[j]), col, Narrow(GroupSum(db.t.splits, old(accounts[j]).id, dateMs, col)))
    {
      var a := accounts[i];
      var v: Option<int64> := if a.id in balanceMap then Some(balanceMap[a.id]) else None;
      accounts[i] := WithColumn(a, col, v);
      i := i + 1;
    }
    err := None;
  }

  /** AddBalances: each account's Balance becomes the sum of `amount` over its live splits dated
      before `date`, or null when it has none. */
  method AddBalances(db: Db, accounts: array<Account>, date: Time) returns (err: Option<string>)
    modifies accounts
    ensures err.None? <==>
      accounts.Length > 0 && BalancesStmt !in db.failing &&
      AllFit(db.t.splits, Ids(old(accounts[..])), TimeToMs(date), AmountColumn)
    ensures err.None? ==> forall i :: 0 <= i < accounts.Length ==>
      accounts[i] == old(accounts[i]).(balance := Narrow(GroupSum(db.t.splits, old(accounts[i]).id, TimeToMs(date), AmountColumn)))
    ensures err.None? ==> forall i :: 0 <= i < accounts.Length ==>
      accounts[i].nativeBalance == old(accounts[i]).nativeBalance &&
      (accounts[i].balance.None? <==> GroupSum(db.t.splits, old(accounts[i]).id, TimeToMs(date), AmountColumn).None?) &&
      (accounts[i].balance.Some? ==>
         accounts[i].balance.value as int == GroupSum(db.t.splits, old(accounts[i]).id, TimeToMs(date), AmountColumn).value)
    ensures err.Some? ==> accounts[..] == old(accounts[..])
  {
    err := AddColumnSums(db, accounts, date, AmountColumn);
  }

  /** AddNativeBalancesCost: the same over `nativeAmount`, into NativeBalance. */
  method AddNativeBalancesCost(db: Db, accounts: array<Account>, date: Time) returns (err: Option<string>)
    modifies accounts
    ensures err.None? <==>
      accounts.Length > 0 && NativeBalancesStmt !in db.failing &&
      AllFit(db.t.splits, Ids(old(accounts[..])), TimeToMs(date), NativeAmountColumn)
    ensures err.None? ==> forall i :: 0 <= i < accounts.Length ==>
      accounts[i] == old(accounts[i]).(nativeBalance := Narrow(GroupSum(db.t.splits, old(accounts[i]).id, TimeToMs(date), NativeAmountColumn)))
    ensures err.None? ==> forall i :: 0 <= i < accounts.Length ==>
      accounts[i].balance == old(accounts[i]).balance &&
      (accounts[i].nativeBalance.None? <==> GroupSum(db.t.splits, old(accounts[i]).id, TimeToMs(date), NativeAmountColumn).None?) &&
      (accounts[i].nativeBalance.Some? ==>
         accounts[i].nativeBalance.value as int == GroupSum(db.t.splits, old(accounts[i]).id, TimeToMs(date), NativeAmountColumn).value)
    ensures err.Some? ==> accounts[..] == old(accounts[..])
  {
    err := AddColumnSums(db, accounts, date, NativeAmountColumn);
  }

  /** The single-account query: SUM over no rows is NULL, which the NullInt64 turns into 0. */
  function AddColumnSum(db: Db, account: Account, date: Time, col: Column): (r: Result<Account>)
    reads db
    ensures r.Ok? <==> (if col == AmountColumn then BalanceStmt else NativeBalanceStmt) !in db.failing &&
                       Fits(GroupSum(db.t.splits, account.id, TimeToMs(date), col))
    ensures r.Ok? ==> r.value == WithColumn(account, col, ColumnOf(r.value, col))
    ensures r.Ok? ==> ColumnOf(r.value, col).Some?
    ensures r.Ok? && GroupSum(db.t.splits, account.id, TimeToMs(date), col).None? ==> ColumnOf(r.value, col) == Some(0)
  {
    var stmt := if col == AmountColumn then BalanceStmt else NativeBalanceStmt;
    var sum := GroupSum(db.t.splits, account.id, TimeToMs(date), col);
    if stmt in db.failing then Err(DB_ERROR)
    else if !Fits(sum) then Err(SCAN_RANGE_ERROR)
    else
      var v: int64 := if sum.None? then 0 else sum.value;
      Ok(WithColumn(account, col, Some(v)))
  }

  /** The single-account and batch forms agree wherever the account has splits; where it has
      none, the batch form gives null and the single form 0. */
  lemma SingleAgreesWithBatch(db: Db, account: Account, date: Time, col: Column)
    requires AddColumnSum(db, account, date, col).Ok?
    ensures var sum := GroupSum(db.t.splits, account.id, TimeToMs(date), col);
      Fits(sum) &&
      ColumnOf(AddColumnSum(db, account, date, col).value, col) ==
        (if sum.None? then Some(0) else Narrow(sum))
  {
  }

  /** AddBalance: the account's Balance is set, to 0 when no split matches. */
  function AddBalance(db: Db, account: Account, date: Time): (r: Result<Account>)
    reads db
    ensures r.Ok? ==> r.value.balance.Some? && r.value.nativeBalance == account.nativeBalance
    ensures r.Ok? && GroupSum(db.t.splits, account.id, TimeToMs(date), AmountColumn).None? ==> r.value.balance == Some(0)
  {
    AddColumnSum(db, account, date, AmountColumn)
  }

  /** AddNativeBalanceCost: the account's NativeBalance is set, to 0 when no split matches. */
  function AddNativeBalanceCost(db: Db, account: Account, date: Time): (r: Result<Account>)
    reads db
    ensures r.Ok? ==> r.value.nativeBalance.Some? && r.value.balance == account.balance
    ensures r.Ok? && GroupSum(db.t.splits, account.id, TimeToMs(date), NativeAmountColumn).None? ==>
      r.value.nativeBalance == Some(0)
  {
    AddColumnSum(db, account, date, NativeAmountColumn)
  }
}

=== FILE: db_budget.dfy ===
/** core/model/db/budget.go: an org's budget is the set of budget-item rows under its id. */
module DbBudget {
  import opened Wrappers
  import opened Int64
  import opened Util
  import opened Types
  import opened Store
  import opened Seqs
  import opened Sorting
  import opened LexOrder

  const BUDGET_NOT_FOUND: string := "Budget not found"

  /** `ORDER BY HEX(accountId)`: ids are lower-case hex, whose order is that of their
      upper-case HEX() text, digits before letters. */
  predicate ByAccountHex(a: BudgetItemRow, b: BudgetItemRow)
  {
    StrLessEq(a.accountId, b.accountId)
  }

  lemma ByAccountHexOrders()
    ensures Total(ByAccountHex) && Transitive(ByAccountHex)
  {
    forall a: BudgetItemRow, b: BudgetItemRow
      ensures ByAccountHex(a, b) || ByAccountHex(b, a)
    {
      StrLessEqTotal(a.accountId, b.accountId);
    }
    forall a: BudgetItemRow, b: BudgetItemRow, c: BudgetItemRow | ByAccountHex(a, b) && ByAccountHex(b, c)
      ensures ByAccountHex(a, c)
    {
      StrLessEqTransitive(a.accountId, b.accountId, c.accountId);
    }
  }

  function OfOrg(orgId: string): BudgetItemRow -> bool
  {
    (r: BudgetItemRow) => r.orgId == orgId
  }

  function NotOfOrg(orgId: string): BudgetItemRow -> bool
  {
    (r: BudgetItemRow) => r.orgId != orgId
  }

  /** The rows `SELECT ... FROM budgetitem WHERE orgId = ? ORDER BY HEX(accountId)` reads. */
  function BudgetRows(t: Tables, orgId: string): (rows: seq<BudgetItemRow>)
    ensures forall r :: r in rows <==> r in t.budgetItems && r.orgId == orgId
  {
    ByAccountHexOrders();
    FilterMembership(t.budgetItems, OfOrg(orgId));
    SortByMembership(Filter(t.budgetItems, OfOrg(orgId)), ByAccountHex);
    SortBy(Filter(t.budgetItems, OfOrg(orgId)), ByAccountHex)
  }

  /** The rows come in account-id order and are a permutation of the org's rows. */
  lemma BudgetRowsOrdered(t: Tables, orgId: string)
    ensures Sorted(BudgetRows(t, orgId), ByAccountHex)
    ensures multiset(BudgetRows(t, orgId)) == multiset(Filter(t.budgetItems, OfOrg(orgId)))
  {
    ByAccountHexOrders();
  }

  /** A scanned row: only the account id and the amount; the item's OrgId stays empty. */
  function ItemOf(r: BudgetItemRow): BudgetItem
  {
    BudgetItem("", r.accountId, r.amount)
  }

  function Items(rows: seq<BudgetItemRow>): (items: seq<BudgetItem>)
    ensures |items| == |rows|
  {
    seq(|rows|, i requires 0 <= i < |rows| => ItemOf(rows[i]))
  }

  /** What GetBudget reads: the items in account-id order, stamped with the inserted time of the
      last row; no rows at all is "Budget not found". */
  function StoredBudget(t: Tables, failing: set<Statement>, orgId: string): (r: Result<Budget>)
    ensures r.Err? <==> GetBudgetStmt in failing || forall x :: x in t.budgetItems ==> x.orgId != orgId
    ensures r.Err? ==> r.msg == (if GetBudgetStmt in failing then DB_ERROR else BUDGET_NOT_FOUND)
  {
    var rows := BudgetRows(t, orgId);
    if GetBudgetStmt in failing then Err(DB_ERROR)
    else if rows == [] then
      Err(BUDGET_NOT_FOUND)
    else
      assert rows[0] in rows;
      Ok(Budget(orgId, MsToTime(rows[|rows| - 1].inserted), Items(rows)))
  }

  /** A stored budget belongs to the org asked for, lists its items in account-id order, and
      carries the inserted time of one of the org's rows. */
  lemma StoredBudgetOrdered(t: Tables, failing: set<Statement>, orgId: string)
    requires StoredBudget(t, failing, orgId).Ok?
    ensures var b := StoredBudget(t, failing, orgId).value;
      b.orgId == orgId &&
      (forall i, j :: 0 <= i < j < |b.items| ==> StrLessEq(b.items[i].accountId, b.items[j].accountId)) &&
      exists x :: x in t.budgetItems && x.orgId == orgId && b.inserted == MsToTime(x.inserted)
  {
    var rows := BudgetRows(t, orgId);
    BudgetRowsOrdered(t, orgId);
    assert rows[|rows| - 1] in rows;
  }

  /** Every item of a stored budget is one of the org's rows, and every row of the org one of
      its items. */
  lemma StoredBudgetItems(t: Tables, failing: set<Statement>, orgId: string)
    requires StoredBudget(t, failing, orgId).Ok?
    ensures var b := StoredBudget(t, failing, orgId).value;
      (forall x :: x in t.budgetItems && x.orgId == orgId ==> ItemOf(x) in b.items) &&
      (forall it :: it in b.items ==> exists x :: x in t.budgetItems && x.orgId == orgId && it == ItemOf(x))
  {
    var rows := BudgetRows(t, orgId);
    var items := StoredBudget(t, failing, orgId).value.items;
    assert items == Items(rows);
    forall x | x in t.budgetItems && x.orgId == orgId
      ensures ItemOf(x) in items
    {
      var i :| 0 <= i < |rows| && rows[i] == x;
      assert items[i] == ItemOf(x);
    }
    forall it | it in items
      ensures exists x :: x in t.budgetItems && x.orgId == orgId && it == ItemOf(x)
    {
      var i :| 0 <= i < |items| && items[i] == it;
      assert rows[i] in rows;
    }
  }

  /** The row loop of GetBudget: one item appended per row, the last row's inserted time kept. */
  method ScanItems(rows: seq<BudgetItemRow>) returns (items: seq<BudgetItem>, inserted: int64)
    ensures items == Items(rows)
    ensures rows != [] ==> inserted == rows[|rows| - 1].inserted
  {
    inserted := 0;
    items := [];
    for i := 0 to |rows|
      invariant items == Items(rows[..i])
      invariant i > 0 ==> inserted == rows[i - 1].inserted
    {
      assert rows[..i + 1] == rows[..i] + [rows[i]];
      ItemsConcat(rows[..i], [rows[i]]);
      items := items + [ItemOf(rows[i])];
      inserted := rows[i].inserted;
    }
    assert rows[..|rows|] == rows;
  }

  /** GetBudget: the org's rows in account-id order, scanned into a budget. */
  method GetBudget(db: Db, orgId: string) returns (r: Result<Budget>)
    requires db.Valid()
    ensures r == StoredBudget(db.t, db.failing, orgId)
  {
    if GetBudgetStmt in db.failing {
      return Err(DB_ERROR);
    }
    var rows := BudgetRows(db.t, orgId);
    var items, inserted := ScanItems(rows);
    if |items| == 0 {
      return Err(BUDGET_NOT_FOUND);
    }
    r := Ok(Budget(orgId, MsToTime(inserted), items));
  }

  // ---- Writes -------------------------------------------------------------------------

  /** `DELETE FROM budgetitem WHERE orgId = ?`. */
  function WithoutBudget(t: Tables, orgId: string): Tables
  {
    t.(budgetItems := Filter(t.budgetItems, NotOfOrg(orgId)))
  }

  /** The row one item becomes: the budget's org and inserted time, the item's own OrgId unused. */
  function ItemRowOf(b: Budget, item: BudgetItem): BudgetItemRow
  {
    BudgetItemRow(b.orgId, item.accountId, TimeToMs(b.inserted), item.amount)
  }

  function ItemRows(b: Budget, items: seq<BudgetItem>): (rows: seq<BudgetItemRow>)
    ensures |rows| == |items|
  {
    seq(|items|, i requires 0 <= i < |items| => ItemRowOf(b, items[i]))
  }

  /** The tables after a replace: the org's old rows gone, one row per new item appended. */
  function Replaced(t: Tables, b: Budget): Tables
  {
    t.(budgetItems := Filter(t.budgetItems, NotOfOrg(b.orgId)) + ItemRows(b, b.items))
  }

  /** InsertAndReplaceBudget: Inserted is set on the budget before anything else, so the caller
      sees it even when the unit fails; the delete and every insert commit together or not at all. */
  method InsertAndReplaceBudget(db: Db, budget: Budget, now: Time) returns (b: Budget, err: Option<string>)
    requires db.Valid()
    modifies db
    ensures db.Valid()
    ensures b == budget.(inserted := now)
    ensures err.None? <==> ReplaceBudgetStmt !in db.failing
    ensures err.None? ==> db.t == Replaced(old(db.t), b)
    ensures err.Some? ==> db.t == old(db.t)
  {
    b := budget.(inserted := now);
    if ReplaceBudgetStmt in db.failing {
      return b, Some(DB_ERROR);
    }
    var rows := Filter(db.t.budgetItems, NotOfOrg(b.orgId));
    for i := 0 to |b.items|
      invariant rows == Filter(db.t.budgetItems, NotOfOrg(b.orgId)) + ItemRows(b, b.items[..i])
    {
      assert ItemRows(b, b.items[..i + 1]) == ItemRows(b, b.items[..i]) + [ItemRowOf(b, b.items[i])];
      rows := rows + [BudgetItemRow(b.orgId, b.items[i].accountId, TimeToMs(b.inserted), b.items[i].amount)];
    }
    assert b.items[..|b.items|] == b.items;
    db.t := db.t.(budgetItems := rows);
    err := None;
  }

  /** After a replace the org's rows are exactly the new items, in order. */
  lemma ReplacedOrgRows(t: Tables, b: Budget)
    ensures Filter(Replaced(t, b).budgetItems, OfOrg(b.orgId)) == ItemRows(b, b.items)
  {
    var kept := Filter(t.budgetItems, NotOfOrg(b.orgId));
    var added := ItemRows(b, b.items);
    FilterAppend(kept, added, OfOrg(b.orgId));
    FilterMembership(t.budgetItems, NotOfOrg(b.orgId));
    FilterNone(kept, OfOrg(b.orgId));
    FilterAll(added, OfOrg(b.orgId));
    assert [] + added == added;
  }

  /** After a replace every other org's rows are as they were. */
  lemma ReplacedOtherRows(t: Tables, b: Budget)
    ensures Filter(Replaced(t, b).budgetItems, NotOfOrg(b.orgId)) == Filter(t.budgetItems, NotOfOrg(b.orgId))
  {
    var kept := Filter(t.budgetItems, NotOfOrg(b.orgId));
    var added := ItemRows(b, b.items);
    FilterAppend(kept, added, NotOfOrg(b.orgId));
    FilterNone(added, NotOfOrg(b.orgId));
    FilterNarrow(t.budgetItems, NotOfOrg(b.orgId), NotOfOrg(b.orgId));
    assert kept + [] == kept;
  }

  /** After a replace the org's rows are exactly the new items, in order, all with the budget's
      inserted time, and every other org's rows are as they were. */
  lemma ReplacedRows(t: Tables, b: Budget)
    ensures Filter(Replaced(t, b).budgetItems, OfOrg(b.orgId)) == ItemRows(b, b.items)
    ensures Filter(Replaced(t, b).budgetItems, NotOfOrg(b.orgId)) == Filter(t.budgetItems, NotOfOrg(b.orgId))
    ensures forall x :: x in Replaced(t, b).budgetItems && x.orgId == b.orgId ==> x.inserted == TimeToMs(b.inserted)
  {
    ReplacedOrgRows(t, b);
    ReplacedOtherRows(t, b);
    FilterMembership(t.budgetItems, NotOfOrg(b.orgId));
  }

  /** Reading the budget back after a replace gives the new items, sorted by account id, with
      the new inserted time; an empty replace leaves "Budget not found". */
  lemma ReplaceThenGet(t: Tables, failing: set<Statement>, b: Budget)
    requires GetBudgetStmt !in failing
    requires InRange(TimeToMs(b.inserted) * NS_PER_MS)
    ensures b.items == [] ==> StoredBudget(Replaced(t, b), failing, b.orgId) == Err(BUDGET_NOT_FOUND)
    ensures b.items != [] ==>
      var r := StoredBudget(Replaced(t, b), failing, b.orgId);
      r.Ok? && r.value.orgId == b.orgId && TimeToMs(r.value.inserted) == TimeToMs(b.inserted) &&
      multiset(r.value.items) == multiset(seq(|b.items|, i requires 0 <= i < |b.items| => b.items[i].(orgId := "")))
  {
    ReplacedRows(t, b);
    var t' := Replaced(t, b);
    var rows := BudgetRows(t', b.orgId);
    BudgetRowsOrdered(t', b.orgId);
    assert multiset(rows) == multiset(ItemRows(b, b.items));
    if b.items == [] {
      assert rows == [];
    } else {
      assert ItemRows(b, b.items)[0] in multiset(rows);
      var r := StoredBudget(t', failing, b.orgId).value;
      assert rows[|rows| - 1] in multiset(ItemRows(b, b.items));
      TimeToMsOfMsToTime(TimeToMs(b.inserted));
      ItemsOfRowsMultiset(b, rows);
    }
  }

  /** Scanning rows that are a permutation of a budget's item rows gives a permutation of its
      items with their OrgId emptied. */
  lemma ItemsOfRowsMultiset(b: Budget, rows: seq<BudgetItemRow>)
    requires multiset(rows) == multiset(ItemRows(b, b.items))
    ensures multiset(Items(rows)) ==
            multiset(seq(|b.items|, i requires 0 <= i < |b.items| => b.items[i].(orgId := "")))
  {
    var cleared := seq(|b.items|, i requires 0 <= i < |b.items| => b.items[i].(orgId := ""));
    assert Items(ItemRows(b, b.items)) == cleared;
    MapMultiset(rows, ItemRows(b, b.items));
  }

  lemma ItemsConcat(a: seq<BudgetItemRow>, b: seq<BudgetItemRow>)
    ensures Items(a + b) == Items(a) + Items(b)
  {
  }

  lemma Cancel(m: multiset<BudgetItemRow>, n: multiset<BudgetItemRow>, x: BudgetItemRow)
    requires m + multiset{x} == n + multiset{x}
    ensures m == n
  {
    forall y
      ensures m[y] == n[y]
    {
      assert (m + multiset{x})[y] == (n + multiset{x})[y];
    }
  }

  lemma Swap(p: multiset<BudgetItem>, q: multiset<BudgetItem>, y: BudgetItem)
    ensures p + multiset{y} + q == (p + q) + multiset{y}
  {
    forall z
      ensures (p + multiset{y} + q)[z] == ((p + q) + multiset{y})[z]
    {
    }
  }

  /** Putting the same row at the end of one sequence and anywhere in the other keeps their
      scans permutations of each other. */
  lemma MapStep(init: seq<BudgetItemRow>, x: BudgetItemRow, pre: seq<BudgetItemRow>, post: seq<BudgetItemRow>)
    requires multiset(Items(init)) == multiset(Items(pre + post))
    ensures multiset(Items(init + [x])) == multiset(Items(pre + [x] + post))
  {
    ItemsConcat(init, [x]);
    ItemsConcat(pre + [x], post);
    ItemsConcat(pre, [x]);
    ItemsConcat(pre, post);
    var y := ItemOf(x);
    assert Items([x]) == [y];
    assert Items(pre + [x] + post) == Items(pre) + [y] + Items(post);
    var p, q := multiset(Items(pre)), multiset(Items(post));
    assert multiset(Items(pre + [x] + post)) == p + multiset{y} + q;
    assert multiset(Items(init + [x])) == multiset(Items(init)) + multiset{y};
    Swap(p, q, y);
  }

  /** Scanning two permutations of the same rows gives permutations of the same items. */
  lemma {:induction false} MapMultiset(a: seq<BudgetItemRow>, c: seq<BudgetItemRow>)
    requires multiset(a) == multiset(c)
    ensures multiset(Items(a)) == multiset(Items(c))
    decreases |a|
  {
    if a == [] {
      assert |c| == |multiset(c)|;
    } else {
      var x, init := a[|a| - 1], a[..|a| - 1];
      assert a == init + [x];
      assert x in multiset(c);
      var k :| 0 <= k < |c| && c[k] == x;
      var pre, post := c[..k], c[k + 1..];
      assert c == pre + [x] + post;
      assert multiset(c) == multiset(pre + post) + multiset{x};
      Cancel(multiset(init), multiset(pre + post), x);
      MapMultiset(init, pre + post);
      MapStep(init, x, pre, post);
    }
  }

  /** DeleteBudget: one statement, no unit around it. */
  method DeleteBudget(db: Db, orgId: string) returns (err: Option<string>)
    requires db.Valid()
    modifies db
    ensures db.Valid()
    ensures err.None? <==> DeleteBudgetStmt !in db.failing
    ensures err.None? ==> db.t == WithoutBudget(old(db.t), orgId)
    ensures err.Some? ==> db.t == old(db.t)
  {
    if DeleteBudgetStmt in db.failing {
      return Some(DB_ERROR);
    }
    db.t := WithoutBudget(db.t, orgId);
    err := None;
  }

  /** A delete removes exactly the org's rows: nothing of it is left to read, and every other
      row stays. */
  lemma DeleteRemovesOnlyOrg(t: Tables, failing: set<Statement>, orgId: string)
    requires GetBudgetStmt !in failing
    ensures forall x :: x in WithoutBudget(t, orgId).budgetItems <==> x in t.budgetItems && x.orgId != orgId
    ensures StoredBudget(WithoutBudget(t, orgId), failing, orgId) == Err(BUDGET_NOT_FOUND)
  {
    FilterMembership(t.budgetItems, NotOfOrg(orgId));
  }
}

=== FILE: db_org.dfy ===
/** core/model/db/org.go: orgs, memberships and invites; GetOrgAdmins comes from core/model/db/user.go. */
module DbOrg {
  import opened Wrappers
  import opened Int64
  import opened Util
  import opened Types
  import opened Store
  import opened Seqs
  import DbAccount

  const ORG_NOT_FOUND: string := "Org not found"
  const INVITE_NOT_FOUND: string := "Invite not found"

  /** The row of `INSERT INTO org`: the timezone has no column. */
  function OrgRowOf(o: Org): OrgRow
  {
    OrgRow(o.id, TimeToMs(o.inserted), TimeToMs(o.updated), o.name, o.currency, o.precision)
  }

  /** A scanned org row; the timezone is not selected and stays "". */
  function ToOrg(r: OrgRow): Org
  {
    Org(r.id, MsToTime(r.inserted), MsToTime(r.updated), r.name, r.currency, r.precision, "")
  }

  /** A `userorg` row links the user to the org. */
  predicate IsMember(members: seq<MemberRow>, userId: string, orgId: string)
  {
    exists m :: m in members && m.userId == userId && m.orgId == orgId
  }

  /** A `userorg` row with `admin = true` links the user to the org. */
  predicate IsAdmin(members: seq<MemberRow>, userId: string, orgId: string)
  {
    exists m :: m in members && m.userId == userId && m.orgId == orgId && m.admin
  }

  predicate HasOrgId(rows: seq<OrgRow>, orgId: string)
  {
    exists r :: r in rows && r.id == orgId
  }

  // ---- Org creation and update ----------------------------------------------------------

  /** The account row CreateOrg writes: the org's id and timestamps replace the account's own. */
  function SeedRow(org: Org, a: Account): AccountRow
  {
    DbAccount.AccountRowOf(a.(orgId := org.id, inserted := org.inserted, updated := org.updated))
  }

  function SeedRows(org: Org, accounts: seq<Account>): (rows: seq<AccountRow>)
    ensures |rows| == |accounts|
    ensures forall i :: 0 <= i < |accounts| ==> rows[i] == SeedRow(org, accounts[i])
  {
    seq(|accounts|, i requires 0 <= i < |accounts| => SeedRow(org, accounts[i]))
  }

  /** No seed account reuses an id already in the table or another seed's id. */
  predicate FreshAccountIds(rows: seq<AccountRow>, accounts: seq<Account>)
  {
    (forall i :: 0 <= i < |accounts| ==> !DbAccount.HasAccountId(rows, accounts[i].id)) &&
    (forall i, j :: 0 <= i < j < |accounts| ==> accounts[i].id != accounts[j].id)
  }

  /** The tables after a committed CreateOrg: the org, its creator as admin, the seed accounts
      and one permission, on the first seed account. */
  function Created(t: Tables, org: Org, userId: string, accounts: seq<Account>, permissionId: string): Tables
    requires |accounts| > 0
  {
    t.(orgs := t.orgs + [OrgRowOf(org)],
       members := t.members + [MemberRow(userId, org.id, true)],
       accounts := t.accounts + SeedRows(org, accounts),
       permissions := t.permissions +
         [PermissionRow(permissionId, userId, org.id, accounts[0].id, TimeToMs(org.inserted), TimeToMs(org.updated))])
  }

  /** An id is among the rows plus the first i seed rows exactly when it is among the rows or
      is one of the first i seed ids. */
  lemma SeedIds(rows: seq<AccountRow>, org: Org, accounts: seq<Account>, i: nat, id: string)
    requires i <= |accounts|
    ensures DbAccount.HasAccountId(rows + SeedRows(org, accounts[..i]), id) <==>
      DbAccount.HasAccountId(rows, id) || exists j :: 0 <= j < i && accounts[j].id == id
  {
    var all := rows + SeedRows(org, accounts[..i]);
    if DbAccount.HasAccountId(all, id) {
      var k :| 0 <= k < |all| && all[k].id == id;
      if k >= |rows| {
        assert accounts[k - |rows|].id == id;
      } else {
        assert rows[k].id == id;
      }
    }
    if exists j :: 0 <= j < i && accounts[j].id == id {
      var j :| 0 <= j < i && accounts[j].id == id;
      assert all[|rows| + j].id == id;
    }
    if DbAccount.HasAccountId(rows, id) {
      var k :| 0 <= k < |rows| && rows[k].id == id;
      assert all[k].id == id;
    }
  }

  /** A seed whose id is already taken, by a stored account or an earlier seed, makes the
      seeds not fresh. */
  lemma SeedClash(rows: seq<AccountRow>, org: Org, accounts: seq<Account>, i: nat)
    requires i < |accounts| && DbAccount.HasAccountId(rows + SeedRows(org, accounts[..i]), accounts[i].id)
    ensures !FreshAccountIds(rows, accounts)
  {
    SeedIds(rows, org, accounts, i, accounts[i].id);
    if !DbAccount.HasAccountId(rows, accounts[i].id) {
      var j :| 0 <= j < i && accounts[j].id == accounts[i].id;
    }
  }

  /** One more seed with an untaken id keeps the seeds fresh. */
  lemma SeedStep(rows: seq<AccountRow>, org: Org, accounts: seq<Account>, i: nat)
    requires i < |accounts| && FreshAccountIds(rows, accounts[..i])
    requires !DbAccount.HasAccountId(rows + SeedRows(org, accounts[..i]), accounts[i].id)
    ensures FreshAccountIds(rows, accounts[..i + 1])
    ensures SeedRows(org, accounts[..i + 1]) == SeedRows(org, accounts[..i]) + [SeedRow(org, accounts[i])]
  {
    SeedIds(rows, org, accounts, i, accounts[i].id);
    assert accounts[..i + 1] == accounts[..i] + [accounts[i]];
  }

  /** A row under an untaken id keeps the account ids unique. */
  lemma AppendAccountValid(t: Tables, row: AccountRow)
    requires t.Valid() && !DbAccount.HasAccountId(t.accounts, row.id)
    ensures t.(accounts := t.accounts + [row]).Valid()
  {
  }

  /** CreateOrg: stamps the org, then in one unit inserts the org, the creator's admin
      membership, every seed account and a permission on the first one. Any refused statement,
      the commit included, leaves the tables as they were. */
  method CreateOrg(db: Db, org: Org, userId: string, accounts: seq<Account>, now: Time, random: seq<byte>)
    returns (o: Org, err: Option<string>)
    requires db.Valid() && |accounts| > 0 && |random| == 16
    modifies db
    ensures db.Valid()
    ensures o == org.(inserted := now, updated := now)
    ensures err.None? <==> CreateOrgStmt !in db.failing && FreshAccountIds(old(db.t.accounts), accounts)
    ensures err.None? ==> db.t == Created(old(db.t), o, userId, accounts, NewGuid(random))
    ensures err.Some? ==> db.t == old(db.t)
  {
    o := org.(inserted := now, updated := now);
    if CreateOrgStmt in db.failing {
      return o, Some(DB_ERROR);
    }
    var start := db.t.(orgs := db.t.orgs + [OrgRowOf(o)], members := db.t.members + [MemberRow(userId, o.id, true)]);
    var next := start;
    var i := 0;
    while i < |accounts|
      invariant 0 <= i <= |accounts|
      invariant db.t == old(db.t)
      invariant next == start.(accounts := db.t.accounts + SeedRows(o, accounts[..i]))
      invariant next.Valid()
      invariant FreshAccountIds(db.t.accounts, accounts[..i])
    {
      if DbAccount.HasAccountId(next.accounts, accounts[i].id) {
        SeedClash(db.t.accounts, o, accounts, i);
        return o, Some(DUPLICATE_KEY);
      }
      SeedStep(db.t.accounts, o, accounts, i);
      AppendAccountValid(next, SeedRow(o, accounts[i]));
      next := next.(accounts := next.accounts + [SeedRow(o, accounts[i])]);
      i := i + 1;
    }
    assert accounts[..i] == accounts;
    var permissionId := NewGuid(random);
    next := next.(permissions := next.permissions +
      [PermissionRow(permissionId, userId, o.id, accounts[0].id, TimeToMs(o.inserted), TimeToMs(o.updated))]);
    db.t := next;
    err := None;
  }

  /** The rows after `UPDATE org SET updated = ?, name = ? WHERE id = ?`. */
  function UpdatedOrgRows(rows: seq<OrgRow>, o: Org): (r: seq<OrgRow>)
    ensures |r| == |rows|
    ensures forall i :: 0 <= i < |rows| && rows[i].id != o.id ==> r[i] == rows[i]
    ensures forall i :: 0 <= i < |rows| && rows[i].id == o.id ==>
      r[i] == rows[i].(updated := TimeToMs(o.updated), name := o.name)
  {
    seq(|rows|, i requires 0 <= i < |rows| =>
      if rows[i].id == o.id then rows[i].(updated := TimeToMs(o.updated), name := o.name) else rows[i])
  }

  /** UpdateOrg: stamps Updated and rewrites the name; nothing else about the org changes. */
  method UpdateOrg(db: Db, org: Org, now: Time) returns (o: Org, err: Option<string>)
    requires db.Valid()
    modifies db
    ensures db.Valid()
    ensures o == org.(updated := now)
    ensures err.None? <==> UpdateOrgStmt !in db.failing
    ensures err.None? ==> db.t == old(db.t).(orgs := UpdatedOrgRows(old(db.t.orgs), o))
    ensures err.Some? ==> db.t == old(db.t)
  {
    o := org.(updated := now);
    if UpdateOrgStmt in db.failing {
      return o, Some(DB_ERROR);
    }
    db.t := db.t.(orgs := UpdatedOrgRows(db.t.orgs, o));
    err := None;
  }

  // ---- Org queries ----------------------------------------------------------------------

  /** A row of `org o JOIN userorg ON userorg.orgId = o.id WHERE userorg.userId = ?`. */
  function MemberOrg(members: seq<MemberRow>, userId: string): OrgRow -> bool
  {
    (r: OrgRow) => IsMember(members, userId, r.id)
  }

  function MemberOrgWithId(members: seq<MemberRow>, userId: string, orgId: string): OrgRow -> bool
  {
    (r: OrgRow) => r.id == orgId && IsMember(members, userId, r.id)
  }

  /** GetOrg: the org, but only to one of its members; anyone else gets "Org not found". */
  function GetOrg(db: Db, orgId: string, userId: string): (r: Result<Org>)
    reads db
    ensures r.Ok? <==> GetOrgStmt !in db.failing && HasOrgId(db.t.orgs, orgId) && IsMember(db.t.members, userId, orgId)
    ensures r.Ok? ==> exists row :: row in db.t.orgs && row.id == orgId && r.value == ToOrg(row)
    ensures r.Err? ==> r.msg == (if GetOrgStmt in db.failing then DB_ERROR else ORG_NOT_FOUND)
  {
    if GetOrgStmt in db.failing then Err(DB_ERROR)
    else
      var rows := Filter(db.t.orgs, MemberOrgWithId(db.t.members, userId, orgId));
      FilterMembership(db.t.orgs, MemberOrgWithId(db.t.members, userId, orgId));
      if rows == [] then Err(ORG_NOT_FOUND)
      else
        assert rows[0] in rows;
        Ok(ToOrg(rows[0]))
  }

  /** GetOrgs: every org the user is a member of, in table order. */
  function GetOrgs(db: Db, userId: string): (r: Result<seq<Org>>)
    reads db
    ensures r.Err? <==> GetOrgsStmt in db.failing
    ensures r.Ok? ==> forall o :: o in r.value <==>
      exists row :: row in db.t.orgs && IsMember(db.t.members, userId, row.id) && o == ToOrg(row)
  {
    if GetOrgsStmt in db.failing then Err(DB_ERROR)
    else
      var rows := Filter(db.t.orgs, MemberOrg(db.t.members, userId));
      FilterMembership(db.t.orgs, MemberOrg(db.t.members, userId));
      var orgs := seq(|rows|, i requires 0 <= i < |rows| => ToOrg(rows[i]));
      assert forall row :: row in rows ==> ToOrg(row) in orgs by {
        forall row | row in rows ensures ToOrg(row) in orgs {
          var i :| 0 <= i < |rows| && rows[i] == row;
          assert orgs[i] == ToOrg(row);
        }
      }
      Ok(orgs)
  }

  /** An org is among the user's orgs exactly when it exists and the user is a member. */
  lemma ListedOrgs(db: Db, userId: string, orgId: string)
    requires GetOrgs(db, userId).Ok?
    ensures (exists j :: 0 <= j < |GetOrgs(db, userId).value| && GetOrgs(db, userId).value[j].id == orgId) <==>
      HasOrgId(db.t.orgs, orgId) && IsMember(db.t.members, userId, orgId)
  {
    var orgs := GetOrgs(db, userId).value;
    if HasOrgId(db.t.orgs, orgId) && IsMember(db.t.members, userId, orgId) {
      var row :| row in db.t.orgs && row.id == orgId;
      assert ToOrg(row) in orgs;
      var j :| 0 <= j < |orgs| && orgs[j] == ToOrg(row);
    }
    if exists j :: 0 <= j < |orgs| && orgs[j].id == orgId {
      var j :| 0 <= j < |orgs| && orgs[j].id == orgId;
      assert orgs[j] in orgs;
    }
  }

  function UserRowId(u: UserRow): string { u.id }

  function AdminOf(members: seq<MemberRow>, orgId: string): UserRow -> bool
  {
    (u: UserRow) => IsAdmin(members, u.id, orgId)
  }

  /** GetOrgAdmins (core/model/db/user.go): the users joined to the org with `admin = true`.
      Only their ids are used, so only their ids are returned. */
  function GetOrgAdmins(db: Db, orgId: string): (r: Result<seq<string>>)
    reads db
    ensures r.Err? <==> OrgAdminsStmt in db.failing
    ensures r.Ok? ==> forall id :: id in r.value <==>
      (exists u :: u in db.t.users && u.id == id) && IsAdmin(db.t.members, id, orgId)
  {
    if OrgAdminsStmt in db.failing then Err(DB_ERROR)
    else
      var rows := Filter(db.t.users, AdminOf(db.t.members, orgId));
      FilterMembership(db.t.users, AdminOf(db.t.members, orgId));
      var ids := seq(|rows|, i requires 0 <= i < |rows| => rows[i].id);
      assert forall u :: u in rows ==> u.id in ids by {
        forall u | u in rows ensures u.id in ids {
          var i :| 0 <= i < |rows| && rows[i] == u;
          assert ids[i] == u.id;
        }
      }
      Ok(ids)
  }

  // ---- Invites --------------------------------------------------------------------------

  function InviteRowOf(i: Invite): InviteRow
  {
    InviteRow(i.id, i.orgId, TimeToMs(i.inserted), TimeToMs(i.updated), i.email, i.accepted)
  }

  function ToInvite(r: InviteRow): Invite
  {
    Invite(r.id, r.orgId, MsToTime(r.inserted), MsToTime(r.updated), r.email, r.accepted)
  }

  /** InsertInvite: stamps Inserted and Updated with one reading and stores the invite as not
      accepted, whatever the request said. */
  method InsertInvite(db: Db, invite: Invite, now: Time) returns (i: Invite, err: Option<string>)
    requires db.Valid()
    modifies db
    ensures db.Valid()
    ensures i == invite.(inserted := now, updated := now)
    ensures err.None? <==> InsertInviteStmt !in db.failing
    ensures err.None? ==> db.t == old(db.t).(invites := old(db.t.invites) + [InviteRowOf(i.(accepted := false))])
    ensures err.Some? ==> db.t == old(db.t)
  {
    i := invite.(inserted := now, updated := now);
    if InsertInviteStmt in db.failing {
      return i, Some(DB_ERROR);
    }
    db.t := db.t.(invites := db.t.invites + [InviteRowOf(i.(accepted := false))]);
    err := None;
  }

  /** The invite rows after `UPDATE invite SET accepted = 1, updated = ? WHERE id = ?`. */
  function MarkAccepted(rows: seq<InviteRow>, id: string, updatedMs: int64): (r: seq<InviteRow>)
    ensures |r| == |rows|
    ensures forall i :: 0 <= i < |rows| ==>
      r[i] == if rows[i].id == id then rows[i].(accepted := true, updated := updatedMs) else rows[i]
  {
    seq(|rows|, i requires 0 <= i < |rows| =>
      if rows[i].id == id then rows[i].(accepted := true, updated := updatedMs) else rows[i])
  }

  /** The tables after AcceptInvite's three statements are committed; `marked` says whether the
      UPDATE of the invite went through. */
  function Accepted(t: Tables, i: Invite, userId: string, rootId: string, permissionId: string, marked: bool): Tables
  {
    t.(members := t.members + [MemberRow(userId, i.orgId, false)],
       invites := if marked then MarkAccepted(t.invites, i.id, TimeToMs(i.updated)) else t.invites,
       permissions := t.permissions +
         [PermissionRow(permissionId, userId, i.orgId, rootId, TimeToMs(i.updated), TimeToMs(i.updated))])
  }

  /** AcceptInvite as written: looks up the org's root account (nothing is written without one),
      then in one unit adds the user as a non-admin member, marks the invite accepted and grants
      a permission on the root account. The error of the UPDATE is overwritten before anyone
      reads it, so a refused UPDATE still commits the other two rows; and the commit's error is
      assigned after the result is fixed, so a failed commit is reported as success. */
  method AcceptInvite(db: Db, invite: Invite, userId: string, now: Time, random: seq<byte>)
    returns (i: Invite, err: Option<string>)
    requires db.Valid() && |random| == 16
    modifies db
    ensures db.Valid()
    ensures i == invite.(updated := now)
    ensures old(DbAccount.GetRootAccount(db, invite.orgId)).Err? ==>
      err == Some(old(DbAccount.GetRootAccount(db, invite.orgId)).msg) && db.t == old(db.t)
    ensures old(DbAccount.GetRootAccount(db, invite.orgId)).Ok? ==>
      var rootId := old(DbAccount.GetRootAccount(db, invite.orgId)).value.id;
      var refused := AcceptInviteMemberStmt in db.failing || AcceptInvitePermissionStmt in db.failing;
      (refused ==> err == Some(DB_ERROR) && db.t == old(db.t)) &&
      (!refused ==> err.None?) &&
      (!refused && AcceptInviteCommitStmt in db.failing ==> db.t == old(db.t)) &&
      (!refused && AcceptInviteCommitStmt !in db.failing ==>
         db.t == Accepted(old(db.t), i, userId, rootId, NewGuid(random), AcceptInviteMarkStmt !in db.failing))
  {
    i := invite.(updated := now);
    var root := DbAccount.GetRootAccount(db, i.orgId);
    if root.Err? {
      return i, Some(root.msg);
    }
    if AcceptInviteMemberStmt in db.failing {
      return i, Some(DB_ERROR);
    }
    var next := db.t.(members := db.t.members + [MemberRow(userId, i.orgId, false)]);
    if AcceptInviteMarkStmt !in db.failing {
      next := next.(invites := MarkAccepted(next.invites, i.id, TimeToMs(i.updated)));
    }
    var permissionId := NewGuid(random);
    if AcceptInvitePermissionStmt in db.failing {
      return i, Some(DB_ERROR);
    }
    next := next.(permissions := next.permissions +
      [PermissionRow(permissionId, userId, i.orgId, root.value.id, TimeToMs(i.updated), TimeToMs(i.updated))]);
    if AcceptInviteCommitStmt !in db.failing {
      db.t := next;
    }
    err := None;
  }

  /** AcceptInvite as evidently intended: a refused UPDATE or a failed commit is reported, and
      success means every row was written. */
  method AcceptInviteChecked(db: Db, invite: Invite, userId: string, now: Time, random: seq<byte>)
    returns (i: Invite, err: Option<string>)
    requires db.Valid() && |random| == 16
    modifies db
    ensures db.Valid()
    ensures i == invite.(updated := now)
    ensures err.None? <==>
      old(DbAccount.GetRootAccount(db, invite.orgId)).Ok? &&
      AcceptInviteMemberStmt !in db.failing && AcceptInviteMarkStmt !in db.failing &&
      AcceptInvitePermissionStmt !in db.failing && AcceptInviteCommitStmt !in db.failing
    ensures err.None? ==>
      db.t == Accepted(old(db.t), i, userId, old(DbAccount.GetRootAccount(db, invite.orgId)).value.id, NewGuid(random), true)
    ensures err.None? ==> IsMember(db.t.members, userId, i.orgId)
    ensures err.Some? ==> db.t == old(db.t)
  {
    i := invite.(updated := now);
    var root := DbAccount.GetRootAccount(db, i.orgId);
    if root.Err? {
      return i, Some(root.msg);
    }
    if AcceptInviteMemberStmt in db.failing || AcceptInviteMarkStmt in db.failing ||
       AcceptInvitePermissionStmt in db.failing || AcceptInviteCommitStmt in db.failing {
      return i, Some(DB_ERROR);
    }
    var permissionId := NewGuid(random);
    var next := Accepted(db.t, i, userId, root.value.id, permissionId, true);
    assert next.members[|next.members| - 1] in next.members;
    db.t := next;
    err := None;
  }

  /** The lower bound of GetInvites: the clock in milliseconds less seven days, in int64. */
  function InviteCutoff(now: Time): (ms: int64)
    ensures InRange(TimeToMs(now) as int - WEEK_MS) ==> ms == TimeToMs(now) - WEEK_MS
  {
    Wrap(TimeToMs(now) as int - WEEK_MS)
  }

  function ListedInvite(orgId: string, cutoff: int64): InviteRow -> bool
  {
    (r: InviteRow) => r.orgId == orgId && r.inserted > cutoff
  }

  /** GetInvites: the org's invites inserted strictly after the cutoff, accepted or not, in
      table order. */
  function GetInvites(db: Db, orgId: string, now: Time): (r: Result<seq<Invite>>)
    reads db
    ensures r.Err? <==> GetInvitesStmt in db.failing
    ensures r.Ok? ==> forall i :: i in r.value <==>
      exists row :: row in db.t.invites && row.orgId == orgId && row.inserted > InviteCutoff(now) && i == ToInvite(row)
  {
    if GetInvitesStmt in db.failing then Err(DB_ERROR)
    else
      var rows := Filter(db.t.invites, ListedInvite(orgId, InviteCutoff(now)));
      FilterMembership(db.t.invites, ListedInvite(orgId, InviteCutoff(now)));
      var invites := seq(|rows|, i requires 0 <= i < |rows| => ToInvite(rows[i]));
      assert forall row :: row in rows ==> ToInvite(row) in invites by {
        forall row | row in rows ensures ToInvite(row) in invites {
          var i :| 0 <= i < |rows| && rows[i] == row;
          assert invites[i] == ToInvite(row);
        }
      }
      Ok(invites)
  }

  function InviteRowWithId(id: string): InviteRow -> bool
  {
    (r: InviteRow) => r.id == id
  }

  /** GetInvite: the invite with the id, or "Invite not found". */
  function GetInvite(db: Db, id: string): (r: Result<Invite>)
    reads db
    ensures r.Ok? <==> GetInviteStmt !in db.failing && exists row :: row in db.t.invites && row.id == id
    ensures r.Ok? ==> exists row :: row in db.t.invites && row.id == id && r.value == ToInvite(row)
    ensures r.Err? ==> r.msg == (if GetInviteStmt in db.failing then DB_ERROR else INVITE_NOT_FOUND)
  {
    if GetInviteStmt in db.failing then Err(DB_ERROR)
    else
      var rows := Filter(db.t.invites, InviteRowWithId(id));
      FilterMembership(db.t.invites, InviteRowWithId(id));
      if rows == [] then Err(INVITE_NOT_FOUND)
      else
        assert rows[0] in rows;
        Ok(ToInvite(rows[0]))
  }

  function InviteRowNotId(id: string): InviteRow -> bool
  {
    (r: InviteRow) => r.id != id
  }

  /** DeleteInvite: removes the invite rows with the id and no others. */
  method DeleteInvite(db: Db, id: string) returns (err: Option<string>)
    requires db.Valid()
    modifies db
    ensures db.Valid()
    ensures err.None? <==> DeleteInviteStmt !in db.failing
    ensures err.None? ==> db.t == old(db.t).(invites := Filter(old(db.t.invites), InviteRowNotId(id)))
    ensures err.Some? ==> db.t == old(db.t)
  {
    if DeleteInviteStmt in db.failing {
      return Some(DB_ERROR);
    }
    db.t := db.t.(invites := Filter(db.t.invites, InviteRowNotId(id)));
    err := None;
  }

  /** An invite GetInvites still lists has not passed AcceptInvite's seven days, and one at
      exactly seven days is no longer listed although it can still be accepted. */
  lemma ListedInviteNotExpired(row: InviteRow, now: Time)
    requires 0 <= now <= MAX && 0 <= row.inserted && InRange(row.inserted as int * NS_PER_MS)
    ensures row.inserted > InviteCutoff(now) <==> now < MsToTime(row.inserted) + WEEK
  {
    var ms := TimeToMs(now);
    assert ms * NS_PER_MS <= now < ms * NS_PER_MS + NS_PER_MS;
    assert InviteCutoff(now) == ms - WEEK_MS;
    assert MsToTime(row.inserted) + WEEK == (row.inserted as int + WEEK_MS) * NS_PER_MS;
    if row.inserted > ms - WEEK_MS {
      assert row.inserted as int + WEEK_MS >= ms + 1;
      assert (row.inserted as int + WEEK_MS) * NS_PER_MS >= (ms + 1) * NS_PER_MS;
    } else {
      assert row.inserted as int + WEEK_MS <= ms;
      assert (row.inserted as int + WEEK_MS) * NS_PER_MS <= ms * NS_PER_MS;
    }
  }
}

=== FILE: db_price.dfy ===
/** core/model/db/price.go: the price table, and the two selections the balance code relies on. */
module DbPrice {
  import opened Wrappers
  import opened Int64
  import opened Util
  import opened Types
  import opened Store
  import opened Seqs
  import opened Sorting

  const PRICE_NOT_FOUND: string := "Price not found"

  function PriceRowOf(p: Price): PriceRow
  {
    PriceRow(p.id, p.orgId, p.currency, TimeToMs(p.date), TimeToMs(p.inserted), TimeToMs(p.updated), p.price)
  }

  function ToPrice(r: PriceRow): Price
  {
    Price(r.id, r.orgId, r.currency, MsToTime(r.date), MsToTime(r.inserted), MsToTime(r.updated), r.price)
  }

  function ToPrices(rows: seq<PriceRow>): (ps: seq<Price>)
    ensures |ps| == |rows|
  {
    seq(|rows|, i requires 0 <= i < |rows| => ToPrice(rows[i]))
  }

  // ---- InsertPrice --------------------------------------------------------------------

  /** InsertPrice: Inserted and Updated from one clock reading; a zero Date becomes Inserted. */
  method InsertPrice(db: Db, price: Price, now: Time) returns (p: Price, err: Option<string>)
    requires db.Valid()
    modifies db
    ensures db.Valid()
    ensures p.inserted == now && p.updated == now
    ensures p.date == if price.date == ZERO_TIME then now else price.date
    ensures p == price.(inserted := p.inserted, updated := p.updated, date := p.date)
    ensures err.None? <==> InsertPriceStmt !in db.failing
    ensures err.None? ==> db.t == old(db.t).(prices := old(db.t.prices) + [PriceRowOf(p)])
    ensures err.Some? ==> db.t == old(db.t)
  {
    p := price.(inserted := now);
    p := p.(updated := p.inserted);
    if p.date == ZERO_TIME {
      p := p.(date := p.inserted);
    }
    if InsertPriceStmt in db.failing {
      return p, Some(DB_ERROR);
    }
    db.t := db.t.(prices := db.t.prices + [PriceRowOf(p)]);
    err := None;
  }

  // ---- GetPriceById and DeletePrice -----------------------------------------------------

  function WithPriceId(id: string): PriceRow -> bool
  {
    (r: PriceRow) => r.id == id
  }

  function WithoutPriceId(id: string): PriceRow -> bool
  {
    (r: PriceRow) => r.id != id
  }

  /** GetPriceById: the row under the id, or "Price not found". */
  function GetPriceById(t: Tables, failing: set<Statement>, id: string): (r: Result<Price>)
    ensures r.Ok? ==> exists row :: row in t.prices && row.id == id && r.value == ToPrice(row)
    ensures r.Err? <==> PriceByIdStmt in failing || forall row :: row in t.prices ==> row.id != id
    ensures r.Err? ==> r.msg == (if PriceByIdStmt in failing then DB_ERROR else PRICE_NOT_FOUND)
  {
    var rows := Filter(t.prices, WithPriceId(id));
    FilterMembership(t.prices, WithPriceId(id));
    if PriceByIdStmt in failing then Err(DB_ERROR)
    else if rows == [] then Err(PRICE_NOT_FOUND)
    else
      assert rows[0] in rows;
      Ok(ToPrice(rows[0]))
  }

  /** `DELETE FROM price WHERE id = ?`. */
  function WithoutPrice(t: Tables, id: string): Tables
  {
    t.(prices := Filter(t.prices, WithoutPriceId(id)))
  }

  method DeletePrice(db: Db, id: string) returns (err: Option<string>)
    requires db.Valid()
    modifies db
    ensures db.Valid()
    ensures err.None? <==> DeletePriceStmt !in db.failing
    ensures err.None? ==> db.t == WithoutPrice(old(db.t), id)
    ensures err.Some? ==> db.t == old(db.t)
  {
    if DeletePriceStmt in db.failing {
      return Some(DB_ERROR);
    }
    db.t := WithoutPrice(db.t, id);
    err := None;
  }

  /** A delete removes every row under the id and no other row; looking the id up afterwards
      finds nothing. */
  lemma DeleteRemovesOnlyId(t: Tables, failing: set<Statement>, id: string)
    requires PriceByIdStmt !in failing
    ensures forall x :: x in WithoutPrice(t, id).prices <==> x in t.prices && x.id != id
    ensures GetPriceById(WithoutPrice(t, id), failing, id) == Err(PRICE_NOT_FOUND)
  {
    FilterMembership(t.prices, WithoutPriceId(id));
  }

  /** A price inserted under a new id is the one found under it. */
  lemma InsertThenGet(t: Tables, failing: set<Statement>, p: Price)
    requires PriceByIdStmt !in failing
    requires forall row :: row in t.prices ==> row.id != p.id
    ensures GetPriceById(t.(prices := t.prices + [PriceRowOf(p)]), failing, p.id) == Ok(ToPrice(PriceRowOf(p)))
  {
    FilterAppend(t.prices, [PriceRowOf(p)], WithPriceId(p.id));
    FilterNone(t.prices, WithPriceId(p.id));
    assert Filter([PriceRowOf(p)], WithPriceId(p.id)) == [PriceRowOf(p)] by {
      FilterAll([PriceRowOf(p)], WithPriceId(p.id));
    }
  }

  // ---- GetPricesNearestInTime -------------------------------------------------------------

  function Abs(x: int): nat
  {
    if x < 0 then -x else x
  }

  /** `ABS(CAST(p.date AS SIGNED) - ?)`: how far the row's date lies from the asked date. */
  function Distance(r: PriceRow, ms: int): nat
  {
    Abs(r.date - ms)
  }

  /** The LEFT OUTER JOIN finds no row of the same org and currency strictly nearer to ms. */
  predicate Nearest(rows: seq<PriceRow>, r: PriceRow, ms: int)
  {
    forall r2 :: r2 in rows && r2.currency == r.currency && r2.orgId == r.orgId ==> Distance(r, ms) <= Distance(r2, ms)
  }

  function NearestIn(rows: seq<PriceRow>, orgId: string, ms: int): PriceRow -> bool
  {
    (r: PriceRow) => r.orgId == orgId && Nearest(rows, r, ms)
  }

  /** GetPricesNearestInTime: for each currency of the org, every price whose date is nearest
      to the date asked, ties included, in table order. */
  function GetPricesNearestInTime(t: Tables, failing: set<Statement>, orgId: string, date: Time): (r: Result<seq<Price>>)
    ensures r.Err? <==> NearestPricesStmt in failing
    ensures r.Ok? ==> forall p :: p in r.value <==>
      exists row :: row in t.prices && row.orgId == orgId && Nearest(t.prices, row, TimeToMs(date)) && p == ToPrice(row)
  {
    if NearestPricesStmt in failing then Err(DB_ERROR)
    else
      var rows := Filter(t.prices, NearestIn(t.prices, orgId, TimeToMs(date)));
      FilterMembership(t.prices, NearestIn(t.prices, orgId, TimeToMs(date)));
      var ps := ToPrices(rows);
      assert forall row :: row in rows ==> ToPrice(row) in ps by {
        forall row | row in rows
          ensures ToPrice(row) in ps
        {
          var i :| 0 <= i < |rows| && rows[i] == row;
          assert ps[i] == ToPrice(row);
        }
      }
      Ok(ps)
  }

  /** Among a non-empty list of rows, one lies nearest to ms. */
  lemma {:induction false} Closest(cands: seq<PriceRow>, ms: int) returns (c: PriceRow)
    requires cands != []
    ensures c in cands && forall r :: r in cands ==> Distance(c, ms) <= Distance(r, ms)
  {
    if |cands| == 1 {
      c := cands[0];
    } else {
      var rest := Closest(cands[1..], ms);
      c := if Distance(cands[0], ms) <= Distance(rest, ms) then cands[0] else rest;
      forall r | r in cands
        ensures Distance(c, ms) <= Distance(r, ms)
      {
        if r != cands[0] {
          assert r in cands[1..];
        }
      }
    }
  }

  function SameCurrency(orgId: string, currency: string): PriceRow -> bool
  {
    (r: PriceRow) => r.orgId == orgId && r.currency == currency
  }

  /** Every currency the org has a price in gets at least one price back. */
  lemma NearestCoversCurrencies(t: Tables, failing: set<Statement>, orgId: string, date: Time, currency: string)
    requires NearestPricesStmt !in failing
    requires exists row :: row in t.prices && row.orgId == orgId && row.currency == currency
    ensures exists p :: p in GetPricesNearestInTime(t, failing, orgId, date).value && p.orgId == orgId && p.currency == currency
  {
    var ms := TimeToMs(date);
    var cands := Filter(t.prices, SameCurrency(orgId, currency));
    FilterMembership(t.prices, SameCurrency(orgId, currency));
    var row :| row in t.prices && row.orgId == orgId && row.currency == currency;
    assert row in cands;
    var c := Closest(cands, ms);
    assert Nearest(t.prices, c, ms);
    assert ToPrice(c) in GetPricesNearestInTime(t, failing, orgId, date).value;
  }

  /** Ties are kept: the rows selected for one currency all lie equally near, and any row of
      that currency at that distance is selected too. */
  lemma NearestTies(t: Tables, orgId: string, ms: int, r1: PriceRow, r2: PriceRow)
    requires r1 in t.prices && r2 in t.prices && r1.orgId == orgId && r2.orgId == orgId && r1.currency == r2.currency
    requires Nearest(t.prices, r1, ms)
    ensures Nearest(t.prices, r2, ms) <==> Distance(r1, ms) == Distance(r2, ms)
  {
  }

  // ---- GetPricesByCurrency --------------------------------------------------------------

  /** `ORDER BY date ASC`. */
  predicate ByDate(a: PriceRow, b: PriceRow)
  {
    a.date <= b.date
  }

  lemma ByDateOrders()
    ensures Total(ByDate) && Transitive(ByDate)
  {
  }

  /** The org's rows in the currency, by date. */
  function CurrencyRows(t: Tables, orgId: string, currency: string): (rows: seq<PriceRow>)
    ensures forall i, j :: 0 <= i < j < |rows| ==> rows[i].date <= rows[j].date
    ensures multiset(rows) == multiset(Filter(t.prices, SameCurrency(orgId, currency)))
  {
    ByDateOrders();
    SortBy(Filter(t.prices, SameCurrency(orgId, currency)), ByDate)
  }

  /** GetPricesByCurrency: the org's prices in the currency, earliest date first. */
  function GetPricesByCurrency(t: Tables, failing: set<Statement>, orgId: string, currency: string): (r: Result<seq<Price>>)
    ensures r.Err? <==> PricesByCurrencyStmt in failing
  {
    if PricesByCurrencyStmt in failing then Err(DB_ERROR)
    else Ok(ToPrices(CurrencyRows(t, orgId, currency)))
  }

  /** The listing holds exactly the org's prices in the currency. */
  lemma ByCurrencyMembers(t: Tables, failing: set<Statement>, orgId: string, currency: string)
    requires PricesByCurrencyStmt !in failing
    ensures forall p :: p in GetPricesByCurrency(t, failing, orgId, currency).value <==>
      exists row :: row in t.prices && row.orgId == orgId && row.currency == currency && p == ToPrice(row)
  {
    var rows := CurrencyRows(t, orgId, currency);
    var ps := ToPrices(rows);
    FilterMembership(t.prices, SameCurrency(orgId, currency));
    forall p | p in ps
      ensures exists row :: row in t.prices && row.orgId == orgId && row.currency == currency && p == ToPrice(row)
    {
      var i :| 0 <= i < |ps| && ps[i] == p;
      assert rows[i] in multiset(rows);
    }
    forall row | row in t.prices && row.orgId == orgId && row.currency == currency
      ensures ToPrice(row) in ps
    {
      assert row in multiset(Filter(t.prices, SameCurrency(orgId, currency)));
      var i :| 0 <= i < |rows| && rows[i] == row;
      assert ps[i] == ToPrice(row);
    }
  }

  /** The dates ascend whenever the stored milliseconds convert to nanoseconds without overflow. */
  lemma ByCurrencyAscending(t: Tables, failing: set<Statement>, orgId: string, currency: string)
    requires PricesByCurrencyStmt !in failing
    requires forall row :: row in t.prices ==> InRange(row.date * NS_PER_MS)
    ensures var ps := GetPricesByCurrency(t, failing, orgId, currency).value;
      forall i, j :: 0 <= i < j < |ps| ==> ps[i].date <= ps[j].date
  {
    var rows := CurrencyRows(t, orgId, currency);
    FilterMembership(t.prices, SameCurrency(orgId, currency));
    forall i | 0 <= i < |rows|
      ensures InRange(rows[i].date * NS_PER_MS)
    {
      assert rows[i] in multiset(Filter(t.prices, SameCurrency(orgId, currency)));
    }
  }
}

=== FILE: db_transaction.dfy ===
/** core/model/db/transaction.go: the transaction and split tables. Every write is one SQL
    transaction: the model computes the new tables on a copy and publishes them only when
    every statement succeeded, which is what the deferred Rollback/Commit achieves. */
module DbTransaction {
  import opened Wrappers
  import opened Int64
  import opened Util
  import opened Types
  import opened Store
  import opened Seqs
  import opened Sorting
  import opened UrlQuery
  import opened QueryBuilder

  // ---- Rows written and read ------------------------------------------------------------

  /** The transaction row INSERT writes: `deleted` takes the column default, false. */
  function TransactionRowOf(t: Transaction, updatedMs: int64): TransactionRow
  {
    TransactionRow(t.id, t.orgId, t.userId, TimeToMs(t.date), TimeToMs(t.inserted), updatedMs,
                   t.description, t.data, false)
  }

  /** The row of one split: the transaction's id and stamps, the split's account and amounts,
      and the next AUTO_INCREMENT id. The split's own TransactionId is not written. */
  function SplitRowOf(t: Transaction, s: Split, id: nat, updatedMs: int64): SplitRow
  {
    SplitRow(id, t.id, s.accountId, TimeToMs(t.date), TimeToMs(t.inserted), updatedMs,
             s.amount, s.nativeAmount, false)
  }

  function SplitRowsOf(t: Transaction, updatedMs: int64, firstId: nat): (rows: seq<SplitRow>)
    ensures |rows| == |t.splits|
  {
    seq(|t.splits|, i requires 0 <= i < |t.splits| => SplitRowOf(t, t.splits[i], firstId + i, updatedMs))
  }

  /** Every split row of a transaction belongs to it and carries its date, inserted and updated
      values, so ordering splits orders their transactions alike. */
  lemma SplitRowsCarryStamps(t: Transaction, updatedMs: int64, firstId: nat)
    ensures forall s :: s in SplitRowsOf(t, updatedMs, firstId) ==>
      s.transactionId == t.id && !s.deleted && Carries(s, TransactionRowOf(t, updatedMs))
  {
  }

  /** A scanned transaction row, before its splits are attached. */
  function ToTransaction(r: TransactionRow): Transaction
  {
    Transaction(r.id, r.orgId, r.userId, MsToTime(r.date), MsToTime(r.inserted), MsToTime(r.updated),
                r.description, r.data, r.deleted, [])
  }

  /** A scanned split row: unmarshalSplits keeps the ids and amounts and drops the rest. */
  function ToSplit(r: SplitRow): Split
  {
    Split(r.transactionId, r.accountId, r.amount, r.nativeAmount)
  }

  function ToSplits(rows: seq<SplitRow>): (splits: seq<Split>)
    ensures |splits| == |rows|
    ensures forall i :: 0 <= i < |rows| ==> splits[i] == ToSplit(rows[i])
  {
    if rows == [] then [] else ToSplits(rows[..|rows| - 1]) + [ToSplit(rows[|rows| - 1])]
  }

  function TransactionRowId(r: TransactionRow): string { r.id }

  predicate HasTransactionId(rows: seq<TransactionRow>, id: string)
  {
    exists i :: 0 <= i < |rows| && rows[i].id == id
  }

  function WithTransactionId(id: string): TransactionRow -> bool
  {
    (r: TransactionRow) => r.id == id
  }

  /** The row `WHERE id = UNHEX(?)` finds, if any. */
  function FindTransactionRow(rows: seq<TransactionRow>, id: string): (r: Option<TransactionRow>)
    ensures r.Some? ==> r.value in rows && r.value.id == id
    ensures r.None? <==> !HasTransactionId(rows, id)
  {
    var found := Filter(rows, WithTransactionId(id));
    FilterMembership(rows, WithTransactionId(id));
    if found == [] then
      assert forall i :: 0 <= i < |rows| ==> rows[i] !in found;
      None
    else
      assert found[0] in found;
      Some(found[0])
  }

  function OfTransaction(id: string): SplitRow -> bool
  {
    (s: SplitRow) => s.transactionId == id
  }

  /** The splits of one transaction among the fetched rows, in the rows' order. */
  function SplitsOf(rows: seq<SplitRow>, id: string): (splits: seq<Split>)
    ensures forall s :: s in splits ==> s.transactionId == id
  {
    ToSplits(Filter(rows, OfTransaction(id)))
  }

  /** Split rows are stored in AUTO_INCREMENT order, so a selection of them read in table order
      is the `ORDER BY id` of the source. */
  lemma SelectionInIdOrder(t: Tables, p: SplitRow -> bool)
    requires t.Valid()
    ensures forall i, j :: 0 <= i < j < |Filter(t.splits, p)| ==> Filter(t.splits, p)[i].id < Filter(t.splits, p)[j].id
  {
    FilterOrder(t.splits, p, (a: SplitRow, b: SplitRow) => a.id < b.id);
  }

  // ---- InsertTransaction ----------------------------------------------------------------

  /** The tables after inserting the transaction row and then one row per split. */
  function WithTransaction(t: Tables, tx: Transaction, updatedMs: int64): Tables
  {
    t.(transactions := t.transactions + [TransactionRowOf(tx, updatedMs)],
       splits := t.splits + SplitRowsOf(tx, updatedMs, t.nextSplitId),
       nextSplitId := t.nextSplitId + |tx.splits|)
  }

  /** Inserting under a fresh id keeps the primary keys unique and the split ids increasing. */
  lemma WithTransactionValid(t: Tables, tx: Transaction, updatedMs: int64)
    requires t.Valid() && !HasTransactionId(t.transactions, tx.id)
    ensures WithTransaction(t, tx, updatedMs).Valid()
  {
    var added := SplitRowsOf(tx, updatedMs, t.nextSplitId);
    var splits := t.splits + added;
    forall i, j | 0 <= i < j < |splits|
      ensures splits[i].id < splits[j].id
    {
      if j >= |t.splits| {
        assert splits[j] == added[j - |t.splits|];
      }
    }
  }

  /** The statements of one insert, executed on a copy of the tables: the transaction row, then
      the split rows one at a time, each taking the next AUTO_INCREMENT id. */
  method AppendTransaction(t: Tables, tx: Transaction, updatedMs: int64) returns (next: Tables)
    requires t.Valid() && !HasTransactionId(t.transactions, tx.id)
    ensures next == WithTransaction(t, tx, updatedMs)
    ensures next.Valid()
  {
    var splits := t.splits;
    var id := t.nextSplitId;
    ghost var added := SplitRowsOf(tx, updatedMs, t.nextSplitId);
    var i := 0;
    while i < |tx.splits|
      invariant 0 <= i <= |tx.splits|
      invariant id == t.nextSplitId + i
      invariant splits == t.splits + added[..i]
    {
      assert added[..i + 1] == added[..i] + [SplitRowOf(tx, tx.splits[i], id, updatedMs)];
      splits := splits + [SplitRowOf(tx, tx.splits[i], id, updatedMs)];
      id := id + 1;
      i := i + 1;
    }
    assert added[..i] == added;
    next := t.(transactions := t.transactions + [TransactionRowOf(tx, updatedMs)],
               splits := splits, nextSplitId := id);
    WithTransactionValid(t, tx, updatedMs);
  }

  /** InsertTransaction: the transaction row and its split rows, stamped with the transaction's
      date, inserted and updated times, or nothing at all. */
  method InsertTransaction(db: Db, tx: Transaction) returns (err: Option<string>)
    requires db.Valid()
    modifies db
    ensures db.Valid()
    ensures err.None? <==> InsertTransactionStmt !in db.failing && !HasTransactionId(old(db.t.transactions), tx.id)
    ensures err.None? ==> db.t == WithTransaction(old(db.t), tx, TimeToMs(tx.updated))
    ensures err.Some? ==> db.t == old(db.t)
  {
    if InsertTransactionStmt in db.failing {
      return Some(DB_ERROR);
    }
    if HasTransactionId(db.t.transactions, tx.id) {
      return Some(DUPLICATE_KEY);
    }
    var next := AppendTransaction(db.t, tx, TimeToMs(tx.updated));
    db.t := next;
    err := None;
  }

  // ---- DeleteTransaction and DeleteAndInsertTransaction -----------------------------------

  /** `UPDATE split SET updated = ?, deleted = true WHERE transactionId = ?`, then the same on
      the transaction row. */
  function MarkDeleted(t: Tables, id: string, updatedMs: int64): (r: Tables)
    ensures |r.splits| == |t.splits| && |r.transactions| == |t.transactions|
  {
    t.(splits := seq(|t.splits|, i requires 0 <= i < |t.splits| =>
                   if t.splits[i].transactionId == id then t.splits[i].(updated := updatedMs, deleted := true)
                   else t.splits[i]),
       transactions := seq(|t.transactions|, i requires 0 <= i < |t.transactions| =>
                   if t.transactions[i].id == id then t.transactions[i].(updated := updatedMs, deleted := true)
                   else t.transactions[i]))
  }

  /** A soft delete removes no row: the transaction and all its splits are marked deleted with
      one shared updated time, every other row is untouched, and the keys stay valid. */
  lemma MarkDeletedMarks(t: Tables, id: string, updatedMs: int64)
    requires t.Valid()
    ensures var r := MarkDeleted(t, id, updatedMs);
      r.Valid() &&
      (forall i :: 0 <= i < |t.splits| && t.splits[i].transactionId == id ==>
         r.splits[i] == t.splits[i].(updated := updatedMs, deleted := true)) &&
      (forall i :: 0 <= i < |t.splits| && t.splits[i].transactionId != id ==> r.splits[i] == t.splits[i]) &&
      (forall i :: 0 <= i < |t.transactions| && t.transactions[i].id == id ==>
         r.transactions[i] == t.transactions[i].(updated := updatedMs, deleted := true)) &&
      (forall i :: 0 <= i < |t.transactions| && t.transactions[i].id != id ==> r.transactions[i] == t.transactions[i]) &&
      r.accounts == t.accounts && r.nextSplitId == t.nextSplitId
  {
  }

  /** After a soft delete no row of the transaction is live, and the transaction and its splits
      share one updated time. */
  lemma MarkDeletedTogether(t: Tables, id: string, updatedMs: int64)
    ensures var r := MarkDeleted(t, id, updatedMs);
      (forall s :: s in r.splits && s.transactionId == id ==> s.deleted && s.updated == updatedMs) &&
      (forall x :: x in r.transactions && x.id == id ==> x.deleted && x.updated == updatedMs)
  {
  }

  /** DeleteTransaction: one clock reading stamps both UPDATEs. */
  method DeleteTransaction(db: Db, id: string, now: Time) returns (err: Option<string>)
    requires db.Valid()
    modifies db
    ensures db.Valid()
    ensures err.None? <==> DeleteTransactionStmt !in db.failing
    ensures err.None? ==> db.t == MarkDeleted(old(db.t), id, TimeToMs(now))
    ensures err.Some? ==> db.t == old(db.t)
  {
    if DeleteTransactionStmt in db.failing {
      return Some(DB_ERROR);
    }
    var updatedTime := TimeToMs(now);
    MarkDeletedMarks(db.t, id, updatedTime);
    db.t := MarkDeleted(db.t, id, updatedTime);
    err := None;
  }

  /** DeleteAndInsertTransaction: marks the old rows deleted with the new transaction's Updated
      time and inserts the new rows with that same time. The old row is kept, so a replacement
      under the old id hits the primary key and the whole unit rolls back. */
  method DeleteAndInsertTransaction(db: Db, oldId: string, tx: Transaction) returns (err: Option<string>)
    requires db.Valid()
    modifies db
    ensures db.Valid()
    ensures err.None? <==> DeleteAndInsertStmt !in db.failing && !HasTransactionId(old(db.t.transactions), tx.id)
    ensures err.None? ==>
      db.t == WithTransaction(MarkDeleted(old(db.t), oldId, TimeToMs(tx.updated)), tx, TimeToMs(tx.updated))
    ensures err.Some? ==> db.t == old(db.t)
  {
    if DeleteAndInsertStmt in db.failing {
      return Some(DB_ERROR);
    }
    var updatedTime := TimeToMs(tx.updated);
    MarkDeletedMarks(db.t, oldId, updatedTime);
    var marked := MarkDeleted(db.t, oldId, updatedTime);
    assert HasTransactionId(marked.transactions, tx.id) <==> HasTransactionId(db.t.transactions, tx.id) by {
      if HasTransactionId(marked.transactions, tx.id) {
        var i :| 0 <= i < |marked.transactions| && marked.transactions[i].id == tx.id;
        assert db.t.transactions[i].id == tx.id;
      }
      if HasTransactionId(db.t.transactions, tx.id) {
        var i :| 0 <= i < |db.t.transactions| && db.t.transactions[i].id == tx.id;
        assert marked.transactions[i].id == tx.id;
      }
    }
    if HasTransactionId(marked.transactions, tx.id) {
      return Some(DUPLICATE_KEY);
    }
    var next := AppendTransaction(marked, tx, updatedTime);
    db.t := next;
    err := None;
  }

  /** Replacing a transaction by one under its own id always fails and changes nothing. */
  lemma ReplaceUnderSameIdFails(t: Tables, tx: Transaction)
    requires HasTransactionId(t.transactions, tx.id)
    ensures HasTransactionId(MarkDeleted(t, tx.id, TimeToMs(tx.updated)).transactions, tx.id)
  {
    var i :| 0 <= i < |t.transactions| && t.transactions[i].id == tx.id;
    assert MarkDeleted(t, tx.id, TimeToMs(tx.updated)).transactions[i].id == tx.id;
  }

  // ---- GetTransactionById ---------------------------------------------------------------

  /** GetTransactionById: the row under the id, deleted or not, with every split row that
      names it, deleted ones included, in id order. */
  function GetTransactionById(db: Db, id: string): (r: Result<Transaction>)
    reads db
    ensures r.Ok? ==> r.value.id == id && HasTransactionId(db.t.transactions, id)
    ensures r.Ok? ==> forall s :: s in r.value.splits ==> s.transactionId == id
    ensures r == Err(NO_ROWS) <==> TransactionByIdStmt !in db.failing && !HasTransactionId(db.t.transactions, id)
  {
    if TransactionByIdStmt in db.failing then Err(DB_ERROR)
    else match FindTransactionRow(db.t.transactions, id)
      case None => Err(NO_ROWS)
      case Some(row) =>
        if SplitsByTransactionStmt in db.failing then Err(DB_ERROR)
        else Ok(ToTransaction(row).(splits := SplitsOf(db.t.splits, row.id)))
  }

  /** The row appended under a fresh id is the one found under it. */
  lemma FindAppendedTransaction(rows: seq<TransactionRow>, row: TransactionRow)
    requires !HasTransactionId(rows, row.id)
    ensures FindTransactionRow(rows + [row], row.id) == Some(row)
  {
    var p := WithTransactionId(row.id);
    FilterAppend(rows, [row], p);
    FilterNone(rows, p);
    assert [row][..0] == [];
    assert Filter([row], p) == [row];
  }

  /** Reading back the split rows of a transaction gives its splits, each naming it. */
  lemma ReadBackSplits(tx: Transaction, updatedMs: int64, firstId: nat)
    ensures ToSplits(SplitRowsOf(tx, updatedMs, firstId)) ==
      seq(|tx.splits|, i requires 0 <= i < |tx.splits| => tx.splits[i].(transactionId := tx.id))
  {
    var added := SplitRowsOf(tx, updatedMs, firstId);
    var read := ToSplits(added);
    forall i | 0 <= i < |tx.splits|
      ensures read[i] == tx.splits[i].(transactionId := tx.id)
    {
      assert added[i] == SplitRowOf(tx, tx.splits[i], firstId + i, updatedMs);
    }
  }

  /** The split rows naming a fresh transaction are exactly the ones its insert wrote. */
  lemma SplitsOfAppended(t: Tables, tx: Transaction, updatedMs: int64)
    requires forall s :: s in t.splits ==> s.transactionId != tx.id
    ensures Filter(t.splits + SplitRowsOf(tx, updatedMs, t.nextSplitId), OfTransaction(tx.id)) ==
      SplitRowsOf(tx, updatedMs, t.nextSplitId)
  {
    var added := SplitRowsOf(tx, updatedMs, t.nextSplitId);
    var p := OfTransaction(tx.id);
    FilterAppend(t.splits, added, p);
    FilterNone(t.splits, p);
    FilterAll(added, p);
    assert [] + added == added;
  }

  /** Round trip: a transaction inserted under a fresh id reads back with every field, its
      times cut to whole milliseconds, and its splits in order, each naming the transaction. */
  lemma InsertThenGet(t: Tables, tx: Transaction, db: Db)
    requires !HasTransactionId(t.transactions, tx.id)
    requires forall s :: s in t.splits ==> s.transactionId != tx.id
    requires db.t == WithTransaction(t, tx, TimeToMs(tx.updated))
    requires TransactionByIdStmt !in db.failing && SplitsByTransactionStmt !in db.failing
    ensures GetTransactionById(db, tx.id) ==
      Ok(tx.(date := MsToTime(TimeToMs(tx.date)), inserted := MsToTime(TimeToMs(tx.inserted)),
             updated := MsToTime(TimeToMs(tx.updated)), deleted := false,
             splits := seq(|tx.splits|, i requires 0 <= i < |tx.splits| => tx.splits[i].(transactionId := tx.id))))
  {
    FindAppendedTransaction(t.transactions, TransactionRowOf(tx, TimeToMs(tx.updated)));
    SplitsOfAppended(t, tx, TimeToMs(tx.updated));
    ReadBackSplits(tx, TimeToMs(tx.updated), t.nextSplitId);
  }

  // ---- GetTransactionsByAccount and GetTransactionsByOrg -----------------------------------

  /** Stands for the transaction side of a split row when the first SELECT makes no JOIN;
      without a description prefix no clause looks at it. */
  const NO_JOIN: TransactionRow := TransactionRow("", "", "", 0, 0, 0, "", "", false)

  /** Whether the first SELECT of a listing returns the split row: on one of the accounts and
      kept by the option clauses. The JOIN with the transaction table is made only for a
      description prefix, and then drops a split whose transaction row is missing. */
  predicate Listed(txs: seq<TransactionRow>, accountIds: seq<string>, o: QueryOptions, s: SplitRow)
  {
    s.accountId in accountIds &&
    match FindTransactionRow(txs, s.transactionId)
    case Some(t) => Selected(o, s, t)
    case None => o.descriptionStartsWith == "" && Selected(o, s, NO_JOIN)
  }

  function ListedOn(txs: seq<TransactionRow>, accountIds: seq<string>, o: QueryOptions): SplitRow -> bool
  {
    (s: SplitRow) => Listed(txs, accountIds, o, s)
  }

  /** The columns GetTransactionsByOrg selects DISTINCT. */
  datatype Stamp = Stamp(transactionId: string, date: int64, inserted: int64, updated: int64)

  function StampOf(s: SplitRow): Stamp
  {
    Stamp(s.transactionId, s.date, s.inserted, s.updated)
  }

  predicate HasStamp(rows: seq<SplitRow>, st: Stamp)
  {
    exists i :: 0 <= i < |rows| && StampOf(rows[i]) == st
  }

  /** SELECT DISTINCT: one row for each stamp, the first to appear. */
  function DistinctStamps(rows: seq<SplitRow>): (r: seq<SplitRow>)
    ensures DistinctBy(r, StampOf)
    ensures forall x :: x in r ==> x in rows
    ensures forall i :: 0 <= i < |rows| ==> HasStamp(r, StampOf(rows[i]))
  {
    if rows == [] then []
    else
      var init := rows[..|rows| - 1];
      var last := rows[|rows| - 1];
      var kept := DistinctStamps(init);
      assert forall i :: 0 <= i < |init| ==> rows[i] == init[i];
      if HasStamp(kept, StampOf(last)) then kept
      else
        var r := kept + [last];
        assert forall i :: 0 <= i < |init| ==> HasStamp(r, StampOf(rows[i])) by {
          forall i | 0 <= i < |init|
            ensures HasStamp(r, StampOf(rows[i]))
          {
            var k :| 0 <= k < |kept| && StampOf(kept[k]) == StampOf(init[i]);
            assert r[k] == kept[k];
          }
        }
        assert r[|kept|] == last;
        r
  }

  /** The first SELECT: the listed split rows, made distinct by stamp for the org listing. */
  function Candidates(t: Tables, accountIds: seq<string>, o: QueryOptions, distinct: bool): (c: seq<SplitRow>)
    ensures forall s :: s in c ==> s in t.splits && Listed(t.transactions, accountIds, o, s)
  {
    var kept := Filter(t.splits, ListedOn(t.transactions, accountIds, o));
    FilterMembership(t.splits, ListedOn(t.transactions, accountIds, o));
    if distinct then DistinctStamps(kept) else kept
  }

  /** The transaction ids of the first SELECT, ordered as the options say and cut by LIMIT. */
  function WindowIds(t: Tables, accountIds: seq<string>, o: QueryOptions, distinct: bool): (ids: seq<string>)
    requires WindowAccepted(o)
  {
    OrdersArePreorders(o.sort);
    var w := Window(SortBy(Candidates(t, accountIds, o, distinct), SplitOrder(o.sort)), o);
    seq(|w|, i requires 0 <= i < |w| => w[i].transactionId)
  }

  function InIds(ids: seq<string>): TransactionRow -> bool
  {
    (r: TransactionRow) => r.id in ids
  }

  function NamesOneOf(ids: seq<string>): SplitRow -> bool
  {
    (s: SplitRow) => s.transactionId in ids
  }

  /** The second SELECT: the transaction rows under the ids, in the listing's order. */
  function ListedRows(t: Tables, ids: seq<string>, sort: string): (rows: seq<TransactionRow>)
    ensures forall r :: r in rows <==> r in t.transactions && r.id in ids
  {
    OrdersArePreorders(sort);
    FilterMembership(t.transactions, InIds(ids));
    SortByMembership(Filter(t.transactions, InIds(ids)), TransactionOrder(sort));
    SortBy(Filter(t.transactions, InIds(ids)), TransactionOrder(sort))
  }

  /** Every fetched split finds its transaction in transactionMap; a split that does not makes
      the source dereference a nil pointer. */
  predicate AllJoin(rows: seq<TransactionRow>, fetched: seq<SplitRow>)
  {
    forall s :: s in fetched ==> HasTransactionId(rows, s.transactionId)
  }

  /** Each transaction row, scanned, with the fetched splits that name it. */
  function Groups(rows: seq<TransactionRow>, fetched: seq<SplitRow>): (g: seq<Transaction>)
    ensures |g| == |rows|
  {
    seq(|rows|, j requires 0 <= j < |rows| => ToTransaction(rows[j]).(splits := SplitsOf(fetched, rows[j].id)))
  }

  /** The transactions of the second SELECT, each with the fetched splits that name it. */
  function Grouped(rows: seq<TransactionRow>, fetched: seq<SplitRow>): (r: Result<seq<Transaction>>)
    ensures r.Ok? <==> AllJoin(rows, fetched)
  {
    if !AllJoin(rows, fetched) then Err(NIL_DEREFERENCE) else Ok(Groups(rows, fetched))
  }

  /** A listing: the ids of the first SELECT; nothing more when there are none; otherwise the
      transactions under those ids, and every split of theirs grouped under its transaction. */
  function Listing(t: Tables, failing: set<Statement>, stmt: Statement, accountIds: seq<string>,
                   o: QueryOptions, distinct: bool): Result<seq<Transaction>>
  {
    if stmt in failing then Err(DB_ERROR)
    else if !WindowAccepted(o) then Err(SQL_SYNTAX_ERROR)
    else ListingOf(t, failing, WindowIds(t, accountIds, o, distinct), o.sort)
  }

  /** The rest of a listing once the first SELECT has given its ids. */
  function ListingOf(t: Tables, failing: set<Statement>, ids: seq<string>, sort: string): Result<seq<Transaction>>
  {
    if ids == [] then Ok([])
    else if ListedTransactionsStmt in failing || ListedSplitsStmt in failing then Err(DB_ERROR)
    else Grouped(ListedRows(t, ids, sort), Filter(t.splits, NamesOneOf(ids)))
  }

  /** The loop building transactionMap: each id to the position of its row. */
  method IndexById(rows: seq<TransactionRow>) returns (transactionMap: map<string, nat>)
    ensures forall k :: k in transactionMap <==> HasTransactionId(rows, k)
    ensures forall k :: k in transactionMap ==> transactionMap[k] < |rows| && rows[transactionMap[k]].id == k
  {
    transactionMap := map[];
    var i := 0;
    while i < |rows|
      invariant 0 <= i <= |rows|
      invariant forall k :: k in transactionMap ==> transactionMap[k] < i && rows[transactionMap[k]].id == k
      invariant forall j :: 0 <= j < i ==> rows[j].id in transactionMap
    {
      transactionMap := transactionMap[rows[i].id := i];
      i := i + 1;
    }
  }

  /** The grouping loop: each fetched split, in id order, appended to the Splits of the
      transaction transactionMap gives for the id it names. */
  method GroupSplits(rows: seq<TransactionRow>, fetched: seq<SplitRow>) returns (r: Result<seq<Transaction>>)
    requires DistinctBy(rows, TransactionRowId)
    ensures r == Grouped(rows, fetched)
  {
    var transactions := new Transaction[|rows|](j requires 0 <= j < |rows| => ToTransaction(rows[j]));
    assert transactions[..] == Groups(rows, fetched[..0]);
    var transactionMap := IndexById(rows);
    var i := 0;
    while i < |fetched|
      invariant 0 <= i <= |fetched|
      invariant AllJoin(rows, fetched[..i])
      invariant transactions[..] == Groups(rows, fetched[..i])
    {
      var s := fetched[i];
      if s.transactionId !in transactionMap {
        return Err(NIL_DEREFERENCE);
      }
      var j := transactionMap[s.transactionId];
      GroupsStep(rows, fetched, i, j);
      transactions[j] := transactions[j].(splits := transactions[j].splits + [ToSplit(s)]);
      i := i + 1;
    }
    assert fetched[..i] == fetched;
    r := Ok(transactions[..]);
  }

  /** One more fetched split extends the group of the transaction it names and no other. */
  lemma GroupsStep(rows: seq<TransactionRow>, fetched: seq<SplitRow>, i: nat, j: nat)
    requires i < |fetched| && j < |rows| && rows[j].id == fetched[i].transactionId
    requires DistinctBy(rows, TransactionRowId)
    requires AllJoin(rows, fetched[..i])
    ensures AllJoin(rows, fetched[..i + 1])
    ensures Groups(rows, fetched[..i + 1]) ==
      Groups(rows, fetched[..i])[j := Groups(rows, fetched[..i])[j].(splits := Groups(rows, fetched[..i])[j].splits + [ToSplit(fetched[i])])]
  {
    var before, after := fetched[..i], fetched[..i + 1];
    assert after == before + [fetched[i]];
    assert after[..i] == before;
    forall k | 0 <= k < |rows|
      ensures SplitsOf(after, rows[k].id) ==
        if k == j then SplitsOf(before, rows[k].id) + [ToSplit(fetched[i])] else SplitsOf(before, rows[k].id)
    {
      if k != j {
        assert TransactionRowId(rows[k]) != TransactionRowId(rows[j]);
      }
    }
  }

  /** The rows of the second SELECT have distinct ids, since the table's do. */
  lemma ListedRowsDistinct(t: Tables, ids: seq<string>, sort: string)
    requires t.Valid()
    ensures DistinctBy(ListedRows(t, ids, sort), TransactionRowId)
  {
    OrdersArePreorders(sort);
    FilterDistinctBy(t.transactions, InIds(ids), TransactionRowId);
    SortByDistinctBy(Filter(t.transactions, InIds(ids)), TransactionOrder(sort), TransactionRowId);
  }

  /** The statements of one listing, in the order the source issues them, against the tables
      and the refusing statements of the connection. */
  method List(t: Tables, failing: set<Statement>, stmt: Statement, accountIds: seq<string>, o: QueryOptions,
               distinct: bool) returns (r: Result<seq<Transaction>>)
    requires t.Valid()
    ensures r == Listing(t, failing, stmt, accountIds, o, distinct)
  {
    if stmt in failing {
      return Err(DB_ERROR);
    }
    if !WindowAccepted(o) {
      return Err(SQL_SYNTAX_ERROR);
    }
    var ids := WindowIds(t, accountIds, o, distinct);
    r := FetchListed(t, failing, ids, o.sort);
  }

  /** The second and third SELECT and the grouping, skipped when there are no ids. */
  method FetchListed(t: Tables, failing: set<Statement>, ids: seq<string>, sort: string)
    returns (r: Result<seq<Transaction>>)
    requires t.Valid()
    ensures r == ListingOf(t, failing, ids, sort)
  {
    if ids == [] {
      return Ok([]);
    }
    if ListedTransactionsStmt in failing || ListedSplitsStmt in failing {
      return Err(DB_ERROR);
    }
    var rows := ListedRows(t, ids, sort);
    ListedRowsDistinct(t, ids, sort);
    r := GroupSplits(rows, Filter(t.splits, NamesOneOf(ids)));
  }

  /** GetTransactionsByAccount: the listing over one account's splits. */
  method GetTransactionsByAccount(db: Db, accountId: string, o: QueryOptions) returns (r: Result<seq<Transaction>>)
    requires db.Valid()
    ensures r == Listing(db.t, db.failing, TransactionsByAccountStmt, [accountId], o, false)
  {
    r := List(db.t, db.failing, TransactionsByAccountStmt, [accountId], o, false);
  }

  /** The SQL literal each account id is rewritten to. */
  function UnhexLiteral(id: string): string
  {
    "UNHEX(\"" + id + "\")"
  }

  /** GetTransactionsByOrg: the listing over the splits of the given accounts, DISTINCT by
      transaction and stamps. An empty list returns at once; otherwise each element of the
      caller's list is overwritten with its UNHEX literal. The org id takes no part. */
  method GetTransactionsByOrg(db: Db, orgId: string, o: QueryOptions, accountIds: array<string>)
    returns (r: Result<seq<Transaction>>)
    requires db.Valid()
    modifies accountIds
    ensures accountIds.Length == 0 ==> r == Ok([])
    ensures accountIds.Length > 0 ==> r == Listing(db.t, db.failing, TransactionsByOrgStmt, old(accountIds[..]), o, true)
    ensures forall i :: 0 <= i < accountIds.Length ==> accountIds[i] == UnhexLiteral(old(accountIds[i]))
  {
    if accountIds.Length == 0 {
      return Ok([]);
    }
    var ids := accountIds[..];
    var i := 0;
    while i < accountIds.Length
      invariant 0 <= i <= accountIds.Length
      invariant forall k :: 0 <= k < i ==> accountIds[k] == UnhexLiteral(ids[k])
      invariant forall k :: i <= k < accountIds.Length ==> accountIds[k] == ids[k]
    {
      accountIds[i] := UnhexLiteral(accountIds[i]);
      i := i + 1;
    }
    r := List(db.t, db.failing, TransactionsByOrgStmt, ids, o, true);
  }

  // ---- What a listing promises ------------------------------------------------------------

  /** With no split row passing the first SELECT, a listing is empty and issues no further
      statement: the later statements' failures do not matter. */
  lemma ListingWithoutMatches(t: Tables, failing: set<Statement>, stmt: Statement, accountIds: seq<string>,
                              o: QueryOptions, distinct: bool)
    requires stmt !in failing && WindowAccepted(o)
    requires forall s :: s in t.splits ==> !Listed(t.transactions, accountIds, o, s)
    ensures Listing(t, failing, stmt, accountIds, o, distinct) == Ok([])
  {
    var c := Candidates(t, accountIds, o, distinct);
    assert forall x :: x !in c;
    NoMembers(c);
    OrdersArePreorders(o.sort);
    assert SortBy(c, SplitOrder(o.sort)) == [];
  }

  /** The transactions listed are exactly the stored ones whose ids the first SELECT gave. */
  lemma ListingMembers(t: Tables, failing: set<Statement>, stmt: Statement, accountIds: seq<string>,
                       o: QueryOptions, distinct: bool, txs: seq<Transaction>)
    requires Listing(t, failing, stmt, accountIds, o, distinct) == Ok(txs)
    ensures WindowAccepted(o)
    ensures forall x :: x in txs ==> x.id in WindowIds(t, accountIds, o, distinct) && HasTransactionId(t.transactions, x.id)
    ensures forall id :: id in WindowIds(t, accountIds, o, distinct) && HasTransactionId(t.transactions, id) ==>
      exists x :: x in txs && x.id == id
  {
    ListingOfMembers(t, failing, WindowIds(t, accountIds, o, distinct), o.sort, txs);
  }

  lemma ListingOfMembers(t: Tables, failing: set<Statement>, ids: seq<string>, sort: string, txs: seq<Transaction>)
    requires ListingOf(t, failing, ids, sort) == Ok(txs)
    ensures forall x :: x in txs ==> x.id in ids && HasTransactionId(t.transactions, x.id)
    ensures forall id :: id in ids && HasTransactionId(t.transactions, id) ==> exists x :: x in txs && x.id == id
  {
    if ids != [] {
      var rows := ListedRows(t, ids, sort);
      assert txs == Groups(rows, Filter(t.splits, NamesOneOf(ids)));
      GroupsSound(t, ids, rows, txs);
      GroupsComplete(t, ids, rows, txs);
    }
  }

  lemma GroupsSound(t: Tables, ids: seq<string>, rows: seq<TransactionRow>, txs: seq<Transaction>)
    requires forall r :: r in rows <==> r in t.transactions && r.id in ids
    requires |txs| == |rows| && forall j :: 0 <= j < |rows| ==> txs[j].id == rows[j].id
    ensures forall x :: x in txs ==> x.id in ids && HasTransactionId(t.transactions, x.id)
  {
    forall x | x in txs
      ensures x.id in ids && HasTransactionId(t.transactions, x.id)
    {
      var j :| 0 <= j < |txs| && txs[j] == x;
      assert rows[j] in rows;
      var k :| 0 <= k < |t.transactions| && t.transactions[k] == rows[j];
    }
  }

  lemma GroupsComplete(t: Tables, ids: seq<string>, rows: seq<TransactionRow>, txs: seq<Transaction>)
    requires forall r :: r in rows <==> r in t.transactions && r.id in ids
    requires |txs| == |rows| && forall j :: 0 <= j < |rows| ==> txs[j].id == rows[j].id
    ensures forall id :: id in ids && HasTransactionId(t.transactions, id) ==> exists x :: x in txs && x.id == id
  {
    forall id | id in ids && HasTransactionId(t.transactions, id)
      ensures exists x :: x in txs && x.id == id
    {
      var k :| 0 <= k < |t.transactions| && t.transactions[k].id == id;
      assert t.transactions[k] in rows;
      var j :| 0 <= j < |rows| && rows[j] == t.transactions[k];
      assert txs[j].id == id;
    }
  }

  /** A stored timestamp converts back to a time without int64 wrap-around. */
  predicate StampsFit(r: TransactionRow)
  {
    InRange(r.date * NS_PER_MS) && InRange(r.inserted * NS_PER_MS) && InRange(r.updated * NS_PER_MS)
  }

  /** The listing order on scanned transactions: oldest update first for "updated-asc",
      otherwise newest date first and, within a date, newest insertion first. */
  predicate ListedBefore(sort: string, a: Transaction, b: Transaction)
  {
    if sort == UPDATED_ASC then a.updated <= b.updated
    else a.date > b.date || (a.date == b.date && a.inserted >= b.inserted)
  }

  /** A listing comes in the order the options ask for. */
  lemma ListingOrdered(t: Tables, failing: set<Statement>, stmt: Statement, accountIds: seq<string>,
                       o: QueryOptions, distinct: bool, txs: seq<Transaction>)
    requires forall r :: r in t.transactions ==> StampsFit(r)
    requires Listing(t, failing, stmt, accountIds, o, distinct) == Ok(txs)
    ensures forall i, j :: 0 <= i < j < |txs| ==> ListedBefore(o.sort, txs[i], txs[j])
  {
    ListingOfOrdered(t, failing, WindowIds(t, accountIds, o, distinct), o.sort, txs);
  }

  lemma ListingOfOrdered(t: Tables, failing: set<Statement>, ids: seq<string>, sort: string, txs: seq<Transaction>)
    requires forall r :: r in t.transactions ==> StampsFit(r)
    requires ListingOf(t, failing, ids, sort) == Ok(txs)
    ensures forall i, j :: 0 <= i < j < |txs| ==> ListedBefore(sort, txs[i], txs[j])
  {
    if ids != [] {
      var rows := ListedRows(t, ids, sort);
      assert txs == Groups(rows, Filter(t.splits, NamesOneOf(ids)));
      OrdersArePreorders(sort);
      assert Sorted(rows, TransactionOrder(sort));
      forall i, j | 0 <= i < j < |txs|
        ensures ListedBefore(sort, txs[i], txs[j])
      {
        assert rows[i] in rows && rows[j] in rows;
        assert StampsFit(rows[i]) && StampsFit(rows[j]);
        assert TransactionOrder(sort)(rows[i], rows[j]);
      }
    }
  }

  /** Every listed transaction is exactly what GetTransactionById returns for its id: the same
      row, and every split row naming it, deleted ones included, in id order. */
  lemma ListingAgreesWithGetById(db: Db, stmt: Statement, accountIds: seq<string>, o: QueryOptions,
                                 distinct: bool, txs: seq<Transaction>)
    requires db.t.Valid()
    requires Listing(db.t, db.failing, stmt, accountIds, o, distinct) == Ok(txs)
    requires TransactionByIdStmt !in db.failing && SplitsByTransactionStmt !in db.failing
    ensures forall x :: x in txs ==> GetTransactionById(db, x.id) == Ok(x)
  {
    ListingOfAgreesWithGetById(db, WindowIds(db.t, accountIds, o, distinct), o.sort, txs);
  }

  lemma ListingOfAgreesWithGetById(db: Db, ids: seq<string>, sort: string, txs: seq<Transaction>)
    requires db.t.Valid()
    requires ListingOf(db.t, db.failing, ids, sort) == Ok(txs)
    requires TransactionByIdStmt !in db.failing && SplitsByTransactionStmt !in db.failing
    ensures forall x :: x in txs ==> GetTransactionById(db, x.id) == Ok(x)
  {
    if ids != [] {
      var rows := ListedRows(db.t, ids, sort);
      assert txs == Groups(rows, Filter(db.t.splits, NamesOneOf(ids)));
      forall x | x in txs
        ensures GetTransactionById(db, x.id) == Ok(x)
      {
        var j :| 0 <= j < |txs| && txs[j] == x;
        GroupAgreesWithGetById(db, ids, sort, j);
      }
    }
  }

  /** One group of a listing, compared with GetTransactionById. */
  lemma GroupAgreesWithGetById(db: Db, ids: seq<string>, sort: string, j: nat)
    requires db.t.Valid()
    requires j < |ListedRows(db.t, ids, sort)|
    requires TransactionByIdStmt !in db.failing && SplitsByTransactionStmt !in db.failing
    ensures var row := ListedRows(db.t, ids, sort)[j];
      GetTransactionById(db, row.id) ==
        Ok(Groups(ListedRows(db.t, ids, sort), Filter(db.t.splits, NamesOneOf(ids)))[j])
  {
    var t := db.t;
    var rows := ListedRows(t, ids, sort);
    var row := rows[j];
    assert row in rows;
    FilterNarrow(t.splits, NamesOneOf(ids), OfTransaction(row.id));
    var found := FindTransactionRow(t.transactions, row.id);
    var k :| 0 <= k < |t.transactions| && t.transactions[k] == row;
    var m :| 0 <= m < |t.transactions| && t.transactions[m] == found.value;
    assert k == m;
  }
}

=== FILE: db_user.dfy ===
/** The user, session and API-key statements of core/model/db/user.go, session.go and apikey.go
    that the user and authentication services rely on. */
module DbUser {
  import opened Wrappers
  import opened Int64
  import opened Util
  import opened Types
  import opened Store
  import opened Seqs

  /** The stored row: the plain-text password is never written. */
  function RowOf(u: User): UserRow
  {
    UserRow(u.id, TimeToMs(u.inserted), TimeToMs(u.updated), u.firstName, u.lastName, u.email,
      u.passwordHash, u.agreeToTerms, u.passwordReset, u.emailVerified, u.emailVerifyCode, u.signupSource)
  }

  /** unmarshalUser: the row read back; Password stays empty. */
  function UserOf(r: UserRow): User
  {
    User(r.id, MsToTime(r.inserted), MsToTime(r.updated), r.firstName, r.lastName, r.email, "",
      r.passwordHash, r.agreeToTerms, r.passwordReset, r.emailVerified, r.emailVerifyCode, r.signupSource)
  }

  /** A stored user reads back with every column, signupSource included; the plain-text password
      is gone and the times lose their sub-millisecond part. */
  lemma ReadBackUser(u: User)
    ensures UserOf(RowOf(u)) ==
      u.(inserted := MsToTime(TimeToMs(u.inserted)), updated := MsToTime(TimeToMs(u.updated)), password := "")
  {
  }

  // ---- writes -------------------------------------------------------------------------

  /** InsertUser: Inserted and Updated from one clock reading, and no reset code. */
  method InsertUser(db: Db, user: User, now: Time) returns (u: User, err: Option<string>)
    requires db.Valid()
    modifies db
    ensures db.Valid()
    ensures u == user.(inserted := now, updated := now, passwordReset := "")
    ensures err.None? <==> InsertUserStmt !in db.failing
    ensures err.None? ==> db.t == old(db.t).(users := old(db.t.users) + [RowOf(u)])
    ensures err.Some? ==> err == Some(DB_ERROR) && db.t == old(db.t)
  {
    u := user.(inserted := now);
    u := u.(updated := u.inserted, passwordReset := "");
    if InsertUserStmt in db.failing {
      return u, Some(DB_ERROR);
    }
    db.t := db.t.(users := db.t.users + [RowOf(u)]);
    err := None;
  }

  /** `UPDATE user SET updated = ?, passwordHash = ?, passwordReset = '' WHERE id = ?`. */
  function WithPassword(t: Tables, id: string, ms: int64, hash: string): (r: Tables)
  {
    t.(users := seq(|t.users|, i requires 0 <= i < |t.users| =>
      if t.users[i].id == id then t.users[i].(updated := ms, passwordHash := hash, passwordReset := "")
      else t.users[i]))
  }

  /** `UPDATE user SET updated = ?, passwordReset = ? WHERE id = ?`. */
  function WithResetCode(t: Tables, id: string, ms: int64, code: string): (r: Tables)
  {
    t.(users := seq(|t.users|, i requires 0 <= i < |t.users| =>
      if t.users[i].id == id then t.users[i].(updated := ms, passwordReset := code) else t.users[i]))
  }

  /** UpdateUser: stamps Updated on the user, and stores the hash with the reset code cleared. */
  method UpdateUser(db: Db, user: User, now: Time) returns (u: User, err: Option<string>)
    requires db.Valid()
    modifies db
    ensures db.Valid()
    ensures u == user.(updated := now)
    ensures err.None? <==> UpdateUserStmt !in db.failing
    ensures err.None? ==> db.t == WithPassword(old(db.t), u.id, TimeToMs(now), u.passwordHash)
    ensures err.Some? ==> err == Some(DB_ERROR) && db.t == old(db.t)
  {
    u := user.(updated := now);
    if UpdateUserStmt in db.failing {
      return u, Some(DB_ERROR);
    }
    db.t := WithPassword(db.t, u.id, TimeToMs(now), u.passwordHash);
    err := None;
  }

  /** UpdateUserResetPassword: stamps Updated and stores the user's reset code. */
  method UpdateUserResetPassword(db: Db, user: User, now: Time) returns (u: User, err: Option<string>)
    requires db.Valid()
    modifies db
    ensures db.Valid()
    ensures u == user.(updated := now)
    ensures err.None? <==> ResetPasswordStmt !in db.failing
    ensures err.None? ==> db.t == WithResetCode(old(db.t), u.id, TimeToMs(now), u.passwordReset)
    ensures err.Some? ==> err == Some(DB_ERROR) && db.t == old(db.t)
  {
    u := user.(updated := now);
    if ResetPasswordStmt in db.failing {
      return u, Some(DB_ERROR);
    }
    db.t := WithResetCode(db.t, u.id, TimeToMs(now), u.passwordReset);
    err := None;
  }

  /** `UPDATE session SET updated = ? WHERE id = ?`. */
  function WithSessionActivity(t: Tables, id: string, ms: int64): Tables
  {
    t.(sessions := seq(|t.sessions|, i requires 0 <= i < |t.sessions| =>
      if t.sessions[i].id == id then t.sessions[i].(updated := ms) else t.sessions[i]))
  }

  /** `UPDATE apikey SET updated = ? WHERE id = ?`. */
  function WithApiKeyActivity(t: Tables, id: string, ms: int64): Tables
  {
    t.(apiKeys := seq(|t.apiKeys|, i requires 0 <= i < |t.apiKeys| =>
      if t.apiKeys[i].id == id then t.apiKeys[i].(updated := ms) else t.apiKeys[i]))
  }

  method UpdateSessionActivity(db: Db, id: string, now: Time) returns (err: Option<string>)
    requires db.Valid()
    modifies db
    ensures db.Valid()
    ensures err.None? <==> SessionActivityStmt !in db.failing
    ensures err.None? ==> db.t == WithSessionActivity(old(db.t), id, TimeToMs(now))
    ensures err.Some? ==> err == Some(DB_ERROR) && db.t == old(db.t)
  {
    if SessionActivityStmt in db.failing {
      return Some(DB_ERROR);
    }
    db.t := WithSessionActivity(db.t, id, TimeToMs(now));
    err := None;
  }

  method UpdateApiKeyActivity(db: Db, id: string, now: Time) returns (err: Option<string>)
    requires db.Valid()
    modifies db
    ensures db.Valid()
    ensures err.None? <==> ApiKeyActivityStmt !in db.failing
    ensures err.None? ==> db.t == WithApiKeyActivity(old(db.t), id, TimeToMs(now))
    ensures err.Some? ==> err == Some(DB_ERROR) && db.t == old(db.t)
  {
    if ApiKeyActivityStmt in db.failing {
      return Some(DB_ERROR);
    }
    db.t := WithApiKeyActivity(db.t, id, TimeToMs(now));
    err := None;
  }

  // ---- single-row reads -----------------------------------------------------------------

  /** QueryRow followed by Scan: the first selected row, or sql.ErrNoRows. */
  function FirstUser(failing: bool, rows: seq<UserRow>, p: UserRow -> bool): (r: Result<User>)
    ensures r.Ok? ==> !failing && exists row :: row in rows && p(row) && r.value == UserOf(row)
    ensures r.Err? <==> failing || forall row :: row in rows ==> !p(row)
    ensures r.Err? ==> r.msg == (if failing then DB_ERROR else NO_ROWS)
  {
    var selected := Filter(rows, p);
    FilterMembership(rows, p);
    if failing then Err(DB_ERROR)
    else if selected == [] then Err(NO_ROWS)
    else
      assert selected[0] in selected;
      Ok(UserOf(selected[0]))
  }

  function VerifiedWithEmail(email: string): UserRow -> bool
  {
    (r: UserRow) => r.email == email && r.emailVerified
  }

  /** GetVerifiedUserByEmail: only users who confirmed their address. */
  function GetVerifiedUserByEmail(t: Tables, failing: set<Statement>, email: string): (r: Result<User>)
    ensures r.Ok? ==> exists row :: row in t.users && row.email == email && row.emailVerified && r.value == UserOf(row)
    ensures r.Err? <==> VerifiedUserByEmailStmt in failing || forall row :: row in t.users ==> !(row.email == email && row.emailVerified)
  {
    FirstUser(VerifiedUserByEmailStmt in failing, t.users, VerifiedWithEmail(email))
  }

  function WithResetCodeOf(code: string): UserRow -> bool
  {
    (r: UserRow) => r.passwordReset == code
  }

  /** GetUserByResetCode: the user holding the reset code. */
  function GetUserByResetCode(t: Tables, failing: set<Statement>, code: string): (r: Result<User>)
    ensures r.Ok? ==> exists row :: row in t.users && row.passwordReset == code && r.value == UserOf(row)
    ensures r.Err? <==> UserByResetCodeStmt in failing || forall row :: row in t.users ==> row.passwordReset != code
  {
    FirstUser(UserByResetCodeStmt in failing, t.users, WithResetCodeOf(code))
  }

  /** The session exists, is not terminated, and belongs to the user. */
  predicate ActiveSessionOf(sessions: seq<SessionRow>, id: string, userId: string)
  {
    exists s :: s in sessions && s.id == id && !s.terminated && s.userId == userId
  }

  function HoldsSession(sessions: seq<SessionRow>, id: string): UserRow -> bool
  {
    (r: UserRow) => ActiveSessionOf(sessions, id, r.id)
  }

  /** GetUserByActiveSession: the user joined to a session that is not terminated. */
  function GetUserByActiveSession(t: Tables, failing: set<Statement>, id: string): (r: Result<User>)
    ensures r.Ok? ==> exists row :: row in t.users && ActiveSessionOf(t.sessions, id, row.id) && r.value == UserOf(row)
    ensures r.Err? <==> ActiveSessionStmt in failing || forall row :: row in t.users ==> !ActiveSessionOf(t.sessions, id, row.id)
  {
    FirstUser(ActiveSessionStmt in failing, t.users, HoldsSession(t.sessions, id))
  }

  /** The key exists, is not deleted, and belongs to the user. */
  predicate LiveApiKeyOf(keys: seq<ApiKeyRow>, id: string, userId: string)
  {
    exists k :: k in keys && k.id == id && !k.deleted && k.userId == userId
  }

  function HoldsApiKey(keys: seq<ApiKeyRow>, id: string): UserRow -> bool
  {
    (r: UserRow) => LiveApiKeyOf(keys, id, r.id)
  }

  /** GetUserByApiKey: the user joined to a key that is not deleted. */
  function GetUserByApiKey(t: Tables, failing: set<Statement>, id: string): (r: Result<User>)
    ensures r.Ok? ==> exists row :: row in t.users && LiveApiKeyOf(t.apiKeys, id, row.id) && r.value == UserOf(row)
    ensures r.Err? <==> ApiKeyStmt in failing || forall row :: row in t.users ==> !LiveApiKeyOf(t.apiKeys, id, row.id)
  {
    FirstUser(ApiKeyStmt in failing, t.users, HoldsApiKey(t.apiKeys, id))
  }

  // ---- properties ----------------------------------------------------------------------

  /** A new row that is not verified changes nothing a login by email can see. */
  lemma UnverifiedInsertInvisible(t: Tables, failing: set<Statement>, row: UserRow, email: string)
    requires !row.emailVerified
    ensures GetVerifiedUserByEmail(t.(users := t.users + [row]), failing, email) == GetVerifiedUserByEmail(t, failing, email)
  {
    FilterAppend(t.users, [row], VerifiedWithEmail(email));
    FilterNone([row], VerifiedWithEmail(email));
    assert t.users + [row] != t.users;
    assert Filter(t.users + [row], VerifiedWithEmail(email)) == Filter(t.users, VerifiedWithEmail(email));
  }

  /** After a password is stored, the user's rows hold no reset code, so no non-empty code
      leads back to that user. */
  lemma ResetCodeSingleUse(t: Tables, failing: set<Statement>, id: string, ms: int64, hash: string, code: string)
    requires code != ""
    ensures var r := GetUserByResetCode(WithPassword(t, id, ms, hash), failing, code); r.Ok? ==> r.value.id != id
    ensures forall row :: row in WithPassword(t, id, ms, hash).users && row.id == id ==> row.passwordReset == ""
  {
    var t' := WithPassword(t, id, ms, hash);
    forall row | row in t'.users && row.id == id
      ensures row.passwordReset == ""
    {
      var i :| 0 <= i < |t'.users| && t'.users[i] == row;
    }
  }

  /** A reset code stored for a user, and held by no other user, leads back to that user. */
  lemma ResetCodeFindsUser(t: Tables, failing: set<Statement>, id: string, ms: int64, code: string)
    requires UserByResetCodeStmt !in failing
    requires exists row :: row in t.users && row.id == id
    requires forall row :: row in t.users && row.id != id ==> row.passwordReset != code
    ensures var r := GetUserByResetCode(WithResetCode(t, id, ms, code), failing, code); r.Ok? && r.value.id == id
  {
    var t' := WithResetCode(t, id, ms, code);
    var row :| row in t.users && row.id == id;
    var i :| 0 <= i < |t.users| && t.users[i] == row;
    assert t'.users[i].passwordReset == code;
    forall r | r in t'.users && r.passwordReset == code
      ensures r.id == id
    {
      var j :| 0 <= j < |t'.users| && t'.users[j] == r;
    }
  }
}

=== FILE: decimal.dfy ===
/** Decimal text for integers: Go's `strconv.Itoa` and `strconv.Atoi` on a 64-bit platform. */
module Decimal {
  import opened Wrappers
  import opened Int64
  import opened Util

  predicate IsDigit(c: char) { '0' <= c <= '9' }

  predicate AllDigits(s: string) { forall i :: 0 <= i < |s| ==> IsDigit(s[i]) }

  function DigitValue(c: char): nat
    requires IsDigit(c)
  {
    c as int - '0' as int
  }

  function DigitChar(d: nat): (c: char)
    requires d < 10
    ensures IsDigit(c) && DigitValue(c) == d
  {
    ('0' as int + d) as char
  }

  /** The number a non-empty run of decimal digits denotes (leading zeros allowed). */
  function DigitsValue(s: string): nat
    requires AllDigits(s)
  {
    if s == [] then 0 else 10 * DigitsValue(s[..|s| - 1]) + DigitValue(s[|s| - 1])
  }

  /** Shortest decimal digits of a natural number. */
  function NatDigits(n: nat): (s: string)
    ensures |s| > 0 && AllDigits(s)
    ensures DigitsValue(s) == n
    ensures |s| > 1 ==> s[0] != '0'
  {
    if n < 10 then [DigitChar(n)]
    else
      var init := NatDigits(n / 10);
      var s := init + [DigitChar(n % 10)];
      assert s[..|s| - 1] == init;
      s
  }

  /** strconv.Itoa: a minus sign for negative numbers, then the digits. */
  function Itoa(n: int): (s: string)
    ensures |s| > 0
    ensures n < 0 <==> s[0] == '-'
  {
    if n < 0 then "-" + NatDigits(-n) else NatDigits(n)
  }

  /** The shape strconv.Atoi accepts: an optional '+' or '-' followed by at least one digit
      (base 10 admits no underscores). */
  predicate IsDecimal(s: string)
  {
    |s| > 0 &&
    if s[0] == '+' || s[0] == '-' then |s| > 1 && AllDigits(s[1..]) else AllDigits(s)
  }

  /** The integer an accepted string denotes. */
  function DecimalValue(s: string): int
    requires IsDecimal(s)
  {
    if s[0] == '-' then -(DigitsValue(s[1..]) as int)
    else if s[0] == '+' then DigitsValue(s[1..])
    else DigitsValue(s)
  }

  // ---- strconv.Quote, which NumError.Error applies to the refused text ---------------------

  /** A character Quote copies as it is: printable ASCII other than '"' and '\\', and every
      character outside ASCII. */
  predicate QuotedAsIs(c: char)
  {
    (' ' <= c <= '~' && c != '"' && c != '\\') || c as int >= 0x80
  }

  /** Quote's text for one character: a backslash before '"' and '\\', the named escapes
      \a \b \f \n \r \t \v, and \x with two lower-case hex digits for the other control
      characters and DEL. */
  function EscapeChar(c: char): (e: string)
    ensures QuotedAsIs(c) <==> e == [c]
    ensures !QuotedAsIs(c) ==> |e| >= 2 && e[0] == '\\'
    ensures '"' in e ==> e == "\\\""
  {
    if QuotedAsIs(c) then [c]
    else if c == '"' then "\\\""
    else if c == '\\' then "\\\\"
    else if c as int == 7 then "\\a"
    else if c as int == 8 then "\\b"
    else if c as int == 12 then "\\f"
    else if c == '\n' then "\\n"
    else if c == '\r' then "\\r"
    else if c == '\t' then "\\t"
    else if c as int == 11 then "\\v"
    else "\\x" + [HexDigit(c as int / 16), HexDigit(c as int % 16)]
  }

  /** The escaped characters of s, in order. */
  function Escaped(s: string): (e: string)
    ensures |e| >= |s|
  {
    if s == [] then [] else EscapeChar(s[0]) + Escaped(s[1..])
  }

  /** strconv.Quote: the escaped text between double quotes. */
  function Quote(s: string): (q: string)
    ensures |q| >= |s| + 2 && q[0] == '"' && q[|q| - 1] == '"'
  {
    "\"" + Escaped(s) + "\""
  }

  /** Every '"' inside the quotes follows a backslash, so the quoted text cannot end early. */
  predicate NoBareQuote(e: string)
  {
    forall k :: 0 <= k < |e| && e[k] == '"' ==> k > 0 && e[k - 1] == '\\'
  }

  lemma NoBareQuoteAppend(a: string, b: string)
    requires NoBareQuote(a) && NoBareQuote(b)
    ensures NoBareQuote(a + b)
  {
    forall k | 0 <= k < |a + b| && (a + b)[k] == '"'
      ensures k > 0 && (a + b)[k - 1] == '\\'
    {
      if k >= |a| {
        assert b[k - |a|] == '"';
      }
    }
  }

  lemma {:induction false} EscapedHasNoBareQuote(s: string)
    ensures NoBareQuote(Escaped(s))
  {
    if s != [] {
      EscapedHasNoBareQuote(s[1..]);
      var e := EscapeChar(s[0]);
      assert NoBareQuote(e) by {
        forall k | 0 <= k < |e| && e[k] == '"'
          ensures k > 0 && e[k - 1] == '\\'
        {
          assert '"' in e;
        }
      }
      NoBareQuoteAppend(e, Escaped(s[1..]));
    }
  }

  /** Text with nothing to escape is quoted as it is. */
  lemma {:induction false} QuotePlain(s: string)
    requires forall i :: 0 <= i < |s| ==> QuotedAsIs(s[i])
    ensures Quote(s) == "\"" + s + "\""
  {
    EscapedPlain(s);
  }

  lemma {:induction false} EscapedPlain(s: string)
    requires forall i :: 0 <= i < |s| ==> QuotedAsIs(s[i])
    ensures Escaped(s) == s
  {
    if s != [] {
      EscapedPlain(s[1..]);
      assert [s[0]] + s[1..] == s;
    }
  }

  /** NumError.Error for Atoi: the function, the quoted input and the reason. */
  function NumError(s: string, reason: string): string
  {
    "strconv.Atoi: parsing " + Quote(s) + ": " + reason
  }

  /** strconv.Atoi with 64-bit `int`: a syntax error for anything but an optionally signed
      run of digits, a range error for a value outside int64. The error is NumError's text,
      with the input quoted by Quote. */
  function Atoi(s: string): (r: Result<int64>)
    ensures r.Ok? <==> IsDecimal(s) && InRange(DecimalValue(s))
    ensures r.Ok? ==> r.value == DecimalValue(s)
    ensures !IsDecimal(s) ==> r == Err(NumError(s, "invalid syntax"))
    ensures IsDecimal(s) && !InRange(DecimalValue(s)) ==> r == Err(NumError(s, "value out of range"))
    ensures s == [] ==> r.Err?
  {
    if !IsDecimal(s) then Err(NumError(s, "invalid syntax"))
    else if !InRange(DecimalValue(s)) then Err(NumError(s, "value out of range"))
    else Ok(DecimalValue(s))
  }

  /** Quote escapes a '"' inside the text: `a"b` becomes `"a\"b"`. */
  lemma QuoteEscapesQuote()
    ensures Quote("a\"b") == "\"a\\\"b\""
  {
    var s := "a\"b";
    assert s[1..] == "\"b" && s[1..][1..] == "b" && s[1..][1..][1..] == "";
    assert Escaped("") == "";
    assert Escaped("b") == "b";
    assert Escaped("\"b") == "\\\"b";
  }

  /** Round trip: the decimal rendering of every int64 parses back to it. */
  lemma AtoiItoa(n: int64)
    ensures Atoi(Itoa(n)) == Ok(n)
  {
    var s := Itoa(n);
    if n < 0 {
      assert s[1..] == NatDigits(-(n as int));
    } else {
      assert s == NatDigits(n);
    }
  }

  /** A string holding any character other than a digit, outside a leading sign, is refused. */
  lemma AtoiRejectsNonDigit(s: string, i: nat)
    requires 0 < i < |s| && !IsDigit(s[i])
    ensures Atoi(s).Err?
  {
    assert s[1..][i - 1] == s[i];
  }
}

=== FILE: int64.dfy ===
/** Go's `int64` (and `int`, which is 64 bits wide on the platforms the server targets),
    with the two's-complement wrap-around that Go arithmetic performs silently. */
module Int64 {

  const MIN: int := -0x8000_0000_0000_0000
  const MAX: int := 0x7fff_ffff_ffff_ffff
  const MODULUS: int := 0x1_0000_0000_0000_0000

  predicate InRange(x: int) { MIN <= x <= MAX }

  type int64 = x: int | MIN <= x <= MAX

  /** The int64 that Go's arithmetic leaves behind when the exact result is `x`. */
  function Wrap(x: int): (r: int64)
    ensures InRange(x) ==> r == x
    ensures (x - r) % MODULUS == 0
  {
    (x - MIN) % MODULUS + MIN
  }

  /** Go's `/` on integers truncates toward zero (Dafny's `/` is Euclidean). */
  function Quot(a: int, b: int): (q: int)
    requires b > 0
    ensures a >= 0 ==> q == a / b
    ensures a < 0 ==> q == -((-a) / b)
  {
    if a >= 0 then a / b else -((-a) / b)
  }

  /** Running int64 sum of a sequence, wrapping after every addition as Go's `+=` does. */
  function WrappingSum(xs: seq<int64>): int64
  {
    if xs == [] then 0 else Wrap(WrappingSum(xs[..|xs| - 1]) + xs[|xs| - 1])
  }

  /** One more element of a prefix: the running sum takes one wrapping addition. */
  lemma WrappingSumStep(xs: seq<int64>, i: nat)
    requires i < |xs|
    ensures WrappingSum(xs[..i + 1]) == Wrap(WrappingSum(xs[..i]) + xs[i])
  {
    assert xs[..i + 1][..i] == xs[..i];
  }

  /** Go's `sum += x` on an int64 running sum over xs, x being the next element. */
  method AddWrapping(ghost xs: seq<int64>, i: nat, sum: int64, x: int64) returns (next: int64)
    requires i < |xs| && x == xs[i] && sum == WrappingSum(xs[..i])
    ensures next == WrappingSum(xs[..i + 1])
  {
    WrappingSumStep(xs, i);
    next := Wrap(sum + x);
  }

  /** Exact mathematical sum of a sequence, left to right. */
  function Sum(xs: seq<int>): int
  {
    if xs == [] then 0 else Sum(xs[..|xs| - 1]) + xs[|xs| - 1]
  }

  /** Multiples of 2^64 add up to a multiple of 2^64. */
  lemma MultiplesAdd(a: int, b: int)
    requires a % MODULUS == 0 && b % MODULUS == 0
    ensures (a + b) % MODULUS == 0
  {
    var p, q := a / MODULUS, b / MODULUS;
    assert a + b == (p + q) * MODULUS;
  }

  /** The wrapping sum differs from the exact sum by a multiple of 2^64. */
  lemma {:induction false} WrappingSumCongruent(xs: seq<int64>)
    ensures (Sum(xs) - WrappingSum(xs)) % MODULUS == 0
  {
    if xs != [] {
      var init, last := xs[..|xs| - 1], xs[|xs| - 1];
      WrappingSumCongruent(init);
      var w := WrappingSum(init);
      assert Sum(xs) - WrappingSum(xs) == (Sum(init) - w) + (w + last - Wrap(w + last));
      MultiplesAdd(Sum(init) - w, w + last - Wrap(w + last));
    }
  }
}

=== FILE: lexorder.dfy ===
/** Go's `<` on strings: byte-wise lexicographic order, a proper prefix sorting first. */
module LexOrder {

  function StrLess(a: string, b: string): bool
  {
    if |a| == 0 then |b| > 0
    else if |b| == 0 then false
    else if a[0] < b[0] then true
    else if b[0] < a[0] then false
    else StrLess(a[1..], b[1..])
  }

  /** `a <= b` in Go's string order. */
  predicate StrLessEq(a: string, b: string) { !StrLess(b, a) }

  lemma {:induction false} StrLessIrreflexive(a: string)
    ensures !StrLess(a, a)
  {
    if |a| > 0 { StrLessIrreflexive(a[1..]); }
  }

  /** Exactly one of a < b, a == b, b < a holds. */
  lemma {:induction false} StrLessTrichotomy(a: string, b: string)
    ensures StrLess(a, b) || a == b || StrLess(b, a)
    ensures !(StrLess(a, b) && StrLess(b, a))
  {
    if |a| > 0 && |b| > 0 && a[0] == b[0] {
      StrLessTrichotomy(a[1..], b[1..]);
      if a[1..] == b[1..] {
        assert a == [a[0]] + a[1..] && b == [b[0]] + b[1..];
      }
    }
  }

  lemma {:induction false} StrLessTransitive(a: string, b: string, c: string)
    requires StrLess(a, b) && StrLess(b, c)
    ensures StrLess(a, c)
  {
    if |a| > 0 && |b| > 0 && |c| > 0 && a[0] == b[0] && b[0] == c[0] {
      StrLessTransitive(a[1..], b[1..], c[1..]);
    }
  }

  lemma StrLessEqTotal(a: string, b: string)
    ensures StrLessEq(a, b) || StrLessEq(b, a)
  {
    StrLessTrichotomy(a, b);
  }

  lemma StrLessEqTransitive(a: string, b: string, c: string)
    requires StrLessEq(a, b) && StrLessEq(b, c)
    ensures StrLessEq(a, c)
  {
    StrLessTrichotomy(a, b);
    StrLessTrichotomy(b, c);
    StrLessTrichotomy(a, c);
    if StrLess(c, a) {
      if a == b { } else if b == c { } else {
        StrLessTransitive(a, b, c);
      }
    }
  }
}

=== FILE: orgs.dfy ===
/** core/model/org.go: org creation with its chart of accounts, membership and admin gates,
    and the life of an invite. */
module Orgs {
  import opened Wrappers
  import opened Util
  import opened Types
  import opened Store
  import Seqs
  import DbOrg
  import DbAccount
  import Accounts

  const ACCESS_DENIED: string := "access denied"
  const MUST_BE_ADMIN_TO_INVITE: string := "Must be org admin to invite users"
  const MUST_BE_ADMIN_TO_DELETE: string := "Must be org admin to delete invite"
  const ACCEPTED_MUST_BE_TRUE: string := "accepted must be true"
  const MISSING_INVITE_ID: string := "missing invite id"
  const ALREADY_ACCEPTED: string := "invite already accepted"
  const INVITE_EXPIRED: string := "invite has expired"
  /** The refusal of the budget and price services to a non-member. */
  const NOT_MEMBER: string := "User does not belong to org"

  /** A seed account as CreateOrg spells it: the fields it names, Go's zero value for the rest. */
  function SeedAccount(org: Org, id: string, name: string, parent: string, debitBalance: bool): Account
  {
    Account(id, "", ZERO_TIME, ZERO_TIME, name, parent, org.currency, org.precision, debitBalance,
            None, None, false, false)
  }

  /** The chart every org starts with: Root, and under it Assets, Liabilities, Equity, Income
      and Expenses; the debit-normal ones are Root, Assets and Expenses. */
  function Seeds(org: Org, ids: seq<string>): (s: seq<Account>)
    requires |ids| == 6
    ensures |s| == 6
    ensures s[0].name == "Root" && s[1].name == "Assets" && s[2].name == "Liabilities" &&
            s[3].name == "Equity" && s[4].name == "Income" && s[5].name == "Expenses"
    ensures s[0].parent == "" && forall k :: 1 <= k < 6 ==> s[k].parent == s[0].id
    ensures forall k :: 0 <= k < 6 ==>
      s[k].id == ids[k] && s[k].currency == org.currency && s[k].precision == org.precision &&
      (s[k].debitBalance <==> s[k].name in {"Root", "Assets", "Expenses"})
  {
    [SeedAccount(org, ids[0], "Root", "", true),
     SeedAccount(org, ids[1], "Assets", ids[0], true),
     SeedAccount(org, ids[2], "Liabilities", ids[0], false),
     SeedAccount(org, ids[3], "Equity", ids[0], false),
     SeedAccount(org, ids[4], "Income", ids[0], false),
     SeedAccount(org, ids[5], "Expenses", ids[0], true)]
  }

  /** The ids NewGuid makes of the first six random draws. */
  function SeedIds(random: seq<seq<byte>>): (ids: seq<string>)
    requires |random| == 7 && forall k :: 0 <= k < 7 ==> |random[k]| == 16
    ensures |ids| == 6
  {
    [NewGuid(random[0]), NewGuid(random[1]), NewGuid(random[2]),
     NewGuid(random[3]), NewGuid(random[4]), NewGuid(random[5])]
  }

  /** CreateOrg: a name, then a currency, are required before any id is drawn; then the six
      accounts are filled in and stored with the org in one unit. The seventh random draw is
      the permission id. */
  method CreateOrg(db: Db, org: Org, userId: string, now: Time, random: seq<seq<byte>>)
    returns (o: Org, err: Option<string>)
    requires db.Valid()
    requires |random| == 7 && forall k :: 0 <= k < 7 ==> |random[k]| == 16
    modifies db
    ensures db.Valid()
    ensures org.name == "" ==> err == Some(Accounts.NAME_REQUIRED)
    ensures org.name != "" && org.currency == "" ==> err == Some(Accounts.CURRENCY_REQUIRED)
    ensures err.None? <==>
      org.name != "" && org.currency != "" && CreateOrgStmt !in db.failing &&
      DbOrg.FreshAccountIds(old(db.t.accounts), Seeds(org, SeedIds(random)))
    ensures err.None? ==>
      o == org.(inserted := now, updated := now) &&
      db.t == DbOrg.Created(old(db.t), o, userId, Seeds(org, SeedIds(random)), NewGuid(random[6]))
    ensures err.Some? ==> db.t == old(db.t)
  {
    o := org;
    if org.name == "" {
      return o, Some(Accounts.NAME_REQUIRED);
    }
    if org.currency == "" {
      return o, Some(Accounts.CURRENCY_REQUIRED);
    }
    var accounts := FillSeeds(org, random);
    o, err := DbOrg.CreateOrg(db, org, userId, accounts[..], now, random[6]);
  }

  /** The six slots of CreateOrg's account array, filled in order. */
  method FillSeeds(org: Org, random: seq<seq<byte>>) returns (accounts: array<Account>)
    requires |random| == 7 && forall k :: 0 <= k < 7 ==> |random[k]| == 16
    ensures fresh(accounts) && accounts[..] == Seeds(org, SeedIds(random))
  {
    accounts := new Account[6](_ => SeedAccount(org, "", "", "", false));
    var id := NewGuid(random[0]);
    accounts[0] := SeedAccount(org, id, "Root", "", true);
    id := NewGuid(random[1]);
    accounts[1] := SeedAccount(org, id, "Assets", accounts[0].id, true);
    id := NewGuid(random[2]);
    accounts[2] := SeedAccount(org, id, "Liabilities", accounts[0].id, false);
    id := NewGuid(random[3]);
    accounts[3] := SeedAccount(org, id, "Equity", accounts[0].id, false);
    id := NewGuid(random[4]);
    accounts[4] := SeedAccount(org, id, "Income", accounts[0].id, false);
    id := NewGuid(random[5]);
    accounts[5] := SeedAccount(org, id, "Expenses", accounts[0].id, true);
    assert accounts[..] == Seeds(org, SeedIds(random));
  }

  /** UpdateOrg: a user who cannot see the org is refused with "access denied" before the name
      is looked at; only then is the name required. */
  method UpdateOrg(db: Db, org: Org, userId: string, now: Time) returns (o: Org, err: Option<string>)
    requires db.Valid()
    modifies db
    ensures db.Valid()
    ensures old(DbOrg.GetOrg(db, org.id, userId)).Err? ==> err == Some(ACCESS_DENIED)
    ensures old(DbOrg.GetOrg(db, org.id, userId)).Ok? && org.name == "" ==> err == Some(Accounts.NAME_REQUIRED)
    ensures err.None? <==> old(DbOrg.GetOrg(db, org.id, userId)).Ok? && org.name != "" && UpdateOrgStmt !in db.failing
    ensures err.None? ==>
      o == org.(updated := now) && db.t == old(db.t).(orgs := DbOrg.UpdatedOrgRows(old(db.t.orgs), o))
    ensures err.Some? ==> db.t == old(db.t)
  {
    o := org;
    var visible := DbOrg.GetOrg(db, org.id, userId);
    if visible.Err? {
      return o, Some(ACCESS_DENIED);
    }
    if org.name == "" {
      return o, Some(Accounts.NAME_REQUIRED);
    }
    o, err := DbOrg.UpdateOrg(db, org, now);
  }

  /** The org exists and a membership row links the user to it. */
  predicate BelongsTo(t: Tables, userId: string, orgId: string)
  {
    DbOrg.HasOrgId(t.orgs, orgId) && DbOrg.IsMember(t.members, userId, orgId)
  }

  /** UserBelongsToOrg: a search of the user's orgs for the id. The user belongs exactly when
      the org exists and a membership row links them. */
  method UserBelongsToOrg(db: Db, userId: string, orgId: string) returns (belongs: bool, err: Option<string>)
    requires db.Valid()
    ensures err.None? <==> GetOrgsStmt !in db.failing
    ensures err.Some? ==> err == Some(DB_ERROR) && !belongs
    ensures err.None? ==> (belongs <==> BelongsTo(db.t, userId, orgId))
  {
    var orgs := DbOrg.GetOrgs(db, userId);
    if orgs.Err? {
      return false, Some(orgs.msg);
    }
    belongs := false;
    var i := 0;
    while i < |orgs.value|
      invariant 0 <= i <= |orgs.value|
      invariant forall j :: 0 <= j < i ==> orgs.value[j].id != orgId
    {
      if orgs.value[i].id == orgId {
        belongs := true;
        break;
      }
      i := i + 1;
    }
    err := None;
    DbOrg.ListedOrgs(db, userId, orgId);
  }

  /** The admin loop CreateInvite, GetInvites and DeleteInvite share: is the user among the
      admins? */
  method ListsUser(admins: seq<string>, userId: string) returns (isAdmin: bool)
    ensures isAdmin <==> userId in admins
  {
    isAdmin := false;
    for i := 0 to |admins|
      invariant !isAdmin <==> userId !in admins[..i]
    {
      if admins[i] == userId {
        isAdmin := true;
        break;
      }
    }
  }

  /** The user is one of the org's admins: a user row joined to an admin membership. */
  ghost predicate AdminOf(t: Tables, userId: string, orgId: string)
  {
    (exists u :: u in t.users && u.id == userId) && DbOrg.IsAdmin(t.members, userId, orgId)
  }

  /** CreateInvite: only an org admin may invite; the invite gets a fresh 8-digit id and is
      stored unaccepted. */
  method CreateInvite(db: Db, invite: Invite, userId: string, now: Time, random: seq<byte>)
    returns (i: Invite, err: Option<string>)
    requires db.Valid() && |random| == 4
    modifies db
    ensures db.Valid()
    ensures OrgAdminsStmt in db.failing ==> err == Some(DB_ERROR)
    ensures OrgAdminsStmt !in db.failing && !old(AdminOf(db.t, userId, invite.orgId)) ==> err == Some(MUST_BE_ADMIN_TO_INVITE)
    ensures err.None? <==>
      OrgAdminsStmt !in db.failing && old(AdminOf(db.t, userId, invite.orgId)) && InsertInviteStmt !in db.failing
    ensures err.None? ==>
      i == invite.(id := NewInviteId(random), inserted := now, updated := now) &&
      db.t == old(db.t).(invites := old(db.t.invites) + [DbOrg.InviteRowOf(i.(accepted := false))])
    ensures err.Some? ==> db.t == old(db.t)
  {
    i := invite;
    var admins := DbOrg.GetOrgAdmins(db, invite.orgId);
    if admins.Err? {
      return i, Some(admins.msg);
    }
    var isAdmin := ListsUser(admins.value, userId);
    if !isAdmin {
      return i, Some(MUST_BE_ADMIN_TO_INVITE);
    }
    i := i.(id := NewInviteId(random));
    i, err := DbOrg.InsertInvite(db, i, now);
  }

  /** AcceptInvite: the request must say accepted and name an invite; the stored invite must not
      be accepted yet and must be at most seven days old (exactly seven days still passes).
      Org, email and inserted time come from the stored invite, not from the request. On success
      the user joins the org as a non-admin, the invite is marked accepted with the new updated
      time and a permission on the org's root account is granted; nothing else changes, and
      every refusal leaves the tables as they were. */
  method AcceptInvite(db: Db, invite: Invite, userId: string, now: Time, acceptedAt: Time, random: seq<byte>)
    returns (i: Invite, err: Option<string>)
    requires db.Valid() && |random| == 16
    modifies db
    ensures db.Valid()
    ensures !invite.accepted ==> err == Some(ACCEPTED_MUST_BE_TRUE)
    ensures invite.accepted && invite.id == "" ==> err == Some(MISSING_INVITE_ID)
    ensures var original := old(DbOrg.GetInvite(db, invite.id));
      invite.accepted && invite.id != "" ==>
        (original.Err? ==> err == Some(original.msg)) &&
        (original.Ok? && original.value.accepted ==> err == Some(ALREADY_ACCEPTED)) &&
        (original.Ok? && !original.value.accepted && now > original.value.inserted + WEEK ==> err == Some(INVITE_EXPIRED)) &&
        (original.Ok? && !original.value.accepted && now <= original.value.inserted + WEEK ==>
           i == invite.(orgId := original.value.orgId, email := original.value.email,
                        inserted := original.value.inserted, updated := acceptedAt))
    ensures err.None? ==> DbOrg.IsMember(db.t.members, userId, i.orgId)
    ensures err.None? ==> (old(DbAccount.GetRootAccount(db, i.orgId)).Ok? &&
      db.t == DbOrg.Accepted(old(db.t), i, userId, old(DbAccount.GetRootAccount(db, i.orgId)).value.id, NewGuid(random), true))
    ensures err.Some? ==> db.t == old(db.t)
    ensures var original := old(DbOrg.GetInvite(db, invite.id));
      err.None? <==> (invite.accepted && invite.id != "" && original.Ok? && !original.value.accepted &&
        now <= original.value.inserted + WEEK &&
        old(DbAccount.GetRootAccount(db, original.value.orgId)).Ok? &&
        AcceptInviteMemberStmt !in db.failing && AcceptInviteMarkStmt !in db.failing &&
        AcceptInvitePermissionStmt !in db.failing && AcceptInviteCommitStmt !in db.failing)
    ensures err.None? ==>
      var original := old(DbOrg.GetInvite(db, invite.id));
      original.Ok? && !original.value.accepted && now <= original.value.inserted + WEEK &&
      exists row :: row in old(db.t.invites) && row.id == invite.id && i.orgId == row.orgId
  {
    i := invite;
    if !invite.accepted {
      return i, Some(ACCEPTED_MUST_BE_TRUE);
    }
    if invite.id == "" {
      return i, Some(MISSING_INVITE_ID);
    }
    var original := DbOrg.GetInvite(db, invite.id);
    if original.Err? {
      return i, Some(original.msg);
    }
    if original.value.accepted {
      return i, Some(ALREADY_ACCEPTED);
    }
    var oneWeekAfter := original.value.inserted + WEEK;
    if now > oneWeekAfter {
      return i, Some(INVITE_EXPIRED);
    }
    i := i.(orgId := original.value.orgId, email := original.value.email, inserted := original.value.inserted);
    i, err := DbOrg.AcceptInviteChecked(db, i, userId, acceptedAt, random);
  }

  /** GetInvites: the org's current invites, to an org admin only. */
  method GetInvites(db: Db, orgId: string, userId: string, now: Time) returns (r: Result<seq<Invite>>)
    requires db.Valid()
    ensures OrgAdminsStmt in db.failing ==> r == Err(DB_ERROR)
    ensures OrgAdminsStmt !in db.failing && !AdminOf(db.t, userId, orgId) ==> r == Err(MUST_BE_ADMIN_TO_INVITE)
    ensures OrgAdminsStmt !in db.failing && AdminOf(db.t, userId, orgId) ==> r == DbOrg.GetInvites(db, orgId, now)
  {
    var admins := DbOrg.GetOrgAdmins(db, orgId);
    if admins.Err? {
      return Err(admins.msg);
    }
    var isAdmin := ListsUser(admins.value, userId);
    if !isAdmin {
      return Err(MUST_BE_ADMIN_TO_INVITE);
    }
    r := DbOrg.GetInvites(db, orgId, now);
  }

  /** DeleteInvite: only an admin of the invite's own org may delete it; but when the admin list
      cannot be read, nothing is deleted and no error is reported. */
  method DeleteInvite(db: Db, id: string, userId: string) returns (err: Option<string>)
    requires db.Valid()
    modifies db
    ensures db.Valid()
    ensures var invite := old(DbOrg.GetInvite(db, id));
      (invite.Err? ==> err == Some(invite.msg) && db.t == old(db.t)) &&
      (invite.Ok? && OrgAdminsStmt in db.failing ==> err.None? && db.t == old(db.t)) &&
      (invite.Ok? && OrgAdminsStmt !in db.failing && !old(AdminOf(db.t, userId, invite.value.orgId)) ==>
         err == Some(MUST_BE_ADMIN_TO_DELETE) && db.t == old(db.t)) &&
      (invite.Ok? && OrgAdminsStmt !in db.failing && old(AdminOf(db.t, userId, invite.value.orgId)) ==>
         (err.None? <==> DeleteInviteStmt !in db.failing) &&
         (err.None? ==> db.t == old(db.t).(invites := Seqs.Filter(old(db.t.invites), DbOrg.InviteRowNotId(id)))) &&
         (err.Some? ==> db.t == old(db.t)))
  {
    var invite := DbOrg.GetInvite(db, id);
    if invite.Err? {
      return Some(invite.msg);
    }
    var admins := DbOrg.GetOrgAdmins(db, invite.value.orgId);
    if admins.Err? {
      return None;
    }
    var isAdmin := ListsUser(admins.value, userId);
    if !isAdmin {
      return Some(MUST_BE_ADMIN_TO_DELETE);
    }
    err := DbOrg.DeleteInvite(db, id);
  }
}

=== FILE: prices.dfy ===
/** core/model/price.go: the membership gate and the field checks in front of the price store. */
module Prices {
  import opened Wrappers
  import opened Util
  import opened Types
  import opened Store
  import Orgs
  import Accounts
  import DbPrice

  /** The field checks of CreatePrice, in their order: id, org id, currency. */
  function PriceFieldError(price: Price): (r: Option<string>)
    ensures r.None? <==> price.id != "" && price.orgId != "" && price.currency != ""
    ensures price.id == "" ==> r == Some(Accounts.ID_REQUIRED)
    ensures price.id != "" && price.orgId == "" ==> r == Some(Accounts.ORG_ID_REQUIRED)
    ensures price.id != "" && price.orgId != "" && price.currency == "" ==> r == Some(Accounts.CURRENCY_REQUIRED)
  {
    if price.id == "" then Some(Accounts.ID_REQUIRED)
    else if price.orgId == "" then Some(Accounts.ORG_ID_REQUIRED)
    else if price.currency == "" then Some(Accounts.CURRENCY_REQUIRED)
    else None
  }

  /** CreatePrice: membership in the price's org, then the field checks, then the insert. */
  method CreatePrice(db: Db, price: Price, userId: string, now: Time) returns (p: Price, err: Option<string>)
    requires db.Valid()
    modifies db
    ensures db.Valid()
    ensures GetOrgsStmt in db.failing ==> err == Some(DB_ERROR)
    ensures GetOrgsStmt !in db.failing && old(!Orgs.BelongsTo(db.t, userId, price.orgId)) ==> err == Some(Orgs.NOT_MEMBER)
    ensures GetOrgsStmt !in db.failing && old(Orgs.BelongsTo(db.t, userId, price.orgId)) && PriceFieldError(price).Some? ==>
      err == PriceFieldError(price)
    ensures err.None? <==>
      GetOrgsStmt !in db.failing && old(Orgs.BelongsTo(db.t, userId, price.orgId)) && PriceFieldError(price).None? &&
      InsertPriceStmt !in db.failing
    ensures err.None? ==>
      p == price.(inserted := now, updated := now, date := if price.date == ZERO_TIME then now else price.date) &&
      db.t == old(db.t).(prices := old(db.t.prices) + [DbPrice.PriceRowOf(p)])
    ensures err.Some? ==> db.t == old(db.t)
  {
    p := price;
    var belongs;
    belongs, err := Orgs.UserBelongsToOrg(db, userId, price.orgId);
    if err.Some? {
      return;
    }
    if !belongs {
      return p, Some(Orgs.NOT_MEMBER);
    }
    err := PriceFieldError(price);
    if err.Some? {
      return;
    }
    p, err := DbPrice.InsertPrice(db, price, now);
  }

  /** DeletePrice: the price is looked up first, so an unknown id fails before any membership
      check; then membership in the price's own org, then the delete. */
  method DeletePrice(db: Db, id: string, userId: string) returns (err: Option<string>)
    requires db.Valid()
    modifies db
    ensures db.Valid()
    ensures DbPrice.GetPriceById(old(db.t), db.failing, id).Err? ==>
      err == Some(DbPrice.GetPriceById(old(db.t), db.failing, id).msg)
    ensures err.None? <==>
      DbPrice.GetPriceById(old(db.t), db.failing, id).Ok? && GetOrgsStmt !in db.failing &&
      old(Orgs.BelongsTo(db.t, userId, DbPrice.GetPriceById(db.t, db.failing, id).value.orgId)) &&
      DeletePriceStmt !in db.failing
    ensures err.None? ==> db.t == DbPrice.WithoutPrice(old(db.t), id)
    ensures err.Some? ==> db.t == old(db.t)
  {
    var found := DbPrice.GetPriceById(db.t, db.failing, id);
    if found.Err? {
      return Some(found.msg);
    }
    var belongs;
    belongs, err := Orgs.UserBelongsToOrg(db, userId, found.value.orgId);
    if err.Some? {
      return;
    }
    if !belongs {
      return Some(Orgs.NOT_MEMBER);
    }
    err := DbPrice.DeletePrice(db, id);
  }

  /** GetPricesNearestInTime: members only. */
  method GetPricesNearestInTime(db: Db, orgId: string, date: Time, userId: string) returns (r: Result<seq<Price>>)
    requires db.Valid()
    ensures GetOrgsStmt in db.failing ==> r == Err(DB_ERROR)
    ensures GetOrgsStmt !in db.failing && !Orgs.BelongsTo(db.t, userId, orgId) ==> r == Err(Orgs.NOT_MEMBER)
    ensures GetOrgsStmt !in db.failing && Orgs.BelongsTo(db.t, userId, orgId) ==>
      r == DbPrice.GetPricesNearestInTime(db.t, db.failing, orgId, date)
  {
    var belongs, err := Orgs.UserBelongsToOrg(db, userId, orgId);
    if err.Some? {
      return Err(err.value);
    }
    if !belongs {
      return Err(Orgs.NOT_MEMBER);
    }
    r := DbPrice.GetPricesNearestInTime(db.t, db.failing, orgId, date);
  }

  /** GetPricesByCurrency: members only. */
  method GetPricesByCurrency(db: Db, orgId: string, currency: string, userId: string) returns (r: Result<seq<Price>>)
    requires db.Valid()
    ensures GetOrgsStmt in db.failing ==> r == Err(DB_ERROR)
    ensures GetOrgsStmt !in db.failing && !Orgs.BelongsTo(db.t, userId, orgId) ==> r == Err(Orgs.NOT_MEMBER)
    ensures GetOrgsStmt !in db.failing && Orgs.BelongsTo(db.t, userId, orgId) ==>
      r == DbPrice.GetPricesByCurrency(db.t, db.failing, orgId, currency)
  {
    var belongs, err := Orgs.UserBelongsToOrg(db, userId, orgId);
    if err.Some? {
      return Err(err.value);
    }
    if !belongs {
      return Err(Orgs.NOT_MEMBER);
    }
    r := DbPrice.GetPricesByCurrency(db.t, db.failing, orgId, currency);
  }
}

=== FILE: query_builder.dfy ===
/** The listing filters of core/model/db/transaction.go: addOptionsToQuery and addSortToQuery
    build SQL text from QueryOptions, and the clauses they emit have a relational meaning over
    split and transaction rows. */
module QueryBuilder {
  import opened Wrappers
  import opened Int64
  import opened Decimal
  import opened UrlQuery
  import opened Store
  import opened Sorting

  /** The Sort value that selects ascending update order; every other value means newest first. */
  const UPDATED_ASC: string := "updated-asc"

  /** One piece of text addOptionsToQuery may append. */
  datatype Clause =
    | NotDeleted
    | InsertedAfter(ms: int64)
    | UpdatedAfter(ms: int64)
    | InsertedBefore(ms: int64)
    | UpdatedBefore(ms: int64)
    | DateFrom(ms: int64)
    | DateBefore(ms: int64)
    | DescriptionPrefix(prefix: string)
    | OrderByUpdatedAsc
    | OrderByDateDesc
    | SkipLimit(skip: int64, count: int64)
    | Limit(count: int64)

  /** The slot of each kind of clause: the builder visits the slots in this order. */
  function Rank(c: Clause): nat
  {
    match c
    case NotDeleted => 0
    case InsertedAfter(_) => 1
    case UpdatedAfter(_) => 2
    case InsertedBefore(_) => 3
    case UpdatedBefore(_) => 4
    case DateFrom(_) => 5
    case DateBefore(_) => 6
    case DescriptionPrefix(_) => 7
    case OrderByUpdatedAsc => 8
    case OrderByDateDesc => 9
    case SkipLimit(_, _) => 10
    case Limit(_) => 11
  }

  /** Field by field, which clause the options ask for: the reference the builder is held to. */
  predicate Wanted(c: Clause, o: QueryOptions)
  {
    match c
    case NotDeleted => !o.includeDeleted
    case InsertedAfter(n) => o.sinceInserted != 0 && n == o.sinceInserted
    case UpdatedAfter(n) => o.sinceUpdated != 0 && n == o.sinceUpdated
    case InsertedBefore(n) => o.beforeInserted != 0 && n == o.beforeInserted
    case UpdatedBefore(n) => o.beforeUpdated != 0 && n == o.beforeUpdated
    case DateFrom(n) => o.startDate != 0 && n == o.startDate
    case DateBefore(n) => o.endDate != 0 && n == o.endDate
    case DescriptionPrefix(p) => o.descriptionStartsWith != "" && p == o.descriptionStartsWith
    case OrderByUpdatedAsc => o.sort == UPDATED_ASC
    case OrderByDateDesc => o.sort != UPDATED_ASC
    case SkipLimit(k, n) => o.limit != 0 && o.skip != 0 && k == o.skip && n == o.limit
    case Limit(n) => o.limit != 0 && o.skip == 0 && n == o.limit
  }

  /** The clause c when b holds, nothing otherwise. */
  function When(b: bool, c: Clause): seq<Clause>
  {
    if b then [c] else []
  }

  /** The visibility and time-stamp conditions: slots 0 to 4. */
  function StateFilters(o: QueryOptions): seq<Clause>
  {
    When(!o.includeDeleted, NotDeleted)
    + When(o.sinceInserted != 0, InsertedAfter(o.sinceInserted))
    + When(o.sinceUpdated != 0, UpdatedAfter(o.sinceUpdated))
    + When(o.beforeInserted != 0, InsertedBefore(o.beforeInserted))
    + When(o.beforeUpdated != 0, UpdatedBefore(o.beforeUpdated))
  }

  /** The date-range and description conditions: slots 5 to 7. */
  function DateAndDescriptionFilters(o: QueryOptions): seq<Clause>
  {
    When(o.startDate != 0, DateFrom(o.startDate))
    + When(o.endDate != 0, DateBefore(o.endDate))
    + When(o.descriptionStartsWith != "", DescriptionPrefix(o.descriptionStartsWith))
  }

  /** The ORDER BY and LIMIT clauses: slots 8 to 11. */
  function OrderAndWindow(o: QueryOptions): seq<Clause>
  {
    When(o.sort == UPDATED_ASC, OrderByUpdatedAsc)
    + When(o.sort != UPDATED_ASC, OrderByDateDesc)
    + When(o.limit != 0 && o.skip != 0, SkipLimit(o.skip, o.limit))
    + When(o.limit != 0 && o.skip == 0, Limit(o.limit))
  }

  /** The clauses addOptionsToQuery emits, in the order it emits them. */
  function Clauses(o: QueryOptions): seq<Clause>
  {
    StateFilters(o) + DateAndDescriptionFilters(o) + OrderAndWindow(o)
  }

  /** Ranks strictly increase along the list: each kind of clause at most once, in slot order. */
  predicate Ascending(cs: seq<Clause>)
  {
    forall i, j :: 0 <= i < j < |cs| ==> Rank(cs[i]) < Rank(cs[j])
  }

  lemma AscendingAppend(a: seq<Clause>, b: seq<Clause>)
    requires Ascending(a) && Ascending(b)
    requires forall x, y :: x in a && y in b ==> Rank(x) < Rank(y)
    ensures Ascending(a + b)
  {
    forall i, j | 0 <= i < j < |a + b|
      ensures Rank((a + b)[i]) < Rank((a + b)[j])
    {
      if j < |a| {
      } else if i >= |a| {
        assert (a + b)[i] == b[i - |a|] && (a + b)[j] == b[j - |a|];
      } else {
        assert (a + b)[i] == a[i] && a[i] in a;
        assert (a + b)[j] == b[j - |a|] && b[j - |a|] in b;
      }
    }
  }

  /** Appending the slot-k clause, if at all, after clauses of lower slots keeps the ranks ascending. */
  lemma Grow(cs: seq<Clause>, k: nat, b: bool, c: Clause)
    requires Ascending(cs) && (forall x :: x in cs ==> Rank(x) < k) && Rank(c) == k
    ensures Ascending(cs + When(b, c))
    ensures forall x :: x in cs + When(b, c) ==> Rank(x) <= k
  {
    if b {
      assert forall i :: 0 <= i < |cs| ==> cs[i] in cs;
    } else {
      assert cs + [] == cs;
    }
  }

  /** Slots 0 to 4 hold exactly the wanted clauses of those ranks. */
  lemma StateFiltersMembers(o: QueryOptions)
    ensures forall c :: c in StateFilters(o) <==> Rank(c) < 5 && Wanted(c, o)
  {
  }

  /** Slots 0 to 4 are in rank order. */
  lemma StateFiltersAscending(o: QueryOptions)
    ensures Ascending(StateFilters(o))
  {
    ghost var cs := When(!o.includeDeleted, NotDeleted);
    Grow(cs, 1, o.sinceInserted != 0, InsertedAfter(o.sinceInserted));
    cs := cs + When(o.sinceInserted != 0, InsertedAfter(o.sinceInserted));
    Grow(cs, 2, o.sinceUpdated != 0, UpdatedAfter(o.sinceUpdated));
    cs := cs + When(o.sinceUpdated != 0, UpdatedAfter(o.sinceUpdated));
    Grow(cs, 3, o.beforeInserted != 0, InsertedBefore(o.beforeInserted));
    cs := cs + When(o.beforeInserted != 0, InsertedBefore(o.beforeInserted));
    Grow(cs, 4, o.beforeUpdated != 0, UpdatedBefore(o.beforeUpdated));
    cs := cs + When(o.beforeUpdated != 0, UpdatedBefore(o.beforeUpdated));
    assert cs == StateFilters(o);
  }

  /** Slots 5 to 7 hold exactly the wanted clauses of those ranks. */
  lemma DateAndDescriptionFiltersMembers(o: QueryOptions)
    ensures forall c :: c in DateAndDescriptionFilters(o) <==> 5 <= Rank(c) < 8 && Wanted(c, o)
  {
  }

  /** Slots 5 to 7 are in rank order. */
  lemma DateAndDescriptionFiltersAscending(o: QueryOptions)
    ensures Ascending(DateAndDescriptionFilters(o))
  {
    ghost var cs := When(o.startDate != 0, DateFrom(o.startDate));
    Grow(cs, 6, o.endDate != 0, DateBefore(o.endDate));
    cs := cs + When(o.endDate != 0, DateBefore(o.endDate));
    Grow(cs, 7, o.descriptionStartsWith != "", DescriptionPrefix(o.descriptionStartsWith));
    cs := cs + When(o.descriptionStartsWith != "", DescriptionPrefix(o.descriptionStartsWith));
    assert cs == DateAndDescriptionFilters(o);
  }

  /** Slots 8 to 11 hold exactly the wanted clauses of those ranks. */
  lemma OrderAndWindowMembers(o: QueryOptions)
    ensures forall c :: c in OrderAndWindow(o) <==> 8 <= Rank(c) && Wanted(c, o)
  {
  }

  /** Slots 8 to 11 are in rank order. */
  lemma OrderAndWindowAscending(o: QueryOptions)
    ensures Ascending(OrderAndWindow(o))
  {
    ghost var cs := When(o.sort == UPDATED_ASC, OrderByUpdatedAsc);
    Grow(cs, 9, o.sort != UPDATED_ASC, OrderByDateDesc);
    cs := cs + When(o.sort != UPDATED_ASC, OrderByDateDesc);
    Grow(cs, 10, o.limit != 0 && o.skip != 0, SkipLimit(o.skip, o.limit));
    cs := cs + When(o.limit != 0 && o.skip != 0, SkipLimit(o.skip, o.limit));
    Grow(cs, 11, o.limit != 0 && o.skip == 0, Limit(o.limit));
    cs := cs + When(o.limit != 0 && o.skip == 0, Limit(o.limit));
    assert cs == OrderAndWindow(o);
  }

  /** addOptionsToQuery emits exactly the clauses the options ask for, each kind at most once,
      in slot order; in particular Skip without Limit emits nothing. */
  lemma ClausesWanted(o: QueryOptions)
    ensures forall c :: c in Clauses(o) <==> Wanted(c, o)
    ensures Ascending(Clauses(o))
  {
    StateFiltersMembers(o);
    StateFiltersAscending(o);
    DateAndDescriptionFiltersMembers(o);
    DateAndDescriptionFiltersAscending(o);
    OrderAndWindowMembers(o);
    OrderAndWindowAscending(o);
    var a, b, c := StateFilters(o), DateAndDescriptionFilters(o), OrderAndWindow(o);
    AscendingAppend(a, b);
    AscendingAppend(a + b, c);
  }

  const AND_NOT_DELETED := " AND s.deleted = false"
  const AND_INSERTED_AFTER := " AND s.inserted > "
  const AND_UPDATED_AFTER := " AND s.updated > "
  const AND_INSERTED_BEFORE := " AND s.inserted < "
  const AND_UPDATED_BEFORE := " AND s.updated < "
  const AND_DATE_FROM := " AND s.date >= "
  const AND_DATE_BEFORE := " AND s.date < "
  const AND_DESCRIPTION_LIKE := " AND t.description LIKE '"
  const LIKE_ANY_SUFFIX := "%'"
  const ORDER_BY_SPLIT_UPDATED_ASC := " ORDER BY s.updated ASC"
  const ORDER_BY_SPLIT_DATE_DESC := " ORDER BY s.date DESC, s.inserted DESC"
  const ORDER_BY_UPDATED_ASC := " ORDER BY updated ASC"
  const ORDER_BY_DATE_DESC := " ORDER BY date DESC, inserted DESC"
  const LIMIT := " LIMIT "
  const COMMA := ", "

  /** The SQL text of one clause; `escape` is the driver's string escaping, which is not modelled. */
  function Render(c: Clause, escape: string -> string): string
  {
    match c
    case NotDeleted => AND_NOT_DELETED
    case InsertedAfter(n) => AND_INSERTED_AFTER + Itoa(n)
    case UpdatedAfter(n) => AND_UPDATED_AFTER + Itoa(n)
    case InsertedBefore(n) => AND_INSERTED_BEFORE + Itoa(n)
    case UpdatedBefore(n) => AND_UPDATED_BEFORE + Itoa(n)
    case DateFrom(n) => AND_DATE_FROM + Itoa(n)
    case DateBefore(n) => AND_DATE_BEFORE + Itoa(n)
    case DescriptionPrefix(p) => AND_DESCRIPTION_LIKE + escape(p) + LIKE_ANY_SUFFIX
    case OrderByUpdatedAsc => ORDER_BY_SPLIT_UPDATED_ASC
    case OrderByDateDesc => ORDER_BY_SPLIT_DATE_DESC
    case SkipLimit(k, n) => LIMIT + Itoa(k) + COMMA + Itoa(n)
    case Limit(n) => LIMIT + Itoa(n)
  }

  /** Render under a fixed escaping. */
  function Renderer(escape: string -> string): Clause -> string
  {
    (c: Clause) => Render(c, escape)
  }

  /** The text of a clause list, each clause rendered in turn. */
  function RenderAll(cs: seq<Clause>, render: Clause -> string): string
  {
    if cs == [] then "" else render(cs[0]) + RenderAll(cs[1..], render)
  }

  lemma {:induction false} RenderAllAppend(a: seq<Clause>, b: seq<Clause>, render: Clause -> string)
    ensures RenderAll(a + b, render) == RenderAll(a, render) + RenderAll(b, render)
  {
    if a == [] {
      assert a + b == b;
    } else {
      assert (a + b)[1..] == a[1..] + b;
      RenderAllAppend(a[1..], b, render);
    }
  }

  /** `query += text` under a guard. */
  function AppendIf(query: string, guard: bool, text: string): (r: string)
    ensures guard ==> r == query + text
    ensures !guard ==> r == query
  {
    if guard then query + text else query
  }

  lemma AppendAssoc(a: string, b: string, c: string)
    ensures (a + b) + c == a + (b + c)
  {
  }

  /** One guarded append renders one more slot. */
  lemma Extend(r: string, query: string, cs: seq<Clause>, b: bool, c: Clause, render: Clause -> string)
    requires r == query + RenderAll(cs, render)
    ensures AppendIf(r, b, render(c)) == query + RenderAll(cs + When(b, c), render)
  {
    RenderAllAppend(cs, When(b, c), render);
    if b {
      assert RenderAll([c], render) == render(c) + RenderAll([], render);
      assert render(c) + "" == render(c);
    } else {
      assert cs + [] == cs;
      assert RenderAll(cs, render) + "" == RenderAll(cs, render);
    }
  }

  /** The appends of slots 0 to 4 add the text of StateFilters, whatever each clause renders to. */
  lemma StateFiltersRender(q: string, o: QueryOptions, render: Clause -> string)
    ensures AppendIf(
        AppendIf(
        AppendIf(
        AppendIf(
        AppendIf(q, !o.includeDeleted, render(NotDeleted)),
        o.sinceInserted != 0, render(InsertedAfter(o.sinceInserted))),
        o.sinceUpdated != 0, render(UpdatedAfter(o.sinceUpdated))),
        o.beforeInserted != 0, render(InsertedBefore(o.beforeInserted))),
        o.beforeUpdated != 0, render(UpdatedBefore(o.beforeUpdated)))
      == q + RenderAll(StateFilters(o), render)
  {
    assert q + "" == q;
    Extend(q, q, [], !o.includeDeleted, NotDeleted, render);
    var r := AppendIf(q, !o.includeDeleted, render(NotDeleted));
    var cs := When(!o.includeDeleted, NotDeleted);
    assert [] + cs == cs;
    Extend(r, q, cs, o.sinceInserted != 0, InsertedAfter(o.sinceInserted), render);
    r := AppendIf(r, o.sinceInserted != 0, render(InsertedAfter(o.sinceInserted)));
    cs := cs + When(o.sinceInserted != 0, InsertedAfter(o.sinceInserted));
    Extend(r, q, cs, o.sinceUpdated != 0, UpdatedAfter(o.sinceUpdated), render);
    r := AppendIf(r, o.sinceUpdated != 0, render(UpdatedAfter(o.sinceUpdated)));
    cs := cs + When(o.sinceUpdated != 0, UpdatedAfter(o.sinceUpdated));
    Extend(r, q, cs, o.beforeInserted != 0, InsertedBefore(o.beforeInserted), render);
    r := AppendIf(r, o.beforeInserted != 0, render(InsertedBefore(o.beforeInserted)));
    cs := cs + When(o.beforeInserted != 0, InsertedBefore(o.beforeInserted));
    Extend(r, q, cs, o.beforeUpdated != 0, UpdatedBefore(o.beforeUpdated), render);
    r := AppendIf(r, o.beforeUpdated != 0, render(UpdatedBefore(o.beforeUpdated)));
    cs := cs + When(o.beforeUpdated != 0, UpdatedBefore(o.beforeUpdated));
    assert cs == StateFilters(o);
  }

  /** The appends of slots 5 to 7 add the text of DateAndDescriptionFilters, whatever each clause renders to. */
  lemma DateAndDescriptionFiltersRender(q: string, o: QueryOptions, render: Clause -> string)
    ensures AppendIf(
        AppendIf(
        AppendIf(q, o.startDate != 0, render(DateFrom(o.startDate))),
        o.endDate != 0, render(DateBefore(o.endDate))),
        o.descriptionStartsWith != "", render(DescriptionPrefix(o.descriptionStartsWith)))
      == q + RenderAll(DateAndDescriptionFilters(o), render)
  {
    assert q + "" == q;
    Extend(q, q, [], o.startDate != 0, DateFrom(o.startDate), render);
    var r := AppendIf(q, o.startDate != 0, render(DateFrom(o.startDate)));
    var cs := When(o.startDate != 0, DateFrom(o.startDate));
    assert [] + cs == cs;
    Extend(r, q, cs, o.endDate != 0, DateBefore(o.endDate), render);
    r := AppendIf(r, o.endDate != 0, render(DateBefore(o.endDate)));
    cs := cs + When(o.endDate != 0, DateBefore(o.endDate));
    Extend(r, q, cs, o.descriptionStartsWith != "", DescriptionPrefix(o.descriptionStartsWith), render);
    r := AppendIf(r, o.descriptionStartsWith != "", render(DescriptionPrefix(o.descriptionStartsWith)));
    cs := cs + When(o.descriptionStartsWith != "", DescriptionPrefix(o.descriptionStartsWith));
    assert cs == DateAndDescriptionFilters(o);
  }

  /** The appends of slots 8 to 11 add the text of OrderAndWindow, whatever each clause renders to. */
  lemma OrderAndWindowRender(q: string, o: QueryOptions, render: Clause -> string)
    ensures AppendIf(
        AppendIf(
        AppendIf(
        AppendIf(q, o.sort == UPDATED_ASC, render(OrderByUpdatedAsc)),
        o.sort != UPDATED_ASC, render(OrderByDateDesc)),
        o.limit != 0 && o.skip != 0, render(SkipLimit(o.skip, o.limit))),
        o.limit != 0 && o.skip == 0, render(Limit(o.limit)))
      == q + RenderAll(OrderAndWindow(o), render)
  {
    assert q + "" == q;
    Extend(q, q, [], o.sort == UPDATED_ASC, OrderByUpdatedAsc, render);
    var r := AppendIf(q, o.sort == UPDATED_ASC, render(OrderByUpdatedAsc));
    var cs := When(o.sort == UPDATED_ASC, OrderByUpdatedAsc);
    assert [] + cs == cs;
    Extend(r, q, cs, o.sort != UPDATED_ASC, OrderByDateDesc, render);
    r := AppendIf(r, o.sort != UPDATED_ASC, render(OrderByDateDesc));
    cs := cs + When(o.sort != UPDATED_ASC, OrderByDateDesc);
    Extend(r, q, cs, o.limit != 0 && o.skip != 0, SkipLimit(o.skip, o.limit), render);
    r := AppendIf(r, o.limit != 0 && o.skip != 0, render(SkipLimit(o.skip, o.limit)));
    cs := cs + When(o.limit != 0 && o.skip != 0, SkipLimit(o.skip, o.limit));
    Extend(r, q, cs, o.limit != 0 && o.skip == 0, Limit(o.limit), render);
    r := AppendIf(r, o.limit != 0 && o.skip == 0, render(Limit(o.limit)));
    cs := cs + When(o.limit != 0 && o.skip == 0, Limit(o.limit));
    assert cs == OrderAndWindow(o);
  }

  /** addOptionsToQuery: the guarded appends in the order the source makes them (each
      `AppendIf(r, cond, text)` is the source's `if cond { query += text }`); the if/else on
      Sort is two appends under complementary guards, and so is the LIMIT if/else-if. The result
      is the query followed by the text of exactly the clauses of Clauses(o). */
  method AddOptionsToQuery(query: string, o: QueryOptions, escape: string -> string) returns (r: string)
    ensures r == query + RenderAll(Clauses(o), Renderer(escape))
  {
    var render := Renderer(escape);
    r := query;
    r := AppendIf(r, !o.includeDeleted, render(NotDeleted));
    r := AppendIf(r, o.sinceInserted != 0, render(InsertedAfter(o.sinceInserted)));
    r := AppendIf(r, o.sinceUpdated != 0, render(UpdatedAfter(o.sinceUpdated)));
    r := AppendIf(r, o.beforeInserted != 0, render(InsertedBefore(o.beforeInserted)));
    r := AppendIf(r, o.beforeUpdated != 0, render(UpdatedBefore(o.beforeUpdated)));
    StateFiltersRender(query, o, render);
    ghost var afterState := r;
    r := AppendIf(r, o.startDate != 0, render(DateFrom(o.startDate)));
    r := AppendIf(r, o.endDate != 0, render(DateBefore(o.endDate)));
    r := AppendIf(r, o.descriptionStartsWith != "", render(DescriptionPrefix(o.descriptionStartsWith)));
    DateAndDescriptionFiltersRender(afterState, o, render);
    ghost var afterFilters := r;
    r := AppendIf(r, o.sort == UPDATED_ASC, render(OrderByUpdatedAsc));
    r := AppendIf(r, o.sort != UPDATED_ASC, render(OrderByDateDesc));
    r := AppendIf(r, o.limit != 0 && o.skip != 0, render(SkipLimit(o.skip, o.limit)));
    r := AppendIf(r, o.limit != 0 && o.skip == 0, render(Limit(o.limit)));
    OrderAndWindowRender(afterFilters, o, render);
    ghost var a, b, c := StateFilters(o), DateAndDescriptionFilters(o), OrderAndWindow(o);
    RenderAllAppend(a, b, render);
    RenderAllAppend(a + b, c, render);
    AppendAssoc(query, RenderAll(a, render), RenderAll(b, render));
    AppendAssoc(query, RenderAll(a + b, render), RenderAll(c, render));
  }

  /** Options that differ only in Skip, without a Limit, give the same clauses: Skip alone adds nothing. */
  lemma SkipAloneAddsNothing(o: QueryOptions, skip: int64)
    requires o.limit == 0
    ensures Clauses(o.(skip := skip)) == Clauses(o)
  {
    var o' := o.(skip := skip);
    assert StateFilters(o') == StateFilters(o);
    assert DateAndDescriptionFilters(o') == DateAndDescriptionFilters(o);
    assert OrderAndWindow(o') == OrderAndWindow(o);
  }

  /** What a WHERE clause demands of a split row `s` joined with its transaction row `t`.
      ORDER BY and LIMIT clauses select nothing on their own. */
  predicate Holds(c: Clause, s: SplitRow, t: TransactionRow)
  {
    match c
    case NotDeleted => !s.deleted
    case InsertedAfter(n) => s.inserted > n
    case UpdatedAfter(n) => s.updated > n
    case InsertedBefore(n) => s.inserted < n
    case UpdatedBefore(n) => s.updated < n
    case DateFrom(n) => s.date >= n
    case DateBefore(n) => s.date < n
    case DescriptionPrefix(p) => p <= t.description
    case OrderByUpdatedAsc => true
    case OrderByDateDesc => true
    case SkipLimit(_, _) => true
    case Limit(_) => true
  }

  /** The rows the WHERE part of the built query keeps. */
  predicate Selected(o: QueryOptions, s: SplitRow, t: TransactionRow)
  {
    forall c :: c in Clauses(o) ==> Holds(c, s, t)
  }

  /** Option by option, which split rows a listing keeps: a zero or empty option filters nothing. */
  predicate SplitMatches(o: QueryOptions, s: SplitRow, t: TransactionRow)
  {
    (o.includeDeleted || !s.deleted) &&
    (o.sinceInserted == 0 || s.inserted > o.sinceInserted) &&
    (o.sinceUpdated == 0 || s.updated > o.sinceUpdated) &&
    (o.beforeInserted == 0 || s.inserted < o.beforeInserted) &&
    (o.beforeUpdated == 0 || s.updated < o.beforeUpdated) &&
    (o.startDate == 0 || s.date >= o.startDate) &&
    (o.endDate == 0 || s.date < o.endDate) &&
    (o.descriptionStartsWith == "" || o.descriptionStartsWith <= t.description)
  }

  /** The built WHERE conditions keep exactly the rows the options describe. */
  lemma SelectedMatches(o: QueryOptions, s: SplitRow, t: TransactionRow)
    ensures Selected(o, s, t) <==> SplitMatches(o, s, t)
  {
    ClausesWanted(o);
    if Selected(o, s, t) {
      assert !o.includeDeleted ==> Holds(NotDeleted, s, t);
      assert o.sinceInserted != 0 ==> Holds(InsertedAfter(o.sinceInserted), s, t);
      assert o.sinceUpdated != 0 ==> Holds(UpdatedAfter(o.sinceUpdated), s, t);
      assert o.beforeInserted != 0 ==> Holds(InsertedBefore(o.beforeInserted), s, t);
      assert o.beforeUpdated != 0 ==> Holds(UpdatedBefore(o.beforeUpdated), s, t);
      assert o.startDate != 0 ==> Holds(DateFrom(o.startDate), s, t);
      assert o.endDate != 0 ==> Holds(DateBefore(o.endDate), s, t);
      assert o.descriptionStartsWith != "" ==> Holds(DescriptionPrefix(o.descriptionStartsWith), s, t);
    }
  }

  /** The LIMIT text MySQL accepts: "LIMIT skip, count" and "LIMIT count" need non-negative
      numbers, and a zero Limit emits no LIMIT at all. */
  predicate WindowAccepted(o: QueryOptions)
  {
    o.limit == 0 || (o.limit > 0 && o.skip >= 0)
  }

  function Min(a: int, b: int): int { if a <= b then a else b }

  /** The rows LIMIT leaves of an ordered result. */
  function Window<T>(rows: seq<T>, o: QueryOptions): (w: seq<T>)
    requires WindowAccepted(o)
    ensures o.limit == 0 ==> w == rows
    ensures o.limit != 0 ==> |w| == Min(o.limit, if o.skip < |rows| then |rows| - o.skip else 0)
    ensures o.limit != 0 ==> forall i :: 0 <= i < |w| ==> w[i] == rows[o.skip + i]
  {
    if o.limit == 0 then rows
    else
      var from := Min(o.skip, |rows|);
      rows[from..Min(from + o.limit, |rows|)]
  }

  /** The orders of the two builders as "may come first" relations: ascending `updated`, or
      descending `date` and then descending `inserted`. Ties are left in an unspecified order. */
  function SplitOrder(sort: string): (SplitRow, SplitRow) -> bool
  {
    if sort == UPDATED_ASC then (a: SplitRow, b: SplitRow) => a.updated <= b.updated
    else (a: SplitRow, b: SplitRow) => a.date > b.date || (a.date == b.date && a.inserted >= b.inserted)
  }

  function TransactionOrder(sort: string): (TransactionRow, TransactionRow) -> bool
  {
    if sort == UPDATED_ASC then (a: TransactionRow, b: TransactionRow) => a.updated <= b.updated
    else (a: TransactionRow, b: TransactionRow) => a.date > b.date || (a.date == b.date && a.inserted >= b.inserted)
  }

  /** Both orders are total preorders, so sorting by them is well defined up to ties. */
  lemma OrdersArePreorders(sort: string)
    ensures Total(SplitOrder(sort)) && Transitive(SplitOrder(sort))
    ensures Total(TransactionOrder(sort)) && Transitive(TransactionOrder(sort))
  {
  }

  /** A split row carries its transaction's date, inserted and updated values. */
  predicate Carries(s: SplitRow, t: TransactionRow)
  {
    s.date == t.date && s.inserted == t.inserted && s.updated == t.updated
  }

  /** The two builders order alike: splits that carry their transactions' stamps compare as
      those transactions do. */
  lemma OrdersAgree(sort: string, s1: SplitRow, t1: TransactionRow, s2: SplitRow, t2: TransactionRow)
    requires Carries(s1, t1) && Carries(s2, t2)
    ensures SplitOrder(sort)(s1, s2) <==> TransactionOrder(sort)(t1, t2)
  {
  }

  /** addSortToQuery: the transaction table's own ORDER BY. */
  function AddSortToQuery(query: string, o: QueryOptions): string
  {
    if o.sort == UPDATED_ASC then query + ORDER_BY_UPDATED_ASC else query + ORDER_BY_DATE_DESC
  }

  /** addSortToQuery only appends, and it appends the ascending-update order exactly when
      addOptionsToQuery does, the newest-first order otherwise. */
  lemma SortAgrees(query: string, o: QueryOptions)
    ensures query <= AddSortToQuery(query, o)
    ensures AddSortToQuery(query, o) == query + ORDER_BY_UPDATED_ASC <==> OrderByUpdatedAsc in Clauses(o)
    ensures AddSortToQuery(query, o) == query + ORDER_BY_DATE_DESC <==> OrderByDateDesc in Clauses(o)
  {
    ClausesWanted(o);
    assert |ORDER_BY_UPDATED_ASC| != |ORDER_BY_DATE_DESC|;
  }
}

=== FILE: query_options.dfy ===
/** core/model/types/query_options.go: the listing filters a client passes in the URL. */
module UrlQuery {
  import opened Wrappers
  import opened Int64
  import opened Decimal

  datatype QueryOptions = QueryOptions(
    limit: int64,
    skip: int64,
    sinceInserted: int64,
    sinceUpdated: int64,
    beforeInserted: int64,
    beforeUpdated: int64,
    startDate: int64,
    endDate: int64,
    descriptionStartsWith: string,
    includeDeleted: bool,
    sort: string)

  /** The zero value `QueryOptions{}`. */
  const EMPTY_OPTIONS := QueryOptions(0, 0, 0, 0, 0, 0, 0, 0, "", false, "")

  /** net/url.Values: each key maps to the list of its values, in order of appearance. */
  type Values = map<string, seq<string>>

  /** url.Values.Get: the first value of the key, or "" when it has none. */
  function Get(q: Values, key: string): (v: string)
    ensures key !in q ==> v == ""
    ensures key in q && |q[key]| > 0 ==> v == q[key][0]
  {
    if key in q && |q[key]| > 0 then q[key][0] else ""
  }

  /** What one numeric key contributes: 0 when absent or empty, else the parse of its value. */
  function NumericField(q: Values, key: string): Result<int64>
  {
    if Get(q, key) == "" then Ok(0) else Atoi(Get(q, key))
  }

  /** The error of the first numeric key, in the order the keys are consulted, whose value
      does not parse; None when all of them parse. */
  function FirstError(q: Values): (e: Option<string>)
    ensures e.None? <==> (NumericField(q, "limit").Ok? && NumericField(q, "skip").Ok? &&
      NumericField(q, "sinceInserted").Ok? && NumericField(q, "sinceUpdated").Ok? &&
      NumericField(q, "beforeInserted").Ok? && NumericField(q, "beforeUpdated").Ok? &&
      NumericField(q, "startDate").Ok? && NumericField(q, "endDate").Ok?)
  {
    if NumericField(q, "limit").Err? then Some(NumericField(q, "limit").msg)
    else if NumericField(q, "skip").Err? then Some(NumericField(q, "skip").msg)
    else if NumericField(q, "sinceInserted").Err? then Some(NumericField(q, "sinceInserted").msg)
    else if NumericField(q, "sinceUpdated").Err? then Some(NumericField(q, "sinceUpdated").msg)
    else if NumericField(q, "beforeInserted").Err? then Some(NumericField(q, "beforeInserted").msg)
    else if NumericField(q, "beforeUpdated").Err? then Some(NumericField(q, "beforeUpdated").msg)
    else if NumericField(q, "startDate").Err? then Some(NumericField(q, "startDate").msg)
    else if NumericField(q, "endDate").Err? then Some(NumericField(q, "endDate").msg)
    else None
  }

  /** Every field holds what its key says: a parsed number (0 without a value), the text of a
      string key, and includeDeleted exactly when its value is "true". */
  predicate Reflects(o: QueryOptions, q: Values)
  {
    Ok(o.limit) == NumericField(q, "limit") && Ok(o.skip) == NumericField(q, "skip") &&
    Ok(o.sinceInserted) == NumericField(q, "sinceInserted") &&
    Ok(o.sinceUpdated) == NumericField(q, "sinceUpdated") &&
    Ok(o.beforeInserted) == NumericField(q, "beforeInserted") &&
    Ok(o.beforeUpdated) == NumericField(q, "beforeUpdated") &&
    Ok(o.startDate) == NumericField(q, "startDate") && Ok(o.endDate) == NumericField(q, "endDate") &&
    o.descriptionStartsWith == Get(q, "descriptionStartsWith") &&
    o.includeDeleted == (Get(q, "includeDeleted") == "true") &&
    o.sort == Get(q, "sort")
  }

  /** QueryOptionsFromURLQuery: fills the record key by key and gives up at the first numeric
      key whose value strconv.Atoi refuses. */
  method QueryOptionsFromURLQuery(q: Values) returns (r: Result<QueryOptions>)
    ensures r.Err? ==> FirstError(q) == Some(r.msg)
    ensures r.Ok? ==> Reflects(r.value, q)
  {
    var qo := EMPTY_OPTIONS;
    var n0 := ParseNumber(q, "limit");
    if n0.Err? {
      return Err(n0.msg);
    }
    qo := qo.(limit := n0.value);
    var n1 := ParseNumber(q, "skip");
    if n1.Err? {
      return Err(n1.msg);
    }
    qo := qo.(skip := n1.value);
    var n2 := ParseNumber(q, "sinceInserted");
    if n2.Err? {
      return Err(n2.msg);
    }
    qo := qo.(sinceInserted := n2.value);
    var n3 := ParseNumber(q, "sinceUpdated");
    if n3.Err? {
      return Err(n3.msg);
    }
    qo := qo.(sinceUpdated := n3.value);
    var n4 := ParseNumber(q, "beforeInserted");
    if n4.Err? {
      return Err(n4.msg);
    }
    qo := qo.(beforeInserted := n4.value);
    var n5 := ParseNumber(q, "beforeUpdated");
    if n5.Err? {
      return Err(n5.msg);
    }
    qo := qo.(beforeUpdated := n5.value);
    var n6 := ParseNumber(q, "startDate");
    if n6.Err? {
      return Err(n6.msg);
    }
    qo := qo.(startDate := n6.value);
    var n7 := ParseNumber(q, "endDate");
    if n7.Err? {
      return Err(n7.msg);
    }
    qo := qo.(endDate := n7.value);
    if Get(q, "descriptionStartsWith") != "" {
      qo := qo.(descriptionStartsWith := Get(q, "descriptionStartsWith"));
    }
    if Get(q, "includeDeleted") == "true" {
      qo := qo.(includeDeleted := true);
    }
    if Get(q, "sort") != "" {
      qo := qo.(sort := Get(q, "sort"));
    }
    return Ok(qo);
  }

  /** One guarded numeric assignment: a key without a value leaves the field at 0. */
  method ParseNumber(q: Values, key: string) returns (r: Result<int64>)
    ensures r == NumericField(q, key)
  {
    r := Ok(0);
    if Get(q, key) != "" {
      r := Atoi(Get(q, key));
    }
  }

  /** A query without any of the keys yields the zero record. */
  lemma NoKeysGiveZeroOptions(q: Values)
    requires forall k :: k in q ==> q[k] == []
    ensures FirstError(q).None?
    ensures NumericField(q, "limit") == NumericField(q, "endDate") == Ok(0)
    ensures Get(q, "descriptionStartsWith") == Get(q, "includeDeleted") == Get(q, "sort") == ""
  {
  }

  /** Round trip: the decimal rendering of any int64 under "limit" parses back to that limit. */
  lemma LimitRoundTrip(n: int64)
    ensures NumericField(map["limit" := [Itoa(n)]], "limit") == Ok(n)
    ensures FirstError(map["limit" := [Itoa(n)]]).None?
  {
    AtoiItoa(n);
  }

  /** Only the first value of a repeated key is consulted. */
  lemma RepeatedKeyFirstValueWins(q: Values, key: string, later: seq<string>)
    requires key in q && |q[key]| > 0
    ensures Get(q[key := [q[key][0]] + later], key) == Get(q, key)
  {
  }

}

=== FILE: seqs.dfy ===
/** Selection of rows by a condition: the WHERE clause of a single-table SELECT. */
module Seqs {

  /** The elements of s that satisfy p, in their original order. */
  function Filter<T(!new)>(s: seq<T>, p: T -> bool): (r: seq<T>)
    ensures |r| <= |s|
    ensures forall i :: 0 <= i < |r| ==> p(r[i])
  {
    if s == [] then []
    else if p(s[|s| - 1]) then Filter(s[..|s| - 1], p) + [s[|s| - 1]]
    else Filter(s[..|s| - 1], p)
  }

  /** An element is kept exactly when it is in the input and satisfies the condition. */
  lemma {:induction false} FilterMembership<T(!new)>(s: seq<T>, p: T -> bool)
    ensures forall x :: x in Filter(s, p) <==> x in s && p(x)
  {
    if s != [] {
      FilterMembership(s[..|s| - 1], p);
      assert s == s[..|s| - 1] + [s[|s| - 1]];
    }
  }

  lemma FilterAppend<T(!new)>(s: seq<T>, t: seq<T>, p: T -> bool)
    ensures Filter(s + t, p) == Filter(s, p) + Filter(t, p)
    decreases |t|
  {
    if t == [] {
      assert s + t == s;
    } else {
      assert (s + t)[..|s + t| - 1] == s + t[..|t| - 1];
      FilterAppend(s, t[..|t| - 1], p);
    }
  }

  /** A condition that holds of every element keeps the sequence whole. */
  lemma {:induction false} FilterAll<T(!new)>(s: seq<T>, p: T -> bool)
    requires forall i :: 0 <= i < |s| ==> p(s[i])
    ensures Filter(s, p) == s
  {
    if s != [] {
      FilterAll(s[..|s| - 1], p);
      assert s[..|s| - 1] + [s[|s| - 1]] == s;
    }
  }

  /** A condition that holds of no element leaves nothing. */
  lemma {:induction false} FilterNone<T(!new)>(s: seq<T>, p: T -> bool)
    requires forall i :: 0 <= i < |s| ==> !p(s[i])
    ensures Filter(s, p) == []
  {
    if s != [] { FilterNone(s[..|s| - 1], p); }
  }

  /** Filtering keeps the relative order of what it keeps. */
  lemma {:induction false} FilterOrder<T(!new)>(s: seq<T>, p: T -> bool, lt: (T, T) -> bool)
    requires forall i, j :: 0 <= i < j < |s| ==> lt(s[i], s[j])
    ensures forall i, j :: 0 <= i < j < |Filter(s, p)| ==> lt(Filter(s, p)[i], Filter(s, p)[j])
  {
    if s != [] {
      var init := s[..|s| - 1];
      FilterOrder(init, p, lt);
      FilterMembership(init, p);
      var f := Filter(init, p);
      forall k | 0 <= k < |f|
        ensures lt(f[k], s[|s| - 1])
      {
        assert f[k] in init;
        var m :| 0 <= m < |init| && init[m] == f[k];
      }
    }
  }

  /** No two elements share a key: a primary key over the rows. */
  predicate DistinctBy<T, K(==)>(s: seq<T>, key: T -> K)
  {
    forall i, j :: 0 <= i < j < |s| ==> key(s[i]) != key(s[j])
  }

  /** Filtering rows keeps their keys distinct. */
  lemma {:induction false} FilterDistinctBy<T(!new), K>(s: seq<T>, p: T -> bool, key: T -> K)
    requires DistinctBy(s, key)
    ensures DistinctBy(Filter(s, p), key)
  {
    if s != [] {
      var init := s[..|s| - 1];
      FilterDistinctBy(init, p, key);
      FilterMembership(init, p);
      var last := s[|s| - 1];
      forall x | x in Filter(init, p)
        ensures key(x) != key(last)
      {
        var m :| 0 <= m < |init| && init[m] == x;
      }
    }
  }

  /** Filtering by a weaker condition first changes nothing. */
  lemma {:induction false} FilterNarrow<T(!new)>(s: seq<T>, p: T -> bool, q: T -> bool)
    requires forall x :: q(x) ==> p(x)
    ensures Filter(Filter(s, p), q) == Filter(s, q)
  {
    if s != [] {
      var init, last := s[..|s| - 1], s[|s| - 1];
      FilterNarrow(init, p, q);
      if p(last) {
        assert (Filter(init, p) + [last])[..|Filter(init, p)|] == Filter(init, p);
      }
    }
  }

  /** The map that files each element under its key; a later element replaces an earlier one. */
  function KeyedBy<T, K(==), V>(s: seq<T>, key: T -> K, val: T -> V): map<K, V>
  {
    if s == [] then map[] else KeyedBy(s[..|s| - 1], key, val)[key(s[|s| - 1]) := val(s[|s| - 1])]
  }

  /** With distinct keys, every element is found under its own key, and nothing else is there. */
  lemma {:induction false} KeyedByAt<T, K, V>(s: seq<T>, key: T -> K, val: T -> V)
    requires DistinctBy(s, key)
    ensures forall k :: k in KeyedBy(s, key, val) <==> exists j :: 0 <= j < |s| && key(s[j]) == k
    ensures forall j :: 0 <= j < |s| ==> key(s[j]) in KeyedBy(s, key, val) && KeyedBy(s, key, val)[key(s[j])] == val(s[j])
  {
    if s != [] {
      var init := s[..|s| - 1];
      KeyedByAt(init, key, val);
      forall k
        ensures k in KeyedBy(s, key, val) <==> exists j :: 0 <= j < |s| && key(s[j]) == k
      {
        if k in KeyedBy(init, key, val) {
          var j :| 0 <= j < |init| && key(init[j]) == k;
          assert key(s[j]) == k;
        }
        if exists j :: 0 <= j < |s| && key(s[j]) == k {
          var j :| 0 <= j < |s| && key(s[j]) == k;
          if j < |init| { assert key(init[j]) == k; }
        }
      }
      forall j | 0 <= j < |s|
        ensures key(s[j]) in KeyedBy(s, key, val) && KeyedBy(s, key, val)[key(s[j])] == val(s[j])
      {
        if j < |init| {
          assert init[j] == s[j];
          assert key(s[j]) != key(s[|s| - 1]);
        }
      }
    }
  }

  /** Appending an element whose key is new keeps the keys distinct. */
  lemma DistinctByAppend<T, K>(s: seq<T>, x: T, key: T -> K)
    requires DistinctBy(s, key)
    requires forall y :: y in s ==> key(y) != key(x)
    ensures DistinctBy(s + [x], key)
  {
    var t := s + [x];
    forall i, j | 0 <= i < j < |t|
      ensures key(t[i]) != key(t[j])
    {
      if j == |s| {
        assert t[i] in s;
      }
    }
  }

  /** Growing a prefix by one element. */
  lemma PrefixStep<T>(s: seq<T>, i: nat)
    requires i < |s|
    ensures s[..i + 1][..i] == s[..i] && s[..i + 1][i] == s[i]
  {
  }

  /** A sequence without members is empty. */
  lemma NoMembers<T>(s: seq<T>)
    ensures (forall x :: x !in s) ==> s == []
  {
    if s != [] {
      assert s[0] in s;
    }
  }
}

=== FILE: sorting.dfy ===
/** Ordering of rows by a caller-given "less or equal": the model of Go's `sort.Sort` and of
    SQL `ORDER BY`. Neither promises an order for ties, so callers rely only on the result
    being ordered and a permutation of the input. */
module Sorting {
  import opened Seqs

  ghost predicate Total<T(!new)>(le: (T, T) -> bool)
  {
    forall a, b :: le(a, b) || le(b, a)
  }

  ghost predicate Transitive<T(!new)>(le: (T, T) -> bool)
  {
    forall a, b, c :: le(a, b) && le(b, c) ==> le(a, c)
  }

  predicate Sorted<T>(s: seq<T>, le: (T, T) -> bool)
  {
    forall i, j :: 0 <= i < j < |s| ==> le(s[i], s[j])
  }

  /** Places x before the first element it is less than or equal to. */
  function Insert<T(!new)>(x: T, s: seq<T>, le: (T, T) -> bool): (r: seq<T>)
    requires Total(le) && Transitive(le) && Sorted(s, le)
    ensures Sorted(r, le)
    ensures multiset(r) == multiset(s) + multiset{x}
  {
    if s == [] || le(x, s[0]) then [x] + s
    else
      var rest := Insert(x, s[1..], le);
      assert s == [s[0]] + s[1..];
      assert forall k :: 0 <= k < |rest| ==> le(s[0], rest[k]) by {
        forall k | 0 <= k < |rest|
          ensures le(s[0], rest[k])
        {
          assert rest[k] in multiset(rest);
          assert rest[k] == x || rest[k] in multiset(s[1..]);
          if rest[k] != x {
            var j :| 0 <= j < |s[1..]| && s[1..][j] == rest[k];
            assert s[1 + j] == rest[k];
          }
        }
      }
      [s[0]] + rest
  }

  /** Insertion sort: an ordered permutation of s. */
  function SortBy<T(!new)>(s: seq<T>, le: (T, T) -> bool): (r: seq<T>)
    requires Total(le) && Transitive(le)
    ensures Sorted(r, le)
    ensures multiset(r) == multiset(s)
    ensures |r| == |s|
  {
    if s == [] then []
    else
      assert s == [s[0]] + s[1..];
      Insert(s[0], SortBy(s[1..], le), le)
  }

  /** Inserting an element whose key is new keeps the keys distinct. */
  lemma {:induction false} InsertDistinctBy<T(!new), K>(x: T, s: seq<T>, le: (T, T) -> bool, key: T -> K)
    requires Total(le) && Transitive(le) && Sorted(s, le)
    requires DistinctBy(s, key)
    requires forall y :: y in s ==> key(y) != key(x)
    ensures DistinctBy(Insert(x, s, le), key)
  {
    if s == [] || le(x, s[0]) {
      var r := [x] + s;
      forall i, j | 0 <= i < j < |r|
        ensures key(r[i]) != key(r[j])
      {
        assert r[j] == s[j - 1];
        if i > 0 { assert r[i] == s[i - 1]; }
      }
    } else {
      var rest := Insert(x, s[1..], le);
      InsertDistinctBy(x, s[1..], le, key);
      var r := [s[0]] + rest;
      forall j | 0 <= j < |rest|
        ensures key(s[0]) != key(rest[j])
      {
        assert rest[j] in multiset(rest);
        if rest[j] != x {
          assert rest[j] in multiset(s[1..]);
          var k :| 0 <= k < |s[1..]| && s[1..][k] == rest[j];
          assert s[1 + k] == rest[j];
        }
      }
      forall i, j | 0 <= i < j < |r|
        ensures key(r[i]) != key(r[j])
      {
        assert r[j] == rest[j - 1];
        if i > 0 { assert r[i] == rest[i - 1]; }
      }
    }
  }

  /** Sorting rows keeps their keys distinct. */
  lemma {:induction false} SortByDistinctBy<T(!new), K>(s: seq<T>, le: (T, T) -> bool, key: T -> K)
    requires Total(le) && Transitive(le)
    requires DistinctBy(s, key)
    ensures DistinctBy(SortBy(s, le), key)
  {
    if s != [] {
      var sorted := SortBy(s[1..], le);
      SortByDistinctBy(s[1..], le, key);
      forall y | y in sorted
        ensures key(y) != key(s[0])
      {
        assert y in multiset(s[1..]);
        var k :| 0 <= k < |s[1..]| && s[1..][k] == y;
        assert s[1 + k] == y;
      }
      InsertDistinctBy(s[0], sorted, le, key);
    }
  }

  /** Sorting neither adds nor drops an element. */
  lemma SortByMembership<T(!new)>(s: seq<T>, le: (T, T) -> bool)
    requires Total(le) && Transitive(le)
    ensures forall x :: x in SortBy(s, le) <==> x in s
  {
    var r := SortBy(s, le);
    forall x
      ensures x in r <==> x in s
    {
      assert x in r <==> x in multiset(r);
      assert x in s <==> x in multiset(s);
    }
  }
}

=== FILE: store.dfy ===
/** The MySQL database behind core/model/db, as an in-memory set of tables.
    Each table is a sequence of rows in insertion order; timestamps are stored as int64
    milliseconds (util.TimeToMs), ids as the lower-case hex text they are read back as. */
module Store {
  import opened Int64
  import opened Types

  /** The parent column of a top-level account: UNHEX('') padded to BINARY(16), read back as hex. */
  const EMPTY_ACCOUNT_ID: string := "00000000000000000000000000000000"

  datatype AccountRow = AccountRow(
    id: string, orgId: string, inserted: int64, updated: int64, name: string,
    parent: string, currency: string, precision: int64, debitBalance: bool)

  datatype TransactionRow = TransactionRow(
    id: string, orgId: string, userId: string, date: int64, inserted: int64, updated: int64,
    description: string, data: string, deleted: bool)

  /** `id` is the table's AUTO_INCREMENT key. */
  datatype SplitRow = SplitRow(
    id: nat, transactionId: string, accountId: string, date: int64, inserted: int64, updated: int64,
    amount: int64, nativeAmount: int64, deleted: bool)

  datatype OrgRow = OrgRow(id: string, inserted: int64, updated: int64, name: string, currency: string, precision: int64)

  /** A row of `userorg`: membership of a user in an org. */
  datatype MemberRow = MemberRow(userId: string, orgId: string, admin: bool)

  datatype PermissionRow = PermissionRow(
    id: string, userId: string, orgId: string, accountId: string, inserted: int64, updated: int64)

  datatype InviteRow = InviteRow(id: string, orgId: string, inserted: int64, updated: int64, email: string, accepted: bool)

  datatype BudgetItemRow = BudgetItemRow(orgId: string, accountId: string, inserted: int64, amount: int64)

  datatype PriceRow = PriceRow(
    id: string, orgId: string, currency: string, date: int64, inserted: int64, updated: int64, price: Float64)

  datatype UserRow = UserRow(
    id: string, inserted: int64, updated: int64, firstName: string, lastName: string, email: string,
    passwordHash: string, agreeToTerms: bool, passwordReset: string, emailVerified: bool, emailVerifyCode: string,
    signupSource: string)

  datatype SessionRow = SessionRow(id: string, userId: string, updated: int64, terminated: bool)

  datatype ApiKeyRow = ApiKeyRow(id: string, userId: string, updated: int64, deleted: bool)

  datatype Tables = Tables(
    accounts: seq<AccountRow>,
    transactions: seq<TransactionRow>,
    splits: seq<SplitRow>,
    nextSplitId: nat,
    orgs: seq<OrgRow>,
    members: seq<MemberRow>,
    permissions: seq<PermissionRow>,
    invites: seq<InviteRow>,
    budgetItems: seq<BudgetItemRow>,
    prices: seq<PriceRow>,
    users: seq<UserRow>,
    sessions: seq<SessionRow>,
    apiKeys: seq<ApiKeyRow>)
  {
    /** Primary keys are unique, and split ids grow with insertion order. */
    predicate Valid()
    {
      (forall i, j :: 0 <= i < j < |accounts| ==> accounts[i].id != accounts[j].id) &&
      (forall i, j :: 0 <= i < j < |transactions| ==> transactions[i].id != transactions[j].id) &&
      (forall i, j :: 0 <= i < j < |splits| ==> splits[i].id < splits[j].id) &&
      (forall i :: 0 <= i < |splits| ==> splits[i].id < nextSplitId)
    }
  }

  /** The statements the database may refuse: a lost connection, a constraint the model does
      not track, a failed commit. Statements of one SQL transaction that behave alike share a name. */
  datatype Statement =
    | InsertAccountStmt | UpdateAccountStmt | GetAccountStmt | AccountsByOrgStmt | PermissionsStmt
    | SplitCountStmt | ChildCountStmt | DeleteAccountStmt | BalancesStmt | NativeBalancesStmt
    | BalanceStmt | NativeBalanceStmt | RootAccountStmt
    | InsertTransactionStmt | TransactionByIdStmt | TransactionsByAccountStmt | TransactionsByOrgStmt
    | SplitsByTransactionStmt | ListedTransactionsStmt | ListedSplitsStmt
    | DeleteTransactionStmt | DeleteAndInsertStmt
    | CreateOrgStmt | UpdateOrgStmt | GetOrgStmt | GetOrgsStmt | OrgUserIdsStmt | OrgAdminsStmt
    | InsertInviteStmt | AcceptInviteMemberStmt | AcceptInviteMarkStmt | AcceptInvitePermissionStmt
    | AcceptInviteCommitStmt | GetInvitesStmt | GetInviteStmt | DeleteInviteStmt
    | GetBudgetStmt | ReplaceBudgetStmt | DeleteBudgetStmt
    | InsertPriceStmt | PriceByIdStmt | DeletePriceStmt | NearestPricesStmt | PricesByCurrencyStmt
    | InsertUserStmt | UpdateUserStmt | ResetPasswordStmt | VerifiedUserByEmailStmt | UserByResetCodeStmt
    | ActiveSessionStmt | ApiKeyStmt | SessionActivityStmt | ApiKeyActivityStmt

  /** The message a refused statement reports; its text belongs to the driver. */
  const DB_ERROR: string := "database error"
  /** MySQL's answer to malformed SQL text, such as an empty `IN ()` list or a negative LIMIT. */
  const SQL_SYNTAX_ERROR: string := "Error 1064: You have an error in your SQL syntax"
  /** MySQL's answer to a second row under an existing primary key. */
  const DUPLICATE_KEY: string := "Error 1062: Duplicate entry for key 'PRIMARY'"
  /** QueryRow's answer when the SELECT finds nothing. */
  const NO_ROWS: string := "sql: no rows in result set"
  /** Go's run-time error for a field access through a nil pointer (a missing map entry). */
  const NIL_DEREFERENCE: string := "runtime error: invalid memory address or nil pointer dereference"

  /** The database connection. The tables change only through the methods of the db modules;
      `failing` is the environment's choice of statements that report an error. */
  class Db {
    var t: Tables
    const failing: set<Statement>

    constructor (tables: Tables, failing: set<Statement>)
      requires tables.Valid()
      ensures t == tables && this.failing == failing
    {
      t := tables;
      this.failing := failing;
    }

    ghost predicate Valid()
      reads this
    {
      t.Valid()
    }
  }
}

=== FILE: transactions.dfy ===
/** core/model/transaction.go: the split checks every new or replacing transaction must pass,
    and the permission gates in front of the transaction store. */
module Transactions {
  import opened Wrappers
  import opened Int64
  import opened Util
  import opened Types
  import opened Store
  import opened Seqs
  import opened UrlQuery
  import opened AccountTree
  import opened Accounts
  import DbAccount
  import DbOrg
  import DbTransaction

  const TOO_FEW_SPLITS: string := "at least 2 splits are required"
  const PARENT_ACCOUNT: string := "Cannot use parent account for split"
  const NATIVE_MISMATCH: string := "nativeAmount must equal amount for native currency splits"
  const UNBALANCED: string := "splits must add up to 0"

  function NativeAmounts(splits: seq<Split>): (xs: seq<int64>)
    ensures |xs| == |splits| && forall i :: 0 <= i < |splits| ==> xs[i] == splits[i].nativeAmount
  {
    seq(|splits|, i requires 0 <= i < |splits| => splits[i].nativeAmount)
  }

  // ---- The split checks -----------------------------------------------------------------

  /** What the loop of checkSplits finds wrong with one split, in its order: no write access to
      the account, a parent account, or a native-currency split whose two amounts differ. */
  function SplitError(accounts: seq<Account>, currency: string, s: Split): (e: Option<string>)
    ensures !AccountsContainWriteAccess(accounts, s.accountId) ==> e == Some(NoPermission(s.accountId))
    ensures e.None? ==> exists a :: a in accounts && a.id == s.accountId && !a.readOnly
  {
    if !AccountsContainWriteAccess(accounts, s.accountId) then Some(NoPermission(s.accountId))
    else
      var account := GetAccountFromList(accounts, s.accountId).value;
      if account.hasChildren then Some(PARENT_ACCOUNT)
      else if account.currency == currency && s.nativeAmount != s.amount then Some(NATIVE_MISMATCH)
      else None
  }

  /** The error of the first split that has one. */
  function FirstSplitError(accounts: seq<Account>, currency: string, splits: seq<Split>): (e: Option<string>)
    ensures e.None? <==> forall i :: 0 <= i < |splits| ==> SplitError(accounts, currency, splits[i]).None?
    ensures e.Some? ==> exists i :: 0 <= i < |splits| && e == SplitError(accounts, currency, splits[i]) &&
                                    forall j :: 0 <= j < i ==> SplitError(accounts, currency, splits[j]).None?
  {
    if splits == [] then None
    else if SplitError(accounts, currency, splits[0]).Some? then SplitError(accounts, currency, splits[0])
    else
      var e := FirstSplitError(accounts, currency, splits[1..]);
      FirstErrorShift(accounts, currency, splits, e);
      e
  }

  /** A first error among the splits after a clean first split is the first error of all. */
  lemma FirstErrorShift(accounts: seq<Account>, currency: string, splits: seq<Split>, e: Option<string>)
    requires splits != [] && SplitError(accounts, currency, splits[0]).None?
    requires e.None? <==> forall i :: 0 <= i < |splits| - 1 ==> SplitError(accounts, currency, splits[1..][i]).None?
    requires e.Some? ==> exists i :: 0 <= i < |splits| - 1 && e == SplitError(accounts, currency, splits[1..][i]) &&
                                     forall j :: 0 <= j < i ==> SplitError(accounts, currency, splits[1..][j]).None?
    ensures e.None? <==> forall i :: 0 <= i < |splits| ==> SplitError(accounts, currency, splits[i]).None?
    ensures e.Some? ==> exists i :: 0 <= i < |splits| && e == SplitError(accounts, currency, splits[i]) &&
                                    forall j :: 0 <= j < i ==> SplitError(accounts, currency, splits[j]).None?
  {
    var rest := splits[1..];
    assert forall i :: 1 <= i < |splits| ==> splits[i] == rest[i - 1];
    if e.Some? {
      var i :| 0 <= i < |rest| && e == SplitError(accounts, currency, rest[i]) &&
               forall j :: 0 <= j < i ==> SplitError(accounts, currency, rest[j]).None?;
      assert splits[i + 1] == rest[i];
    }
  }

  /** The verdict of checkSplits once the org and the accounts are at hand, given the total its
      accumulator ends with. */
  function Verdict(accounts: seq<Account>, currency: string, splits: seq<Split>, total: int): (e: Option<string>)
    ensures e.None? <==> FirstSplitError(accounts, currency, splits).None? && total == 0
  {
    if FirstSplitError(accounts, currency, splits).Some? then FirstSplitError(accounts, currency, splits)
    else if total != 0 then Some(UNBALANCED)
    else None
  }

  /** The checks of one split in the loop of checkSplits, in their order. */
  method CheckSplit(accounts: seq<Account>, currency: string, split: Split) returns (e: Option<string>)
    ensures e == SplitError(accounts, currency, split)
  {
    if !AccountsContainWriteAccess(accounts, split.accountId) {
      return Some(NoPermission(split.accountId));
    }
    var account := GetAccountFromList(accounts, split.accountId).value;
    if account.hasChildren {
      return Some(PARENT_ACCOUNT);
    }
    if account.currency == currency && split.nativeAmount != split.amount {
      return Some(NATIVE_MISMATCH);
    }
    e := None;
  }

  /** The first failing split decides, whatever follows it. */
  lemma {:induction false} FirstSplitErrorAt(accounts: seq<Account>, currency: string, splits: seq<Split>, i: nat)
    requires i < |splits|
    requires forall j :: 0 <= j < i ==> SplitError(accounts, currency, splits[j]).None?
    requires SplitError(accounts, currency, splits[i]).Some?
    ensures FirstSplitError(accounts, currency, splits) == SplitError(accounts, currency, splits[i])
  {
    if i > 0 {
      assert SplitError(accounts, currency, splits[0]).None?;
      assert splits[1..][i - 1] == splits[i];
      FirstSplitErrorAt(accounts, currency, splits[1..], i - 1);
    }
  }

  /** The loop of checkSplits as written: each split checked in turn, and the nativeAmounts
      added up in an int64 that wraps around silently. */
  method ScanSplitsAsWritten(accounts: seq<Account>, currency: string, splits: seq<Split>) returns (err: Option<string>)
    ensures err == Verdict(accounts, currency, splits, WrappingSum(NativeAmounts(splits)))
  {
    ghost var natives := NativeAmounts(splits);
    var amount: int64 := 0;
    var i := 0;
    while i < |splits|
      invariant 0 <= i <= |splits|
      invariant forall j :: 0 <= j < i ==> SplitError(accounts, currency, splits[j]).None?
      invariant amount == WrappingSum(natives[..i])
    {
      var e := CheckSplit(accounts, currency, splits[i]);
      if e.Some? {
        FirstSplitErrorAt(accounts, currency, splits, i);
        return e;
      }
      assert forall j :: 0 <= j < i + 1 ==> SplitError(accounts, currency, splits[j]).None?;
      amount := AddWrapping(natives, i, amount, splits[i].nativeAmount);
      i := i + 1;
    }
    assert natives[..i] == natives;
    if amount != 0 {
      return Some(UNBALANCED);
    }
    err := None;
  }

  /** The same loop with the total kept exactly, as the check evidently means: the
      nativeAmounts must add up to zero as numbers, not modulo 2^64. */
  method ScanSplits(accounts: seq<Account>, currency: string, splits: seq<Split>) returns (err: Option<string>)
    ensures err == Verdict(accounts, currency, splits, Sum(NativeAmounts(splits)))
  {
    ghost var natives := NativeAmounts(splits);
    var amount: int := 0;
    var i := 0;
    while i < |splits|
      invariant 0 <= i <= |splits|
      invariant forall j :: 0 <= j < i ==> SplitError(accounts, currency, splits[j]).None?
      invariant amount == Sum(natives[..i])
    {
      var e := CheckSplit(accounts, currency, splits[i]);
      if e.Some? {
        FirstSplitErrorAt(accounts, currency, splits, i);
        return e;
      }
      PrefixStep(natives, i);
      amount := amount + splits[i].nativeAmount;
      i := i + 1;
    }
    assert natives[..i] == natives;
    if amount != 0 {
      return Some(UNBALANCED);
    }
    err := None;
  }

  /** Every split set the exact check accepts, the wrapping check accepts too; they part only
      on totals that are a non-zero multiple of 2^64. */
  lemma WrappingCheckIsWeaker(accounts: seq<Account>, currency: string, splits: seq<Split>)
    ensures Verdict(accounts, currency, splits, Sum(NativeAmounts(splits))).None? ==>
            Verdict(accounts, currency, splits, WrappingSum(NativeAmounts(splits))).None?
    ensures Verdict(accounts, currency, splits, Sum(NativeAmounts(splits))) !=
            Verdict(accounts, currency, splits, WrappingSum(NativeAmounts(splits))) ==>
      Sum(NativeAmounts(splits)) != 0 && Sum(NativeAmounts(splits)) % MODULUS == 0
  {
    var xs := NativeAmounts(splits);
    WrappingSumCongruent(xs);
    var w := WrappingSum(xs);
    if Sum(xs) == 0 {
      assert w % MODULUS == 0;
      assert w == 0;
    }
    if w == 0 {
      assert Sum(xs) % MODULUS == 0;
    }
  }

  /** Two native-currency splits of -2^63 each: every per-split check passes and the int64
      total wraps to 0, so the unbalanced transaction is accepted as written and refused by the
      exact check. */
  lemma WrappingAcceptsUnbalanced()
    ensures var accounts := [Account("1", "o", 0, 0, "Cash", "", "USD", 2, true, None, None, false, false),
                             Account("2", "o", 0, 0, "Bank", "", "USD", 2, true, None, None, false, false)];
      var splits := [Split("t", "1", MIN, MIN), Split("t", "2", MIN, MIN)];
      Verdict(accounts, "USD", splits, WrappingSum(NativeAmounts(splits))).None? &&
      Verdict(accounts, "USD", splits, Sum(NativeAmounts(splits))) == Some(UNBALANCED)
  {
    var accounts := [Account("1", "o", 0, 0, "Cash", "", "USD", 2, true, None, None, false, false),
                     Account("2", "o", 0, 0, "Bank", "", "USD", 2, true, None, None, false, false)];
    var splits := [Split("t", "1", MIN, MIN), Split("t", "2", MIN, MIN)];
    var xs := NativeAmounts(splits);
    assert xs == [MIN, MIN];
    assert xs[..1] == [MIN];
    assert WrappingSum(xs[..1]) == MIN;
    assert WrappingSum(xs) == 0;
    assert Sum(xs[..1]) == MIN;
    assert Sum(xs) == 2 * MIN;
    assert SplitError(accounts, "USD", splits[0]).None?;
    assert SplitError(accounts, "USD", splits[1]).None?;
  }

  /** The account getAccounts reports under a writable id is the org's account under that
      id, marked as a parent exactly when some account of the org names it as its parent. */
  lemma WritableLookup(perms: seq<string>, all: seq<Account>, out: seq<Account>, id: string) returns (j: nat)
    requires Resolution(perms, all, out)
    requires DistinctBy(all, AccountId) && id in Writable(perms, all)
    requires forall a :: a in all ==> !a.hasChildren
    ensures j < |all| && all[j].id == id
    ensures GetAccountFromList(out, id) ==
      Some(all[j].(hasChildren := exists i :: 0 <= i < |all| && all[i].parent == id))
  {
    ResolvedLookup(perms, all, out, id);
    AccountMapOfAt(all);
    AccountMapParents(all);
    assert IsId(all, id);
    j :| 0 <= j < |all| && all[j].id == id;
    assert all[j] in all;
  }

  /** Over getAccounts' result, a split passes its own checks exactly when its account is
      writable, no account of the org names it as its parent, and, when it is in the org's
      currency, the split's two amounts are equal. */
  lemma SplitCheckByTree(perms: seq<string>, all: seq<Account>, out: seq<Account>, currency: string, s: Split)
    requires Resolution(perms, all, out)
    requires forall a :: a in all ==> !a.readOnly && !a.hasChildren
    ensures DistinctBy(all, AccountId)
    ensures SplitError(out, currency, s).None? <==>
      s.accountId in Writable(perms, all) &&
      exists j :: 0 <= j < |all| && all[j].id == s.accountId &&
        (forall i :: 0 <= i < |all| ==> all[i].parent != s.accountId) &&
        (all[j].currency == currency ==> s.nativeAmount == s.amount)
  {
    WriteAccessMatches(perms, all, out);
    if s.accountId in Writable(perms, all) {
      var j := WritableLookup(perms, all, out, s.accountId);
      forall k | 0 <= k < |all| && all[k].id == s.accountId
        ensures k == j
      {
      }
    }
  }

  /** Every split a set of accepted splits names is on a writable account without children. */
  lemma AcceptedSplitsOnLeaves(perms: seq<string>, all: seq<Account>, out: seq<Account>, currency: string,
                               splits: seq<Split>)
    requires Resolution(perms, all, out)
    requires forall a :: a in all ==> !a.readOnly && !a.hasChildren
    requires FirstSplitError(out, currency, splits).None?
    ensures DistinctBy(all, AccountId)
    ensures forall s :: s in splits ==>
      s.accountId in Writable(perms, all) && forall i :: 0 <= i < |all| ==> all[i].parent != s.accountId
  {
    forall s | s in splits
      ensures s.accountId in Writable(perms, all) && forall i :: 0 <= i < |all| ==> all[i].parent != s.accountId
    {
      var k :| 0 <= k < |splits| && splits[k] == s;
      SplitCheckByTree(perms, all, out, currency, s);
    }
  }

  // ---- checkSplits ----------------------------------------------------------------------

  /** The org's currency and the accounts getAccounts gives the user. */
  datatype SplitContext = SplitContext(currency: string, accounts: seq<Account>)

  /** The lookups of checkSplits: the org (which the user must belong to), then the accounts. */
  method LoadSplitContext(db: Db, orgId: string, userId: string) returns (r: Result<SplitContext>)
    requires db.Valid()
    ensures DbOrg.GetOrg(db, orgId, userId).Err? ==> r == Err(DbOrg.GetOrg(db, orgId, userId).msg)
    ensures r.Ok? <==> DbOrg.GetOrg(db, orgId, userId).Ok? && AccountsOk(db, orgId, userId, ZERO_TIME, false)
    ensures r.Ok? ==> r.value.currency == DbOrg.GetOrg(db, orgId, userId).value.currency
    ensures r.Ok? ==> Resolution(DbAccount.GetPermissionedAccountIds(db, orgId, userId).value,
                                 Loaded(db, orgId, ZERO_TIME, false).value, r.value.accounts)
  {
    var org := DbOrg.GetOrg(db, orgId, userId);
    if org.Err? {
      return Err(org.msg);
    }
    var userAccounts := GetAccounts(db, orgId, userId, ZERO_TIME, false);
    if userAccounts.Err? {
      return Err(userAccounts.msg);
    }
    r := Ok(SplitContext(org.value.currency, userAccounts.value));
  }

  /** The split rules a transaction passes, judged by the accounts getAccounts settled on. */
  ghost predicate SplitsAccepted(db: Db, tx: Transaction, accounts: seq<Account>, exact: bool)
    reads db
  {
    var org := DbOrg.GetOrg(db, tx.orgId, tx.userId);
    var natives := NativeAmounts(tx.splits);
    |tx.splits| >= 2 && org.Ok? && AccountsOk(db, tx.orgId, tx.userId, ZERO_TIME, false) &&
    Resolution(DbAccount.GetPermissionedAccountIds(db, tx.orgId, tx.userId).value,
               Loaded(db, tx.orgId, ZERO_TIME, false).value, accounts) &&
    Verdict(accounts, org.value.currency, tx.splits, if exact then Sum(natives) else WrappingSum(natives)).None?
  }

  /** checkSplits as written: fewer than two splits are refused before any lookup; then the
      org, the accounts, the per-split checks and the wrapping total. */
  method CheckSplitsAsWritten(db: Db, tx: Transaction) returns (err: Option<string>, ghost accounts: seq<Account>)
    requires db.Valid()
    ensures |tx.splits| < 2 ==> err == Some(TOO_FEW_SPLITS)
    ensures |tx.splits| >= 2 && DbOrg.GetOrg(db, tx.orgId, tx.userId).Err? ==>
      err == Some(DbOrg.GetOrg(db, tx.orgId, tx.userId).msg)
    ensures |tx.splits| >= 2 && DbOrg.GetOrg(db, tx.orgId, tx.userId).Ok? && AccountsOk(db, tx.orgId, tx.userId, ZERO_TIME, false) ==>
      Resolution(DbAccount.GetPermissionedAccountIds(db, tx.orgId, tx.userId).value,
                 Loaded(db, tx.orgId, ZERO_TIME, false).value, accounts) &&
      err == Verdict(accounts, DbOrg.GetOrg(db, tx.orgId, tx.userId).value.currency, tx.splits,
                     WrappingSum(NativeAmounts(tx.splits)))
    ensures err.None? <==> SplitsAccepted(db, tx, accounts, false)
  {
    accounts := [];
    if |tx.splits| < 2 {
      return Some(TOO_FEW_SPLITS), accounts;
    }
    var context := LoadSplitContext(db, tx.orgId, tx.userId);
    if context.Err? {
      return Some(context.msg), accounts;
    }
    accounts := context.value.accounts;
    err := ScanSplitsAsWritten(context.value.accounts, context.value.currency, tx.splits);
  }

  /** checkSplits with the exact total; the operations below use this one. */
  method CheckSplits(db: Db, tx: Transaction) returns (err: Option<string>, ghost accounts: seq<Account>)
    requires db.Valid()
    ensures |tx.splits| < 2 ==> err == Some(TOO_FEW_SPLITS)
    ensures |tx.splits| >= 2 && DbOrg.GetOrg(db, tx.orgId, tx.userId).Err? ==>
      err == Some(DbOrg.GetOrg(db, tx.orgId, tx.userId).msg)
    ensures |tx.splits| >= 2 && DbOrg.GetOrg(db, tx.orgId, tx.userId).Ok? && AccountsOk(db, tx.orgId, tx.userId, ZERO_TIME, false) ==>
      Resolution(DbAccount.GetPermissionedAccountIds(db, tx.orgId, tx.userId).value,
                 Loaded(db, tx.orgId, ZERO_TIME, false).value, accounts) &&
      err == Verdict(accounts, DbOrg.GetOrg(db, tx.orgId, tx.userId).value.currency, tx.splits,
                     Sum(NativeAmounts(tx.splits)))
    ensures err.None? <==> SplitsAccepted(db, tx, accounts, true)
  {
    accounts := [];
    if |tx.splits| < 2 {
      return Some(TOO_FEW_SPLITS), accounts;
    }
    var context := LoadSplitContext(db, tx.orgId, tx.userId);
    if context.Err? {
      return Some(context.msg), accounts;
    }
    accounts := context.value.accounts;
    err := ScanSplits(context.value.accounts, context.value.currency, tx.splits);
  }

  /** A transaction that passes the split checks balances exactly and touches only accounts the
      user may write that no account of the org names as its parent. */
  lemma AcceptedSplitsBalance(db: Db, tx: Transaction, accounts: seq<Account>)
    requires db.Valid() && SplitsAccepted(db, tx, accounts, true)
    ensures Sum(NativeAmounts(tx.splits)) == 0
    ensures var all := Loaded(db, tx.orgId, ZERO_TIME, false).value;
      DistinctBy(all, AccountId) &&
      forall s :: s in tx.splits ==>
        s.accountId in Writable(DbAccount.GetPermissionedAccountIds(db, tx.orgId, tx.userId).value, all) &&
        forall i :: 0 <= i < |all| ==> all[i].parent != s.accountId
  {
    LoadedAccounts(db, tx.orgId, ZERO_TIME, false);
    AcceptedSplitsOnLeaves(DbAccount.GetPermissionedAccountIds(db, tx.orgId, tx.userId).value,
                           Loaded(db, tx.orgId, ZERO_TIME, false).value, accounts,
                           DbOrg.GetOrg(db, tx.orgId, tx.userId).value.currency, tx.splits);
  }

  // ---- The operations -------------------------------------------------------------------

  /** CreateTransaction: the split checks come before the id check. Go reads the clock twice,
      once for Inserted and once for Updated; a zero Date becomes Inserted. */
  method CreateTransaction(db: Db, tx: Transaction, insertedAt: Time, updatedAt: Time)
    returns (t: Transaction, err: Option<string>, ghost accounts: seq<Account>)
    requires db.Valid()
    modifies db
    ensures db.Valid()
    ensures |tx.splits| < 2 ==> err == Some(TOO_FEW_SPLITS)
    ensures old(SplitsAccepted(db, tx, accounts, true)) && tx.id == "" ==> err == Some(ID_REQUIRED)
    ensures err.None? <==>
      old(SplitsAccepted(db, tx, accounts, true)) && tx.id != "" &&
      InsertTransactionStmt !in db.failing && !DbTransaction.HasTransactionId(old(db.t.transactions), tx.id)
    ensures err.None? ==>
      t == tx.(inserted := insertedAt, updated := updatedAt, date := if tx.date == ZERO_TIME then insertedAt else tx.date) &&
      db.t == DbTransaction.WithTransaction(old(db.t), t, TimeToMs(updatedAt))
    ensures err.Some? ==> db.t == old(db.t)
  {
    t := tx;
    err, accounts := CheckSplits(db, tx);
    if err.Some? {
      return;
    }
    if tx.id == "" {
      return t, Some(ID_REQUIRED), accounts;
    }
    t := t.(inserted := insertedAt);
    t := t.(updated := updatedAt);
    if t.date == ZERO_TIME {
      t := t.(date := t.inserted);
    }
    err := DbTransaction.InsertTransaction(db, t);
  }

  /** UpdateTransaction: the split checks, both ids required, the original must exist; then the
      old rows are marked deleted and the new ones inserted. Inserted is first copied from the
      original and then overwritten with Updated, so the new rows carry Inserted == Updated;
      the Date is kept as given, zero or not. */
  method UpdateTransaction(db: Db, oldId: string, tx: Transaction, now: Time)
    returns (t: Transaction, err: Option<string>, ghost accounts: seq<Account>)
    requires db.Valid()
    modifies db
    ensures db.Valid()
    ensures |tx.splits| < 2 ==> err == Some(TOO_FEW_SPLITS)
    ensures old(SplitsAccepted(db, tx, accounts, true)) && (oldId == "" || tx.id == "") ==> err == Some(ID_REQUIRED)
    ensures old(SplitsAccepted(db, tx, accounts, true)) && oldId != "" && tx.id != "" &&
            old(DbTransaction.GetTransactionById(db, oldId)).Err? ==>
      err == Some(old(DbTransaction.GetTransactionById(db, oldId)).msg)
    ensures err.None? <==>
      old(SplitsAccepted(db, tx, accounts, true)) && oldId != "" && tx.id != "" &&
      old(DbTransaction.GetTransactionById(db, oldId)).Ok? &&
      DeleteAndInsertStmt !in db.failing && !DbTransaction.HasTransactionId(old(db.t.transactions), tx.id)
    ensures err.None? ==>
      t == tx.(inserted := now, updated := now) && t.inserted == t.updated &&
      db.t == DbTransaction.WithTransaction(DbTransaction.MarkDeleted(old(db.t), oldId, TimeToMs(now)), t, TimeToMs(now))
    ensures err.Some? ==> db.t == old(db.t)
  {
    t := tx;
    err, accounts := CheckSplits(db, tx);
    if err.Some? {
      return;
    }
    if oldId == "" || tx.id == "" {
      return t, Some(ID_REQUIRED), accounts;
    }
    var original := DbTransaction.GetTransactionById(db, oldId);
    if original.Err? {
      return t, Some(original.msg), accounts;
    }
    t := t.(updated := now);
    t := t.(inserted := original.value.inserted);
    t := t.(inserted := t.updated);
    err := DbTransaction.DeleteAndInsertTransaction(db, oldId, t);
  }

  /** The first split, in order, whose account the user may not write. */
  function FirstDenied(writable: set<string>, splits: seq<Split>): (r: Option<string>)
    ensures r.None? <==> forall s :: s in splits ==> s.accountId in writable
    ensures r.Some? ==> r.value !in writable && exists s :: s in splits && s.accountId == r.value
  {
    if splits == [] then None
    else if splits[0].accountId !in writable then Some(splits[0].accountId)
    else
      var r := FirstDenied(writable, splits[1..]);
      assert forall s :: s in splits <==> s == splits[0] || s in splits[1..];
      r
  }

  /** The first denied split decides, whatever follows it. */
  lemma {:induction false} FirstDeniedAt(writable: set<string>, splits: seq<Split>, i: nat)
    requires i < |splits|
    requires forall j :: 0 <= j < i ==> splits[j].accountId in writable
    requires splits[i].accountId !in writable
    ensures FirstDenied(writable, splits) == Some(splits[i].accountId)
  {
    if i > 0 {
      assert splits[1..][i - 1] == splits[i];
      FirstDeniedAt(writable, splits[1..], i - 1);
    }
  }

  /** What the user may write in the org, when the accounts load. */
  ghost function WritableIn(db: Db, orgId: string, userId: string): set<string>
    reads db
    requires db.Valid() && AccountsOk(db, orgId, userId, ZERO_TIME, false)
  {
    LoadedAccounts(db, orgId, ZERO_TIME, false);
    Writable(DbAccount.GetPermissionedAccountIds(db, orgId, userId).value, Loaded(db, orgId, ZERO_TIME, false).value)
  }

  /** The error DeleteTransaction reports for the splits, given what the user may write. */
  function Denial(writable: set<string>, splits: seq<Split>): Option<string>
  {
    var denied := FirstDenied(writable, splits);
    if denied.Some? then Some(NoPermission(denied.value)) else None
  }

  /** The loop of DeleteTransaction: the first split whose account is not writable. */
  method DeniedSplit(accounts: seq<Account>, splits: seq<Split>, ghost writable: set<string>) returns (err: Option<string>)
    requires forall k :: AccountsContainWriteAccess(accounts, k) <==> k in writable
    ensures err == Denial(writable, splits)
  {
    for i := 0 to |splits|
      invariant forall j :: 0 <= j < i ==> splits[j].accountId in writable
    {
      if !AccountsContainWriteAccess(accounts, splits[i].accountId) {
        FirstDeniedAt(writable, splits, i);
        return Some(NoPermission(splits[i].accountId));
      }
    }
    err := None;
  }

  /** DeleteTransaction: the transaction must exist, and every one of its splits must be on an
      account the user may write in the org named by the request; then its rows are soft
      deleted. */
  method DeleteTransaction(db: Db, id: string, userId: string, orgId: string, now: Time) returns (err: Option<string>)
    requires db.Valid()
    modifies db
    ensures db.Valid()
    ensures old(DbTransaction.GetTransactionById(db, id)).Err? ==>
      err == Some(old(DbTransaction.GetTransactionById(db, id)).msg)
    ensures var tx := old(DbTransaction.GetTransactionById(db, id));
      tx.Ok? && old(AccountsOk(db, orgId, userId, ZERO_TIME, false)) ==>
        var denial := Denial(old(WritableIn(db, orgId, userId)), tx.value.splits);
        (denial.Some? ==> err == denial) &&
        (denial.None? ==> (err.None? <==> DeleteTransactionStmt !in db.failing))
    ensures err.None? ==>
      var tx := old(DbTransaction.GetTransactionById(db, id));
      tx.Ok? && old(AccountsOk(db, orgId, userId, ZERO_TIME, false)) &&
      (forall s :: s in tx.value.splits ==> s.accountId in old(WritableIn(db, orgId, userId))) &&
      db.t == DbTransaction.MarkDeleted(old(db.t), id, TimeToMs(now))
    ensures err.Some? ==> db.t == old(db.t)
  {
    var tx := DbTransaction.GetTransactionById(db, id);
    if tx.Err? {
      return Some(tx.msg);
    }
    var userAccounts := GetAccounts(db, orgId, userId, ZERO_TIME, false);
    if userAccounts.Err? {
      return Some(userAccounts.msg);
    }
    LoadedAccounts(db, orgId, ZERO_TIME, false);
    WriteAccessMatches(DbAccount.GetPermissionedAccountIds(db, orgId, userId).value,
                       Loaded(db, orgId, ZERO_TIME, false).value, userAccounts.value);
    err := DeniedSplit(userAccounts.value, tx.value.splits, WritableIn(db, orgId, userId));
    if err.Some? {
      return;
    }
    err := DbTransaction.DeleteTransaction(db, id, now);
  }

  /** GetTransactionsByAccount: the user needs write access to the account; a read-only
      ancestor is not enough. */
  method GetTransactionsByAccount(db: Db, orgId: string, userId: string, accountId: string, o: QueryOptions)
    returns (r: Result<seq<Transaction>>)
    requires db.Valid()
    ensures DbAccount.GetPermissionedAccountIds(db, orgId, userId).Err? ==>
      r == Err(DbAccount.GetPermissionedAccountIds(db, orgId, userId).msg)
    ensures AccountsOk(db, orgId, userId, ZERO_TIME, false) && accountId !in WritableIn(db, orgId, userId) ==>
      r == Err(NoPermission(accountId))
    ensures AccountsOk(db, orgId, userId, ZERO_TIME, false) && accountId in WritableIn(db, orgId, userId) ==>
      r == DbTransaction.Listing(db.t, db.failing, TransactionsByAccountStmt, [accountId], o, false)
    ensures r.Ok? ==> AccountsOk(db, orgId, userId, ZERO_TIME, false) && accountId in WritableIn(db, orgId, userId)
  {
    var userAccounts := GetAccounts(db, orgId, userId, ZERO_TIME, false);
    if userAccounts.Err? {
      return Err(userAccounts.msg);
    }
    LoadedAccounts(db, orgId, ZERO_TIME, false);
    WriteAccessMatches(DbAccount.GetPermissionedAccountIds(db, orgId, userId).value,
                       Loaded(db, orgId, ZERO_TIME, false).value, userAccounts.value);
    if !AccountsContainWriteAccess(userAccounts.value, accountId) {
      return Err(NoPermission(accountId));
    }
    r := DbTransaction.GetTransactionsByAccount(db, accountId, o);
  }

  /** The ids of the accounts, appended one by one in their order. */
  method AccountIdList(accounts: seq<Account>) returns (ids: array<string>)
    ensures fresh(ids) && ids[..] == DbAccount.Ids(accounts)
  {
    var accountIds: seq<string> := [];
    for i := 0 to |accounts|
      invariant accountIds == DbAccount.Ids(accounts[..i])
    {
      accountIds := accountIds + [accounts[i].id];
    }
    assert accounts[..|accounts|] == accounts;
    ids := new string[|accountIds|](i requires 0 <= i < |accountIds| => accountIds[i]);
  }

  /** GetTransactionsByOrg: the listing over every account the user can see, read-only ones
      included, named in getAccounts' order. */
  method GetTransactionsByOrg(db: Db, orgId: string, userId: string, o: QueryOptions)
    returns (r: Result<seq<Transaction>>, ghost accounts: seq<Account>)
    requires db.Valid()
    ensures DbAccount.GetPermissionedAccountIds(db, orgId, userId).Err? ==>
      r == Err(DbAccount.GetPermissionedAccountIds(db, orgId, userId).msg)
    ensures AccountsOk(db, orgId, userId, ZERO_TIME, false) ==>
      Resolution(DbAccount.GetPermissionedAccountIds(db, orgId, userId).value,
                 Loaded(db, orgId, ZERO_TIME, false).value, accounts) &&
      r == if accounts == [] then Ok([])
           else DbTransaction.Listing(db.t, db.failing, TransactionsByOrgStmt, DbAccount.Ids(accounts), o, true)
    ensures r.Ok? ==> AccountsOk(db, orgId, userId, ZERO_TIME, false)
  {
    accounts := [];
    var userAccounts := GetAccounts(db, orgId, userId, ZERO_TIME, false);
    if userAccounts.Err? {
      return Err(userAccounts.msg), accounts;
    }
    accounts := userAccounts.value;
    var ids := AccountIdList(userAccounts.value);
    r := DbTransaction.GetTransactionsByOrg(db, orgId, o, ids);
  }
}

=== FILE: types.dfy ===
/** The records of core/model/types: the values the service reads, validates and returns.
    Go's `*int64` becomes an Option, `time.Time` a Util.Time, `float64` an uninterpreted bit pattern. */
module Types {
  import opened Wrappers
  import opened Int64
  import opened Util

  /** A float64 price, carried and compared for identity but never computed with. */
  datatype Float64 = Float64(bits: bv64)

  datatype Account = Account(
    id: string,
    orgId: string,
    inserted: Time,
    updated: Time,
    name: string,
    parent: string,
    currency: string,
    precision: int64,
    debitBalance: bool,
    balance: Option<int64>,
    nativeBalance: Option<int64>,
    readOnly: bool,
    hasChildren: bool)

  datatype Split = Split(
    transactionId: string,
    accountId: string,
    amount: int64,
    nativeAmount: int64)

  datatype Transaction = Transaction(
    id: string,
    orgId: string,
    userId: string,
    date: Time,
    inserted: Time,
    updated: Time,
    description: string,
    data: string,
    deleted: bool,
    splits: seq<Split>)

  datatype Org = Org(
    id: string,
    inserted: Time,
    updated: Time,
    name: string,
    currency: string,
    precision: int64,
    timezone: string)

  datatype Price = Price(
    id: string,
    orgId: string,
    currency: string,
    date: Time,
    inserted: Time,
    updated: Time,
    price: Float64)

  datatype BudgetItem = BudgetItem(orgId: string, accountId: string, amount: int64)

  datatype Budget = Budget(orgId: string, inserted: Time, items: seq<BudgetItem>)

  datatype Invite = Invite(
    id: string,
    orgId: string,
    inserted: Time,
    updated: Time,
    email: string,
    accepted: bool)

  datatype User = User(
    id: string,
    inserted: Time,
    updated: Time,
    firstName: string,
    lastName: string,
    email: string,
    password: string,
    passwordHash: string,
    agreeToTerms: bool,
    passwordReset: string,
    emailVerified: bool,
    emailVerifyCode: string,
    signupSource: string)
}

=== FILE: users.dfy ===
/** core/model/user.go: sign-up validation, password change and the reset-code round. The
    bcrypt hash is an input (its outcome, an error included), and the random bytes of the
    verification and reset codes are inputs. */
module Users {
  import opened Wrappers
  import opened Util
  import opened Types
  import opened Store
  import Accounts
  import DbUser

  const FIRST_NAME_REQUIRED: string := "first name required"
  const LAST_NAME_REQUIRED: string := "last name required"
  const EMAIL_REQUIRED: string := "email required"
  const INVALID_EMAIL: string := "invalid email address"
  const PASSWORD_REQUIRED: string := "password required"
  const MUST_AGREE: string := "must agree to terms"
  const CODE_REQUIRED: string := "code required"
  const INVALID_CODE: string := "Invalid code"

  // ---- the address pattern `.+@.+\..+` ---------------------------------------------------

  predicate NoNewline(w: string)
  {
    forall k :: 0 <= k < |w| ==> w[k] != '\n'
  }

  /** The whole of w matches `.+@.+\..+`: `.` is any character but a newline, so w is one line
      with an '@' after its first character and a '.' at least two characters later that is
      not the last character. */
  predicate MatchesPattern(w: string)
  {
    NoNewline(w) &&
    exists p, q :: 1 <= p && p + 1 < q && q + 1 < |w| && w[p] == '@' && w[q] == '.'
  }

  /** FindString returns a non-empty string exactly when some substring matches (any match has
      at least five characters). */
  ghost predicate HasMatch(s: string)
  {
    exists i, j :: 0 <= i <= j <= |s| && MatchesPattern(s[i..j])
  }

  /** A match of s[i..j] gives an '@' and a '.' of s with the line around them. */
  lemma MatchWitness(s: string, i: int, j: int) returns (p: int, q: int)
    requires 0 <= i <= j <= |s| && MatchesPattern(s[i..j])
    ensures 1 <= p < |s| && p + 1 < q < |s| - 1 && s[p] == '@' && s[q] == '.' && NoNewline(s[p - 1..q + 2])
  {
    var w := s[i..j];
    var p', q' :| 1 <= p' && p' + 1 < q' && q' + 1 < |w| && w[p'] == '@' && w[q'] == '.';
    p, q := i + p', i + q';
    var v := s[p - 1..q + 2];
    forall k | 0 <= k < |v|
      ensures v[k] != '\n'
    {
      assert v[k] == w[p' - 1 + k];
    }
  }

  /** The address check, stated on an '@' and a '.' of s and the line around them. */
  function ValidEmail(s: string): (b: bool)
    ensures b <==> HasMatch(s)
  {
    var b := exists p, q | 1 <= p < |s| && p + 1 < q < |s| - 1 ::
      s[p] == '@' && s[q] == '.' && NoNewline(s[p - 1..q + 2]);
    if b then
      var p, q :| 1 <= p < |s| && p + 1 < q < |s| - 1 && s[p] == '@' && s[q] == '.' && NoNewline(s[p - 1..q + 2]);
      assert s[p - 1..q + 2][1] == '@' && s[p - 1..q + 2][q - p + 1] == '.';
      assert MatchesPattern(s[p - 1..q + 2]);
      true
    else
      assert !HasMatch(s) by {
        forall i, j | 0 <= i <= j <= |s| && MatchesPattern(s[i..j])
          ensures false
        {
          var p, q := MatchWitness(s, i, j);
        }
      }
      false
  }

  /** The sign-up test data's address passes. */
  lemma TestAddressValid()
    ensures ValidEmail("johndoe@email.com")
  {
    var good := "johndoe@email.com";
    assert good[7] == '@' && good[13] == '.' && NoNewline(good[6..15]);
  }

  /** The shortest accepted form, and each of its parts missing. */
  lemma ShortAddresses()
    ensures ValidEmail("a@b.c")
    ensures !ValidEmail("@b.c") && !ValidEmail("a@.c") && !ValidEmail("a@b.") && !ValidEmail("a@bc")
  {
    var good := "a@b.c";
    assert good[1] == '@' && good[3] == '.' && NoNewline(good[0..5]);
  }

  /** A newline between the parts breaks the match: `.` does not match it. */
  lemma NewlineBreaksAddress()
    ensures !ValidEmail("a\n@b.c") && !ValidEmail("a@b.\nc")
  {
    var s1 := "a\n@b.c";
    forall p, q | 1 <= p < |s1| && p + 1 < q < |s1| - 1 && s1[p] == '@' && s1[q] == '.'
      ensures !NoNewline(s1[p - 1..q + 2])
    {
      assert s1[p - 1..q + 2][0] == '\n';
    }
    var s2 := "a@b.\nc";
    forall p, q | 1 <= p < |s2| && p + 1 < q < |s2| - 1 && s2[p] == '@' && s2[q] == '.'
      ensures !NoNewline(s2[p - 1..q + 2])
    {
      assert s2[p - 1..q + 2][q - p + 2] == '\n';
    }
  }

  // ---- CreateUser -------------------------------------------------------------------------

  /** The checks of CreateUser, in their order. */
  function UserFieldError(user: User): (r: Option<string>)
    ensures r.None? <==>
      user.id != "" && user.firstName != "" && user.lastName != "" && user.email != "" &&
      ValidEmail(user.email) && user.password != "" && user.agreeToTerms
    ensures user.id == "" ==> r == Some(Accounts.ID_REQUIRED)
    ensures user.id != "" && user.firstName != "" && user.lastName != "" && user.email == "" ==> r == Some(EMAIL_REQUIRED)
    ensures user.id != "" && user.firstName != "" && user.lastName != "" && user.email != "" && !ValidEmail(user.email) ==>
      r == Some(INVALID_EMAIL)
    ensures r.Some? ==> r.value in {Accounts.ID_REQUIRED, FIRST_NAME_REQUIRED, LAST_NAME_REQUIRED, EMAIL_REQUIRED,
      INVALID_EMAIL, PASSWORD_REQUIRED, MUST_AGREE}
  {
    if user.id == "" then Some(Accounts.ID_REQUIRED)
    else if user.firstName == "" then Some(FIRST_NAME_REQUIRED)
    else if user.lastName == "" then Some(LAST_NAME_REQUIRED)
    else if user.email == "" then Some(EMAIL_REQUIRED)
    else if !ValidEmail(user.email) then Some(INVALID_EMAIL)
    else if user.password == "" then Some(PASSWORD_REQUIRED)
    else if !user.agreeToTerms then Some(MUST_AGREE)
    else None
  }

  /** CreateUser: the checks, then the hash, a fresh verification code and the insert. The
      verification mail's outcome is not part of the result. */
  method CreateUser(db: Db, user: User, hashed: Result<string>, random: seq<byte>, now: Time) returns (u: User, err: Option<string>)
    requires db.Valid() && |random| == 16
    modifies db
    ensures db.Valid()
    ensures UserFieldError(user).Some? ==> err == UserFieldError(user)
    ensures UserFieldError(user).None? && hashed.Err? ==> err == Some(hashed.msg)
    ensures err.None? <==> UserFieldError(user).None? && hashed.Ok? && InsertUserStmt !in db.failing
    ensures err.None? ==>
      u == user.(passwordHash := hashed.value, password := "", emailVerified := false, emailVerifyCode := NewGuid(random),
        inserted := now, updated := now, passwordReset := "") &&
      db.t == old(db.t).(users := old(db.t.users) + [DbUser.RowOf(u)])
    ensures err.Some? ==> db.t == old(db.t)
  {
    u := user;
    err := UserFieldError(user);
    if err.Some? {
      return;
    }
    if hashed.Err? {
      return u, Some(hashed.msg);
    }
    u := u.(passwordHash := hashed.value);
    u := u.(password := "");
    u := u.(emailVerified := false);
    u := u.(emailVerifyCode := NewGuid(random));
    u, err := DbUser.InsertUser(db, u, now);
  }

  // ---- UpdateUser ---------------------------------------------------------------------------

  /** UpdateUser: an id, then a password; the hash replaces the stored one. */
  method UpdateUser(db: Db, user: User, hashed: Result<string>, now: Time) returns (u: User, err: Option<string>)
    requires db.Valid()
    modifies db
    ensures db.Valid()
    ensures user.id == "" ==> err == Some(Accounts.ID_REQUIRED)
    ensures user.id != "" && user.password == "" ==> err == Some(PASSWORD_REQUIRED)
    ensures err.None? <==> user.id != "" && user.password != "" && hashed.Ok? && UpdateUserStmt !in db.failing
    ensures err.None? ==>
      u == user.(passwordHash := hashed.value, password := "", updated := now) &&
      db.t == DbUser.WithPassword(old(db.t), user.id, TimeToMs(now), hashed.value)
    ensures err.Some? ==> db.t == old(db.t)
  {
    u := user;
    if user.id == "" {
      return u, Some(Accounts.ID_REQUIRED);
    }
    if user.password == "" {
      return u, Some(PASSWORD_REQUIRED);
    }
    if hashed.Err? {
      return u, Some(hashed.msg);
    }
    u := u.(passwordHash := hashed.value, password := "");
    u, err := DbUser.UpdateUser(db, u, now);
  }

  // ---- ResetPassword and ConfirmResetPassword -----------------------------------------------

  /** ResetPassword: an unknown or unverified address is not reported, and nothing is stored;
      otherwise a fresh reset code is stored and the reset mail's outcome is the result. */
  method ResetPassword(db: Db, email: string, random: seq<byte>, now: Time, mailErr: Option<string>) returns (err: Option<string>)
    requires db.Valid() && |random| == 16
    modifies db
    ensures db.Valid()
    ensures email == "" ==> err == Some(EMAIL_REQUIRED) && db.t == old(db.t)
    ensures email != "" && DbUser.GetVerifiedUserByEmail(old(db.t), db.failing, email).Err? ==>
      err == None && db.t == old(db.t)
    ensures email != "" && DbUser.GetVerifiedUserByEmail(old(db.t), db.failing, email).Ok? ==>
      var id := DbUser.GetVerifiedUserByEmail(old(db.t), db.failing, email).value.id;
      (ResetPasswordStmt in db.failing ==> err == Some(DB_ERROR) && db.t == old(db.t)) &&
      (ResetPasswordStmt !in db.failing ==>
        err == mailErr && db.t == DbUser.WithResetCode(old(db.t), id, TimeToMs(now), NewGuid(random)))
  {
    if email == "" {
      return Some(EMAIL_REQUIRED);
    }
    var found := DbUser.GetVerifiedUserByEmail(db.t, db.failing, email);
    if found.Err? {
      return None;
    }
    var user := found.value.(passwordReset := NewGuid(random));
    var _, e := DbUser.UpdateUserResetPassword(db, user, now);
    if e.Some? {
      return e;
    }
    err := mailErr;
  }

  /** ConfirmResetPassword: a password, then a code; a code no user holds is "Invalid code". */
  method ConfirmResetPassword(db: Db, password: string, code: string, hashed: Result<string>, now: Time) returns (r: Result<User>)
    requires db.Valid()
    modifies db
    ensures db.Valid()
    ensures password == "" ==> r == Err(PASSWORD_REQUIRED)
    ensures password != "" && code == "" ==> r == Err(CODE_REQUIRED)
    ensures password != "" && code != "" && DbUser.GetUserByResetCode(old(db.t), db.failing, code).Err? ==> r == Err(INVALID_CODE)
    ensures r.Ok? <==>
      password != "" && code != "" && DbUser.GetUserByResetCode(old(db.t), db.failing, code).Ok? && hashed.Ok? &&
      UpdateUserStmt !in db.failing
    ensures r.Ok? ==>
      var found := DbUser.GetUserByResetCode(old(db.t), db.failing, code).value;
      r.value == found.(passwordHash := hashed.value, password := "", updated := now) &&
      db.t == DbUser.WithPassword(old(db.t), found.id, TimeToMs(now), hashed.value)
    ensures r.Err? ==> db.t == old(db.t)
  {
    if password == "" {
      return Err(PASSWORD_REQUIRED);
    }
    if code == "" {
      return Err(CODE_REQUIRED);
    }
    var found := DbUser.GetUserByResetCode(db.t, db.failing, code);
    if found.Err? {
      return Err(INVALID_CODE);
    }
    if hashed.Err? {
      return Err(hashed.msg);
    }
    var user := found.value.(passwordHash := hashed.value, password := "");
    var u, err := DbUser.UpdateUser(db, user, now);
    if err.Some? {
      return Err(err.value);
    }
    r := Ok(u);
  }

  /** A reset code works once: after ResetPassword stored it for one verified user (and no other
      user holds it), ConfirmResetPassword finds that user, and after the new password is
      stored the code leads to that user no more. */
  lemma ResetRoundTrip(t: Tables, failing: set<Statement>, id: string, code: string, ms1: Int64.int64, ms2: Int64.int64, hash: string)
    requires code != "" && UserByResetCodeStmt !in failing
    requires exists row :: row in t.users && row.id == id
    requires forall row :: row in t.users && row.id != id ==> row.passwordReset != code
    ensures var t1 := DbUser.WithResetCode(t, id, ms1, code);
      DbUser.GetUserByResetCode(t1, failing, code).Ok? && DbUser.GetUserByResetCode(t1, failing, code).value.id == id &&
      forall row :: row in DbUser.WithPassword(t1, id, ms2, hash).users ==> row.passwordReset != code
  {
    var t1 := DbUser.WithResetCode(t, id, ms1, code);
    DbUser.ResetCodeFindsUser(t, failing, id, ms1, code);
    var t2 := DbUser.WithPassword(t1, id, ms2, hash);
    forall row | row in t2.users
      ensures row.passwordReset != code
    {
      var i :| 0 <= i < |t2.users| && t2.users[i] == row;
      if t2.users[i].id != id {
        assert t2.users[i] == t1.users[i] == t.users[i];
        assert t.users[i] in t.users;
      }
    }
  }
}

=== FILE: util.dfy ===
/** core/util/util.go: millisecond timestamps and hexadecimal identifiers. */
module Util {
  import opened Int64

  type byte = x: int | 0 <= x < 256

  /** A Go time.Time as the signed number of nanoseconds since the Unix epoch. The instant
      itself is unbounded (Go's zero Time lies in year 1); only UnixNano squeezes it into int64. */
  type Time = int

  const NS_PER_MS: int := 1_000_000
  const NS_PER_SEC: int := 1_000_000_000

  /** time.Time{}: January 1, year 1, 00:00:00 UTC. */
  const ZERO_TIME: Time := -62_135_596_800 * NS_PER_SEC

  /** Seven days, the lifetime of an invite. */
  const WEEK: Time := 7 * 24 * 3600 * NS_PER_SEC
  const WEEK_MS: int := 7 * 24 * 3600 * 1000

  /** time.Time.UnixNano: seconds times 1e9 plus nanoseconds, in int64 arithmetic. */
  function UnixNano(t: Time): (n: int64)
    ensures InRange(t) ==> n == t
  {
    Wrap(t)
  }

  /** TimeToMs: UnixNano divided by one million, truncating toward zero as Go's `/` does. */
  function TimeToMs(t: Time): (ms: int64)
    ensures InRange(t) && t >= 0 ==> ms * NS_PER_MS <= t < ms * NS_PER_MS + NS_PER_MS
    ensures InRange(t) && t < 0 ==> ms * NS_PER_MS - NS_PER_MS < t <= ms * NS_PER_MS
  {
    Quot(UnixNano(t), NS_PER_MS)
  }

  /** MsToTime: time.Unix(0, ms*1000000), the product taken in int64 arithmetic. */
  function MsToTime(ms: int64): (t: Time)
    ensures InRange(ms * NS_PER_MS) ==> t == ms * NS_PER_MS
  {
    Wrap(ms * NS_PER_MS)
  }

  /** Milliseconds survive the trip through time.Time whenever ms*1000000 fits in int64. */
  lemma TimeToMsOfMsToTime(ms: int64)
    requires InRange(ms * NS_PER_MS)
    ensures TimeToMs(MsToTime(ms)) == ms
  {
    var t := ms * NS_PER_MS;
    assert MsToTime(ms) == t;
    if t >= 0 {
      assert ms >= 0;
      assert t / NS_PER_MS == ms;
    } else {
      assert ms < 0;
      assert -t == (-ms) * NS_PER_MS;
      assert (-t) / NS_PER_MS == -ms;
    }
  }

  /** A time comes back from its millisecond count exactly when it has no sub-millisecond part. */
  lemma MsToTimeOfTimeToMs(t: Time)
    requires InRange(t)
    ensures MsToTime(TimeToMs(t)) == t <==> t % NS_PER_MS == 0
  {
    var ms := TimeToMs(t);
    assert InRange(ms * NS_PER_MS) by {
      if t >= 0 { assert 0 <= ms * NS_PER_MS <= t; } else { assert t <= ms * NS_PER_MS <= 0; }
    }
    if t % NS_PER_MS == 0 {
      if t >= 0 {
        assert t == (t / NS_PER_MS) * NS_PER_MS;
      } else {
        assert (-t) % NS_PER_MS == 0;
        assert -t == ((-t) / NS_PER_MS) * NS_PER_MS;
      }
    }
  }

  /** Later times never give smaller millisecond counts (within the int64 range of UnixNano). */
  lemma TimeToMsMonotone(t1: Time, t2: Time)
    requires InRange(t1) && InRange(t2) && t1 <= t2
    ensures TimeToMs(t1) <= TimeToMs(t2)
  {
  }

  /** -1.5 ms truncates to -1, not to -2 as a floor would. */
  lemma TimeToMsTruncatesTowardZero()
    ensures TimeToMs(-1_500_000) == -1
  {
  }

  predicate IsLowerHex(c: char) { '0' <= c <= '9' || 'a' <= c <= 'f' }

  /** The digit of a nibble, in "0123456789abcdef". */
  function HexDigit(d: int): (c: char)
    requires 0 <= d < 16
    ensures IsLowerHex(c)
  {
    if d < 10 then ('0' as int + d) as char else ('a' as int + d - 10) as char
  }

  /** hex.EncodeToString: two lower-case digits per byte, high nibble first. */
  function HexEncode(bytes: seq<byte>): (s: string)
    ensures |s| == 2 * |bytes|
    ensures forall i :: 0 <= i < |bytes| ==>
              s[2 * i] == HexDigit(bytes[i] / 16) && s[2 * i + 1] == HexDigit(bytes[i] % 16)
    ensures forall i :: 0 <= i < |s| ==> IsLowerHex(s[i])
  {
    if bytes == [] then []
    else [HexDigit(bytes[0] / 16), HexDigit(bytes[0] % 16)] + HexEncode(bytes[1..])
  }

  function HexValue(c: char): (d: int)
    ensures IsLowerHex(c) <==> 0 <= d < 16
  {
    if '0' <= c <= '9' then c as int - '0' as int
    else if 'a' <= c <= 'f' then c as int - 'a' as int + 10
    else -1
  }

  /** The inverse of HexEncode on its image. */
  function HexDecode(s: string): seq<int>
  {
    if |s| < 2 then [] else [16 * HexValue(s[0]) + HexValue(s[1])] + HexDecode(s[2..])
  }

  lemma {:induction false} HexDecodeEncode(bytes: seq<byte>)
    ensures HexDecode(HexEncode(bytes)) == bytes
  {
    if bytes != [] {
      var s := HexEncode(bytes);
      assert s[2..] == HexEncode(bytes[1..]);
      HexDecodeEncode(bytes[1..]);
      HexValueOfDigit(bytes[0] / 16);
      HexValueOfDigit(bytes[0] % 16);
    }
  }

  lemma HexValueOfDigit(d: int)
    requires 0 <= d < 16
    ensures HexValue(HexDigit(d)) == d
  {
  }

  /** Different byte strings never give the same id. */
  lemma HexEncodeInjective(a: seq<byte>, b: seq<byte>)
    requires HexEncode(a) == HexEncode(b)
    ensures a == b
  {
    HexDecodeEncode(a);
    HexDecodeEncode(b);
  }

  /** NewGuid: 16 random bytes (an input here) as 32 lower-case hex digits. */
  function NewGuid(random: seq<byte>): (id: string)
    requires |random| == 16
    ensures |id| == 32 && forall i :: 0 <= i < |id| ==> IsLowerHex(id[i])
  {
    HexEncode(random)
  }

  /** NewInviteId: 4 random bytes as 8 lower-case hex digits. */
  function NewInviteId(random: seq<byte>): (id: string)
    requires |random| == 4
    ensures |id| == 8 && forall i :: 0 <= i < |id| ==> IsLowerHex(id[i])
  {
    HexEncode(random)
  }
}

=== FILE: wrappers.dfy ===
/** Result and option types shared by every module of the ledger model.
    Go returns `(value, error)` pairs; here an error is its message. */
module Wrappers {

  datatype Option<T> = None | Some(value: T)

  /** A Go `(value, error)` pair: exactly one of the two is meaningful. */
  datatype Result<T> = Ok(value: T) | Err(msg: string)

  /** A Go function that returns only `error`: `Pass` is a nil error. */
  datatype Outcome = Pass | Fail(msg: string)
}

=== FILE: ws.dfy ===
/** core/ws/ws.go: the websocket hub's bookkeeping. Three subscription tables file connections
    under "userId-orgId"; each connection has a user once it has authenticated, a sequence
    number and a write lock. Connections are identities (Go pointers), here numbers. */
module Ws {
  import opened Types
  import Seqs

  type Conn = nat

  /** The three tables: transactions, accounts, prices. */
  datatype Kind = Transactions | Accounts | Prices

  /** getKey: the table key for a user in an org. */
  function Key(userId: string, orgId: string): (k: string)
    ensures |k| == |userId| + 1 + |orgId|
    ensures k[..|userId|] == userId && k[|userId|] == '-' && k[|userId| + 1..] == orgId
  {
    userId + "-" + orgId
  }

  /** A user id without '-' is read back from the key: keys of such users never collide. */
  lemma KeyInjective(u1: string, o1: string, u2: string, o2: string)
    requires '-' !in u1 && '-' !in u2
    requires Key(u1, o1) == Key(u2, o2)
    ensures u1 == u2 && o1 == o2
  {
  }

  /** A missing key reads as an empty list, as a nil slice does. */
  function Conns(m: map<string, seq<Conn>>, key: string): (s: seq<Conn>)
    ensures key !in m ==> s == []
  {
    if key in m then m[key] else []
  }

  /** A missing connection's counter reads as 0, as a missing int in a Go map does. */
  function Counter(m: map<Conn, int>, c: Conn): (n: int)
    ensures c !in m ==> n == 0
  {
    if c in m then m[c] else 0
  }

  predicate Distinct(s: seq<Conn>)
  {
    forall i, j :: 0 <= i < j < |s| ==> s[i] != s[j]
  }

  predicate DistinctLists(m: map<string, seq<Conn>>)
  {
    forall k :: k in m ==> Distinct(m[k])
  }

  /** The condition the filtering loops keep: every connection but c. */
  function Other(c: Conn): Conn -> bool
  {
    x => x != c
  }

  /** A list with c taken out, the others in their order. */
  function Without(s: seq<Conn>, c: Conn): (r: seq<Conn>)
  {
    Seqs.Filter(s, Other(c))
  }

  function Same(x: Conn): Conn
  {
    x
  }

  /** Taking a connection out of a list removes it and only it, and keeps the list free of
      repeats. */
  lemma WithoutMembers(s: seq<Conn>, c: Conn)
    ensures c !in Without(s, c)
    ensures forall x :: x != c ==> (x in Without(s, c) <==> x in s)
    ensures c !in s ==> Without(s, c) == s
    ensures Distinct(s) ==> Distinct(Without(s, c))
  {
    Seqs.FilterMembership(s, Other(c));
    if c !in s {
      Seqs.FilterAll(s, Other(c));
    }
    if Distinct(s) {
      assert Seqs.DistinctBy(s, Same);
      Seqs.FilterDistinctBy(s, Other(c), Same);
    }
  }

  /** Every list of a table with c taken out. */
  function Purged(m: map<string, seq<Conn>>, c: Conn): (r: map<string, seq<Conn>>)
    ensures r.Keys == m.Keys
  {
    map k | k in m :: Without(m[k], c)
  }

  /** The backing array of clientMap[key] after unsubscribe's loop: the connections other than
      c written over its front, the old elements left behind them. The map still holds the
      old slice length. */
  function Overwritten(s: seq<Conn>, c: Conn): (r: seq<Conn>)
    ensures |r| == |s|
  {
    Without(s, c) + s[|Without(s, c)|..]
  }

  /** The connections a push reaches: for each user in turn, that user's list for the org. */
  function Recipients(m: map<string, seq<Conn>>, userIds: seq<string>, orgId: string): (r: seq<Conn>)
    ensures forall x :: x in r ==> exists u :: u in userIds && x in Conns(m, Key(u, orgId))
  {
    if userIds == [] then []
    else
      var init, last := userIds[..|userIds| - 1], userIds[|userIds| - 1];
      assert forall u :: u in init ==> u in userIds;
      Recipients(m, init, orgId) + Conns(m, Key(last, orgId))
  }

  /** The counters after one increment per element of cs, in order. */
  function Bumped(m: map<Conn, int>, cs: seq<Conn>): (r: map<Conn, int>)
    ensures cs == [] ==> r == m
  {
    if cs == [] then m
    else
      var prev := Bumped(m, cs[..|cs| - 1]);
      prev[cs[|cs| - 1] := Counter(prev, cs[|cs| - 1]) + 1]
  }

  /** Each connection's counter rises by exactly the number of messages it was sent. */
  lemma {:induction false} BumpedCount(m: map<Conn, int>, cs: seq<Conn>, c: Conn)
    ensures Counter(Bumped(m, cs), c) == Counter(m, c) + multiset(cs)[c]
  {
    if cs != [] {
      var init, last := cs[..|cs| - 1], cs[|cs| - 1];
      BumpedCount(m, init, c);
      assert cs == init + [last];
      assert multiset(cs) == multiset(init) + multiset{last};
    }
  }

  /** Subscribing twice is subscribing once. */
  lemma SubscribeIdempotent(m: map<string, seq<Conn>>, key: string, c: Conn)
    ensures var once := if c in Conns(m, key) then m else m[key := Conns(m, key) + [c]];
      c in Conns(once, key) &&
      (if c in Conns(once, key) then once else once[key := Conns(once, key) + [c]]) == once
  {
  }

  /** A connection that joined with counter -1 carries, on its k-th message, the number k - 1:
      the first message is numbered 0. */
  lemma NumberingFromConnect(m: map<Conn, int>, c: Conn, cs: seq<Conn>)
    ensures Counter(Bumped(m[c := -1], cs), c) == multiset(cs)[c] as int - 1
  {
    BumpedCount(m[c := -1], cs, c);
  }

  class Hub {
    var tx: map<string, seq<Conn>>
    var accounts: map<string, seq<Conn>>
    var prices: map<string, seq<Conn>>
    var users: map<Conn, User>
    var sequenceNumbers: map<Conn, int>
    var locks: set<Conn>

    /** No list names a connection twice, so a push sends each message once. */
    ghost predicate Valid()
      reads this
    {
      DistinctLists(tx) && DistinctLists(accounts) && DistinctLists(prices)
    }

    function Table(kind: Kind): (m: map<string, seq<Conn>>)
      reads this
    {
      match kind
      case Transactions => tx
      case Accounts => accounts
      case Prices => prices
    }

    constructor()
      ensures Valid()
      ensures tx == map[] && accounts == map[] && prices == map[]
      ensures users == map[] && sequenceNumbers == map[] && locks == {}
    {
      tx, accounts, prices := map[], map[], map[];
      users, sequenceNumbers, locks := map[], map[], {};
    }

    /** Replaces one table and leaves everything else alone. */
    method SetTable(kind: Kind, m: map<string, seq<Conn>>)
      modifies this
      ensures Table(kind) == m
      ensures forall other :: other != kind ==> Table(other) == old(Table(other))
      ensures users == old(users) && sequenceNumbers == old(sequenceNumbers) && locks == old(locks)
      ensures old(Valid()) && DistinctLists(m) ==> Valid()
    {
      match kind
      case Transactions => tx := m;
      case Accounts => accounts := m;
      case Prices => prices := m;
    }

    /** What Handler does for a new connection: its counter starts at -1 and it gets a lock. */
    method Connect(c: Conn)
      modifies this
      ensures sequenceNumbers == old(sequenceNumbers)[c := -1] && locks == old(locks) + {c}
      ensures tx == old(tx) && accounts == old(accounts) && prices == old(prices) && users == old(users)
    {
      sequenceNumbers := sequenceNumbers[c := -1];
      locks := locks + {c};
    }

    /** authenticate: a connection whose first message authenticated is filed with its user. */
    method SetUser(c: Conn, user: User)
      modifies this
      ensures users == old(users)[c := user]
      ensures tx == old(tx) && accounts == old(accounts) && prices == old(prices)
      ensures sequenceNumbers == old(sequenceNumbers) && locks == old(locks)
    {
      users := users[c := user];
    }

    /** subscribe: the connection is appended to the key's list unless it is there already. */
    method Subscribe(c: Conn, key: string, kind: Kind)
      requires Valid()
      modifies this
      ensures Valid()
      ensures c in old(Conns(Table(kind), key)) ==> Table(kind) == old(Table(kind))
      ensures c !in old(Conns(Table(kind), key)) ==>
        Table(kind) == old(Table(kind))[key := old(Conns(Table(kind), key)) + [c]]
      ensures forall other :: other != kind ==> Table(other) == old(Table(other))
      ensures users == old(users) && sequenceNumbers == old(sequenceNumbers) && locks == old(locks)
    {
      var table := Table(kind);
      assert DistinctLists(table);
      var conns := Conns(table, key);
      assert Distinct(conns);
      var alreadySubscribed := false;
      for i := 0 to |conns|
        invariant alreadySubscribed <==> c in conns[..i]
      {
        assert conns[..i + 1] == conns[..i] + [conns[i]];
        if conns[i] == c {
          alreadySubscribed := true;
        }
      }
      assert conns[..|conns|] == conns;
      if !alreadySubscribed {
        var grown := conns + [c];
        assert Distinct(grown) by {
          forall i | 0 <= i < |conns|
            ensures grown[i] != c
          {
            assert conns[i] in conns;
          }
        }
        SetTable(kind, table[key := grown]);
      }
    }

    /** unsubscribe as written: the loop compacts the list in place but never stores the
        shorter slice, so the map keeps the old length over the overwritten array. */
    method UnsubscribeAsWritten(c: Conn, key: string, kind: Kind)
      modifies this
      ensures key in old(Table(kind)) ==> Table(kind) == old(Table(kind))[key := Overwritten(old(Table(kind))[key], c)]
      ensures key !in old(Table(kind)) ==> Table(kind) == old(Table(kind))
      ensures forall other :: other != kind ==> Table(other) == old(Table(other))
      ensures users == old(users) && sequenceNumbers == old(sequenceNumbers) && locks == old(locks)
    {
      var table := Table(kind);
      if key !in table {
        return;
      }
      var backing := Compact(table[key], c);
      SetTable(kind, table[key := backing]);
    }

    /** unsubscribe as evidently intended: the key's list without the connection. */
    method Unsubscribe(c: Conn, key: string, kind: Kind)
      requires Valid()
      modifies this
      ensures Valid()
      ensures Table(kind) == old(Table(kind))[key := Without(old(Conns(Table(kind), key)), c)]
      ensures forall other :: other != kind ==> Table(other) == old(Table(other))
      ensures users == old(users) && sequenceNumbers == old(sequenceNumbers) && locks == old(locks)
    {
      var table := Table(kind);
      assert DistinctLists(table);
      var kept := Filtered(Conns(table, key), c);
      WithoutMembers(Conns(table, key), c);
      SetTable(kind, table[key := kept]);
    }

    /** unsubscribeAll: the connection leaves every list of every table, and its user, counter
        and lock are forgotten. */
    method UnsubscribeAll(c: Conn)
      requires Valid()
      modifies this
      ensures Valid()
      ensures tx == Purged(old(tx), c) && accounts == Purged(old(accounts), c) && prices == Purged(old(prices), c)
      ensures users == old(users) - {c} && sequenceNumbers == old(sequenceNumbers) - {c} && locks == old(locks) - {c}
    {
      tx := Purge(tx, c);
      accounts := Purge(accounts, c);
      prices := Purge(prices, c);
      users := users - {c};
      sequenceNumbers := sequenceNumbers - {c};
      locks := locks - {c};
    }

    /** The "ping" action: the counter rises by one and the pong carries it; a pong that cannot
        be written drops the connection. */
    method Ping(c: Conn, writeFails: bool) returns (n: int)
      requires Valid()
      modifies this
      ensures Valid()
      ensures n == Counter(old(sequenceNumbers), c) + 1
      ensures !writeFails ==> (sequenceNumbers == old(sequenceNumbers)[c := n] && tx == old(tx) &&
        accounts == old(accounts) && prices == old(prices) && users == old(users) && locks == old(locks))
      ensures writeFails ==> (sequenceNumbers == old(sequenceNumbers) - {c} && tx == Purged(old(tx), c) &&
        accounts == Purged(old(accounts), c) && prices == Purged(old(prices), c) &&
        users == old(users) - {c} && locks == old(locks) - {c})
    {
      n := Counter(sequenceNumbers, c) + 1;
      sequenceNumbers := sequenceNumbers[c := n];
      if writeFails {
        UnsubscribeAll(c);
      }
    }

    /** PushTransaction, PushAccount and PushPrice when every write succeeds: each subscribed
        connection of each listed user gets the next number of its own counter. */
    method Push(kind: Kind, userIds: seq<string>, orgId: string)
      modifies this
      ensures sequenceNumbers == Bumped(old(sequenceNumbers), Recipients(old(Table(kind)), userIds, orgId))
      ensures tx == old(tx) && accounts == old(accounts) && prices == old(prices)
      ensures users == old(users) && locks == old(locks)
    {
      sequenceNumbers := Notify(sequenceNumbers, Table(kind), userIds, orgId);
    }
  }

  /** The outer loop of a push: each listed user's connections in turn. */
  method Notify(counters: map<Conn, int>, table: map<string, seq<Conn>>, userIds: seq<string>, orgId: string)
    returns (r: map<Conn, int>)
    ensures r == Bumped(counters, Recipients(table, userIds, orgId))
  {
    r := counters;
    for i := 0 to |userIds|
      invariant r == Bumped(counters, Recipients(table, userIds[..i], orgId))
    {
      var sent := Recipients(table, userIds[..i], orgId);
      var conns := Conns(table, Key(userIds[i], orgId));
      assert userIds[..i + 1][..i] == userIds[..i];
      BumpedAppend(counters, sent, conns);
      r := Deliver(r, conns);
    }
    assert userIds[..|userIds|] == userIds;
  }

  /** The inner loop of a push: one increment per connection of the list, in order. */
  method Deliver(counters: map<Conn, int>, conns: seq<Conn>) returns (r: map<Conn, int>)
    ensures r == Bumped(counters, conns)
  {
    r := counters;
    for j := 0 to |conns|
      invariant r == Bumped(counters, conns[..j])
    {
      assert conns[..j + 1][..j] == conns[..j];
      r := r[conns[j] := Counter(r, conns[j]) + 1];
    }
    assert conns[..|conns|] == conns;
  }

  /** Incrementing for a then for b is incrementing for a + b. */
  lemma {:induction false} BumpedAppend(m: map<Conn, int>, a: seq<Conn>, b: seq<Conn>)
    ensures Bumped(m, a + b) == Bumped(Bumped(m, a), b)
    decreases |b|
  {
    if b == [] {
      assert a + b == a;
    } else {
      assert (a + b)[..|a + b| - 1] == a + b[..|b| - 1];
      BumpedAppend(m, a, b[..|b| - 1]);
    }
  }

  /** One more element of a list either joins the kept ones or is dropped. */
  lemma WithoutStep(s: seq<Conn>, c: Conn, i: nat)
    requires i < |s|
    ensures Without(s[..i + 1], c) == if s[i] != c then Without(s[..i], c) + [s[i]] else Without(s[..i], c)
  {
    assert s[..i + 1][..i] == s[..i];
  }

  /** Writing at the first slot after the kept prefix. */
  lemma OverwriteStep(kept: seq<Conn>, rest: seq<Conn>, x: Conn)
    requires rest != []
    ensures (kept + rest)[|kept| := x] == kept + [x] + rest[1..]
  {
  }

  /** unsubscribe's loop over the backing array: each kept connection is written at the next
      free slot from the front. */
  method Compact(conns: seq<Conn>, c: Conn) returns (backing: seq<Conn>)
    ensures backing == Overwritten(conns, c)
  {
    backing := conns;
    var n := 0;
    for i := 0 to |conns|
      invariant n == |Without(conns[..i], c)| && n <= i
      invariant backing == Without(conns[..i], c) + conns[n..]
    {
      WithoutStep(conns, c, i);
      if conns[i] != c {
        OverwriteStep(Without(conns[..i], c), conns[n..], conns[i]);
        backing := backing[n := conns[i]];
        n := n + 1;
      }
    }
    assert conns[..|conns|] == conns;
  }

  /** The filtering loop of unsubscribeAll for one list. */
  method Filtered(conns: seq<Conn>, c: Conn) returns (kept: seq<Conn>)
    ensures kept == Without(conns, c)
  {
    kept := [];
    for i := 0 to |conns|
      invariant kept == Without(conns[..i], c)
    {
      assert conns[..i + 1][..i] == conns[..i];
      if conns[i] != c {
        kept := kept + [conns[i]];
      }
    }
    assert conns[..|conns|] == conns;
  }

  /** unsubscribeAll's walk over one table, replacing each list by its filtered copy. */
  method Purge(m: map<string, seq<Conn>>, c: Conn) returns (r: map<string, seq<Conn>>)
    ensures r == Purged(m, c)
    ensures DistinctLists(m) ==> DistinctLists(r)
  {
    r := m;
    var keys := m.Keys;
    while keys != {}
      invariant keys <= m.Keys && r.Keys == m.Keys
      invariant forall k :: k in m ==> r[k] == if k in keys then m[k] else Without(m[k], c)
      decreases |keys|
    {
      var k :| k in keys;
      var kept := Filtered(m[k], c);
      r := r[k := kept];
      keys := keys - {k};
    }
    if DistinctLists(m) {
      forall k | k in r
        ensures Distinct(r[k])
      {
        WithoutMembers(m[k], c);
      }
    }
  }

  /** After unsubscribeAll no table lists the connection, and every other connection keeps
      exactly the subscriptions it had. */
  lemma PurgedMembers(m: map<string, seq<Conn>>, c: Conn, k: string, x: Conn)
    requires k in m
    ensures c !in Purged(m, c)[k]
    ensures x != c ==> (x in Purged(m, c)[k] <==> x in m[k])
  {
    WithoutMembers(m[k], c);
  }

  /** The unsubscribe bug, first face: the last connection of a list is never removed, since the
      overwritten front is followed by the old last element. */
  lemma UnsubscribeLastKeeps()
    ensures Overwritten([1, 2], 2) == [1, 2]
  {
    var s: seq<Conn> := [1, 2];
    assert s[..1] == [1];
    assert Without(s, 2) == [1];
  }

  /** The unsubscribe bug, second face: removing a middle connection duplicates the last one,
      so the next push sends it the same message twice. */
  lemma UnsubscribeDuplicates()
    ensures Overwritten([1, 2, 3], 2) == [1, 3, 3]
    ensures !Distinct(Overwritten([1, 2, 3], 2))
  {
    var s1: seq<Conn> := [1];
    var s2: seq<Conn> := [1, 2];
    var s3: seq<Conn> := [1, 2, 3];
    assert s1[..0] == [] && s2[..1] == s1 && s3[..2] == s2;
    assert Without(s1, 2) == [1];
    assert Without(s2, 2) == [1];
    assert Without(s3, 2) == [1, 3];
    assert s3[2..] == [3];
    var o := Overwritten(s3, 2);
    assert o == [1, 3, 3];
    assert o[1] == o[2];
  }
}
